=== FILE: README.md ===
# Cantonese transcription service: usage, billing and job core in Dafny

This project models the server side of a Cantonese transcription service.
Users upload audio or point at a YouTube video. The service transcribes it
with Google Speech or OpenAI Whisper, adds Jyutping/Yale romanization, and
exports subtitles. Each user is on a plan (free, starter, pro, enterprise)
that grants a monthly allowance of credits: one credit per started minute of
audio, never less than one per transcription.

The centre of the model is the **usage-quota and billing engine**:

- the plan table and the upgrade ladder;
- the anniversary-anchored billing period;
- the usage ledger and its aggregates;
- recording usage, with the duplicate-transcription guard;
- the admission check (file size, credits, overage, concurrency);
- usage alerts, usage history and the concurrency/queue status;
- the monthly reset scheduler (eligibility, batches of ten with an
  in-progress set, manual bulk reset, archiving of old rows);
- the usage-tracking middleware and the request guards (rate limiter, daily
  cost cap, admin test).

Around it the project models these smaller cores:

- the circuit-breaker and retry service;
- the real-time progress service (connection registry, job progress table);
- provider routing between Google and Whisper, with its fallback and health
  cache;
- the transcription job table and its pipeline;
- segment processing and the subtitle exporters (SRT, VTT, TXT, CSV, JSON);
- the romanization text cleaner;
- the monitoring service (per-service health, overall health, alerts);
- the exception hierarchy and the error-handling middleware;
- the e-mail service's address check and send path;
- the analytics filters, size buckets, recommendations and insights.

Pure logic is written as datatypes, functions and lemmas. Objects whose
methods update their own fields are classes with `modifies` clauses:

- the ledger;
- the reset service's in-progress set;
- the slot tracker and the concurrency limiter;
- the rate-limit storage;
- the breaker registry;
- the connection registry and progress tables;
- the job table;
- the error counters;
- the e-mail configuration.

Loops that update variables are methods with invariants.

Conventions of the model:

- Every database query is a function over in-memory tables (`seq`s of rows).
  Clocks, randomness, the file store and provider answers are parameters.
- Python's `date()` failing on a missing day (31 February) is a `None`
  result. The model does not clamp such a day.
- HTTP errors are `Result` values that carry the status code.
- Money, ratios and durations are `real`. Dafny's `real` is exact, so the
  model's arithmetic is exact where Python's floats would round.
- Integers are unbounded. The source uses Python integers, which do not wrap.

Modules, one per file: `Wrappers`, `Calendar`, `Text` (helpers),
`UsageSchemas`, `Tables`, `Plans`, `Billing`, `UsageLedger`, `Admission`,
`UsageHistory`, `Sorting`, `MonthlyReset`, `SetMaps`, `UsageTracking`,
`RateLimit`, `Retry`, `Progress`, `TranscriptSchema`, `ProviderRouting`,
`Romanization`, `Export`, `TranscriptionJobs`, `Monitoring`, `Exceptions`,
`ErrorHandling`, `Email`, `Analytics`.

Two behaviours of the code a reader may not expect:

- `EmailService._is_valid_email` accepts an address followed by one newline.
  Python's `$` matches before a final `\n`. The model reproduces this
  (`Email.TrailingNewlineAccepted`).
- The archiving `UPDATE` of `perform_monthly_reset`
  (api/app/services/usage_service.py:547-556) only touches rows whose
  billing-period end is empty. Every row `record_usage` writes has one, so
  against the modelled ledger the manual reset never rewrites ledger rows
  (`UsageLedger.PerformMonthlyReset`). The relabelling `UPDATE` of
  `cleanup_old_usage_data` is a different statement and is modelled by
  `MonthlyReset.ArchiveRelabel`.

## Model

| member | source | states |
|---|---|---|
| UsageSchemas.PlanLimitsDefaults | api/app/schemas/usage.py:103-111 | a plan built without the two optional fields has overage price 0 and no overage |
| UsageSchemas.ValidateUsageRecord | api/app/schemas/usage.py:28-42 | a record request is accepted iff its usage type is one of the three and its duration, size, cost and tokens are non-negative; a rejection names exactly the offending fields |
| UsageSchemas.ValidateUsageCheck | api/app/schemas/usage.py:124-134 | a check request is accepted iff the estimate is at least 1 s and the size lies in 1 byte..25 MiB; a rejection names exactly the offending fields |
| UsageSchemas.ValidateAnalyticsRange | api/app/schemas/usage.py:218-230 | an analytics range is refused iff the end date lies before the start date, naming `end_date` |
| Tables.FindAccount | api/app/services/usage_service.py:644-656 | the user row found has the asked id; none is found only when no row has it |
| Tables.CurrentSubscription | api/app/services/usage_service.py:629-642 | the subscription chosen is a live (active or trialing) one of the user, and no live one is newer; none only when the user has no live subscription |
| Tables.UserPlanName | api/app/services/usage_service.py:629-642 | the plan name of some live subscription of the user, and `free` when there is none |
| Plans.PlanConfig | api/app/services/usage_service.py:46-83 | a listed plan name gives its own row and any other name the free plan; every plan grants at least 30 credits, 25 MB and one job, and sells overage exactly when its credit price is positive |
| Plans.PlanIndex | api/app/services/usage_service.py:410-420 | the position of a listed plan on the ladder, 0 for an unknown name |
| Plans.UpgradeOptions | api/app/services/usage_service.py:410-420 | the upgrade options are exactly the plans after the current one on the ladder, in ladder order |
| Plans.UpgradeOptionsExact | api/app/services/usage_service.py:410-420 | a plan is offered iff it ranks strictly above the current one |
| Plans.UpgradesAreLarger | api/app/services/usage_service.py:46-83 | every offered upgrade has strictly more credits, a larger file limit and more parallel jobs |
| Plans.GetUserLimits | api/app/services/usage_service.py:384-433 | the current plan is the limits of the user's plan name and the options are that plan's upgrades; for a live subscription the status, billing cycle and next billing date are its own; without one the free plan, active, monthly, no date, three options; the user can upgrade iff there is an option iff the plan is not enterprise |
| Billing.RecordedCredits | api/app/services/usage_service.py:116 | at least one credit; for a positive duration exactly the number of started minutes (`60(c-1) < d <= 60c`) |
| Billing.RequiredCredits | api/app/services/usage_service.py:244 | the check's credits: at least one, and the number of started minutes for a positive estimate |
| Billing.CheckMatchesRecord | api/app/services/usage_service.py:244 | the check and the later record charge the same credits for the same duration |
| Billing.RowCredits | api/app/services/usage_service.py:167 | the aggregate's per-row charge is at least one credit |
| Billing.RowCreditsAgreeWithRecord | api/app/services/usage_service.py:167 | the aggregate charges a transcription row what was computed when it was recorded, and any other row one credit |
| Billing.BillingPeriod | api/app/services/usage_service.py:644-671 | a defined period starts and ends on valid dates, starts on the creation day, ends the day before it, and contains today |
| Billing.BillingPeriodDefined | api/app/services/usage_service.py:656-669 | the period is undefined (the `ValueError`) exactly when the creation day is missing from the start month or the month after |
| Billing.EarlyAnchorAlwaysDefined | api/app/services/usage_service.py:656-669 | a creation day no later than the 28th always gives a period |
| Billing.ThirtyFirstFailsInMarch | api/app/services/usage_service.py:656-669 | an account created on the 31st has no period on 15 March of any year |
| Billing.PeriodsAreContiguous | api/app/services/usage_service.py:644-671 | the period computed on the day after a period's end starts on that day |
| Billing.PeriodStartsOnAnniversary | api/app/services/usage_service.py:656-659 | on the creation day of a month the period starts today |
| Billing.NextResetDate | api/app/services/usage_service.py:527-544 | a defined next reset falls on the creation day, strictly after today |
| Billing.NextResetDateDefined | api/app/services/usage_service.py:527-544 | the next reset is undefined exactly when its month lacks the creation day |
| Billing.NextResetDateIsFirst | api/app/services/usage_service.py:527-544 | no anniversary day lies strictly between today and the next reset |
| UsageLedger.PeriodRecords | api/app/services/usage_service.py:158-180 | a row is aggregated iff it is the user's and carries the period's start and end |
| UsageLedger.CreditsAtLeastCount | api/app/services/usage_service.py:158-180 | the credits used are at least the number of rows |
| UsageLedger.AppendCharges | api/app/services/usage_service.py:94-180 | appending a row adds its charge to its own period and nothing to any other |
| UsageLedger.ProcessingCount | api/app/services/usage_service.py:742-755 | the count of the user's processing jobs is zero iff the user has none |
| UsageLedger.GetCurrentUsage | api/app/services/usage_service.py:151-224 | 500 iff the user or the period is missing; otherwise credits used, transcriptions, whole minutes, cost and the mean file size in MiB (0 without rows) are the aggregates over the user's rows of the current period, processing jobs are counted, the month label is the period start's, the reset date is the day after the period, days until reset clamped at 0, near limit iff used >= 80% and at limit iff used >= total |
| UsageLedger.RecordingChargesCurrentUsage | api/app/services/usage_service.py:94-224 | a row recorded for the user in the current period adds its credits and one transcription to the current usage; the allowance does not change |
| UsageLedger.RecordingElsewhereKeepsUsage | api/app/services/usage_service.py:94-224 | a row of another user or another period leaves the current usage unchanged |
| UsageLedger.AtLimitIsNearLimit | api/app/services/usage_service.py:211-213 | a user at the limit is also near it |
| UsageLedger.HandlerAsWritten | api/app/services/usage_service.py:119-149 | as written: 409 iff a store uniqueness violation; every other exception, an HTTP error raised inside included, 500 |
| UsageLedger.RecordStatusAsWritten | api/app/services/usage_service.py:94-149 | as written: every failed record, each raised inside the transaction, answers 500 |
| UsageLedger.Handler | api/app/services/usage_service.py:119-149 | corrected: an HTTP error raised inside keeps its status; otherwise 409 iff uniqueness violation |
| UsageLedger.RecordStatus | api/app/services/usage_service.py:94-149 | corrected: a failed record answers 409 iff duplicate transcription, 404 iff missing user, 500 iff undefined period |
| UsageLedger.DuplicateAnsweredWith500 | api/app/services/usage_service.py:119-149 | as written a duplicate is answered 500, as intended 409 |
| UsageLedger.Ledger.constructor | api/app/services/usage_service.py:85-86 | a new ledger is empty and valid |
| UsageLedger.Ledger.RecordUsage | api/app/services/usage_service.py:94-149 | each failure (no user, no period, duplicate transcription) exactly when its condition holds, the ledger untouched; success appends exactly one row with the request's fields, today's date and month label and the user's period; no transcription is ever recorded twice |
| UsageLedger.PerformMonthlyReset | api/app/services/usage_service.py:503-578 | 500 iff the user, period or next reset date is missing; otherwise a new period from today to the day before the next anniversary, the plan's full allowance, the previous usage and the reason (default when empty) |
| Admission.Decide | api/app/services/usage_service.py:226-305 | the decision of the check: oversized file refused with no warnings; otherwise refused when credits fall short without overage or no slot is free, with the blocking reason (the cap's overriding the credits'), credits after, and exactly the overage warning then the approaching-limit warning, each iff its condition |
| Admission.CheckUsageLimits | api/app/services/usage_service.py:226-305 | 500 iff current usage cannot be computed; otherwise the decision for the user's usage and plan |
| Admission.AlertsFor | api/app/services/usage_service.py:435-501 | each of the limit, near-limit, reset-soon and full-queue alerts iff its threshold, at most three, the limit alert first, critical iff at the limit, next check in 24 hours |
| Admission.AlertsForOnlyExpected | api/app/services/usage_service.py:443-488 | the list holds nothing but the four expected alerts |
| Admission.AlertsForDistinctInOrder | api/app/services/usage_service.py:443-488 | no alert twice, and a reset-soon alert always precedes a full-queue alert, as the checks run |
| Admission.GetUsageAlerts | api/app/services/usage_service.py:435-501 | 500 iff current usage cannot be computed; otherwise exactly `AlertsFor` of the current usage, critical iff at the limit |
| Admission.ActiveJobIds | api/app/services/usage_service.py:588-600 | an id is listed iff it is of one of the user's processing or pending jobs, one entry per such job |
| Admission.ConcurrentJobsStatus | api/app/services/usage_service.py:580-625 | processing jobs against the plan cap; free slots fill the cap and are never negative; a queue position (the pending count, 600 s wait each) iff jobs wait while the cap is reached; the active ids are exactly `ActiveJobIds` of the user |
| UsageHistory.MonthRecords | api/app/services/usage_service.py:320-338 | a row belongs to a month group iff it is the user's and carries the month label |
| UsageHistory.MonthRowOf | api/app/services/usage_service.py:320-338 | a month's credits are at least its transcription count |
| UsageHistory.ItemOf | api/app/services/usage_service.py:355-365 | the utilisation is capped at 100, non-negative for non-negative usage, and 100 at or above the allowance |
| UsageHistory.GetUsageHistory | api/app/services/usage_service.py:307-382 | 500 iff the user is missing; one entry per month in which the user has rows inside the window, newest first, each with at least one transcription; lifetime totals are the sums over those months, lifetime credits at least lifetime transcriptions; account age in whole days |
| UsageHistory.Accumulate | api/app/services/usage_service.py:340-370 | one history item per grouped month, in order, and the running totals are the sums over the months |
| UsageHistory.ItemsFollowMonths | api/app/services/usage_service.py:320-338 | the grouped months are exactly the months with the user's rows inside the window, in descending label order, none empty |
| UsageHistory.HistoryMonthsDistinct | api/app/services/usage_service.py:320-338 | `GROUP BY usage_month ORDER BY usage_month DESC` lists each month once |
| UsageHistory.ReportedMonthNotEmpty | api/app/services/usage_service.py:320-338 | every reported month holds at least one of the user's rows |
| UsageHistory.LabelBeforeIrreflexive | api/app/services/usage_service.py:336 | no label sorts before itself |
| Sorting.SortBy | api/services/transcription_service.py:255-262 | the result is sorted by the key and a permutation of the input |
| MonthlyReset.AsWrittenDueOnEveryLastDay | api/app/services/monthly_reset_service.py:165-172 | as written, on a month's last day every account created on the 2nd or later is due |
| MonthlyReset.AsWrittenResetsMidMonthAccount | api/app/services/monthly_reset_service.py:165-172 | an account created on the 15th is due on 31 January as written but not as intended |
| MonthlyReset.MidMonthAccountDueTwice | api/app/services/monthly_reset_service.py:165-180 | an active account created on the 15th and already reset on 15 January is due again on 31 January |
| MonthlyReset.EligibleOncePerMonth | api/app/services/monthly_reset_service.py:165-172 | the corrected test picks exactly one day per month: the creation day, or the month's last day when the creation day is missing |
| MonthlyReset.ThirtyFirstDueOnLastOfFebruary | api/app/services/monthly_reset_service.py:165-172 | an account created on the 31st is due on 28 February of a common year |
| MonthlyReset.JoinedRows | api/app/services/monthly_reset_service.py:150-162 | the left join gives at least one row per account, each carrying the account's id and creation time |
| MonthlyReset.FindUsersRequiringReset | api/app/services/monthly_reset_service.py:144-197 | as written: every candidate row belongs to an account that the written day test (creation day is today, or tomorrow is the 1st and the creation day is later) finds due and not yet reset today, every such account has a row, and the rows are ordered by creation time |
| MonthlyReset.Claims | api/app/services/monthly_reset_service.py:199-210 | one flag per task of a batch |
| MonthlyReset.BatchFailures | api/app/services/monthly_reset_service.py:113-129 | a batch fails at most once per task |
| MonthlyReset.DailyFailures | api/app/services/monthly_reset_service.py:106-133 | the daily run fails at most once per user |
| MonthlyReset.DistinctBatchFailures | api/app/services/monthly_reset_service.py:113-129 | a batch of distinct users none of whom is in progress fails exactly as often as resetting them one after another |
| MonthlyReset.AttemptReset | api/app/services/monthly_reset_service.py:199-235 | a reset fails exactly when the user, the period or the next reset date is missing; a success starts the user's period today |
| MonthlyReset.ResetService.constructor | api/app/services/monthly_reset_service.py:39-42 | nobody is in progress at start |
| MonthlyReset.ResetService.ClaimUser | api/app/services/monthly_reset_service.py:199-210 | claimed iff the user was not in progress; the user is in progress afterwards |
| MonthlyReset.ResetService.ReleaseUser | api/app/services/monthly_reset_service.py:233-235 | the user leaves the in-progress set |
| MonthlyReset.ResetService.PerformUserReset | api/app/services/monthly_reset_service.py:199-235 | skipped iff the user was in progress; failed iff not and the reset raises; the in-progress set ends as it began |
| MonthlyReset.ResetService.ClaimAll | api/app/services/monthly_reset_service.py:113-129 | every task claims or finds its user busy, in order; exactly the claimed users join the in-progress set |
| MonthlyReset.ResetService.FinishClaimed | api/app/services/monthly_reset_service.py:113-129 | successes plus failures are the batch size; failures are the claimed tasks whose reset raised; claimed users are released |
| MonthlyReset.ResetService.RunBatch | api/app/services/monthly_reset_service.py:113-129 | successes plus failures are the batch size, failures as `BatchFailures`, the in-progress set unchanged |
| MonthlyReset.ResetService.PerformDailyResetCheck | api/app/services/monthly_reset_service.py:90-142 | as written: no metrics iff nobody is due by the written day test; otherwise successes plus failures are the due users, failures as the batched run computes them |
| MonthlyReset.ResetEach | api/app/services/monthly_reset_service.py:488-500 | each user reset in turn; failures are exactly the raised resets |
| MonthlyReset.ManualResetAllUsers | api/app/services/monthly_reset_service.py:478-510 | as written: nothing to reset iff nobody is due by the written day test; otherwise eligible, performed and failed add up and failures are the raised resets |
| MonthlyReset.ScheduledReset | api/app/services/monthly_reset_service.py:434-476 | the scheduled reset lies at least one day after today |
| MonthlyReset.ScheduledResetOnCreationDay | api/app/services/monthly_reset_service.py:434-476 | when the creation day exists in the month of the next reset, the reset falls on it |
| MonthlyReset.ArchiveRelabel | api/app/services/monthly_reset_service.py:287-322 | only labels change; a label changes iff the row is older than 730 days and not yet archived, and then gets the `archived_` prefix |
| MonthlyReset.ArchiveIdempotent | api/app/services/monthly_reset_service.py:287-322 | archiving twice is archiving once |
| MonthlyReset.ArchivedRowsAreOld | api/app/services/monthly_reset_service.py:287-322 | a row is archived iff it is more than 730 days old and its label does not already look archived |
| MonthlyReset.CountOlder | api/app/services/monthly_reset_service.py:295-305 | a count of zero means no row is older than the cutoff |
| MonthlyReset.CleanupOldUsageData | api/app/services/monthly_reset_service.py:287-322 | the ledger's rows become their archived relabelling; nothing else changes |
| SetMaps.Add | api/app/middleware/usage_tracking.py:204-214 | the key's set gains the member, other keys are unchanged, no key maps to an empty set |
| SetMaps.Discard | api/app/middleware/usage_tracking.py:216-228 | the key's set loses the member, other keys are unchanged, the key is deleted iff its set becomes empty |
| SetMaps.AddThenDiscard | api/app/middleware/usage_tracking.py:204-228 | adding a new member and discarding it leaves the dictionary as it was |
| SetMaps.DiscardAbsent | api/app/middleware/usage_tracking.py:216-228 | discarding an absent member changes nothing |
| SetMaps.AddIdempotent | api/app/services/progress_service.py:132-138 | adding twice is adding once |
| SetMaps.AddTotal | api/app/services/progress_service.py:201-209 | the total number of members grows by one iff the member was new |
| SetMaps.DiscardTotal | api/app/services/progress_service.py:201-209 | the total shrinks by one iff the member was there |
| UsageTracking.TrackedPrefixesExclusive | api/app/middleware/usage_tracking.py:37-42 | no path starts with two different tracked prefixes |
| UsageTracking.GetUsageType | api/app/middleware/usage_tracking.py:268-273 | a type iff the path is tracked; it is the type of the matching prefix and a valid usage type |
| UsageTracking.Trunc | api/app/middleware/usage_tracking.py:182-202 | `int()` truncates toward zero |
| UsageTracking.EstimateDuration | api/app/middleware/usage_tracking.py:182-192 | the `duration` field when present, five minutes when neither field is present |
| UsageTracking.EstimateFromFileSize | api/app/middleware/usage_tracking.py:182-192 | a whole file size gives sixty seconds per MiB, rounded down |
| UsageTracking.EstimateFileSize | api/app/middleware/usage_tracking.py:194-202 | `file_size`, else `content_length`, else 10 MiB |
| UsageTracking.DecidesRefusal | api/app/middleware/usage_tracking.py:133-162 | the check lets a request through iff the file fits, a slot is free and credits suffice or overage is sold |
| UsageTracking.UsageTrackingMiddleware.StartProcessingTracking | api/app/middleware/usage_tracking.py:204-214 | the slot id is user, `_` and the clock's seconds; it is added to the user's set |
| UsageTracking.UsageTrackingMiddleware.StopProcessingTracking | api/app/middleware/usage_tracking.py:216-228 | the slot is discarded, the user deleted once empty |
| UsageTracking.UsageTrackingMiddleware.Dispatch | api/app/middleware/usage_tracking.py:56-108 | untracked or anonymous requests pass through; 429 iff a checked POST is refused by a check that ran; a forwarded request keeps its status; below 400 the ledger gains one zero-figure row of the path's usage type iff the user's period exists; slots are released afterwards |
| UsageTracking.PerformUsageCheck | api/app/middleware/usage_tracking.py:133-162 | refused iff the usage check ran and said the request cannot be processed |
| UsageTracking.RecordUsageFromResponse | api/app/middleware/usage_tracking.py:230-266 | one row of the usage type with zero duration, size, cost and tokens and no transcription iff the user's period exists; otherwise the ledger is unchanged |
| UsageTracking.RecordedRequestChargesOneCredit | api/app/middleware/usage_tracking.py:230-266 | a request the middleware records adds exactly one credit and one transcription to the user's current usage |
| UsageTracking.SlotReleased | api/app/middleware/usage_tracking.py:204-228 | a fresh slot taken and released leaves the tracker as it was |
| UsageTracking.ConcurrentProcessingLimiter.GetActiveJobCount | api/app/middleware/usage_tracking.py:327-333 | the size of the user's set, 0 for an unknown user |
| UsageTracking.ConcurrentProcessingLimiter.CanStartProcessing | api/app/middleware/usage_tracking.py:302-306 | may start iff fewer active jobs than the limit |
| UsageTracking.ConcurrentProcessingLimiter.StartJob | api/app/middleware/usage_tracking.py:308-315 | always true; the count grows by one iff the id is new |
| UsageTracking.ConcurrentProcessingLimiter.FinishJob | api/app/middleware/usage_tracking.py:317-325 | the count shrinks by one iff the id was active; otherwise nothing changes |
| RateLimit.Recent | api/app/api/dependencies.py:92-96 | exactly the timestamps inside the window are kept, in order |
| RateLimit.RecentLater | api/app/api/dependencies.py:92-96 | pruning later after pruning earlier is pruning later |
| RateLimit.WindowKeysDistinct | api/app/api/dependencies.py:90 | two colon-free user ids never share a window on one endpoint |
| RateLimit.RateLimiter.CheckRateLimit | api/app/api/dependencies.py:77-103 | the key's list is pruned; 429 iff the pruned list already reaches the limit (defaults 100 per hour), else `now` is appended; other keys unchanged |
| RateLimit.CheckDailyCostLimit | api/app/api/dependencies.py:116-127 | 429 iff the day's cost exceeds the cap |
| RateLimit.AdminUser | api/app/api/dependencies.py:140-155 | the user iff `is_admin` is set or the role is `admin`, else 403 |
| Retry.AfterCheck | api/app/services/retry_service.py:208-229 | counts the request; refuses iff open and the recovery timeout has not passed; an open breaker past its timeout turns half open with no successes |
| Retry.AfterSuccess | api/app/services/retry_service.py:231-245 | records the success time; half open, the third success closes and clears both counts; otherwise nothing else changes |
| Retry.AfterFailure | api/app/services/retry_service.py:247-261 | counts the failure and its time; closed or half open, the fifth counted failure opens |
| Retry.AfterReset | api/app/services/retry_service.py:298-307 | closed with both counts cleared, the totals kept |
| Retry.Replay | api/app/services/retry_service.py:231-261 | every breaker reachable from a consistent one is consistent (closed iff fewer than five failures, successes below three and only half open) |
| Retry.FailuresOpen | api/app/services/retry_service.py:247-261 | from a closed breaker with c failures, 5 - c failures in a row open it |
| Retry.FailuresStayClosed | api/app/services/retry_service.py:247-261 | fewer failures leave it closed with each counted |
| Retry.ThreeSuccessesClose | api/app/services/retry_service.py:231-245 | a half-open breaker closes after three successes, counts cleared |
| Retry.SuccessKeepsClosedFailures | api/app/services/retry_service.py:231-245 | a success never clears the failures counted while closed |
| Retry.NonRetryableWins | api/app/services/retry_service.py:179-190 | an exception of a non-retryable class is never retried |
| Retry.UnlistedNotRetried | api/app/services/retry_service.py:179-190 | an exception of no retryable class is never retried |
| Retry.Effective | api/app/services/retry_service.py:128-140 | without a timeout the call's own result; a call that overruns the timeout is a processing error |
| Retry.RetryService.GetCircuitState | api/app/services/retry_service.py:263-267 | an unknown name gets a new closed breaker; a known one is unchanged |
| Retry.RetryService.CheckCircuitBreaker | api/app/services/retry_service.py:208-229 | the breaker becomes its checked state; allowed as `AfterCheck` says |
| Retry.RetryService.RecordSuccess | api/app/services/retry_service.py:231-245 | the breaker becomes `AfterSuccess` of itself |
| Retry.RetryService.RecordFailure | api/app/services/retry_service.py:247-261 | the breaker becomes `AfterFailure` of itself |
| Retry.RetryService.GetCircuitBreakerStatus | api/app/services/retry_service.py:269-289 | an unknown name reads closed and absent and nothing is created; a known one reports its state |
| Retry.RetryService.AllStatus | api/app/services/retry_service.py:291-296 | one existing entry per breaker with its state |
| Retry.RetryService.ResetCircuitBreaker | api/app/services/retry_service.py:298-307 | true iff the name exists, and then only that breaker is reset |
| Retry.RetryService.RemoveCircuitBreaker | api/app/services/retry_service.py:309-315 | true iff the name existed; it is gone afterwards |
| Retry.RetryService.WithRetry | api/app/services/retry_service.py:91-177 | an open breaker refuses without calling; otherwise at most `maxAttempts` calls, stopping at the first success or the first non-retryable error; after the last attempt the last error; without a breaker name the breakers are untouched |
| Retry.RetryService.Attempts | api/app/services/retry_service.py:123-177 | the attempt loop: every call before the last failed retryably; a success is returned as is; a raised error is the last call's, and either the attempts ran out or it is not retryable; no attempts at all raise the error of `raise None` |
| Progress.Prune | api/app/services/progress_service.py:175-188 | only the users in the set lose their dead connections; keys are kept |
| Progress.PruneStep | api/app/services/progress_service.py:175-188 | pruning users one after another is pruning them together |
| Progress.PruneMayLeaveEmptySet | api/app/services/progress_service.py:175-188 | a user whose sends all fail stays registered with an empty set |
| Progress.PruneIdempotent | api/app/services/progress_service.py:175-188 | pruning twice with the same dead connections changes nothing |
| Progress.DeadConnections | api/app/services/progress_service.py:149-175 | the dead connections are exactly the user's connections whose send raises |
| Progress.ConnectionManager.ConnectWebsocket | api/app/services/progress_service.py:74-87 | a refused handshake registers nothing; an accepted one adds the socket to the user |
| Progress.ConnectionManager.DisconnectWebsocket | api/app/services/progress_service.py:89-100 | the socket is discarded, the user deleted once empty |
| Progress.ConnectionManager.ConnectSse | api/app/services/progress_service.py:102-117 | the queue is added to the user |
| Progress.ConnectionManager.DisconnectSse | api/app/services/progress_service.py:119-130 | the queue is discarded, the user deleted once empty |
| Progress.ConnectionManager.SubscribeToJob | api/app/services/progress_service.py:132-138 | the user joins the job's subscribers |
| Progress.ConnectionManager.UnsubscribeFromJob | api/app/services/progress_service.py:140-147 | the user leaves them, the job deleted once empty |
| Progress.ConnectionManager.SendToUser | api/app/services/progress_service.py:149-188 | the event reaches exactly the live connections; exactly the dead ones are dropped |
| Progress.ConnectionManager.BroadcastJobUpdate | api/app/services/progress_service.py:190-199 | every subscriber of the job is sent the event |
| Progress.ConnectionManager.GetConnectionStats | api/app/services/progress_service.py:201-209 | users per registry, subscribed jobs and total connections |
| Progress.ConnectCounts | api/app/services/progress_service.py:74-117 | connecting raises the total by one iff the connection is new |
| Progress.DisconnectCounts | api/app/services/progress_service.py:89-130 | disconnecting lowers the total by one iff it was registered |
| Progress.Clamp | api/app/services/progress_service.py:257 | progress is clamped into [0, 1] and kept when already inside |
| Progress.ClampIdempotent | api/app/services/progress_service.py:257 | clamping twice is clamping once |
| Progress.Histogram | api/app/services/progress_service.py:470-479 | one count per status present, each the number of jobs in it |
| Progress.HistogramTotal | api/app/services/progress_service.py:470-479 | the histogram accounts for every job exactly once |
| Progress.ProgressService.CreateJobProgress | api/app/services/progress_service.py:221-240 | progress 0 and status `created`, announced to the user |
| Progress.ProgressService.UpdateJobProgress | api/app/services/progress_service.py:242-286 | stores the clamped progress, replaces the status only by a non-empty one, broadcasts to the subscribers |
| Progress.ProgressService.CompleteJob | api/app/services/progress_service.py:288-340 | success sets 1.0 and `completed`; failure sets `failed` and keeps the progress; the event goes to the job's subscribers, pruning the sockets whose send raised and the full queues; a failure without a progress entry stores the status and sends nothing |
| Progress.ProgressService.CancelJob | api/app/services/progress_service.py:342-375 | status `cancelled`, progress untouched; the event goes to the job's subscribers, pruning failed sockets and full queues |
| Progress.ProgressService.CleanupJobData | api/app/services/progress_service.py:377-392 | forgets the job's progress, status and subscribers |
| Progress.ProgressService.SendError | api/app/services/progress_service.py:453-468 | an `error` event with the job's progress (0 when unknown), sent to the user, pruning failed sockets and full queues |
| Progress.ProgressService.GetJobProgress | api/app/services/progress_service.py:394-427 | the stored row's progress and status (0.0 and `unknown` for a missing column) when there is one, else the in-memory values with the same defaults; a failed lookup reports `error` |
| Progress.ProgressService.GetStats | api/app/services/progress_service.py:470-479 | the registry sizes and connection totals, the count of tracked jobs and the status histogram |
| ProviderRouting.LadderChoice | api/services/unified_transcription_service.py:180-222 | never AUTO; Whisper exactly when Google is unavailable, or for non-Chinese audio of at most 25 MiB that is shorter than 30 s or longer than 5 min and more than 20% cheaper on Whisper |
| ProviderRouting.ChineseGoesToGoogle | api/services/unified_transcription_service.py:180-222 | with Google available, Chinese audio goes to Google whatever its size, length or cost |
| ProviderRouting.ChooseBestProvider | api/services/unified_transcription_service.py:158-226 | an error reading the size or estimating a cost falls back to Whisper; otherwise the ladder on the size, the estimated duration and both costs |
| ProviderRouting.EstimatedDuration | api/services/unified_transcription_service.py:180-190 | the metadata's duration, 0 without one, else size over 32000 bytes per second |
| ProviderRouting.MapLanguageForWhisper | api/services/unified_transcription_service.py:270-280 | the six known codes map to their language, anything else to Chinese |
| ProviderRouting.UnifySegment | api/services/unified_transcription_service.py:290-318 | the segment's own id, else its position; `start`, else `start_time`, else 0; `end`, else `end_time`, else 0; the text, else empty; `confidence`, else `avg_logprob`, else 0; words and speaker carried over |
| ProviderRouting.UnifySegmentsLoop | api/services/unified_transcription_service.py:290-320 | the loop builds exactly one unified segment per input segment, in order, and sums their confidences |
| ProviderRouting.Unify | api/services/unified_transcription_service.py:282-345 | the segments are `UnifySegments` of the raw ones; their count, the average confidence, characters and words are those of the unified segments; the processing time, provider and language (default `yue-Hant-HK`) as given |
| ProviderRouting.AverageConfidenceBounds | api/services/unified_transcription_service.py:320-324 | when all confidences lie in [lo, hi], so does the average |
| ProviderRouting.Transcribe | api/services/unified_transcription_service.py:72-156 | runs the first provider; on failure an AUTO request whose first provider was not Whisper retries once on Whisper; usage logged only after a first-provider success with both ids |
| ProviderRouting.FallbackOnlyForAuto | api/services/unified_transcription_service.py:135-152 | Whisper is tried again only for AUTO with a non-Whisper first choice; an explicit provider's error is reported as is |
| ProviderRouting.PrimarySuccess | api/services/unified_transcription_service.py:120-133 | a successful first provider gives its own result, logged iff both ids are given |
| ProviderRouting.HealthAfter | api/services/unified_transcription_service.py:360-389 | a provider checked within five minutes keeps its status; otherwise AVAILABLE for a healthy answer, ERROR otherwise, check time now |
| ProviderRouting.UnifiedTranscriptionService.CheckProviderHealth | api/services/unified_transcription_service.py:360-389 | each provider's status and check time become `HealthAfter` of the pass |
| ProviderRouting.UnifiedTranscriptionService.ChooseProvider | api/services/unified_transcription_service.py:158-226 | a health pass, then the ladder on Google's status after it |
| ProviderRouting.UnifiedTranscriptionService.Initialize | api/services/unified_transcription_service.py:48-70 | Google by its start-up answer, Whisper AVAILABLE, then a health pass |
| ProviderRouting.HealthCached | api/services/unified_transcription_service.py:360-389 | a second pass at the same time changes nothing |
| ProviderRouting.HealthPassRecords | api/services/unified_transcription_service.py:360-389 | after a pass every provider has a status and a check no older than the interval |
| Romanization.CollapseSpaces | api/services/romanization_service.py:93-105 | every maximal whitespace run becomes one space |
| Romanization.CleanText | api/services/romanization_service.py:93-105 | the cleaned text holds only allowed characters and is no longer than the input |
| Romanization.NormalisedWhitespace | api/services/romanization_service.py:93-105 | before filtering, the text has no edge whitespace, only single spaces, never two in a row |
| Romanization.CleanKeepsCleanText | api/services/romanization_service.py:93-105 | CJK text with single inner spaces passes unchanged |
| Romanization.FormatRomanization | api/services/romanization_service.py:107-147 | nothing for an empty lookup, else the parts joined by single spaces, which split back into the parts when none holds a space |
| Romanization.Romanize | api/services/romanization_service.py:35-91 | `None` iff the library is missing, the cleaned text is empty, the flag is off or the lookup fails or is empty; otherwise the lookup's parts of the cleaned text joined by spaces |
| Export.ClockArithmetic | api/services/export_service.py:251-269 | splitting milliseconds into h, m, s, ms loses nothing |
| Export.ClockFields | api/services/export_service.py:251-269 | the four fields sit at fixed places from the stamp's right end |
| Export.ClockRoundTrip | api/services/export_service.py:251-269 | a clock stamp reads back to the milliseconds it renders, minutes and seconds below 60 |
| Export.TxtRoundTrip | api/services/export_service.py:271-277 | the `[MM:SS]` stamp reads back to the whole seconds it renders |
| Export.SubtitleLines | api/services/export_service.py:107-118 | the Chinese line first, then the optional romanization and English lines |
| Export.GenerateSrt | api/services/export_service.py:98-126 | the SRT text is its entry lines joined by newlines |
| Export.SrtEntryAt | api/services/export_service.py:98-126 | entry k starts where the lines of the entries before it end |
| Export.SrtEntryShape | api/services/export_service.py:98-126 | each entry starts with its 1-based index and its time range |
| Export.GenerateVtt | api/services/export_service.py:128-155 | the `WEBVTT` header then the entries, joined by newlines |
| Export.VttEntryShape | api/services/export_service.py:128-155 | each entry is the time range and the subtitle lines, no index |
| Export.TxtLineShape | api/services/export_service.py:157-191 | optional time prefix, optional speaker, the Chinese, at most one romanization (Yale first), optional English |
| Export.GenerateTxt | api/services/export_service.py:157-191 | one line per segment |
| Export.CsvFieldnames | api/services/export_service.py:193-235 | the CSV's field list |
| Export.CsvColumnsShape | api/services/export_service.py:193-235 | fixed columns first; an optional column iff some segment fills it; speaker last when present |
| Export.CsvHeaderSplits | api/services/export_service.py:193-235 | the header line splits back into the columns |
| Export.GenerateContent | api/services/export_service.py:78-96 | an error iff the format is not one of srt, vtt, txt, csv, json, naming it; each supported name gives its generator's text (CSV header plus the serialised rows, JSON the serialised result) |
| Export.ExportContent | api/services/export_service.py:78-96 | the text of each supported format: SRT, VTT and TXT from the segments, the CSV header and rows, the serialised JSON |
| Export.Utf8LengthAppend | api/services/export_service.py:71 | the byte length of a concatenation is the sum of the byte lengths |
| Export.ExportTranscription | api/services/export_service.py:26-76 | succeeds iff the format is supported and the save succeeds; then the stored file name, the download URL of the job and format, and the UTF-8 byte length of the format's content; every error is reported as `Failed to export as <format>: ...` |
| TranscriptionJobs.Segments | api/services/transcription_service.py:156-200 | one item per segment with stripped text, in order, its id the segment's position |
| TranscriptionJobs.SegmentsShape | api/services/transcription_service.py:156-200 | every item is built from a kept segment at its id; ids increase strictly |
| TranscriptionJobs.EveryKeptSegmentListed | api/services/transcription_service.py:166-170 | no segment with text is lost |
| TranscriptionJobs.ItemsOfKeptSegments | api/services/transcription_service.py:156-200 | one item per segment with text, and every item has text |
| TranscriptionJobs.UnrequestedAnnotationsEmpty | api/services/transcription_service.py:172-195 | annotations not asked for stay empty |
| TranscriptionJobs.ProcessSegments | api/services/transcription_service.py:156-200 | the loop's items are `Segments` of the input |
| TranscriptionJobs.StatisticsOf | api/services/transcription_service.py:105-109 | the statistics' average is 0 for no items |
| TranscriptionJobs.AverageWithinBounds | api/services/transcription_service.py:105-109 | the average of confidences in [lo, hi] lies in [lo, hi] |
| TranscriptionJobs.AudioSource | api/services/transcription_service.py:136-154 | the uploaded file, else the download, else an error |
| TranscriptionJobs.FreshJobReportsZeroProcessingTime | api/services/transcription_service.py:103-114 | as written, a fresh job reports zero seconds however long it took |
| TranscriptionJobs.RerunReportsNegativeTime | api/services/transcription_service.py:103-114 | as written, a rerun of a failed job reports a negative time |
| TranscriptionJobs.CompletedReportsStaleTime | api/services/transcription_service.py:103-114 | as written, a completed job's result reports the time since the previous completion, 0 on a first run, and holds the kept segments |
| TranscriptionJobs.ProcessedOutcome | api/services/transcription_service.py:62-134 | COMPLETED iff no step fails, then with progress 1.0, a result and a cost; else FAILED with the first error |
| TranscriptionJobs.ProcessedKeepsIdentity | api/services/transcription_service.py:62-134 | identity kept; start and completion times recorded |
| TranscriptionJobs.ProgressOrdered | api/services/transcription_service.py:62-134 | the written progress values never decrease, the last is the job's, and a clean run writes 0.1, 0.2, 0.3, 0.6, 0.9, 1.0 |
| TranscriptionJobs.CompletedReportsElapsedTime | api/services/transcription_service.py:202-208 | corrected: a completed job's result reports the elapsed time and holds the kept segments |
| TranscriptionJobs.TranscriptionService.CreateJob | api/services/transcription_service.py:35-60 | a PENDING job with progress 0 under the new id, default options when none are given |
| TranscriptionJobs.RunPipeline | api/services/transcription_service.py:62-134 | as written: the pipeline turns a job into `Processed` of it, whose time is read from the previous completion, and reports the progress values of `ProgressTrail` |
| TranscriptionJobs.TranscriptionService.ProcessJob | api/services/transcription_service.py:62-134 | as written: a known job becomes `Processed` of itself; an unknown id changes nothing; the job leaves the active set |
| TranscriptionJobs.TranscriptionService.GetJobStatus | api/services/transcription_service.py:240-247 | the job only for its owner |
| TranscriptionJobs.TranscriptionService.ListUserJobs | api/services/transcription_service.py:249-264 | exactly the Python slice `[offset:offset + limit]` of the user's jobs sorted newest first |
| TranscriptionJobs.TranscriptionService.CancelJob | api/services/transcription_service.py:266-286 | refused for an unknown job, another user's job or a finished one; otherwise CANCELLED with a completion time |
| TranscriptionJobs.TranscriptionService.ExportTranscription | api/services/transcription_service.py:288-310 | only the owner's COMPLETED job with a result is exported; then the stored file name, the job's download URL and the byte length of the format's content for the result's segments |
| TranscriptionJobs.CancelOnce | api/services/transcription_service.py:266-286 | a cancelled job cannot be cancelled again |
| TranscriptionJobs.PageOfUser | api/services/transcription_service.py:249-264 | a page holds only the user's jobs, newest first |
| TranscriptionJobs.PageBounds | api/services/transcription_service.py:249-264 | at most `limit` jobs; a large enough first page holds all |
| Monitoring.DatabaseHealth | api/app/services/monitoring_service.py:119-150 | unhealthy iff the probe does not answer true; healthy iff it does within 1 s |
| Monitoring.ProviderHealth | api/app/services/monitoring_service.py:191-245 | unhealthy iff the probe fails; degraded iff healthy but slower than the threshold |
| Monitoring.ProviderThresholds | api/app/services/monitoring_service.py:191-245 | Google degrades above 5 s, Whisper above 3 s |
| Monitoring.TranscriptionHealth | api/app/services/monitoring_service.py:152-189 | healthy iff all providers available; unhealthy iff none of some; an error is unhealthy |
| Monitoring.AllAvailableIsHealthy | api/app/services/monitoring_service.py:152-189 | all available means healthy |
| Monitoring.ProgressHealth | api/app/services/monitoring_service.py:247-269 | healthy iff the statistics can be read |
| Monitoring.OpenCircuits | api/app/services/monitoring_service.py:279-283 | a name is listed iff its breaker is open |
| Monitoring.RetryServiceHealth | api/app/services/monitoring_service.py:271-306 | degraded, naming the open breakers, iff some breaker is open |
| Monitoring.OverallIsWorst | api/app/services/monitoring_service.py:73-97 | the overall status is the worst one reported, healthy for none |
| Monitoring.OverallOrderFree | api/app/services/monitoring_service.py:73-97 | the overall status does not depend on the order of the checks |
| Monitoring.OverallSnoc | api/app/services/monitoring_service.py:73-97 | folding one more check gives the worse of the two |
| Monitoring.ComprehensiveHealth | api/app/services/monitoring_service.py:59-117 | the overall status of the six checks, one entry per service |
| Monitoring.CostUtilization | api/app/services/monitoring_service.py:388 | the day's cost over the cap, 0 without a positive cap |
| Monitoring.ResourceAlerts | api/app/services/monitoring_service.py:405-431 | CPU above 90 and memory above 85 warn; disk above 90 is critical |
| Monitoring.CostAlert | api/app/services/monitoring_service.py:433-455 | critical above 0.9, else warning above 0.7, at most one |
| Monitoring.CheckAlerts | api/app/services/monitoring_service.py:400-479 | each alert kind iff its condition, in check order, at its level; every alert carries its kind's reading (cpu, memory, disk or cost utilisation) and threshold (90, 85, 90, 0.9 or 0.7), and the breaker alert lists exactly the open breakers |
| Exceptions.NewAppException | api/app/core/exceptions.py:8-20 | status 500 by default; `GENERAL_ERROR` when no or an empty code is given |
| Exceptions.ExternalCode | api/app/core/exceptions.py:58-63 | ends in `_API_ERROR`; the upper-cased service name when given, else `EXTERNAL_API_ERROR` |
| Exceptions.Raise | api/app/core/exceptions.py:23-90 | the class, detail or its default, its fixed status (400..599, 5xx exactly for processing, external-API and database) and code |
| Exceptions.CodeIdentifiesClass | api/app/core/exceptions.py:23-90 | the error code tells which class was raised |
| ErrorHandling.Classify | api/middleware/error_handling.py:113-129 | the first matching class in the `isinstance` chain |
| ErrorHandling.Handle | api/middleware/error_handling.py:131-317 | each handler's status, type, code and message: the exception's own for application and HTTP errors, 503 with retry after 60 s for an open breaker, 504 for a timeout, 422 with the text only in debug for a value error, 500 with the text hidden only in production for anything else |
| ErrorHandling.WithheldTextDoesNotLeak | api/middleware/error_handling.py:197-317 | breaker, timeout, non-debug validation and production errors answer the same whatever their text |
| ErrorHandling.AppErrorsKeepTheirStatus | api/middleware/error_handling.py:131-171 | an application error answers with its class's status and code |
| ErrorHandling.Track | api/middleware/error_handling.py:319-335 | counters are cleared once the hour is over, then the error is counted |
| ErrorHandling.CountsWithinWindow | api/middleware/error_handling.py:319-335 | within a window k more errors raise the count by k and warn once per multiple of ten passed; other classes untouched |
| ErrorHandling.ExpiredWindowRestarts | api/middleware/error_handling.py:319-335 | an expired window restarts the count at one |
| ErrorHandling.ErrorHandlingMiddleware.TrackError | api/middleware/error_handling.py:319-335 | the counters become `Track` of themselves; warned iff the count hits a multiple of ten |
| ErrorHandling.ErrorHandlingMiddleware.HandleException | api/middleware/error_handling.py:91-129 | counts under the class name, answers through the matching handler |
| ErrorHandling.ErrorHandlingMiddleware.GetErrorStats | api/middleware/error_handling.py:337-343 | a copy of the counters and the last reset time |
| Email.AcceptsIsPattern | api/app/services/email_service.py:140-144 | the scan accepts exactly what the pattern matches |
| Email.PatternEndsInLetter | api/app/services/email_service.py:140-144 | a match ends in a letter |
| Email.IsValidEmailMatchesPattern | api/app/services/email_service.py:140-144 | the check is the regex match, trailing newline included |
| Email.AcceptedShape | api/app/services/email_service.py:140-144 | an accepted address has one `@` and a non-empty domain before its last dot |
| Email.TrailingNewlineAccepted | api/app/services/email_service.py:140-144 | one trailing newline is accepted, two are not |
| Email.OrElse | api/app/services/email_service.py:36-37 | Python's `a or b` on optional strings |
| Email.SendFailure | api/app/services/email_service.py:104-106 | failures re-raised as the provider's external-API error (502) |
| Email.EmailService.Initialize | api/app/services/email_service.py:32-47 | the key as configured; sender and support defaults |
| Email.EmailService.SendEmail | api/app/services/email_service.py:49-106 | skipped without a key, refused for an invalid address, the provider's error as a 502 failure; otherwise sent to the address with the resolved sender, the subject, the HTML, the text only when non-empty, and the provider's message id |
| Email.RefusedNeverSent | api/app/services/email_service.py:49-106 | a skipped or refused e-mail does not depend on the provider's answer |
| Email.UsageWarningFigures | api/app/services/email_service.py:182-191 | an error iff the total is zero; otherwise the percentage times the total is 100 times the credits used, remaining plus used is the total, and 100% or more iff nothing remains |
| Analytics.Filters | api/app/services/usage_analytics_service.py:52-67 | the date bounds, then user, plan and type filters iff given |
| Analytics.FiltersSelect | api/app/services/usage_analytics_service.py:52-67 | the filters select exactly the rows the request asks about |
| Analytics.SizeCategory | api/app/services/usage_analytics_service.py:567-578 | the bucket boundaries are 1, 10 and 25 MiB |
| Analytics.SizeCategoryMonotone | api/app/services/usage_analytics_service.py:567-578 | a larger file never falls into a smaller bucket |
| Analytics.CountInCategory | api/app/services/usage_analytics_service.py:563-589 | counts the rows with positive size in the bucket |
| Analytics.FileSizeDistribution | api/app/services/usage_analytics_service.py:563-589 | a count per non-empty bucket; size-zero rows left out |
| Analytics.BucketsPartition | api/app/services/usage_analytics_service.py:563-589 | every row of positive size falls in exactly one bucket |
| Analytics.DistributionTotal | api/app/services/usage_analytics_service.py:563-589 | the counts add up to the rows of positive size |
| Analytics.ShortShare | api/app/services/usage_analytics_service.py:611 | short transcriptions over the total, or over one when the total is zero |
| Analytics.CostRecommendations | api/app/services/usage_analytics_service.py:607-620 | 500 iff the retry cost or the average duration is SQL NULL (no joined transcription in the period); otherwise each recommendation iff its threshold is passed, at most three |
| Analytics.Recommend | api/app/services/usage_analytics_service.py:607-620 | each recommendation iff its threshold is passed, in order, at most three, none iff no threshold is passed |
| Analytics.EmptyPeriodFailsAsWritten | api/app/services/usage_analytics_service.py:296-343 | a period without transcriptions makes the cost analysis fail with 500 |
| Analytics.CostRecommendationsNullAsZero | api/app/services/usage_analytics_service.py:607-620 | the recommendations with NULL read as 0, equal to the as-written ones whenever those succeed |
| Analytics.EmptyPeriodNoRecommendations | api/app/services/usage_analytics_service.py:607-620 | corrected: a period without transcriptions gives no recommendation |
| Analytics.EngagementInsights | api/app/services/usage_analytics_service.py:622-640 | each insight iff its threshold; the fit insight iff both counts are positive and the rate exceeds 0.5 |
| Analytics.RowFigures | api/app/services/usage_analytics_service.py:70-130 | the distinct users (all active), the events, the summed duration in hours and cost, and the size distribution of the selected rows |
| Analytics.FiguresAdd | api/app/services/usage_analytics_service.py:70-104 | selecting two batches together adds their durations, costs and user sets |
| Analytics.EmptyAnalyticsResponse | api/app/services/usage_analytics_service.py:591-605 | all figures zero and all lists empty |
| Analytics.NoRowsIsEmpty | api/app/services/usage_analytics_service.py:591-605 | no selected rows give the empty response's figures |

## Left out

- Persistence, SQL and concurrency:
  - The database itself, transactions and SQL text. Queries are functions over in-memory rows.
  - `asyncio` scheduling beyond the batch order of the daily reset. Within a batch every task claims its user before any resets, which is how the batch behaves when all its tasks start before the first one yields.
  - The scheduler loop, its timing and the audit-log and metrics inserts of the reset service.
- Calendar and numbers:
  - Python's date range (years 1 to 9999). Years are unbounded here.
  - Floating-point rounding. All money, ratios and durations are exact reals.
- Clocks, randomness and I/O:
  - Clocks are parameters.
  - Retry delays and their jitter (`_calculate_delay`) are left out because they are random waits with no effect on the outcome.
  - The WebSocket/SSE transport is reduced to whether a send raises.
  - File storage and YouTube download are reduced to their answers.
- Providers:
  - Google Speech, Whisper, PyCantonese, Resend and Stripe are foreign services.
  - Their answers are parameters.
  - The romanization lookup itself is PyCantonese's and is not part of this model.
- Monitoring:
  - Host metrics come from `psutil` and are parameters.
  - The `monitoring_error` branch of `check_alerts` cannot be reached, because every probe it calls catches its own errors. It is not modelled.
  - Alert and health messages beyond the open-breaker list, timestamps and response-time details are left out.
- Error handling:
  - Request ids, tracebacks, processing-time headers and logging are left out.
  - `api/core/exceptions.py` is a copy of `api/app/core/exceptions.py`. Only the latter, which the middleware imports, is modelled.
- E-mail: HTML bodies, `health_check` and the other `send_*` helpers are left out. Only the usage-warning figures are modelled.
- Analytics:
  - Peak hours, top users, usage by day, plan distribution, the real-time metrics and the cost analysis are SQL aggregates over the live database. The optimisation figures enter the recommendations as given values.
  - Only the filters, size buckets, recommendations, insights, row figures and empty response are modelled.
- Export:
  - The JSON document and the CSV data rows are written by Python's `json` and `csv` libraries. They enter the model as given strings. Only the CSV header is built here.
- UsageTracking.Trunc: only the defining bounds are stated, not a float representation.
- Retry.RetryService.WithRetry: each attempt's success or failure is recorded in the named breaker, but the contract states only that every breaker stays consistent, not its exact new counts.
- Retry.Effective: a call's own timeout exception is treated like an overrun. `asyncio.wait_for`'s cancellation semantics are not modelled.
- Analytics.RowFigures: the average cost per user is `AVG` over the query's (user, day, type, plan, hour) groups. Usage rows carry no hour, so the average is left at zero and only the sums are modelled.
- Admission.ActiveJobIds: the ids are listed in table order. `ORDER BY processing_started_at` is not modelled, because job rows carry no start time.
- UsageHistory.GetUsageHistory: the window's first month label (`CURRENT_DATE` minus the requested months) is a parameter. The grouped months are an input that satisfies `HistoryMonths`. Labels are compared in code-point order, which is the order of SQL text comparison for `YYYY-MM`.
- Exceptions.ExternalCode: only ASCII letters are upper-cased. Python's `str.upper` also maps other letters, and some of them to longer strings.
- Export.SrtTimestamp: segment times are whole non-negative milliseconds. Float seconds, the truncation of their fraction and negative times are not modelled. The same holds for `Export.VttTimestamp` and `Export.TxtTimestamp`.
- UsageTracking.UsageTrackingMiddleware.Dispatch: the outer handler that forwards the request again after an error inside the middleware is not modelled. Every step the model covers either cannot raise or catches its own errors.
- ProviderRouting.Unify: the `cost_info` of the result is not modelled. That is the provider's own cost figures, or for Google without them an estimate from the last segment end through the Google service. So the cost `_log_transcription_usage` records is not modelled either. The fallback result built when unification raises is left out too; every modelled step of it is total.
- Sorting.SortBy: a stable insertion sort stands in for Python's sort. Stability among equal keys is relied on, not proved.

## Findings

| source | as written | input that shows it | evidently intended | confidence | as-written member | corrected member |
|---|---|---|---|---|---|---|
| api/app/services/usage_service.py:119-149 | the 409 raised for an already-recorded transcription is inside the `try`, so the broad `except Exception` turns it into 500 | record usage twice for the same transcription id | the duplicate is answered 409 | not executed | UsageLedger.DuplicateAnsweredWith500 | UsageLedger.Handler |
| api/app/services/monthly_reset_service.py:165-172 | on a month's last day, tomorrow's day is 1, so every account created on the 2nd or later is due | an account created on the 15th, today 31 January 2024 | only accounts whose creation day is missing from the month are due on its last day | not executed | MonthlyReset.AsWrittenResetsMidMonthAccount | MonthlyReset.EligibleOncePerMonth |
| api/app/services/usage_analytics_service.py:607-620 | with no joined transcription row in the period, `cost_from_retries` and `avg_duration_seconds` are NULL and `None > 0` raises `TypeError`, so `get_cost_analysis` answers 500 | a cost analysis over a period without transcriptions | no recommendation, as the figures beside it already read NULL as 0 | not executed | Analytics.EmptyPeriodFailsAsWritten | Analytics.EmptyPeriodNoRecommendations |
| api/services/transcription_service.py:103-114 | `processing_time` is computed before `completed_at` is set, so it reads the previous run's completion time | process a fresh job: it reports 0.0 s however long it ran; a rerun of a job that failed at 20, restarted at 100, reports -80 s | the elapsed time of this run | not executed | TranscriptionJobs.FreshJobReportsZeroProcessingTime | TranscriptionJobs.CompletedReportsElapsedTime |

=== FILE: admission.dfy ===
/**
 * The admission side of the usage engine: whether a transcription may start
 * (file size, credits, overage and the concurrency cap), the usage alerts shown
 * to a user, and the concurrency and queue status.
 */
module Admission {
  import opened Wrappers
  import opened Calendar
  import opened Tables
  import opened Billing
  import opened Plans
  import opened UsageLedger
  import UsageSchemas

  datatype BlockingReason =
    | FileTooLarge(fileSizeBytes: int, limitMb: int)
    | InsufficientCredits(required: int, available: int)
    | ConcurrencyLimitReached(maxJobs: int)

  datatype CheckWarning = OverageWarning(overageCredits: int) | ApproachingLimit

  datatype UsageCheck = UsageCheck(
    canProcess: bool,
    creditsRequired: int,
    creditsAvailable: int,
    creditsAfter: int,
    estimatedCost: real,
    blockingReason: Option<BlockingReason>,
    warnings: seq<CheckWarning>,
    canProcessConcurrent: bool,
    currentConcurrentJobs: nat,
    maxConcurrentJobs: int)

  predicate FileTooBig(fileSizeBytes: int, plan: UsageSchemas.PlanLimits) {
    fileSizeBytes > plan.maxFileSizeMb * UsageSchemas.MiB
  }

  /**
   * What `check_usage_limits` decides for usage `u` on `plan`. An oversized file is
   * refused at once with no warnings. Otherwise the request is refused when the
   * credits do not cover it on a plan without overage, or when the concurrency
   * cap is reached; the cap's reason overrides the credits' reason. An overage and
   * then the 80% mark each add a warning, in that order.
   */
  predicate Decides(c: UsageCheck, u: CurrentUsage, plan: UsageSchemas.PlanLimits,
                    estimatedSeconds: int, fileSizeBytes: int)
  {
    && c.creditsRequired == RequiredCredits(estimatedSeconds)
    && c.creditsAvailable == u.creditsTotal - u.creditsUsed
    && c.creditsAfter == c.creditsAvailable - c.creditsRequired
    && c.estimatedCost == c.creditsRequired as real * plan.costPerCredit
    && c.currentConcurrentJobs == u.concurrentProcessing
    && c.maxConcurrentJobs == u.maxConcurrent
    && (FileTooBig(fileSizeBytes, plan) ==>
          !c.canProcess && !c.canProcessConcurrent && c.warnings == []
          && c.blockingReason == Some(FileTooLarge(fileSizeBytes, plan.maxFileSizeMb)))
    && (!FileTooBig(fileSizeBytes, plan) ==>
          && (c.canProcessConcurrent <==> u.concurrentProcessing < u.maxConcurrent)
          && (c.canProcess <==>
                (c.canProcessConcurrent && (c.creditsRequired <= c.creditsAvailable || plan.allowsOverage)))
          && (c.canProcess <==> c.blockingReason.None?)
          && (!c.canProcessConcurrent ==> c.blockingReason == Some(ConcurrencyLimitReached(u.maxConcurrent)))
          && (c.canProcessConcurrent && !c.canProcess ==>
                c.blockingReason == Some(InsufficientCredits(c.creditsRequired, c.creditsAvailable)))
          && c.warnings ==
               (if c.creditsRequired > c.creditsAvailable && plan.allowsOverage
                then [OverageWarning(c.creditsRequired - c.creditsAvailable)] else [])
               + (if u.isNearLimit && !u.isAtLimit then [ApproachingLimit] else []))
  }

  /** The decision of `check_usage_limits` for one user's usage on one plan. */
  method Decide(u: CurrentUsage, plan: UsageSchemas.PlanLimits, estimatedSeconds: int, fileSizeBytes: int)
    returns (c: UsageCheck)
    ensures Decides(c, u, plan, estimatedSeconds, fileSizeBytes)
  {
    var required := RequiredCredits(estimatedSeconds);
    var available := u.creditsTotal - u.creditsUsed;
    var after := available - required;
    var cost := required as real * plan.costPerCredit;
    if FileTooBig(fileSizeBytes, plan) {
      return UsageCheck(false, required, available, after, cost,
                        Some(FileTooLarge(fileSizeBytes, plan.maxFileSizeMb)), [], false,
                        u.concurrentProcessing, u.maxConcurrent);
    }
    var canConcurrent := u.concurrentProcessing < u.maxConcurrent;
    var warnings: seq<CheckWarning> := [];
    var reason: Option<BlockingReason> := None;
    var canProcess := true;
    if required > available {
      if !plan.allowsOverage {
        canProcess := false;
        reason := Some(InsufficientCredits(required, available));
      } else {
        warnings := warnings + [OverageWarning(required - available)];
      }
    }
    if !canConcurrent {
      canProcess := false;
      reason := Some(ConcurrencyLimitReached(u.maxConcurrent));
    }
    if u.isNearLimit && !u.isAtLimit {
      warnings := warnings + [ApproachingLimit];
    }
    return UsageCheck(canProcess && canConcurrent, required, available, after, cost, reason,
                      warnings, canConcurrent, u.concurrentProcessing, u.maxConcurrent);
  }

  /**
   * `check_usage_limits` for a user: the decision against the user's current
   * usage and plan; 500 when the user or the period is missing.
   */
  method CheckUsageLimits(accounts: seq<Account>, subs: seq<Subscription>, jobs: seq<JobRow>,
                          records: seq<UsageRecord>, user: UserId, estimatedSeconds: int,
                          fileSizeBytes: int, today: Day)
    returns (r: Result<UsageCheck, int>)
    ensures r.Ok? <==> GetCurrentUsage(accounts, subs, jobs, records, user, today).Ok?
    ensures r.Err? ==> r.error == INTERNAL_ERROR
    ensures r.Ok? ==> Decides(r.value, GetCurrentUsage(accounts, subs, jobs, records, user, today).value,
                              PlanConfig(UserPlanName(subs, user)), estimatedSeconds, fileSizeBytes)
  {
    var current := GetCurrentUsage(accounts, subs, jobs, records, user, today);
    if current.Err? {
      return Err(current.error);
    }
    var c := Decide(current.value, PlanConfig(UserPlanName(subs, user)), estimatedSeconds, fileSizeBytes);
    return Ok(c);
  }

  // ---------------------------------------------------------------------------
  // Alerts

  datatype Alert =
    | LimitReached(creditsTotal: int)
    | NearLimit(creditsUsed: int, creditsTotal: int)
    | ResetSoon(daysUntilReset: int, resetDate: Day)
    | QueueFull(concurrentProcessing: nat)

  datatype UsageAlerts = UsageAlerts(alerts: seq<Alert>, hasCritical: bool, nextCheckInHours: int)

  const NEXT_CHECK_IN_HOURS := 24

  /**
   * `get_usage_alerts`: the limit alert (reached, or else near), then the
   * reset-soon alert, then the full-queue alert. Only a reached limit is critical.
   */
  function AlertsFor(u: CurrentUsage): (r: UsageAlerts)
    ensures r.hasCritical <==> u.isAtLimit
    ensures LimitReached(u.creditsTotal) in r.alerts <==> u.isAtLimit
    ensures NearLimit(u.creditsUsed, u.creditsTotal) in r.alerts <==> u.isNearLimit && !u.isAtLimit
    ensures ResetSoon(u.daysUntilReset, u.resetDate) in r.alerts <==> u.daysUntilReset <= 3 && u.creditsUsed > 0
    ensures QueueFull(u.concurrentProcessing) in r.alerts <==> u.concurrentProcessing >= u.maxConcurrent
    ensures |r.alerts| <= 3
    ensures forall k :: 0 < k < |r.alerts| ==> !r.alerts[k].LimitReached? && !r.alerts[k].NearLimit?
    ensures r.nextCheckInHours == NEXT_CHECK_IN_HOURS
  {
    var limit :=
      if u.isAtLimit then [LimitReached(u.creditsTotal)]
      else if u.isNearLimit then [NearLimit(u.creditsUsed, u.creditsTotal)]
      else [];
    var reset := if u.daysUntilReset <= 3 && u.creditsUsed > 0 then [ResetSoon(u.daysUntilReset, u.resetDate)] else [];
    var queue := if u.concurrentProcessing >= u.maxConcurrent then [QueueFull(u.concurrentProcessing)] else [];
    UsageAlerts(limit + reset + queue, u.isAtLimit, NEXT_CHECK_IN_HOURS)
  }

  /** The alert list built from its three parts, in source order. */
  lemma AlertsForParts(u: CurrentUsage)
    ensures AlertsFor(u).alerts ==
      (if u.isAtLimit then [LimitReached(u.creditsTotal)]
       else if u.isNearLimit then [NearLimit(u.creditsUsed, u.creditsTotal)]
       else [])
      + (if u.daysUntilReset <= 3 && u.creditsUsed > 0 then [ResetSoon(u.daysUntilReset, u.resetDate)] else [])
      + (if u.concurrentProcessing >= u.maxConcurrent then [QueueFull(u.concurrentProcessing)] else [])
  {
  }

  /** The alert list holds nothing but the four expected alerts. */
  lemma AlertsForOnlyExpected(u: CurrentUsage)
    ensures forall a :: a in AlertsFor(u).alerts ==>
      a == LimitReached(u.creditsTotal) || a == NearLimit(u.creditsUsed, u.creditsTotal)
      || a == ResetSoon(u.daysUntilReset, u.resetDate) || a == QueueFull(u.concurrentProcessing)
  {
    AlertsForParts(u);
  }

  /** No alert is listed twice, and a reset-soon alert always precedes a full-queue alert. */
  lemma AlertsForDistinctInOrder(u: CurrentUsage)
    ensures var alerts := AlertsFor(u).alerts;
      && (forall i, j :: 0 <= i < j < |alerts| ==> alerts[i] != alerts[j])
      && (forall i, j :: 0 <= i < |alerts| && 0 <= j < |alerts| && alerts[i].ResetSoon? && alerts[j].QueueFull? ==> i < j)
  {
    AlertsForParts(u);
    var alerts := AlertsFor(u).alerts;
    forall i, j | 0 <= i < j < |alerts|
      ensures alerts[i] != alerts[j] && !(alerts[i].QueueFull? && alerts[j].ResetSoon?)
    {
      assert !alerts[i].QueueFull?;
    }
  }

  /** The alerts for a user: 500 when the user's current usage cannot be computed. */
  function GetUsageAlerts(accounts: seq<Account>, subs: seq<Subscription>, jobs: seq<JobRow>,
                          records: seq<UsageRecord>, user: UserId, today: Day): (r: Result<UsageAlerts, int>)
    ensures r.Ok? <==> GetCurrentUsage(accounts, subs, jobs, records, user, today).Ok?
    ensures r.Ok? ==> (r.value.hasCritical <==> GetCurrentUsage(accounts, subs, jobs, records, user, today).value.isAtLimit)
    ensures r.Ok? ==> r.value == AlertsFor(GetCurrentUsage(accounts, subs, jobs, records, user, today).value)
  {
    match GetCurrentUsage(accounts, subs, jobs, records, user, today)
    case Err(e) => Err(e)
    case Ok(u) => Ok(AlertsFor(u))
  }

  // ---------------------------------------------------------------------------
  // Concurrency status

  function CountStatus(jobs: seq<JobRow>, user: UserId, status: string): (n: nat)
    ensures n <= |jobs|
  {
    if jobs == [] then 0
    else (if jobs[0].userId == user && jobs[0].status == status then 1 else 0) + CountStatus(jobs[1..], user, status)
  }

  predicate IsActiveJob(j: JobRow, user: UserId) {
    j.userId == user && (j.status == "processing" || j.status == "pending")
  }

  /** The ids of the user's processing and pending jobs, in table order. */
  function ActiveJobIds(jobs: seq<JobRow>, user: UserId): (ids: seq<string>)
    ensures |ids| == CountStatus(jobs, user, "processing") + CountStatus(jobs, user, "pending")
    ensures forall j :: j in jobs && IsActiveJob(j, user) ==> j.id in ids
    ensures forall k :: 0 <= k < |ids| ==> exists j :: j in jobs && IsActiveJob(j, user) && j.id == ids[k]
  {
    if jobs == [] then []
    else (if IsActiveJob(jobs[0], user) then [jobs[0].id] else []) + ActiveJobIds(jobs[1..], user)
  }

  datatype ConcurrencyStatus = ConcurrencyStatus(
    userId: UserId,
    currentJobs: nat,
    maxJobs: int,
    availableSlots: int,
    queuePosition: Option<nat>,
    estimatedWaitSeconds: Option<int>,
    activeJobIds: seq<string>)

  const AVERAGE_JOB_SECONDS := 600

  /**
   * `get_concurrent_jobs_status`: processing jobs against the plan cap, the free
   * slots, and, when the cap is reached and jobs wait, the queue length and a wait
   * of ten minutes per waiting job.
   */
  function ConcurrentJobsStatus(subs: seq<Subscription>, jobs: seq<JobRow>, user: UserId): (r: ConcurrencyStatus)
    ensures var cap := PlanConfig(UserPlanName(subs, user)).maxConcurrentJobs;
      var pending := CountStatus(jobs, user, "pending");
      && r.maxJobs == cap
      && r.currentJobs == CountStatus(jobs, user, "processing")
      && r.availableSlots >= 0
      && (r.currentJobs < cap ==> r.currentJobs + r.availableSlots == cap)
      && (r.currentJobs >= cap ==> r.availableSlots == 0)
      && (r.queuePosition.Some? <==> pending > 0 && r.currentJobs >= cap)
      && (r.queuePosition.Some? ==>
            r.queuePosition.value == pending && r.estimatedWaitSeconds == Some(AVERAGE_JOB_SECONDS * pending))
      && (r.queuePosition.None? ==> r.estimatedWaitSeconds.None?)
      && |r.activeJobIds| == r.currentJobs + pending
    ensures r.userId == user
    ensures r.activeJobIds == ActiveJobIds(jobs, user)
  {
    var cap := PlanConfig(UserPlanName(subs, user)).maxConcurrentJobs;
    var current := CountStatus(jobs, user, "processing");
    var pending := CountStatus(jobs, user, "pending");
    var queued := pending > 0 && current >= cap;
    ConcurrencyStatus(user, current, cap, Max(0, cap - current),
                      if queued then Some(pending) else None,
                      if queued then Some(pending * AVERAGE_JOB_SECONDS) else None,
                      ActiveJobIds(jobs, user))
  }
}

=== FILE: analytics.dfy ===
/**
 * The rule helpers of the usage analytics service: the filter list a query
 * is built from, the file-size buckets, the cost recommendations and
 * engagement insights, and the empty response. The SQL that computes the
 * figures is not modelled; the rows the filters select are.
 */
module Analytics {
  import opened Wrappers
  import opened Calendar
  import UsageSchemas

  // ---------------------------------------------------------------- filters

  datatype Filter =
    | DateFrom(start: Date)
    | DateTo(end: Date)
    | UserIs(userId: string)
    | PlanIs(planType: string)
    | UsageTypeIs(usageType: string)

  /** Python truthiness of an optional string: given and non-empty. */
  predicate Given(s: Option<string>) {
    s.Some? && s.value != ""
  }

  /** The filter list of `get_comprehensive_analytics`: the two date bounds, then user, plan and usage type when given. */
  function Filters(req: UsageSchemas.UsageAnalyticsRequest): (fs: seq<Filter>)
    ensures |fs| >= 2 && fs[0] == DateFrom(req.startDate) && fs[1] == DateTo(req.endDate)
    ensures |fs| == 2 + (if Given(req.userId) then 1 else 0) + (if Given(req.planType) then 1 else 0)
                      + (if Given(req.usageType) then 1 else 0)
    ensures UserIs(if req.userId.Some? then req.userId.value else "") in fs <==> Given(req.userId)
    ensures forall i, j :: 0 <= i < j < |fs| ==> FilterRank(fs[i]) < FilterRank(fs[j])
  {
    [DateFrom(req.startDate), DateTo(req.endDate)]
    + (if Given(req.userId) then [UserIs(req.userId.value)] else [])
    + (if Given(req.planType) then [PlanIs(req.planType.value)] else [])
    + (if Given(req.usageType) then [UsageTypeIs(req.usageType.value)] else [])
  }

  /** The position of each filter kind in the list. */
  function FilterRank(f: Filter): nat {
    match f
    case DateFrom(_) => 0
    case DateTo(_) => 1
    case UserIs(_) => 2
    case PlanIs(_) => 3
    case UsageTypeIs(_) => 4
  }

  /** A usage row as the filters see it; `plan` is the active plan, `free` without one. */
  datatype UsageRow = UsageRow(
    userId: string, usageDate: Date, usageType: string, plan: string,
    fileSizeBytes: int, durationSeconds: int, cost: real)

  predicate Holds(f: Filter, row: UsageRow) {
    match f
    case DateFrom(start) => AtOrBefore(start, row.usageDate)
    case DateTo(end) => AtOrBefore(row.usageDate, end)
    case UserIs(u) => row.userId == u
    case PlanIs(p) => row.plan == p
    case UsageTypeIs(t) => row.usageType == t
  }

  predicate HoldsAll(fs: seq<Filter>, row: UsageRow) {
    forall i :: 0 <= i < |fs| ==> Holds(fs[i], row)
  }

  /** The rows the request asks about, stated directly. */
  predicate Selected(req: UsageSchemas.UsageAnalyticsRequest, row: UsageRow) {
    && AtOrBefore(req.startDate, row.usageDate) && AtOrBefore(row.usageDate, req.endDate)
    && (Given(req.userId) ==> row.userId == req.userId.value)
    && (Given(req.planType) ==> row.plan == req.planType.value)
    && (Given(req.usageType) ==> row.usageType == req.usageType.value)
  }

  /** The conjunction of the filter list selects exactly the rows the request asks about. */
  lemma FiltersSelect(req: UsageSchemas.UsageAnalyticsRequest, row: UsageRow)
    ensures HoldsAll(Filters(req), row) <==> Selected(req, row)
  {
    var fs := Filters(req);
    if HoldsAll(fs, row) {
      assert Holds(fs[0], row) && Holds(fs[1], row);
      var k := 2;
      if Given(req.userId) {
        assert fs[k] == UserIs(req.userId.value) && Holds(fs[k], row);
        k := k + 1;
      }
      if Given(req.planType) {
        assert fs[k] == PlanIs(req.planType.value) && Holds(fs[k], row);
        k := k + 1;
      }
      if Given(req.usageType) {
        assert fs[k] == UsageTypeIs(req.usageType.value) && Holds(fs[k], row);
      }
    }
  }

  // ------------------------------------------------------------ size buckets

  const MB: int := 1024 * 1024

  const SMALL := "small (<1MB)"
  const MEDIUM := "medium (1-10MB)"
  const LARGE := "large (10-25MB)"
  const VERY_LARGE := "very_large (>25MB)"

  /** The size category of a file: below 1, 10 and 25 MiB, or larger. */
  function SizeCategory(bytes: int): (c: string)
    ensures c in {SMALL, MEDIUM, LARGE, VERY_LARGE}
    ensures c == SMALL <==> bytes < MB
    ensures c == VERY_LARGE <==> bytes >= 25 * MB
  {
    if bytes < MB then SMALL
    else if bytes < 10 * MB then MEDIUM
    else if bytes < 25 * MB then LARGE
    else VERY_LARGE
  }

  function CategoryRank(c: string): nat {
    if c == SMALL then 0 else if c == MEDIUM then 1 else if c == LARGE then 2 else 3
  }

  /** A larger file never falls into a smaller bucket. */
  lemma SizeCategoryMonotone(a: int, b: int)
    requires a <= b
    ensures CategoryRank(SizeCategory(a)) <= CategoryRank(SizeCategory(b))
  {
  }

  /** How many rows with a positive size fall into `category`. */
  function CountInCategory(rows: seq<UsageRow>, category: string): (n: nat)
    ensures n <= |rows|
  {
    if rows == [] then 0
    else
      var last := rows[|rows| - 1];
      CountInCategory(rows[..|rows| - 1], category)
        + (if last.fileSizeBytes > 0 && SizeCategory(last.fileSizeBytes) == category then 1 else 0)
  }

  function CountSized(rows: seq<UsageRow>): (n: nat)
    ensures n <= |rows|
  {
    if rows == [] then 0
    else CountSized(rows[..|rows| - 1]) + (if rows[|rows| - 1].fileSizeBytes > 0 then 1 else 0)
  }

  /** `_get_file_size_distribution`: a count per non-empty bucket; rows of size zero are left out. */
  function FileSizeDistribution(rows: seq<UsageRow>): (d: map<string, nat>)
    ensures d.Keys <= {SMALL, MEDIUM, LARGE, VERY_LARGE}
    ensures forall c :: c in d ==> d[c] > 0 && d[c] == CountInCategory(rows, c)
  {
    map c | c in {SMALL, MEDIUM, LARGE, VERY_LARGE} && CountInCategory(rows, c) > 0 :: CountInCategory(rows, c)
  }

  /** Every row of positive size is counted in exactly one bucket. */
  lemma {:induction false} BucketsPartition(rows: seq<UsageRow>)
    ensures CountInCategory(rows, SMALL) + CountInCategory(rows, MEDIUM)
          + CountInCategory(rows, LARGE) + CountInCategory(rows, VERY_LARGE) == CountSized(rows)
  {
    if rows != [] {
      BucketsPartition(rows[..|rows| - 1]);
    }
  }

  function Get(d: map<string, nat>, c: string): nat {
    if c in d then d[c] else 0
  }

  /** The distribution's counts add up to the rows of positive size. */
  lemma DistributionTotal(rows: seq<UsageRow>)
    ensures var d := FileSizeDistribution(rows);
      Get(d, SMALL) + Get(d, MEDIUM) + Get(d, LARGE) + Get(d, VERY_LARGE) == CountSized(rows)
  {
    BucketsPartition(rows);
  }

  // --------------------------------------------------------- recommendations

  const SHORT_RECOMMENDATION := "Consider implementing minimum billing duration to optimize costs for short transcriptions"
  const RETRY_RECOMMENDATION := "Investigate retry causes to reduce processing costs from failed jobs"
  const LONG_RECOMMENDATION := "Consider implementing file size limits to manage processing costs"

  /**
   * The optimisation figures of the period. `SUM` and `AVG` over no joined rows are
   * SQL's NULL, a missing value here; the counts are never NULL.
   */
  datatype OptimizationData = OptimizationData(shortTranscriptions: nat, totalTranscriptions: nat,
                                               costFromRetries: Option<real>, avgDurationSeconds: Option<real>)

  /** The share of short transcriptions, over at least one. */
  function ShortShare(data: OptimizationData): (r: real)
    ensures data.totalTranscriptions > 0 ==> r * data.totalTranscriptions as real == data.shortTranscriptions as real
    ensures data.totalTranscriptions == 0 ==> r == data.shortTranscriptions as real
  {
    data.shortTranscriptions as real / (if data.totalTranscriptions > 1 then data.totalTranscriptions else 1) as real
  }

  /** The recommendations for figures that are all present: each threshold, in order. */
  function Recommend(short: real, retries: real, avg: real): (recs: seq<string>)
    ensures SHORT_RECOMMENDATION in recs <==> short > 0.3
    ensures RETRY_RECOMMENDATION in recs <==> retries > 0.0
    ensures LONG_RECOMMENDATION in recs <==> avg > 1800.0
    ensures |recs| <= 3
    ensures recs == [] <==> short <= 0.3 && retries <= 0.0 && avg <= 1800.0
    ensures |recs| > 0 && short > 0.3 ==> recs[0] == SHORT_RECOMMENDATION
    ensures |recs| > 0 && avg > 1800.0 ==> recs[|recs| - 1] == LONG_RECOMMENDATION
  {
    (if short > 0.3 then [SHORT_RECOMMENDATION] else [])
    + (if retries > 0.0 then [RETRY_RECOMMENDATION] else [])
    + (if avg > 1800.0 then [LONG_RECOMMENDATION] else [])
  }

  /** `get_cost_analysis` answers any failure with 500. */
  const COST_ANALYSIS_FAILED := 500

  /**
   * `_generate_cost_recommendations` as written: a NULL retry cost or average
   * duration is compared with a number, which raises, and the cost analysis
   * answers 500; otherwise each recommendation iff its threshold is passed.
   */
  function CostRecommendations(data: OptimizationData): (r: Result<seq<string>, int>)
    ensures r.Err? <==> data.costFromRetries.None? || data.avgDurationSeconds.None?
    ensures r.Err? ==> r.error == COST_ANALYSIS_FAILED
    ensures r.Ok? ==> var recs := r.value;
      && (SHORT_RECOMMENDATION in recs <==> ShortShare(data) > 0.3)
      && (RETRY_RECOMMENDATION in recs <==> data.costFromRetries.value > 0.0)
      && (LONG_RECOMMENDATION in recs <==> data.avgDurationSeconds.value > 1800.0)
      && |recs| <= 3
  {
    if data.costFromRetries.None? || data.avgDurationSeconds.None? then Err(COST_ANALYSIS_FAILED)
    else Ok(Recommend(ShortShare(data), data.costFromRetries.value, data.avgDurationSeconds.value))
  }

  /** A period without a joined transcription row: no sums, no average. */
  function EmptyPeriodData(): OptimizationData {
    OptimizationData(0, 0, None, None)
  }

  /** As written, the cost analysis of a period without transcriptions fails with 500. */
  lemma EmptyPeriodFailsAsWritten()
    ensures CostRecommendations(EmptyPeriodData()) == Err(COST_ANALYSIS_FAILED)
  {
  }

  /**
   * The recommendations with a NULL read as 0, as the same response already does
   * for the figures it reports: never a failure.
   */
  function CostRecommendationsNullAsZero(data: OptimizationData): (recs: seq<string>)
    ensures RETRY_RECOMMENDATION in recs <==> RealOrZero(data.costFromRetries) > 0.0
    ensures LONG_RECOMMENDATION in recs <==> RealOrZero(data.avgDurationSeconds) > 1800.0
    ensures CostRecommendations(data).Ok? ==> recs == CostRecommendations(data).value
  {
    Recommend(ShortShare(data), RealOrZero(data.costFromRetries), RealOrZero(data.avgDurationSeconds))
  }

  /** Corrected: a period without transcriptions gives no recommendation instead of an error. */
  lemma EmptyPeriodNoRecommendations()
    ensures CostRecommendationsNullAsZero(EmptyPeriodData()) == []
  {
  }

  const ONBOARDING_INSIGHT := "Low average transcriptions per user suggests need for better onboarding"
  const RETENTION_INSIGHT := "Users are active for few days - consider retention campaigns"
  const FIT_INSIGHT := "High new user activation rate indicates strong product-market fit"

  /** The behaviour figures; a missing value is SQL's NULL. */
  datatype BehaviorData = BehaviorData(
    avgTranscriptionsPerUser: Option<real>,
    avgActiveDaysPerUser: Option<real>,
    newUsersActivated: Option<nat>,
    totalActiveUsers: Option<nat>)

  function RealOrZero(x: Option<real>): real {
    if x.Some? then x.value else 0.0
  }

  function NatOrZero(x: Option<nat>): nat {
    if x.Some? then x.value else 0
  }

  /** `_generate_engagement_insights`; the activation rate is looked at only when both counts are non-zero. */
  function EngagementInsights(data: BehaviorData): (insights: seq<string>)
    ensures ONBOARDING_INSIGHT in insights <==> RealOrZero(data.avgTranscriptionsPerUser) < 2.0
    ensures RETENTION_INSIGHT in insights <==> RealOrZero(data.avgActiveDaysPerUser) < 3.0
    ensures FIT_INSIGHT in insights <==>
      NatOrZero(data.newUsersActivated) > 0 && NatOrZero(data.totalActiveUsers) > 0
      && 2 * NatOrZero(data.newUsersActivated) > NatOrZero(data.totalActiveUsers)
    ensures data == BehaviorData(None, None, None, None) ==> insights == [ONBOARDING_INSIGHT, RETENTION_INSIGHT]
  {
    var activated := NatOrZero(data.newUsersActivated);
    var active := NatOrZero(data.totalActiveUsers);
    if active > 0 then
      RateAboveHalf(activated, active);
    (if RealOrZero(data.avgTranscriptionsPerUser) < 2.0 then [ONBOARDING_INSIGHT] else [])
    + (if RealOrZero(data.avgActiveDaysPerUser) < 3.0 then [RETENTION_INSIGHT] else [])
    + (if activated > 0 && active > 0 && activated as real / active as real > 0.5 then [FIT_INSIGHT] else [])
    else
    (if RealOrZero(data.avgTranscriptionsPerUser) < 2.0 then [ONBOARDING_INSIGHT] else [])
    + (if RealOrZero(data.avgActiveDaysPerUser) < 3.0 then [RETENTION_INSIGHT] else [])
  }

  lemma RateAboveHalf(a: nat, t: nat)
    requires t > 0
    ensures a as real / t as real > 0.5 <==> 2 * a > t
  {
    RealRateAboveHalf(a as real, t as real);
  }

  lemma RealRateAboveHalf(a: real, t: real)
    requires t > 0.0
    ensures a / t > 0.5 <==> 2.0 * a > t
  {
    var d := a / t - 0.5;
    assert d * t == a - 0.5 * t;
    if d > 0.0 {
      PositiveProduct(d, t);
    }
    if 2.0 * a > t {
      PositiveFactor(d, t);
    }
  }

  lemma PositiveProduct(x: real, y: real)
    requires x > 0.0 && y > 0.0
    ensures x * y > 0.0
  {
  }

  lemma PositiveFactor(x: real, y: real)
    requires y > 0.0 && x * y > 0.0
    ensures x > 0.0
  {
  }

  // ----------------------------------------------------------- the response

  datatype AnalyticsResponse = AnalyticsResponse(
    totalUsers: nat,
    activeUsers: nat,
    totalTranscriptions: nat,
    totalDurationHours: real,
    totalCost: real,
    averageCostPerUser: real,
    planDistribution: map<string, nat>,
    usageByDay: seq<(Date, nat)>,
    topUsers: seq<(string, nat)>,
    peakHours: seq<nat>,
    fileSizeDistribution: map<string, nat>)

  /** The users a set of selected rows belongs to. */
  function UsersOf(rows: seq<UsageRow>): set<string> {
    set i | 0 <= i < |rows| :: rows[i].userId
  }

  function SumSeconds(rows: seq<UsageRow>): int {
    if rows == [] then 0 else SumSeconds(rows[..|rows| - 1]) + rows[|rows| - 1].durationSeconds
  }

  function SumRowCost(rows: seq<UsageRow>): real {
    if rows == [] then 0.0 else SumRowCost(rows[..|rows| - 1]) + rows[|rows| - 1].cost
  }

  /**
   * The summary the main analytics query gives for a set of selected rows: distinct users, the
   * users with at least one event (every group has one, so all of them), the events, the summed
   * duration in hours and cost, and the size buckets.
   */
  function RowFigures(rows: seq<UsageRow>): (r: AnalyticsResponse)
    ensures r.totalTranscriptions == |rows|
    ensures r.totalUsers == |UsersOf(rows)| <= |rows|
    ensures r.activeUsers == r.totalUsers
    ensures r.totalUsers == 0 <==> rows == []
    ensures r.totalDurationHours == SumSeconds(rows) as real / 3600.0
    ensures r.totalCost == SumRowCost(rows)
    ensures r.fileSizeDistribution == FileSizeDistribution(rows)
  {
    var users := UsersOf(rows);
    CardImage(rows);
    assert rows != [] ==> rows[0].userId in users;
    AnalyticsResponse(|users|, |users|, |rows|, SumSeconds(rows) as real / 3600.0, SumRowCost(rows), 0.0,
      map[], [], [], [], FileSizeDistribution(rows))
  }

  /** Selecting two batches of rows together adds their durations and costs. */
  lemma {:induction false} FiguresAdd(a: seq<UsageRow>, b: seq<UsageRow>)
    ensures SumSeconds(a + b) == SumSeconds(a) + SumSeconds(b)
    ensures SumRowCost(a + b) == SumRowCost(a) + SumRowCost(b)
    ensures UsersOf(a + b) == UsersOf(a) + UsersOf(b)
    decreases |b|
  {
    if b == [] {
      assert a + b == a;
    } else {
      var init := b[..|b| - 1];
      FiguresAdd(a, init);
      assert (a + b)[..|a + b| - 1] == a + init;
      assert (a + b)[|a + b| - 1] == b[|b| - 1];
    }
    forall u | u in UsersOf(a + b)
      ensures u in UsersOf(a) + UsersOf(b)
    {
      var i :| 0 <= i < |a + b| && (a + b)[i].userId == u;
      if i < |a| {
        assert a[i] == (a + b)[i];
      } else {
        assert b[i - |a|] == (a + b)[i];
      }
    }
    forall u | u in UsersOf(a) + UsersOf(b)
      ensures u in UsersOf(a + b)
    {
      if u in UsersOf(a) {
        var i :| 0 <= i < |a| && a[i].userId == u;
        assert (a + b)[i] == a[i];
      } else {
        var i :| 0 <= i < |b| && b[i].userId == u;
        assert (a + b)[|a| + i] == b[i];
      }
    }
  }

  lemma {:induction false} CardImage(rows: seq<UsageRow>)
    ensures |set i | 0 <= i < |rows| :: rows[i].userId| <= |rows|
  {
    if rows != [] {
      var init := rows[..|rows| - 1];
      CardImage(init);
      var a := set i | 0 <= i < |init| :: init[i].userId;
      var b := set i | 0 <= i < |rows| :: rows[i].userId;
      assert b == a + {rows[|rows| - 1].userId} by {
        forall u | u in b
          ensures u in a + {rows[|rows| - 1].userId}
        {
          var i :| 0 <= i < |rows| && rows[i].userId == u;
          if i < |init| {
            assert init[i] == rows[i];
          }
        }
        forall u | u in a
          ensures u in b
        {
          var i :| 0 <= i < |init| && init[i].userId == u;
          assert rows[i] == init[i];
        }
      }
    }
  }

  /** `_empty_analytics_response`. */
  function EmptyAnalyticsResponse(): (r: AnalyticsResponse)
    ensures r.totalUsers == 0 && r.activeUsers == 0 && r.totalTranscriptions == 0
    ensures r.totalDurationHours == 0.0 && r.totalCost == 0.0 && r.averageCostPerUser == 0.0
    ensures r.planDistribution == map[] && r.fileSizeDistribution == map[]
    ensures r.usageByDay == [] && r.topUsers == [] && r.peakHours == []
  {
    AnalyticsResponse(0, 0, 0, 0.0, 0.0, 0.0, map[], [], [], [], map[])
  }

  /** No selected rows give the empty response's figures. */
  lemma NoRowsIsEmpty()
    ensures RowFigures([]) == EmptyAnalyticsResponse()
  {
    var none: seq<UsageRow> := [];
    assert UsersOf(none) == {};
    assert FileSizeDistribution(none) == map[];
  }
}

=== FILE: billing.dfy ===
/**
 * The usage engine's credit arithmetic and its anniversary-anchored calendar:
 * one credit per started minute (never fewer than one), the billing period
 * that runs from the creation day of one month to the day before the creation
 * day of the next, and the next reset date of a manual reset. A period or reset
 * date whose anniversary day does not exist in the month FAILS (`None`).
 */
module Billing {
  import opened Wrappers
  import opened Calendar
  import UsageSchemas

  function Max(a: int, b: int): int { if a >= b then a else b }

  /** `ceil(a / b)` for a positive divisor, as SQL's `CEIL(a::float / b)` computes it. */
  function CeilDiv(a: int, b: int): int
    requires b > 0
  {
    -((-a) / b)
  }

  /** The charge `record_usage` computes: `max(1, (d + 59) // 60)` if `d > 0`, else 1. */
  function RecordedCredits(durationSeconds: int): (c: int)
    ensures c >= 1
    ensures durationSeconds > 0 ==> 60 * (c - 1) < durationSeconds <= 60 * c
    ensures durationSeconds <= 0 ==> c == 1
  {
    if durationSeconds > 0 then Max(1, (durationSeconds + 59) / 60) else 1
  }

  /** The credits `check_usage_limits` requires: `max(1, (d + 59) // 60)`. */
  function RequiredCredits(estimatedSeconds: int): (c: int)
    ensures c >= 1
    ensures estimatedSeconds > 0 ==> 60 * (c - 1) < estimatedSeconds <= 60 * c
    ensures estimatedSeconds <= 0 ==> c == 1
  {
    Max(1, (estimatedSeconds + 59) / 60)
  }

  /** A check and the record that follows it charge the same number of credits. */
  lemma CheckMatchesRecord(d: int)
    ensures RequiredCredits(d) == RecordedCredits(d)
  {
  }

  /**
   * The per-row charge of the ledger aggregates: `GREATEST(1, CEIL(d / 60))` for a
   * transcription row and 1 for any other row.
   */
  function RowCredits(usageType: string, durationSeconds: int): (c: int)
    ensures c >= 1
  {
    if usageType == UsageSchemas.TRANSCRIPTION then Max(1, CeilDiv(durationSeconds, 60)) else 1
  }

  /** The aggregate charges a transcription row exactly what was computed when it was recorded. */
  lemma RowCreditsAgreeWithRecord(usageType: string, d: int)
    ensures RowCredits(usageType, d) == if usageType == UsageSchemas.TRANSCRIPTION then RecordedCredits(d) else 1
  {
    if usageType == UsageSchemas.TRANSCRIPTION && d > 0 {
      var c := RecordedCredits(d);
      assert 60 * (c - 1) < d <= 60 * c;
      assert -d / 60 == -c by {
        assert -60 * c <= -d < -60 * c + 60;
      }
    }
  }

  // ---------------------------------------------------------------------------
  // Billing periods

  datatype Period = Period(start: Date, end: Date)

  /** The (year, month) in which the current period starts. */
  function StartMonth(anchorDay: int, today: Date): (int, int)
    requires Valid(today)
  {
    if today.day >= anchorDay then (today.year, today.month) else MonthBefore(today.year, today.month)
  }

  /**
   * `_get_user_billing_period`: the period starts on the anchor day of this month
   * when today has reached it, else on the anchor day of the previous month, and
   * ends the day before the anchor day of the month after the start. `None` is the
   * `ValueError` of `date()` when the anchor day does not exist in either month.
   */
  function BillingPeriod(created: Date, today: Date): (r: Option<Period>)
    requires Valid(created) && Valid(today)
    ensures r.Some? ==> Valid(r.value.start) && Valid(r.value.end)
    ensures r.Some? ==> r.value.start.day == created.day && NextDay(r.value.end).day == created.day
    ensures r.Some? ==> AtOrBefore(r.value.start, today) && AtOrBefore(today, r.value.end)
  {
    var d := created.day;
    var startMonth := StartMonth(d, today);
    match MakeDate(startMonth.0, startMonth.1, d)
    case None => None
    case Some(start) =>
      var nextMonth := MonthAfter(start.year, start.month);
      match MakeDate(nextMonth.0, nextMonth.1, d)
      case None => None
      case Some(anniversary) =>
        PeriodFacts(created, today, start, anniversary);
        Some(Period(start, PrevDay(anniversary)))
  }

  lemma PeriodFacts(created: Date, today: Date, start: Date, anniversary: Date)
    requires Valid(created) && Valid(today) && Valid(start) && Valid(anniversary)
    requires start.day == created.day && anniversary.day == created.day
    requires (start.year, start.month) == StartMonth(created.day, today)
    requires (anniversary.year, anniversary.month) == MonthAfter(start.year, start.month)
    ensures NextDay(PrevDay(anniversary)) == anniversary
    ensures AtOrBefore(start, today) && AtOrBefore(today, PrevDay(anniversary))
  {
    PrevOfNext(anniversary);
    assert Before(today, anniversary);
    BeforeThenAtOrBeforePrev(today, anniversary);
  }

  /**
   * Where the period fails: exactly when the anchor day is missing from the month
   * the period starts in or from the month after it.
   */
  lemma BillingPeriodDefined(created: Date, today: Date)
    requires Valid(created) && Valid(today)
    ensures var s := StartMonth(created.day, today);
      var n := MonthAfter(s.0, s.1);
      BillingPeriod(created, today).Some? <==>
        created.day <= DaysInMonth(s.0, s.1) && created.day <= DaysInMonth(n.0, n.1)
  {
  }

  /** An anchor day no later than the 28th never fails. */
  lemma EarlyAnchorAlwaysDefined(created: Date, today: Date)
    requires Valid(created) && Valid(today) && created.day <= 28
    ensures BillingPeriod(created, today).Some?
  {
    BillingPeriodDefined(created, today);
  }

  /** An account created on the 31st has no period on 15 March of any year: 31 February does not exist. */
  lemma ThirtyFirstFailsInMarch(created: Date, year: int)
    requires Valid(created) && created.day == 31
    ensures BillingPeriod(created, Date(year, 3, 15)).None?
  {
    BillingPeriodDefined(created, Date(year, 3, 15));
  }

  /** Consecutive periods are contiguous: the day after one period's end starts the next. */
  lemma PeriodsAreContiguous(created: Date, today: Date)
    requires Valid(created) && Valid(today)
    requires BillingPeriod(created, today).Some?
    ensures var p := BillingPeriod(created, today).value;
      var q := BillingPeriod(created, NextDay(p.end));
      q.Some? ==> q.value.start == NextDay(p.end)
  {
  }

  /** On the anniversary day itself the period starts today. */
  lemma PeriodStartsOnAnniversary(created: Date, today: Date)
    requires Valid(created) && Valid(today) && today.day == created.day
    requires BillingPeriod(created, today).Some?
    ensures BillingPeriod(created, today).value.start == today
  {
  }

  // ---------------------------------------------------------------------------
  // Manual reset

  /**
   * The next reset date of `perform_monthly_reset`: the anchor day of this month
   * when it is still ahead, else the anchor day of the next month. `None` is the
   * `ValueError` of `date()`.
   */
  function NextResetDate(created: Date, today: Date): (r: Option<Date>)
    requires Valid(created) && Valid(today)
    ensures r.Some? ==> Valid(r.value) && r.value.day == created.day && Before(today, r.value)
  {
    var d := created.day;
    if today.day >= d then
      var thisMonth := MakeDate(today.year, today.month, d);
      if thisMonth.Some? && AtOrBefore(thisMonth.value, today) then
        var n := MonthAfter(today.year, today.month);
        MakeDate(n.0, n.1, d)
      else thisMonth
    else MakeDate(today.year, today.month, d)
  }

  /** The reset date fails exactly when its anchor day is missing from its month. */
  lemma NextResetDateDefined(created: Date, today: Date)
    requires Valid(created) && Valid(today)
    ensures var n := MonthAfter(today.year, today.month);
      NextResetDate(created, today).Some? <==>
        if today.day >= created.day then created.day <= DaysInMonth(n.0, n.1)
        else created.day <= DaysInMonth(today.year, today.month)
  {
  }

  /** The reset date is the first anchor day strictly after today: no anchor day lies between. */
  lemma NextResetDateIsFirst(created: Date, today: Date, other: Date)
    requires Valid(created) && Valid(today) && Valid(other)
    requires NextResetDate(created, today).Some?
    requires other.day == created.day && Before(today, other)
    ensures AtOrBefore(NextResetDate(created, today).value, other)
  {
  }
}

=== FILE: calendar.dfy ===
/**
 * Calendar days in the proleptic Gregorian calendar, as Python's `datetime.date`
 * represents them. Building a date whose day does not exist in its month FAILS
 * (`MakeDate` returns `None`), exactly where Python's `date(y, m, d)` raises;
 * nothing is clamped or rolled over.
 */
module Calendar {
  import opened Wrappers

  datatype Date = Date(year: int, month: int, day: int)

  predicate IsLeapYear(y: int) {
    y % 4 == 0 && (y % 100 != 0 || y % 400 == 0)
  }

  function DaysInMonth(y: int, m: int): (n: int)
    requires 1 <= m <= 12
    ensures 28 <= n <= 31
  {
    if m == 2 then (if IsLeapYear(y) then 29 else 28)
    else if m == 4 || m == 6 || m == 9 || m == 11 then 30
    else 31
  }

  function DaysInYear(y: int): int {
    if IsLeapYear(y) then 366 else 365
  }

  /** A day that exists: month in 1..12 and day within that month's length. */
  predicate Valid(d: Date) {
    1 <= d.month <= 12 && 1 <= d.day <= DaysInMonth(d.year, d.month)
  }

  /** A date that exists, as every stored Python `date` does. */
  type Day = d: Date | Valid(d) witness Date(1, 1, 1)

  predicate IsLastDayOfMonth(d: Date)
    requires Valid(d)
  {
    d.day == DaysInMonth(d.year, d.month)
  }

  /** Python's `date(y, m, d)`: `None` stands for the `ValueError` it raises. */
  function MakeDate(y: int, m: int, d: int): (r: Option<Date>)
    ensures r.Some? <==> 1 <= m <= 12 && 1 <= d && d <= DaysInMonth(y, m)
    ensures r.Some? ==> Valid(r.value) && r.value.year == y && r.value.month == m && r.value.day == d
  {
    if 1 <= m <= 12 && 1 <= d <= DaysInMonth(y, m) then Some(Date(y, m, d)) else None
  }

  /** `d + timedelta(days=1)`. */
  function NextDay(d: Date): (r: Date)
    requires Valid(d)
    ensures Valid(r)
  {
    if d.day < DaysInMonth(d.year, d.month) then Date(d.year, d.month, d.day + 1)
    else if d.month < 12 then Date(d.year, d.month + 1, 1)
    else Date(d.year + 1, 1, 1)
  }

  /** `d - timedelta(days=1)`. */
  function PrevDay(d: Date): (r: Date)
    requires Valid(d)
    ensures Valid(r)
  {
    if d.day > 1 then Date(d.year, d.month, d.day - 1)
    else if d.month > 1 then Date(d.year, d.month - 1, DaysInMonth(d.year, d.month - 1))
    else Date(d.year - 1, 12, 31)
  }

  /** `d + timedelta(days=n)`. */
  function AddDays(d: Date, n: nat): (r: Date)
    requires Valid(d)
    ensures Valid(r)
    decreases n
  {
    if n == 0 then d else AddDays(NextDay(d), n - 1)
  }

  /** `d - timedelta(days=n)`. */
  function SubDays(d: Date, n: nat): (r: Date)
    requires Valid(d)
    ensures Valid(r)
    decreases n
  {
    if n == 0 then d else SubDays(PrevDay(d), n - 1)
  }

  /** Strict chronological order, `a < b` on Python dates. */
  predicate Before(a: Date, b: Date) {
    a.year < b.year
    || (a.year == b.year && a.month < b.month)
    || (a.year == b.year && a.month == b.month && a.day < b.day)
  }

  predicate AtOrBefore(a: Date, b: Date) {
    a == b || Before(a, b)
  }

  function FirstOfMonth(d: Date): (r: Date)
    requires Valid(d)
    ensures Valid(r) && r.day == 1 && AtOrBefore(r, d)
  {
    Date(d.year, d.month, 1)
  }

  function FirstOfNextMonth(d: Date): (r: Date)
    requires Valid(d)
    ensures Valid(r) && r.day == 1 && Before(d, r)
  {
    if d.month == 12 then Date(d.year + 1, 1, 1) else Date(d.year, d.month + 1, 1)
  }

  /** The (year, month) after `(y, m)`: December rolls over to January of the next year. */
  function MonthAfter(y: int, m: int): (r: (int, int))
    requires 1 <= m <= 12
    ensures 1 <= r.1 <= 12
  {
    if m == 12 then (y + 1, 1) else (y, m + 1)
  }

  /** The (year, month) before `(y, m)`: January rolls back to December of the previous year. */
  function MonthBefore(y: int, m: int): (r: (int, int))
    requires 1 <= m <= 12
    ensures 1 <= r.1 <= 12
    ensures MonthAfter(r.0, r.1) == (y, m)
  {
    if m == 1 then (y - 1, 12) else (y, m - 1)
  }

  // ---------------------------------------------------------------------------
  // Day numbers (Python's `date.toordinal`): 0001-01-01 is day 1.

  function DaysBeforeYear(y: int): int {
    var p := y - 1;
    365 * p + p / 4 - p / 100 + p / 400
  }

  function DaysBeforeMonth(y: int, m: int): int
    requires 1 <= m <= 12
  {
    var common :=
      if m == 1 then 0 else if m == 2 then 31 else if m == 3 then 59
      else if m == 4 then 90 else if m == 5 then 120 else if m == 6 then 151
      else if m == 7 then 181 else if m == 8 then 212 else if m == 9 then 243
      else if m == 10 then 273 else if m == 11 then 304 else 334;
    if m > 2 && IsLeapYear(y) then common + 1 else common
  }

  function Ordinal(d: Date): int
    requires Valid(d)
  {
    DaysBeforeYear(d.year) + DaysBeforeMonth(d.year, d.month) + d.day
  }

  /** `(b - a).days`. */
  function DaysBetween(a: Date, b: Date): int
    requires Valid(a) && Valid(b)
  {
    Ordinal(b) - Ordinal(a)
  }

  lemma DivStep(y: int, k: int)
    requires k == 4 || k == 100 || k == 400
    ensures y / k - (y - 1) / k == if y % k == 0 then 1 else 0
  {
    if k == 4 {
      assert y / 4 - (y - 1) / 4 == if y % 4 == 0 then 1 else 0;
    } else if k == 100 {
      assert y / 100 - (y - 1) / 100 == if y % 100 == 0 then 1 else 0;
    } else {
      assert y / 400 - (y - 1) / 400 == if y % 400 == 0 then 1 else 0;
    }
  }

  /** Consecutive years start `DaysInYear` days apart. */
  lemma YearLength(y: int)
    ensures DaysBeforeYear(y + 1) == DaysBeforeYear(y) + DaysInYear(y)
  {
    DivStep(y, 4);
    DivStep(y, 100);
    DivStep(y, 400);
  }

  lemma {:induction false} YearsIncrease(y1: int, y2: int)
    requires y1 < y2
    ensures DaysBeforeYear(y1) + DaysInYear(y1) <= DaysBeforeYear(y2)
    decreases y2 - y1
  {
    YearLength(y1);
    if y1 + 1 < y2 {
      YearsIncrease(y1 + 1, y2);
    }
  }

  /** A valid date's day number lies inside its own year. */
  lemma OrdinalInYear(d: Date)
    requires Valid(d)
    ensures DaysBeforeYear(d.year) < Ordinal(d) <= DaysBeforeYear(d.year) + DaysInYear(d.year)
  {
  }

  /** A valid date's day number lies after every earlier month of its year. */
  lemma OrdinalAfterMonth(d: Date, m: int)
    requires Valid(d) && 1 <= m < d.month
    ensures DaysBeforeYear(d.year) + DaysBeforeMonth(d.year, m) + DaysInMonth(d.year, m) < Ordinal(d)
  {
  }

  /** Adding one day adds one to the day number. */
  lemma NextDayOrdinal(d: Date)
    requires Valid(d)
    ensures Ordinal(NextDay(d)) == Ordinal(d) + 1
  {
    if d.day == DaysInMonth(d.year, d.month) && d.month == 12 {
      YearLength(d.year);
    }
  }

  lemma PrevDayOrdinal(d: Date)
    requires Valid(d)
    ensures Ordinal(PrevDay(d)) == Ordinal(d) - 1
  {
    if d.day == 1 && d.month == 1 {
      YearLength(d.year - 1);
    }
  }

  lemma {:induction false} AddDaysOrdinal(d: Date, n: nat)
    requires Valid(d)
    ensures Ordinal(AddDays(d, n)) == Ordinal(d) + n
    decreases n
  {
    if n > 0 {
      NextDayOrdinal(d);
      AddDaysOrdinal(NextDay(d), n - 1);
    }
  }

  lemma {:induction false} SubDaysOrdinal(d: Date, n: nat)
    requires Valid(d)
    ensures Ordinal(SubDays(d, n)) == Ordinal(d) - n
    decreases n
  {
    if n > 0 {
      PrevDayOrdinal(d);
      SubDaysOrdinal(PrevDay(d), n - 1);
    }
  }

  /** Chronological order is the order of day numbers. */
  lemma BeforeOrdinal(a: Date, b: Date)
    requires Valid(a) && Valid(b)
    ensures Before(a, b) <==> Ordinal(a) < Ordinal(b)
    ensures a == b <==> Ordinal(a) == Ordinal(b)
  {
    OrdinalInYear(a);
    OrdinalInYear(b);
    if a.year < b.year {
      YearsIncrease(a.year, b.year);
    } else if b.year < a.year {
      YearsIncrease(b.year, a.year);
    } else if a.month < b.month {
      OrdinalAfterMonth(b, a.month);
    } else if b.month < a.month {
      OrdinalAfterMonth(a, b.month);
    }
  }

  lemma NextDayAfter(d: Date)
    requires Valid(d)
    ensures Before(d, NextDay(d))
  {
  }

  lemma PrevDayBefore(d: Date)
    requires Valid(d)
    ensures Before(PrevDay(d), d)
  {
  }

  /** Moving a day forward and back again returns the same day. */
  lemma PrevOfNext(d: Date)
    requires Valid(d)
    ensures PrevDay(NextDay(d)) == d && NextDay(PrevDay(d)) == d
  {
  }

  /** A day strictly before `b` is at or before the day preceding `b`. */
  lemma BeforeThenAtOrBeforePrev(a: Date, b: Date)
    requires Valid(a) && Valid(b) && Before(a, b)
    ensures AtOrBefore(a, PrevDay(b))
  {
    BeforeOrdinal(a, b);
    PrevDayOrdinal(b);
    BeforeOrdinal(a, PrevDay(b));
  }

  lemma BeforeTransitive(a: Date, b: Date, c: Date)
    requires Before(a, b) && AtOrBefore(b, c)
    ensures Before(a, c)
  {
  }
}

=== FILE: email.dfy ===
/**
 * The e-mail service: the address check, the paths of `send_email` that do
 * not depend on the mail provider's answer, and the credit figures of the
 * usage warning. The provider's answer is a parameter.
 */
module Email {
  import opened Wrappers
  import Exceptions

  // ----------------------------------------------------- the address check

  predicate IsLetter(c: char) {
    'a' <= c <= 'z' || 'A' <= c <= 'Z'
  }

  predicate IsAlnum(c: char) {
    IsLetter(c) || '0' <= c <= '9'
  }

  /** `[a-zA-Z0-9._%+-]`. */
  predicate LocalChar(c: char) {
    IsAlnum(c) || c == '.' || c == '_' || c == '%' || c == '+' || c == '-'
  }

  /** `[a-zA-Z0-9.-]`. */
  predicate DomainChar(c: char) {
    IsAlnum(c) || c == '.' || c == '-'
  }

  predicate AllLocal(s: string) {
    forall k :: 0 <= k < |s| ==> LocalChar(s[k])
  }

  predicate AllDomain(s: string) {
    forall k :: 0 <= k < |s| ==> DomainChar(s[k])
  }

  predicate AllLetters(s: string) {
    forall k :: 0 <= k < |s| ==> IsLetter(s[k])
  }

  /**
   * The pattern `[a-zA-Z0-9._%+-]+@[a-zA-Z0-9.-]+\.[a-zA-Z]{2,}` matching
   * all of `b`: an `@` at `i` and a `.` at `j` cut it into the local part,
   * the domain and a top-level domain of at least two letters.
   */
  predicate Pattern(b: string) {
    exists i, j :: 0 < i && i + 1 < j && j + 2 < |b| && b[i] == '@' && b[j] == '.'
      && AllLocal(b[..i]) && AllDomain(b[i + 1..j]) && AllLetters(b[j + 1..])
  }

  /** `re.match(pattern, s)` with `^…$`: Python's `$` also matches just before one final newline. */
  predicate RegexMatches(s: string) {
    Pattern(s) || (|s| > 0 && s[|s| - 1] == '\n' && Pattern(s[..|s| - 1]))
  }

  function IndexOf(s: string, c: char): (r: Option<nat>)
    ensures r.Some? ==> r.value < |s| && s[r.value] == c && forall k :: 0 <= k < r.value ==> s[k] != c
    ensures r.None? ==> forall k :: 0 <= k < |s| ==> s[k] != c
  {
    if s == [] then None
    else if s[0] == c then Some(0)
    else
      var r := IndexOf(s[1..], c);
      if r.Some? then Some(r.value + 1) else None
  }

  function LastIndexOf(s: string, c: char): (r: Option<nat>)
    ensures r.Some? ==> r.value < |s| && s[r.value] == c && forall k :: r.value < k < |s| ==> s[k] != c
    ensures r.None? ==> forall k :: 0 <= k < |s| ==> s[k] != c
  {
    if s == [] then None
    else if s[|s| - 1] == c then Some(|s| - 1)
    else LastIndexOf(s[..|s| - 1], c)
  }

  /** The domain and top-level domain after the `@`: the top-level domain follows the last dot. */
  predicate AcceptsDomain(r: string) {
    AllDomain(r) &&
    var j := LastIndexOf(r, '.');
    j.Some? && 0 < j.value && j.value + 2 < |r| && AllLetters(r[j.value + 1..])
  }

  /** The check by scanning: the first `@`, then the last `.` after it. */
  predicate Accepts(b: string) {
    var i := IndexOf(b, '@');
    i.Some? && 0 < i.value && AllLocal(b[..i.value]) && AcceptsDomain(b[i.value + 1..])
  }

  /** `_is_valid_email`. */
  predicate IsValidEmail(s: string) {
    var b := if |s| > 0 && s[|s| - 1] == '\n' then s[..|s| - 1] else s;
    Accepts(b)
  }

  /** The first `@` of a local part followed by `@` is that `@`. */
  lemma FirstAt(b: string, i: nat)
    requires i < |b| && b[i] == '@' && AllLocal(b[..i])
    ensures IndexOf(b, '@') == Some(i)
  {
    forall k | 0 <= k < i
      ensures b[k] != '@'
    {
      assert b[..i][k] == b[k];
    }
  }

  /** The last `.` of a domain is the one before an all-letter tail. */
  lemma LastDot(r: string, m: nat)
    requires m < |r| && r[m] == '.' && AllLetters(r[m + 1..])
    ensures LastIndexOf(r, '.') == Some(m)
  {
    forall k | m < k < |r|
      ensures r[k] != '.'
    {
      assert r[m + 1..][k - m - 1] == r[k];
    }
  }

  lemma AcceptsToPattern(b: string)
    requires Accepts(b)
    ensures Pattern(b)
  {
    var i := IndexOf(b, '@').value;
    var r := b[i + 1..];
    var j := LastIndexOf(r, '.').value;
    assert b[i + 1 + j + 1..] == r[j + 1..];
    assert b[i + 1 + j] == r[j];
    var d := b[i + 1..i + 1 + j];
    forall k | 0 <= k < j
      ensures DomainChar(d[k])
    {
      assert d[k] == r[k];
    }
    assert AllDomain(d);
  }

  lemma PatternToAccepts(b: string)
    requires Pattern(b)
    ensures Accepts(b)
  {
    var i, j :| 0 < i && i + 1 < j && j + 2 < |b| && b[i] == '@' && b[j] == '.'
      && AllLocal(b[..i]) && AllDomain(b[i + 1..j]) && AllLetters(b[j + 1..]);
    AcceptsAt(b, i, j);
  }

  /** The scan accepts an address cut by an `@` at `i` and a `.` at `j` as the pattern cuts it. */
  lemma AcceptsAt(b: string, i: nat, j: nat)
    requires 0 < i && i + 1 < j && j + 2 < |b| && b[i] == '@' && b[j] == '.'
    requires AllLocal(b[..i]) && AllDomain(b[i + 1..j]) && AllLetters(b[j + 1..])
    ensures Accepts(b)
  {
    FirstAt(b, i);
    assert b[i + 1..] == b[i + 1..j] + ['.'] + b[j + 1..];
    AcceptsDomainAt(b[i + 1..j], b[j + 1..]);
  }

  /** A non-empty domain name, a dot and a top-level domain of two letters or more pass the domain scan. */
  lemma AcceptsDomainAt(d: string, t: string)
    requires |d| > 0 && AllDomain(d) && |t| >= 2 && AllLetters(t)
    ensures AcceptsDomain(d + ['.'] + t)
  {
    var r := d + ['.'] + t;
    DomainJoin(d, t);
    assert r[|d| + 1..] == t;
    LastDot(r, |d|);
  }

  /** A domain name, a dot and an all-letter top-level domain are all domain characters. */
  lemma DomainJoin(d: string, t: string)
    requires AllDomain(d) && AllLetters(t)
    ensures AllDomain(d + ['.'] + t)
  {
    var r := d + ['.'] + t;
    forall k | 0 <= k < |r|
      ensures DomainChar(r[k])
    {
      if k < |d| {
        assert r[k] == d[k];
      } else if k > |d| {
        assert r[k] == t[k - |d| - 1];
      }
    }
  }

  /** Scanning for the first `@` and the last `.` accepts exactly what the pattern matches. */
  lemma AcceptsIsPattern(b: string)
    ensures Accepts(b) <==> Pattern(b)
  {
    if Accepts(b) {
      AcceptsToPattern(b);
    }
    if Pattern(b) {
      PatternToAccepts(b);
    }
  }

  /** A match of the pattern ends in a letter, never in a newline. */
  lemma PatternEndsInLetter(b: string)
    ensures Pattern(b) ==> IsLetter(b[|b| - 1])
  {
    if Pattern(b) {
      var i, j :| 0 < i && i + 1 < j && j + 2 < |b| && b[i] == '@' && b[j] == '.'
        && AllLocal(b[..i]) && AllDomain(b[i + 1..j]) && AllLetters(b[j + 1..]);
      assert b[j + 1..][|b| - 1 - (j + 1)] == b[|b| - 1];
    }
  }

  /** The address check is the pattern's match, trailing newline included. */
  lemma IsValidEmailMatchesPattern(s: string)
    ensures IsValidEmail(s) <==> RegexMatches(s)
  {
    AcceptsIsPattern(s);
    PatternEndsInLetter(s);
    if |s| > 0 && s[|s| - 1] == '\n' {
      AcceptsIsPattern(s[..|s| - 1]);
    }
  }

  lemma {:induction false} NoAtIn(t: string)
    requires forall k :: 0 <= k < |t| ==> t[k] != '@'
    ensures multiset(t)['@'] == 0
  {
    if t != [] {
      assert t == [t[0]] + t[1..];
      NoAtIn(t[1..]);
    }
  }

  lemma AcceptedHasOneAt(b: string) returns (i: nat, j: nat)
    requires Accepts(b)
    ensures multiset(b)['@'] == 1
    ensures 0 < i && i + 1 < j < |b| && b[i] == '@' && b[j] == '.'
  {
    i := IndexOf(b, '@').value;
    var r := b[i + 1..];
    var m := LastIndexOf(r, '.').value;
    j := i + 1 + m;
    assert b == b[..i] + [b[i]] + r;
    forall k | 0 <= k < i
      ensures b[..i][k] != '@'
    {
      assert LocalChar(b[..i][k]);
    }
    NoAtIn(b[..i]);
    forall k | 0 <= k < |r|
      ensures r[k] != '@'
    {
      assert DomainChar(r[k]);
    }
    NoAtIn(r);
    assert b[j] == r[m];
  }

  /** An accepted address has exactly one `@`, and a non-empty domain name before its last dot. */
  lemma AcceptedShape(s: string)
    requires IsValidEmail(s)
    ensures multiset(s)['@'] == 1
    ensures exists i, j :: 0 < i && i + 1 < j < |s| && s[i] == '@' && s[j] == '.'
  {
    var b := if |s| > 0 && s[|s| - 1] == '\n' then s[..|s| - 1] else s;
    var i, j := AcceptedHasOneAt(b);
    if b != s {
      assert s == b + ['\n'];
    }
    assert s[i] == b[i] && s[j] == b[j];
  }

  /** The trailing-newline quirk: the address with a final newline is accepted, with two it is not. */
  lemma TrailingNewlineAccepted()
    ensures IsValidEmail("a@b.co")
    ensures IsValidEmail("a@b.co\n")
    ensures !IsValidEmail("a@b.co\n\n")
    ensures !IsValidEmail("a@b.c")
  {
    SampleValid();
    SampleWithNewlineValid();
    SampleWithTwoNewlinesInvalid();
    ShortTopLevelInvalid();
  }

  lemma SampleValid()
    ensures IsValidEmail("a@b.co")
  {
    SampleAccepted();
    CheckedWhole("a@b.co");
  }

  lemma SampleWithNewlineValid()
    ensures IsValidEmail("a@b.co\n")
  {
    SampleAccepted();
    CheckedWithoutNewline("a@b.co");
    assert "a@b.co" + "\n" == "a@b.co\n";
  }

  lemma SampleWithTwoNewlinesInvalid()
    ensures !IsValidEmail("a@b.co\n\n")
  {
    NewlineRejected();
    CheckedWithoutNewline("a@b.co\n");
    assert "a@b.co\n" + "\n" == "a@b.co\n\n";
  }

  lemma ShortTopLevelInvalid()
    ensures !IsValidEmail("a@b.c")
  {
    ShortTopLevelRejected();
    CheckedWhole("a@b.c");
  }

  /** An address not ending in a newline is checked whole. */
  lemma CheckedWhole(s: string)
    requires |s| > 0 && s[|s| - 1] != '\n'
    ensures IsValidEmail(s) <==> Accepts(s)
  {
  }

  /** One final newline is dropped before the check. */
  lemma CheckedWithoutNewline(b: string)
    ensures IsValidEmail(b + "\n") <==> Accepts(b)
  {
    assert (b + "\n")[..|b|] == b;
  }

  lemma SampleAccepted()
    ensures Accepts("a@b.co")
  {
    var b := "a@b.co";
    assert b[..1] == "a";
    FirstAt(b, 1);
    var r := b[2..];
    assert r == "b.co" && r[2..] == "co";
    LastDot(r, 1);
  }

  /** A newline left inside the address fails the scan. */
  lemma NewlineRejected()
    ensures !Accepts("a@b.co\n")
  {
    var c := "a@b.co\n";
    AcceptsIsPattern(c);
    PatternEndsInLetter(c);
    assert !IsLetter(c[6]);
  }

  lemma ShortTopLevelRejected()
    ensures !Accepts("a@b.c")
  {
    AcceptsIsPattern("a@b.c");
  }

  // ---------------------------------------------------------------- sending

  /** What would be posted to the mail provider. */
  datatype EmailData = EmailData(sender: string, to: string, subject: string, html: string, text: Option<string>)

  datatype SendOutcome = Skipped(reason: string) | Sent(data: EmailData, messageId: Option<string>)

  /** Python's `a or b` on optional strings: `b` when `a` is missing or empty. */
  function OrElse(a: Option<string>, b: string): (r: string)
    ensures a.Some? && a.value != "" ==> r == a.value
    ensures a.None? || a.value == "" ==> r == b
  {
    if a.Some? && a.value != "" then a.value else b
  }

  const DEFAULT_FROM := "onboarding@resend.dev"

  /** `send_email`'s failures, all re-raised as the mail provider's external-API error. */
  function SendFailure(message: string): (e: Exceptions.AppException)
    ensures e.statusCode == 502 && e.errorCode == "RESEND_API_ERROR"
    ensures e.detail == "Email sending failed: " + message
  {
    var e := Exceptions.Raise(Exceptions.ExternalApi, Some("Email sending failed: " + message), Some("resend"));
    assert e.errorCode == Exceptions.ExternalCode(Some("resend"));
    e
  }

  class EmailService {
    var resendApiKey: Option<string>
    var fromEmail: Option<string>
    var supportEmail: Option<string>

    constructor()
      ensures resendApiKey.None? && fromEmail.None? && supportEmail.None?
    {
      resendApiKey := None;
      fromEmail := None;
      supportEmail := None;
    }

    /** `initialize`: the key as configured, the sender defaulting to the provider's address, support to the sender. */
    method Initialize(apiKey: Option<string>, configuredFrom: Option<string>, configuredSupport: Option<string>)
      modifies this
      ensures resendApiKey == apiKey
      ensures fromEmail == Some(OrElse(configuredFrom, DEFAULT_FROM))
      ensures supportEmail == Some(OrElse(configuredSupport, fromEmail.value))
    {
      resendApiKey := apiKey;
      var sender := OrElse(configuredFrom, DEFAULT_FROM);
      fromEmail := Some(sender);
      supportEmail := Some(OrElse(configuredSupport, sender));
    }

    predicate Configured()
      reads this
    {
      resendApiKey.Some? && resendApiKey.value != ""
    }

    /**
     * `send_email`: skipped when no key is configured, refused when the
     * address fails the check, otherwise posted; `provider` is the
     * provider's message id or the text of the error it raised.
     */
    function SendEmail(to: string, subject: string, html: string, text: Option<string>, sender: Option<string>,
                       provider: Result<Option<string>, string>): (r: Result<SendOutcome, Exceptions.AppException>)
      reads this
      ensures !Configured() ==> r == Ok(Skipped("service_not_configured"))
      ensures Configured() && !IsValidEmail(to) ==> r == Err(SendFailure("Invalid email address: " + to))
      ensures r.Ok? && r.value.Sent? ==> Configured() && IsValidEmail(to) && provider.Ok?
      ensures r.Ok? && r.value.Sent? ==>
        && r.value.data.to == to
        && r.value.data.sender == OrElse(sender, if fromEmail.Some? then fromEmail.value else "")
        && (r.value.data.text.Some? <==> text.Some? && text.value != "")
      ensures Configured() && IsValidEmail(to) && provider.Err? ==> r == Err(SendFailure(provider.error))
      ensures Configured() && IsValidEmail(to) && provider.Ok? ==>
        && r.Ok? && r.value.Sent?
        && r.value.data.subject == subject && r.value.data.html == html
        && (r.value.data.text.Some? ==> r.value.data.text == text)
        && r.value.messageId == provider.value
    {
      if !Configured() then Ok(Skipped("service_not_configured"))
      else if !IsValidEmail(to) then Err(SendFailure("Invalid email address: " + to))
      else
        var data := EmailData(OrElse(sender, if fromEmail.Some? then fromEmail.value else ""), to, subject, html,
          if text.Some? && text.value != "" then text else None);
        if provider.Err? then Err(SendFailure(provider.error)) else Ok(Sent(data, provider.value))
    }
  }

  /** A skipped or refused e-mail never reaches the provider: its answer does not matter. */
  lemma RefusedNeverSent(svc: EmailService, to: string, subject: string, html: string, text: Option<string>, sender: Option<string>,
                         p1: Result<Option<string>, string>, p2: Result<Option<string>, string>)
    requires !svc.Configured() || !IsValidEmail(to)
    ensures svc.SendEmail(to, subject, html, text, sender, p1) == svc.SendEmail(to, subject, html, text, sender, p2)
    ensures svc.SendEmail(to, subject, html, text, sender, p1).Err? <==> svc.Configured()
  {
  }

  // ------------------------------------------------------- usage warning

  datatype CreditFigures = CreditFigures(percentageUsed: real, creditsRemaining: int)

  /** `send_usage_warning_email`'s figures; a total of zero raises a division by zero before anything is sent. */
  function UsageWarningFigures(creditsUsed: int, creditsTotal: int): (r: Result<CreditFigures, string>)
    ensures r.Err? <==> creditsTotal == 0
    ensures r.Ok? ==> r.value.creditsRemaining + creditsUsed == creditsTotal
    ensures r.Ok? && creditsTotal > 0 ==> (r.value.percentageUsed >= 100.0 <==> r.value.creditsRemaining <= 0)
    ensures r.Ok? && creditsTotal > 0 && 0 <= creditsUsed ==> r.value.percentageUsed >= 0.0
    ensures r.Ok? ==> r.value.percentageUsed * creditsTotal as real == creditsUsed as real * 100.0
  {
    if creditsTotal == 0 then Err("division by zero")
    else
      var pct := (creditsUsed as real / creditsTotal as real) * 100.0;
      Ok(CreditFigures(pct, creditsTotal - creditsUsed))
  }
}

=== FILE: error_handling.dfy ===
/**
 * The error-handling middleware: which handler a raised exception reaches,
 * the response each handler builds, what is hidden outside debug mode or in
 * production, and the hourly per-class error counter.
 */
module ErrorHandling {
  import opened Wrappers
  import opened Text
  import Exceptions

  // ---------------------------------------------------------------- inputs

  datatype HttpError = HttpError(statusCode: nat, detail: string)

  /**
   * A raised exception, by the classes it is an instance of: an application
   * exception, an HTTP exception, an open circuit breaker, a timeout, a
   * `ValueError`; `className` is its own class's name and `message` its
   * string form.
   */
  datatype Thrown = Thrown(
    className: string,
    message: string,
    app: Option<Exceptions.AppException>,
    http: Option<HttpError>,
    circuitOpen: bool,
    timeout: bool,
    valueError: bool)

  datatype Settings = Settings(debug: bool, environment: string)

  predicate Production(settings: Settings) {
    settings.environment == "production"
  }

  // --------------------------------------------------------------- outputs

  datatype ErrorBody = ErrorBody(
    errorType: string,
    code: string,
    message: string,
    details: Option<string>,
    retryAfter: Option<nat>,
    hasDebug: bool)

  datatype Response = Response(statusCode: int, body: ErrorBody)

  datatype Handler = AppHandler | HttpHandler | CircuitHandler | TimeoutHandler | ValueHandler | GenericHandler

  /** The `isinstance` chain of `_handle_exception`: the first class that matches wins. */
  function Classify(exc: Thrown): (h: Handler)
    ensures h == AppHandler <==> exc.app.Some?
    ensures h == HttpHandler <==> exc.app.None? && exc.http.Some?
    ensures h == CircuitHandler ==> exc.circuitOpen
    ensures h == TimeoutHandler ==> exc.timeout && !exc.circuitOpen
    ensures h == ValueHandler ==> exc.valueError && !exc.timeout && !exc.circuitOpen
    ensures h == GenericHandler <==>
      exc.app.None? && exc.http.None? && !exc.circuitOpen && !exc.timeout && !exc.valueError
  {
    if exc.app.Some? then AppHandler
    else if exc.http.Some? then HttpHandler
    else if exc.circuitOpen then CircuitHandler
    else if exc.timeout then TimeoutHandler
    else if exc.valueError then ValueHandler
    else GenericHandler
  }

  const CIRCUIT_MESSAGE := "Service temporarily unavailable. Please try again later."
  const TIMEOUT_MESSAGE := "Request processing timed out. Please try again with a smaller file or check your connection."
  const INVALID_INPUT_MESSAGE := "Invalid input data provided."
  const PRODUCTION_MESSAGE := "An unexpected error occurred. Please try again later."

  /** The response the matching handler builds; request ids, timings and tracebacks are not modelled. */
  function Handle(exc: Thrown, settings: Settings): (r: Response)
    ensures exc.app.Some? ==>
      && r.statusCode == exc.app.value.statusCode
      && r.body.code == exc.app.value.errorCode
      && r.body.message == exc.app.value.detail
      && r.body.errorType == exc.className
      && (r.body.hasDebug <==> settings.debug)
    ensures exc.app.None? && exc.http.Some? ==>
      && r.statusCode == exc.http.value.statusCode
      && r.body.errorType == "HTTPException"
      && r.body.code == "HTTP_" + NatToString(exc.http.value.statusCode)
      && r.body.message == exc.http.value.detail
    ensures Classify(exc) == CircuitHandler ==>
      && r.statusCode == 503 && r.body.retryAfter == Some(60)
      && r.body.errorType == "ServiceUnavailable"
      && r.body.code == "CIRCUIT_BREAKER_OPEN" && r.body.message == CIRCUIT_MESSAGE
    ensures Classify(exc) == TimeoutHandler ==>
      && r.statusCode == 504
      && r.body.errorType == "TimeoutError"
      && r.body.code == "REQUEST_TIMEOUT" && r.body.message == TIMEOUT_MESSAGE
    ensures Classify(exc) == ValueHandler ==>
      && r.statusCode == 422
      && r.body.errorType == "ValidationError"
      && r.body.code == "INVALID_INPUT" && r.body.message == INVALID_INPUT_MESSAGE
      && r.body.details == (if settings.debug then Some(exc.message) else None)
    ensures Classify(exc) == GenericHandler ==>
      && r.statusCode == 500 && r.body.errorType == "InternalServerError" && r.body.code == "INTERNAL_ERROR"
      && (r.body.hasDebug <==> !Production(settings))
      && r.body.message == (if Production(settings) then PRODUCTION_MESSAGE else "Unexpected error: " + exc.message)
    ensures Classify(exc) != AppHandler && Classify(exc) != ValueHandler ==> r.body.details.None?
    ensures Classify(exc) != AppHandler ==> !r.body.hasDebug || Classify(exc) == GenericHandler
    ensures r.body.retryAfter.Some? <==> Classify(exc) == CircuitHandler
  {
    match Classify(exc)
    case AppHandler =>
      var e := exc.app.value;
      Response(e.statusCode, ErrorBody(exc.className, e.errorCode, e.detail, None, None, settings.debug))
    case HttpHandler =>
      var h := exc.http.value;
      Response(h.statusCode, ErrorBody("HTTPException", "HTTP_" + NatToString(h.statusCode), h.detail, None, None, false))
    case CircuitHandler =>
      Response(503, ErrorBody("ServiceUnavailable", "CIRCUIT_BREAKER_OPEN", CIRCUIT_MESSAGE, None, Some(60), false))
    case TimeoutHandler =>
      Response(504, ErrorBody("TimeoutError", "REQUEST_TIMEOUT", TIMEOUT_MESSAGE, None, None, false))
    case ValueHandler =>
      Response(422, ErrorBody("ValidationError", "INVALID_INPUT", INVALID_INPUT_MESSAGE,
        if settings.debug then Some(exc.message) else None, None, false))
    case GenericHandler =>
      if Production(settings) then
        Response(500, ErrorBody("InternalServerError", "INTERNAL_ERROR", PRODUCTION_MESSAGE, None, None, false))
      else
        Response(500, ErrorBody("InternalServerError", "INTERNAL_ERROR", "Unexpected error: " + exc.message, None, None, true))
  }

  /** When the exception's own text is withheld from the client. */
  predicate Withheld(exc: Thrown, settings: Settings) {
    match Classify(exc)
    case CircuitHandler => true
    case TimeoutHandler => true
    case ValueHandler => !settings.debug
    case GenericHandler => Production(settings)
    case _ => false
  }

  /**
   * Open breakers, timeouts, validation errors outside debug mode and
   * unexpected errors in production answer the same whatever the
   * exception's text says.
   */
  lemma WithheldTextDoesNotLeak(exc: Thrown, other: string, settings: Settings)
    requires Withheld(exc, settings)
    ensures Handle(exc.(message := other), settings) == Handle(exc, settings)
  {
    assert Classify(exc.(message := other)) == Classify(exc);
  }

  /** An application error raised through the hierarchy answers with its class's status and code. */
  lemma AppErrorsKeepTheirStatus(c: Exceptions.ErrorClass, detail: Option<string>, service: Option<string>, exc: Thrown, settings: Settings)
    requires c != Exceptions.General && c != Exceptions.ExternalApi
    requires exc.app == Some(Exceptions.Raise(c, detail, service))
    ensures Handle(exc, settings).statusCode == Exceptions.StatusOf(c)
    ensures 400 <= Handle(exc, settings).statusCode < 600
    ensures Handle(exc, settings).body.code == Exceptions.CodeOf(c)
  {
  }

  // ------------------------------------------------------- the error counter

  const WINDOW_SECONDS: real := 3600.0

  datatype TrackerState = TrackerState(counts: map<string, nat>, lastReset: real)

  function Count(counts: map<string, nat>, errorType: string): nat {
    if errorType in counts then counts[errorType] else 0
  }

  /** `_track_error`: clear the counters once the hour is over, then count the error. */
  function Track(s: TrackerState, errorType: string, now: real): (r: TrackerState)
    ensures now - s.lastReset > WINDOW_SECONDS ==>
      r.counts == map[errorType := 1] && r.lastReset == now
    ensures now - s.lastReset <= WINDOW_SECONDS ==>
      && r.lastReset == s.lastReset
      && Count(r.counts, errorType) == Count(s.counts, errorType) + 1
      && (forall k :: k != errorType ==> Count(r.counts, k) == Count(s.counts, k))
  {
    var base := if now - s.lastReset > WINDOW_SECONDS then TrackerState(map[], now) else s;
    base.(counts := base.counts[errorType := Count(base.counts, errorType) + 1])
  }

  /** A high-rate warning is logged when the new count is a multiple of ten. */
  function HighRate(s: TrackerState, errorType: string): bool {
    Count(s.counts, errorType) % 10 == 0
  }

  /** The same error class raised at each of `times`, one after the other. */
  function TrackAll(s: TrackerState, errorType: string, times: seq<real>): TrackerState
    decreases |times|
  {
    if times == [] then s else TrackAll(Track(s, errorType, times[0]), errorType, times[1..])
  }

  /** How many of those errors logged a high-rate warning. */
  function Warnings(s: TrackerState, errorType: string, times: seq<real>): nat
    decreases |times|
  {
    if times == [] then 0
    else
      var next := Track(s, errorType, times[0]);
      (if HighRate(next, errorType) then 1 else 0) + Warnings(next, errorType, times[1..])
  }

  predicate WithinWindow(s: TrackerState, times: seq<real>) {
    forall i :: 0 <= i < |times| ==> times[i] - s.lastReset <= WINDOW_SECONDS
  }

  /**
   * Within one window, k more errors of a class raise its count by k and
   * warn once per multiple of ten passed; the other classes are untouched.
   */
  lemma {:induction false} CountsWithinWindow(s: TrackerState, errorType: string, times: seq<real>)
    requires WithinWindow(s, times)
    ensures TrackAll(s, errorType, times).lastReset == s.lastReset
    ensures Count(TrackAll(s, errorType, times).counts, errorType) == Count(s.counts, errorType) + |times|
    ensures forall k :: k != errorType ==> Count(TrackAll(s, errorType, times).counts, k) == Count(s.counts, k)
    ensures Warnings(s, errorType, times) == (Count(s.counts, errorType) + |times|) / 10 - Count(s.counts, errorType) / 10
    decreases |times|
  {
    if times != [] {
      var next := Track(s, errorType, times[0]);
      assert WithinWindow(next, times[1..]) by {
        forall i | 0 <= i < |times[1..]|
          ensures times[1..][i] - next.lastReset <= WINDOW_SECONDS
        {
          assert times[1..][i] == times[i + 1];
        }
      }
      CountsWithinWindow(next, errorType, times[1..]);
      var c := Count(s.counts, errorType);
      assert Count(next.counts, errorType) == c + 1;
      assert (if (c + 1) % 10 == 0 then 1 else 0) == (c + 1) / 10 - c / 10;
    }
  }

  /** A window that has run out starts the class's count again from one. */
  lemma ExpiredWindowRestarts(s: TrackerState, errorType: string, now: real, other: string)
    requires now - s.lastReset > WINDOW_SECONDS && other != errorType
    ensures Count(Track(s, errorType, now).counts, errorType) == 1
    ensures Count(Track(s, errorType, now).counts, other) == 0
    ensures !HighRate(Track(s, errorType, now), errorType)
  {
  }

  datatype ErrorStats = ErrorStats(errorCounts: map<string, nat>, lastReset: real, windowHours: nat)

  /** The middleware's mutable counters. */
  class ErrorHandlingMiddleware {
    const settings: Settings
    var errorCounts: map<string, nat>
    var lastErrorReset: real

    constructor(settings: Settings, now: real)
      ensures this.settings == settings && errorCounts == map[] && lastErrorReset == now
    {
      this.settings := settings;
      errorCounts := map[];
      lastErrorReset := now;
    }

    function State(): TrackerState
      reads this
    {
      TrackerState(errorCounts, lastErrorReset)
    }

    /** `_track_error`, answering whether the high-rate warning is logged. */
    method TrackError(errorType: string, now: real) returns (warned: bool)
      modifies this
      ensures State() == Track(old(State()), errorType, now)
      ensures warned <==> HighRate(State(), errorType)
    {
      if now - lastErrorReset > WINDOW_SECONDS {
        errorCounts := map[];
        lastErrorReset := now;
      }
      var count := if errorType in errorCounts then errorCounts[errorType] else 0;
      errorCounts := errorCounts[errorType := count + 1];
      warned := errorCounts[errorType] % 10 == 0;
    }

    /** `_handle_exception`: count the error under its class name, then answer through the matching handler. */
    method HandleException(exc: Thrown, now: real) returns (r: Response)
      modifies this
      ensures State() == Track(old(State()), exc.className, now)
      ensures r == Handle(exc, settings)
    {
      var _ := TrackError(exc.className, now);
      r := Handle(exc, settings);
    }

    /** `get_error_stats`: a copy of the counters and the time of the last reset. */
    function GetErrorStats(): (stats: ErrorStats)
      reads this
      ensures stats.errorCounts == errorCounts && stats.lastReset == lastErrorReset && stats.windowHours == 1
    {
      ErrorStats(errorCounts, lastErrorReset, 1)
    }
  }
}

=== FILE: exceptions.dfy ===
/**
 * The application's exception hierarchy: every class is the base exception
 * with a fixed HTTP status and a fixed machine-readable code, and passes its
 * detail message through unchanged.
 */
module Exceptions {
  import opened Wrappers
  import opened Text

  /** Which class of the hierarchy was raised. */
  datatype ErrorClass =
    | General | Authentication | Authorization | Validation | FileOp | Processing
    | ExternalApi | RateLimit | CostLimit | Database | NotFound

  datatype AppException = AppException(errorClass: ErrorClass, detail: string, statusCode: int, errorCode: string)

  /** The base constructor: status 500 by default, code `GENERAL_ERROR` when none (or an empty one) is given. */
  function NewAppException(detail: string, statusCode: Option<int>, errorCode: Option<string>): (e: AppException)
    ensures e.errorClass == General && e.detail == detail
    ensures e.statusCode == (if statusCode.Some? then statusCode.value else 500)
    ensures errorCode.Some? && errorCode.value != "" ==> e.errorCode == errorCode.value
    ensures errorCode.None? || errorCode.value == "" ==> e.errorCode == "GENERAL_ERROR"
  {
    var code := if errorCode.Some? && errorCode.value != "" then errorCode.value else "GENERAL_ERROR";
    AppException(General, detail, if statusCode.Some? then statusCode.value else 500, code)
  }

  /** The fixed status of each subclass. */
  function StatusOf(c: ErrorClass): int {
    match c
    case General => 500
    case Authentication => 401
    case Authorization => 403
    case Validation => 422
    case FileOp => 400
    case Processing => 500
    case ExternalApi => 502
    case RateLimit => 429
    case CostLimit => 402
    case Database => 500
    case NotFound => 404
  }

  /** The fixed code of each subclass other than the external-API error. */
  function CodeOf(c: ErrorClass): string {
    match c
    case General => "GENERAL_ERROR"
    case Authentication => "AUTH_ERROR"
    case Authorization => "AUTHZ_ERROR"
    case Validation => "VALIDATION_ERROR"
    case FileOp => "FILE_ERROR"
    case Processing => "PROCESSING_ERROR"
    case ExternalApi => "EXTERNAL_API_ERROR"
    case RateLimit => "RATE_LIMIT_ERROR"
    case CostLimit => "COST_LIMIT_ERROR"
    case Database => "DATABASE_ERROR"
    case NotFound => "NOT_FOUND_ERROR"
  }

  /** The detail a subclass uses when none is given. */
  function DefaultDetail(c: ErrorClass): string {
    match c
    case General => ""
    case Authentication => "Authentication failed"
    case Authorization => "Insufficient permissions"
    case Validation => "Validation failed"
    case FileOp => "File operation failed"
    case Processing => "Processing failed"
    case ExternalApi => "External API error"
    case RateLimit => "Rate limit exceeded"
    case CostLimit => "Cost limit exceeded"
    case Database => "Database operation failed"
    case NotFound => "Resource not found"
  }

  /** `ExternalAPIError`'s code: the upper-cased service name, or the generic code when no (or an empty) name is given. */
  function ExternalCode(service: Option<string>): (code: string)
    ensures EndsWith(code, "_API_ERROR")
    ensures service.Some? && service.value != "" ==>
      |code| == |service.value| + 10 && StartsWith(code, UpperAscii(service.value))
    ensures service.None? || service.value == "" ==> code == "EXTERNAL_API_ERROR"
  {
    if service.Some? && service.value != "" then UpperAscii(service.value) + "_API_ERROR" else "EXTERNAL_API_ERROR"
  }

  /** Raising one of the subclasses, with its detail or the class's default. */
  function Raise(c: ErrorClass, detail: Option<string>, service: Option<string>): (e: AppException)
    requires c != General
    ensures e.errorClass == c
    ensures e.detail == if detail.Some? then detail.value else DefaultDetail(c)
    ensures e.statusCode == StatusOf(c)
    ensures 400 <= e.statusCode < 600
    ensures e.statusCode >= 500 <==> c in {Processing, ExternalApi, Database}
    ensures c != ExternalApi ==> e.errorCode == CodeOf(c)
    ensures c == ExternalApi ==> e.errorCode == ExternalCode(service)
  {
    var d := if detail.Some? then detail.value else DefaultDetail(c);
    var base := NewAppException(d, Some(StatusOf(c)), Some(if c == ExternalApi then ExternalCode(service) else CodeOf(c)));
    base.(errorClass := c)
  }

  predicate EndsWith(s: string, suffix: string) {
    |suffix| <= |s| && s[|s| - |suffix|..] == suffix
  }

  /** Only the external-API codes end in `_API_ERROR`. */
  lemma FixedCodesAreNotApiCodes(c: ErrorClass)
    requires c != ExternalApi
    ensures !EndsWith(CodeOf(c), "_API_ERROR")
  {
  }

  /** A subclass's error code tells which subclass was raised. */
  lemma CodeIdentifiesClass(c1: ErrorClass, c2: ErrorClass, d1: Option<string>, d2: Option<string>, s1: Option<string>, s2: Option<string>)
    requires c1 != General && c2 != General
    requires Raise(c1, d1, s1).errorCode == Raise(c2, d2, s2).errorCode
    ensures c1 == c2
  {
    if c1 == ExternalApi && c2 != ExternalApi {
      FixedCodesAreNotApiCodes(c2);
    } else if c2 == ExternalApi && c1 != ExternalApi {
      FixedCodesAreNotApiCodes(c1);
    }
  }
}

=== FILE: export.dfy ===
/**
 * The transcript exporters: SRT, WebVTT and plain-text renderings, the CSV
 * column selection, the format dispatch and the export summary with the
 * UTF-8 size of the content. Segment times are whole milliseconds.
 */
module Export {
  import opened Wrappers
  import opened Text
  import opened TranscriptSchema

  // -------------------------------------------------------------- timestamps

  /** `HH:MM:SS<sep>mmm`, each field zero-padded; the hour field widens past 99. */
  function Clock(ms: nat, sep: char): string {
    var total := ms / 1000;
    PadNat(total / 3600, 2) + ":" + PadNat(total % 3600 / 60, 2) + ":" + PadNat(total % 60, 2) + [sep] + PadNat(ms % 1000, 3)
  }

  /** `_format_srt_timestamp`. */
  function SrtTimestamp(ms: nat): string {
    Clock(ms, ',')
  }

  /** `_format_vtt_timestamp`: the SRT layout with `.` before the milliseconds. */
  function VttTimestamp(ms: nat): string {
    Clock(ms, '.')
  }

  /** `_format_txt_timestamp`: `MM:SS`, where the minute count is not wrapped at 60. */
  function TxtTimestamp(ms: nat): string {
    var total := ms / 1000;
    PadNat(total / 60, 2) + ":" + PadNat(total % 60, 2)
  }

  lemma PadNatNarrow(n: nat, w: nat)
    requires w == 2 || w == 3
    requires n < if w == 2 then 100 else 1000
    ensures |PadNat(n, w)| == w
  {
    if n >= 10 {
      var q := n / 10;
      assert |NatToString(n)| == |NatToString(q)| + 1;
      if q >= 10 {
        assert q / 10 < 10;
        assert |NatToString(q)| == |NatToString(q / 10)| + 1;
      }
    }
  }

  /** Splitting whole milliseconds into hours, minutes, seconds and milliseconds loses nothing. */
  lemma ClockArithmetic(ms: nat)
    ensures var total := ms / 1000;
      total / 3600 * 3600000 + total % 3600 / 60 * 60000 + total % 60 * 1000 + ms % 1000 == ms
  {
    var total := ms / 1000;
    var h, rem := total / 3600, total % 3600;
    var m, sec := rem / 60, rem % 60;
    Mod60(total, h * 60 + m, sec);
  }

  /** The remainder modulo 60 is determined by any quotient and a remainder below 60. */
  lemma Mod60(x: int, q: int, r: int)
    requires x == q * 60 + r && 0 <= r < 60
    ensures x % 60 == r
  {
  }

  /** The four fields of a clock stamp sit at fixed places from its right end. */
  lemma ClockFields(h: string, m: string, s: string, f: string, sep: char)
    requires |m| == 2 && |s| == 2 && |f| == 3
    ensures var r := h + ":" + m + ":" + s + [sep] + f;
      && |r| == |h| + 10
      && r[|r| - 4] == sep && r[|r| - 7] == ':' && r[|r| - 10] == ':'
      && r[..|r| - 10] == h && r[|r| - 9..|r| - 7] == m && r[|r| - 6..|r| - 4] == s && r[|r| - 3..] == f
  {
  }

  /**
   * A clock stamp reads back to the time it renders: the fields sit at fixed
   * places from the right end, minutes and seconds stay below 60, and
   * together they add up to the millisecond count.
   */
  lemma ClockRoundTrip(ms: nat, sep: char)
    ensures var r := Clock(ms, sep);
      && |r| >= 12
      && r[|r| - 4] == sep && r[|r| - 7] == ':' && r[|r| - 10] == ':'
      && AllDigits(r[..|r| - 10]) && AllDigits(r[|r| - 9..|r| - 7])
      && AllDigits(r[|r| - 6..|r| - 4]) && AllDigits(r[|r| - 3..])
      && DigitsValue(r[|r| - 9..|r| - 7]) < 60
      && DigitsValue(r[|r| - 6..|r| - 4]) < 60
      && DigitsValue(r[..|r| - 10]) * 3600000 + DigitsValue(r[|r| - 9..|r| - 7]) * 60000
         + DigitsValue(r[|r| - 6..|r| - 4]) * 1000 + DigitsValue(r[|r| - 3..]) == ms
  {
    var total := ms / 1000;
    var h, m, s, f := PadNat(total / 3600, 2), PadNat(total % 3600 / 60, 2), PadNat(total % 60, 2), PadNat(ms % 1000, 3);
    PadNatNarrow(total % 3600 / 60, 2);
    PadNatNarrow(total % 60, 2);
    PadNatNarrow(ms % 1000, 3);
    PadNatValue(total / 3600, 2);
    PadNatValue(total % 3600 / 60, 2);
    PadNatValue(total % 60, 2);
    PadNatValue(ms % 1000, 3);
    var r := Clock(ms, sep);
    assert r == h + ":" + m + ":" + s + [sep] + f;
    ClockFields(h, m, s, f, sep);
    assert |h| >= 2;
    var hv, mv, sv, fv := DigitsValue(r[..|r| - 10]), DigitsValue(r[|r| - 9..|r| - 7]), DigitsValue(r[|r| - 6..|r| - 4]), DigitsValue(r[|r| - 3..]);
    assert hv == total / 3600 && mv == total % 3600 / 60 && sv == total % 60 && fv == ms % 1000;
    ClockArithmetic(ms);
  }

  /** The text stamp reads back to the whole seconds it renders, with seconds below 60. */
  lemma TxtRoundTrip(ms: nat)
    ensures var r := TxtTimestamp(ms);
      && |r| >= 5 && r[|r| - 3] == ':'
      && DigitsValue(r[|r| - 2..]) < 60
      && DigitsValue(r[..|r| - 3]) * 60 + DigitsValue(r[|r| - 2..]) == ms / 1000
  {
    var total := ms / 1000;
    var m, s := PadNat(total / 60, 2), PadNat(total % 60, 2);
    PadNatNarrow(total % 60, 2);
    PadNatValue(total / 60, 2);
    PadNatValue(total % 60, 2);
    var r := TxtTimestamp(ms);
    assert r == m + ":" + s;
    assert r[..|r| - 3] == m;
    assert r[|r| - 2..] == s;
  }

  // ----------------------------------------------------------------- options

  /** The export option dictionary; an absent key takes the default of `options.get`. */
  datatype ExportOptions = ExportOptions(
    includeRomanization: Option<bool>,
    includeEnglish: Option<bool>,
    includeTimestamps: Option<bool>,
    includeSpeakerLabels: Option<bool>)

  const NO_OPTIONS := ExportOptions(None, None, None, None)

  function Get(flag: Option<bool>, default: bool): bool {
    if flag.Some? then flag.value else default
  }

  // --------------------------------------------------------------- subtitles

  /** The text lines of one subtitle: the Chinese, then the optional romanization and English lines. */
  function SubtitleLines(item: TranscriptionItem, options: ExportOptions): (lines: seq<string>)
    ensures |lines| >= 1 && lines[0] == item.chinese
    ensures |lines| == 1
      + (if Get(options.includeRomanization, true) && Truthy(item.yale) then 1 else 0)
      + (if Get(options.includeRomanization, true) && Truthy(item.jyutping) then 1 else 0)
      + (if Get(options.includeEnglish, true) && Truthy(item.english) then 1 else 0)
  {
    var roman := Get(options.includeRomanization, true);
    [item.chinese]
    + (if roman && Truthy(item.yale) then ["Yale: " + item.yale.value] else [])
    + (if roman && Truthy(item.jyutping) then ["Jyutping: " + item.jyutping.value] else [])
    + (if Get(options.includeEnglish, true) && Truthy(item.english) then [item.english.value] else [])
  }

  /** The lines of the `index`-th SRT entry: index, time range, subtitle lines, blank line. */
  function SrtEntry(index: nat, item: TranscriptionItem, options: ExportOptions): seq<string> {
    [NatToString(index), SrtTimestamp(item.startMs) + " --> " + SrtTimestamp(item.endMs)]
    + SubtitleLines(item, options) + [""]
  }

  function SrtEntries(items: seq<TranscriptionItem>, options: ExportOptions): (entries: seq<seq<string>>)
    ensures |entries| == |items|
  {
    seq(|items|, k requires 0 <= k < |items| => SrtEntry(k + 1, items[k], options))
  }

  function SrtLines(items: seq<TranscriptionItem>, options: ExportOptions): seq<string> {
    Concat(SrtEntries(items, options))
  }

  /** `_generate_srt`. */
  method GenerateSrt(items: seq<TranscriptionItem>, options: ExportOptions) returns (content: string)
    ensures content == Join(SrtLines(items, options), "\n")
  {
    var lines: seq<string> := [];
    for i := 0 to |items|
      invariant lines == SrtLines(items[..i], options)
    {
      assert SrtEntries(items[..i + 1], options)[..i] == SrtEntries(items[..i], options);
      lines := lines + SrtEntry(i + 1, items[i], options);
    }
    assert items[..|items|] == items;
    content := Join(lines, "\n");
  }

  /**
   * The SRT line list is the entries one after another: entry `k` (numbered
   * `k + 1`) starts where the lines of the entries before it end.
   */
  lemma {:induction false} SrtEntryAt(items: seq<TranscriptionItem>, options: ExportOptions, k: nat)
    requires k < |items|
    ensures var before := |SrtLines(items[..k], options)|;
      var entry := SrtEntries(items, options)[k];
      before + |entry| <= |SrtLines(items, options)|
      && SrtLines(items, options)[before..before + |entry|] == entry
      && entry == SrtEntry(k + 1, items[k], options)
  {
    var pieces := SrtEntries(items, options);
    ConcatAt(pieces, k);
    SrtEntriesPrefix(items, options, k);
    assert SrtLines(items, options) == Concat(pieces);
    assert SrtLines(items[..k], options) == Concat(pieces[..k]);
  }

  lemma SrtEntriesPrefix(items: seq<TranscriptionItem>, options: ExportOptions, k: nat)
    requires k <= |items|
    ensures SrtEntries(items, options)[..k] == SrtEntries(items[..k], options)
  {
  }

  /** Every SRT entry's first line is its 1-based index and its second the time range. */
  lemma SrtEntryShape(index: nat, item: TranscriptionItem, options: ExportOptions)
    ensures var e := SrtEntry(index, item, options);
      && |e| >= 4
      && DigitsValue(e[0]) == index
      && e[1] == SrtTimestamp(item.startMs) + " --> " + SrtTimestamp(item.endMs)
      && e[2] == item.chinese
      && e[|e| - 1] == ""
  {
    NatToStringValue(index);
    var head := [NatToString(index), SrtTimestamp(item.startMs) + " --> " + SrtTimestamp(item.endMs)];
    var lines := SubtitleLines(item, options);
    var e := SrtEntry(index, item, options);
    assert e == head + lines + [""];
    assert e[0] == head[0] && e[1] == head[1] && e[2] == lines[0];
  }

  function VttEntry(item: TranscriptionItem, options: ExportOptions): seq<string> {
    [VttTimestamp(item.startMs) + " --> " + VttTimestamp(item.endMs)] + SubtitleLines(item, options) + [""]
  }

  function VttLines(items: seq<TranscriptionItem>, options: ExportOptions): (lines: seq<string>)
    ensures |lines| >= 2 && lines[..2] == ["WEBVTT", ""]
  {
    if items == [] then ["WEBVTT", ""]
    else VttLines(items[..|items| - 1], options) + VttEntry(items[|items| - 1], options)
  }

  /** `_generate_vtt`. */
  method GenerateVtt(items: seq<TranscriptionItem>, options: ExportOptions) returns (content: string)
    ensures content == Join(VttLines(items, options), "\n")
    ensures StartsWith(content, "WEBVTT\n\n") || (items == [] && content == "WEBVTT\n")
  {
    var lines: seq<string> := ["WEBVTT", ""];
    for i := 0 to |items|
      invariant lines == VttLines(items[..i], options)
    {
      assert items[..i + 1][..i] == items[..i];
      lines := lines + VttEntry(items[i], options);
    }
    assert items[..|items|] == items;
    content := Join(lines, "\n");
    VttHeader(lines);
  }

  lemma VttHeader(lines: seq<string>)
    requires |lines| >= 2 && lines[..2] == ["WEBVTT", ""]
    ensures StartsWith(Join(lines, "\n"), "WEBVTT\n\n") || (|lines| == 2 && Join(lines, "\n") == "WEBVTT\n")
  {
    assert lines[0] == "WEBVTT" && lines[1] == "";
    if |lines| > 2 {
      var rest := Join(lines[2..], "\n");
      assert lines[1..][1..] == lines[2..];
      assert Join(lines, "\n") == "WEBVTT" + "\n" + ("" + "\n" + rest);
      assert Join(lines, "\n")[..8] == "WEBVTT\n\n";
    } else {
      assert lines[1..] == [""];
    }
  }

  /** Every VTT entry after the header is at most the time range and the subtitle lines, with no index line. */
  lemma VttEntryShape(item: TranscriptionItem, options: ExportOptions)
    ensures var e := VttEntry(item, options);
      |e| >= 3 && e[0] == VttTimestamp(item.startMs) + " --> " + VttTimestamp(item.endMs)
      && e[1] == item.chinese && e[|e| - 1] == ""
  {
  }

  // -------------------------------------------------------------- plain text

  /** The space-separated parts of one TXT line. */
  function TxtParts(item: TranscriptionItem, options: ExportOptions): (parts: seq<string>)
  {
    var roman := Get(options.includeRomanization, true);
    (if Get(options.includeTimestamps, false) then ["[" + TxtTimestamp(item.startMs) + "]"] else [])
    + (if Get(options.includeSpeakerLabels, false) && Truthy(item.speaker) then [item.speaker.value + ":"] else [])
    + [item.chinese]
    + (if roman && Truthy(item.yale) then ["(" + item.yale.value + ")"] else [])
    + (if roman && Truthy(item.jyutping) && !Truthy(item.yale) then ["(" + item.jyutping.value + ")"] else [])
    + (if Get(options.includeEnglish, true) && Truthy(item.english) then ["- " + item.english.value] else [])
  }

  /**
   * A TXT line is the optional `[MM:SS]` prefix (off by default), the optional
   * speaker, the Chinese text, at most one romanization (Yale, or Jyutping
   * only when Yale is absent) and the optional English.
   */
  lemma TxtLineShape(item: TranscriptionItem, options: ExportOptions)
    ensures var parts := TxtParts(item, options);
      var stamp := Get(options.includeTimestamps, false);
      var lead := (if stamp then 1 else 0) + (if Get(options.includeSpeakerLabels, false) && Truthy(item.speaker) then 1 else 0);
      var roman := Get(options.includeRomanization, true);
      var romanCount := if roman && (Truthy(item.yale) || Truthy(item.jyutping)) then 1 else 0;
      && |parts| == lead + 1 + romanCount + (if Get(options.includeEnglish, true) && Truthy(item.english) then 1 else 0)
      && (stamp ==> parts[0] == "[" + TxtTimestamp(item.startMs) + "]")
      && parts[lead] == item.chinese
      && (roman && Truthy(item.yale) ==> parts[lead + 1] == "(" + item.yale.value + ")")
      && (roman && !Truthy(item.yale) && Truthy(item.jyutping) ==> parts[lead + 1] == "(" + item.jyutping.value + ")")
  {
  }

  /** `_generate_txt`: one line per segment. */
  method GenerateTxt(items: seq<TranscriptionItem>, options: ExportOptions) returns (content: string)
    ensures content == Join(TxtLines(items, options), "\n")
  {
    var lines: seq<string> := [];
    for i := 0 to |items|
      invariant lines == TxtLines(items[..i], options)
    {
      lines := lines + [Join(TxtParts(items[i], options), " ")];
      assert items[..i + 1][..i] == items[..i];
    }
    assert items[..|items|] == items;
    content := Join(lines, "\n");
  }

  function TxtLines(items: seq<TranscriptionItem>, options: ExportOptions): (lines: seq<string>)
    ensures |lines| == |items|
    ensures forall k :: 0 <= k < |items| ==> lines[k] == Join(TxtParts(items[k], options), " ")
  {
    if items == [] then [] else TxtLines(items[..|items| - 1], options) + [Join(TxtParts(items[|items| - 1], options), " ")]
  }

  // --------------------------------------------------------------------- CSV

  predicate AnyYale(items: seq<TranscriptionItem>) {
    exists k :: 0 <= k < |items| && Truthy(items[k].yale)
  }

  predicate AnyJyutping(items: seq<TranscriptionItem>) {
    exists k :: 0 <= k < |items| && Truthy(items[k].jyutping)
  }

  predicate AnyEnglish(items: seq<TranscriptionItem>) {
    exists k :: 0 <= k < |items| && Truthy(items[k].english)
  }

  predicate AnySpeaker(items: seq<TranscriptionItem>) {
    exists k :: 0 <= k < |items| && Truthy(items[k].speaker)
  }

  function Column(present: bool, name: string): seq<string> {
    if present then [name] else []
  }

  /** The four columns every CSV export has, in order. */
  const FIXED_COLUMNS: seq<string> := ["id", "start_time", "end_time", "chinese"]

  /**
   * The CSV columns given which optional ones are present: the four fixed
   * ones, then yale, jyutping and english, then confidence, then speaker.
   */
  function Columns(yale: bool, jyutping: bool, english: bool, speaker: bool): seq<string> {
    FIXED_COLUMNS + Column(yale, "yale") + Column(jyutping, "jyutping") + Column(english, "english")
    + ["confidence"] + Column(speaker, "speaker")
  }

  /** Each optional column is present when some segment fills it (the speaker: has one). */
  function CsvColumns(items: seq<TranscriptionItem>): seq<string> {
    Columns(AnyYale(items), AnyJyutping(items), AnyEnglish(items), AnySpeaker(items))
  }

  /** The field list `_generate_csv` builds before writing the header. */
  method CsvFieldnames(items: seq<TranscriptionItem>) returns (fieldnames: seq<string>)
    ensures fieldnames == CsvColumns(items)
  {
    fieldnames := ["id", "start_time", "end_time", "chinese"];
    ghost var fixed := fieldnames;
    assert fixed == FIXED_COLUMNS;
    if exists k :: 0 <= k < |items| && Truthy(items[k].yale) {
      fieldnames := fieldnames + ["yale"];
    }
    ghost var withYale := fieldnames;
    assert withYale == fixed + Column(AnyYale(items), "yale");
    if exists k :: 0 <= k < |items| && Truthy(items[k].jyutping) {
      fieldnames := fieldnames + ["jyutping"];
    }
    ghost var withJyutping := fieldnames;
    assert withJyutping == withYale + Column(AnyJyutping(items), "jyutping");
    if exists k :: 0 <= k < |items| && Truthy(items[k].english) {
      fieldnames := fieldnames + ["english"];
    }
    assert fieldnames == withJyutping + Column(AnyEnglish(items), "english");
    fieldnames := fieldnames + ["confidence"];
    ghost var withConfidence := fieldnames;
    if exists k :: 0 <= k < |items| && Truthy(items[k].speaker) {
      fieldnames := fieldnames + ["speaker"];
    }
    assert fieldnames == withConfidence + Column(AnySpeaker(items), "speaker");
  }

  /**
   * The fixed columns lead, an optional column is present exactly when some
   * segment fills it, speaker comes last when present, and the header line
   * splits back into the columns.
   */
  lemma CsvColumnsShape(items: seq<TranscriptionItem>)
    ensures var f := CsvColumns(items);
      && f[..4] == ["id", "start_time", "end_time", "chinese"]
      && ("yale" in f <==> AnyYale(items))
      && ("jyutping" in f <==> AnyJyutping(items))
      && ("english" in f <==> AnyEnglish(items))
      && ("speaker" in f <==> AnySpeaker(items))
      && "confidence" in f
      && f[|f| - 1] == (if AnySpeaker(items) then "speaker" else "confidence")
  {
    var yale, jyutping, english, speaker := AnyYale(items), AnyJyutping(items), AnyEnglish(items), AnySpeaker(items);
    ColumnsEnds(yale, jyutping, english, speaker);
    YaleColumn(yale, jyutping, english, speaker);
    JyutpingColumn(yale, jyutping, english, speaker);
    EnglishColumn(yale, jyutping, english, speaker);
    SpeakerColumn(yale, jyutping, english, speaker);
  }

  lemma ColumnsEnds(yale: bool, jyutping: bool, english: bool, speaker: bool)
    ensures var f := Columns(yale, jyutping, english, speaker);
      && f[..4] == FIXED_COLUMNS
      && "confidence" in f
      && f[|f| - 1] == (if speaker then "speaker" else "confidence")
  {
    var f := Columns(yale, jyutping, english, speaker);
    var middle := Column(yale, "yale") + Column(jyutping, "jyutping") + Column(english, "english");
    assert f == FIXED_COLUMNS + middle + ["confidence"] + Column(speaker, "speaker");
    assert f[4 + |middle|] == "confidence";
  }

  /** A column placed once, between columns of other names, is present exactly when it is switched on. */
  lemma PresentExactly(name: string, f: seq<string>, before: seq<string>, present: bool, after: seq<string>)
    requires f == before + Column(present, name) + after
    requires name !in before && name !in after
    ensures name in f <==> present
  {
  }

  lemma YaleColumn(yale: bool, jyutping: bool, english: bool, speaker: bool)
    ensures "yale" in Columns(yale, jyutping, english, speaker) <==> yale
  {
    var after := Column(jyutping, "jyutping") + Column(english, "english") + ["confidence"] + Column(speaker, "speaker");
    PresentExactly("yale", Columns(yale, jyutping, english, speaker), FIXED_COLUMNS, yale, after);
  }

  lemma JyutpingColumn(yale: bool, jyutping: bool, english: bool, speaker: bool)
    ensures "jyutping" in Columns(yale, jyutping, english, speaker) <==> jyutping
  {
    var before := FIXED_COLUMNS + Column(yale, "yale");
    var after := Column(english, "english") + ["confidence"] + Column(speaker, "speaker");
    PresentExactly("jyutping", Columns(yale, jyutping, english, speaker), before, jyutping, after);
  }

  lemma EnglishColumn(yale: bool, jyutping: bool, english: bool, speaker: bool)
    ensures "english" in Columns(yale, jyutping, english, speaker) <==> english
  {
    var before := FIXED_COLUMNS + Column(yale, "yale") + Column(jyutping, "jyutping");
    var after := ["confidence"] + Column(speaker, "speaker");
    PresentExactly("english", Columns(yale, jyutping, english, speaker), before, english, after);
  }

  lemma SpeakerColumn(yale: bool, jyutping: bool, english: bool, speaker: bool)
    ensures "speaker" in Columns(yale, jyutping, english, speaker) <==> speaker
  {
    var before := FIXED_COLUMNS + Column(yale, "yale") + Column(jyutping, "jyutping") + Column(english, "english") + ["confidence"];
    PresentExactly("speaker", Columns(yale, jyutping, english, speaker), before, speaker, []);
  }

  /** The header line splits back into the columns. */
  lemma CsvHeaderSplits(items: seq<TranscriptionItem>)
    ensures Split(Join(CsvColumns(items), ","), ',') == CsvColumns(items)
  {
    var f := CsvColumns(items);
    var names := FIXED_COLUMNS + ["yale", "jyutping", "english", "confidence", "speaker"];
    assert forall k :: 0 <= k < |names| ==> ',' !in names[k];
    assert forall k :: 0 <= k < |f| ==> f[k] in names;
    SplitJoin(f, ',');
  }

  // --------------------------------------------------------------- dispatch

  /**
   * What the two library serialisers produce for a result: the data rows that
   * `csv.DictWriter` writes after the header, and the `json.dumps` document.
   */
  datatype Serialised = Serialised(csvRows: string, json: string)

  const FORMATS := {"srt", "vtt", "txt", "csv", "json"}

  /** The text each supported format's generator produces. */
  function ExportContent(items: seq<TranscriptionItem>, format: string, options: ExportOptions, serialised: Serialised): string
    requires format in FORMATS
  {
    match format
    case "srt" => Join(SrtLines(items, options), "\n")
    case "vtt" => Join(VttLines(items, options), "\n")
    case "txt" => Join(TxtLines(items, options), "\n")
    case "csv" => Join(CsvColumns(items), ",") + "\r\n" + serialised.csvRows
    case "json" => serialised.json
  }

  /** `_generate_content`: the format name picks the generator; any other name is an error. */
  method GenerateContent(items: seq<TranscriptionItem>, format: string, options: ExportOptions, serialised: Serialised)
    returns (r: Result<string, string>)
    ensures r.Err? <==> format !in {"srt", "vtt", "txt", "csv", "json"}
    ensures r.Err? ==> r.error == "Unsupported export format: " + format
    ensures format == "srt" ==> r == Ok(Join(SrtLines(items, options), "\n"))
    ensures format == "vtt" ==> r == Ok(Join(VttLines(items, options), "\n"))
    ensures format == "txt" ==> r == Ok(Join(TxtLines(items, options), "\n"))
    ensures format == "csv" ==> r == Ok(Join(CsvColumns(items), ",") + "\r\n" + serialised.csvRows)
    ensures format == "json" ==> r == Ok(serialised.json)
    ensures r.Ok? ==> r.value == ExportContent(items, format, options, serialised)
  {
    if format == "srt" {
      var content := GenerateSrt(items, options);
      r := Ok(content);
    } else if format == "vtt" {
      var content := GenerateVtt(items, options);
      r := Ok(content);
    } else if format == "txt" {
      var content := GenerateTxt(items, options);
      r := Ok(content);
    } else if format == "csv" {
      var fieldnames := CsvFieldnames(items);
      var header := Join(fieldnames, ",");
      r := Ok(header + "\r\n" + serialised.csvRows);
    } else if format == "json" {
      r := Ok(serialised.json);
    } else {
      r := Err("Unsupported export format: " + format);
    }
  }

  // ------------------------------------------------------------------- sizes

  /** Bytes of one character in UTF-8. */
  function Utf8Width(c: char): nat {
    if c as int < 0x80 then 1 else if c as int < 0x800 then 2 else if c as int < 0x10000 then 3 else 4
  }

  /** `len(s.encode('utf-8'))`. */
  function Utf8Length(s: string): (n: nat)
    ensures |s| <= n <= 4 * |s|
    ensures (forall i :: 0 <= i < |s| ==> s[i] as int < 0x80) ==> n == |s|
  {
    if s == [] then 0 else Utf8Length(s[..|s| - 1]) + Utf8Width(s[|s| - 1])
  }

  /** The byte length of a concatenation is the sum of the byte lengths. */
  lemma {:induction false} Utf8LengthAppend(a: string, b: string)
    ensures Utf8Length(a + b) == Utf8Length(a) + Utf8Length(b)
    decreases |b|
  {
    if b != [] {
      assert (a + b)[..|a + b| - 1] == a + b[..|b| - 1];
      Utf8LengthAppend(a, b[..|b| - 1]);
    } else {
      assert a + b == a;
    }
  }

  /** The summary of a finished export. */
  datatype ExportInfo = ExportInfo(downloadUrl: string, filename: string, fileSize: nat)

  /**
   * `export_transcription`: generate, save (the file store answers with the
   * stored file name or an error), and report the UTF-8 size; every error
   * comes back as one processing error naming the format.
   */
  method ExportTranscription(items: seq<TranscriptionItem>, format: string, jobId: string, options: ExportOptions,
                             serialised: Serialised, saved: Result<string, string>)
    returns (r: Result<ExportInfo, string>)
    ensures r.Ok? <==> format in {"srt", "vtt", "txt", "csv", "json"} && saved.Ok?
    ensures r.Err? && saved.Ok? ==> r.error == "Failed to export as " + format + ": Unsupported export format: " + format
    ensures r.Err? && format in {"srt", "vtt", "txt", "csv", "json"} ==> r.error == "Failed to export as " + format + ": " + saved.error
    ensures r.Ok? ==> r.value.filename == saved.value
    ensures r.Ok? ==> r.value.downloadUrl == "/api/v1/transcription/download/" + jobId + "/" + format
    ensures r.Ok? && format == "srt" ==> r.value.fileSize == Utf8Length(Join(SrtLines(items, options), "\n"))
    ensures r.Ok? && format == "json" ==> r.value.fileSize == Utf8Length(serialised.json)
    ensures r.Ok? ==> r.value.fileSize == Utf8Length(ExportContent(items, format, options, serialised))
  {
    var content := GenerateContent(items, format, options, serialised);
    if content.Err? {
      return Err("Failed to export as " + format + ": " + content.error);
    }
    if saved.Err? {
      return Err("Failed to export as " + format + ": " + saved.error);
    }
    r := Ok(ExportInfo("/api/v1/transcription/download/" + jobId + "/" + format, saved.value, Utf8Length(content.value)));
  }
}

=== FILE: monitoring.dfy ===
/**
 * The monitoring service's judgements: each service's health classifier,
 * the fold of the six checks into one overall status, the cost utilisation
 * figure and the alert thresholds. Probe answers, response times and system
 * metrics arrive as parameters; an `Err` is an exception the probe raised.
 */
module Monitoring {
  import opened Wrappers
  import opened Ratios
  import opened Text
  import Retry
  import ProviderRouting

  datatype Health = Healthy | Degraded | Unhealthy

  /** A service's health; the check time and the free-form details are not modelled. */
  datatype HealthStatus = HealthStatus(service: string, status: Health, responseTimeMs: Option<real>, errorMessage: Option<string>)

  /** One entry of the gathered checks: an exception or a reported status. */
  datatype CheckResult = Raised(message: string) | Reported(health: HealthStatus)

  const SERVICE_NAMES: seq<string> := ["database", "transcription", "google_speech", "whisper", "progress", "retry_service"]

  // ------------------------------------------------------------ classifiers

  /** `_check_database_health`. */
  function DatabaseHealth(answer: Result<bool, string>, responseTimeMs: real): (h: HealthStatus)
    ensures h.service == "database"
    ensures h.status == Unhealthy <==> answer != Ok(true)
    ensures h.status == Healthy <==> answer == Ok(true) && responseTimeMs < 1000.0
    ensures answer.Err? ==> h.errorMessage == Some(answer.error) && h.responseTimeMs.None?
    ensures answer == Ok(false) ==> h.errorMessage == Some("Database health check failed")
  {
    if answer.Err? then HealthStatus("database", Unhealthy, None, Some(answer.error))
    else if answer.value then HealthStatus("database", if responseTimeMs < 1000.0 then Healthy else Degraded, Some(responseTimeMs), None)
    else HealthStatus("database", Unhealthy, Some(responseTimeMs), Some("Database health check failed"))
  }

  /**
   * `_check_google_speech_health` and `_check_whisper_health`: healthy or
   * unhealthy by the probe, a healthy probe slower than `slowMs` degraded.
   */
  function ProviderHealth(service: string, answer: Result<bool, string>, responseTimeMs: real, slowMs: real, downMessage: string): (h: HealthStatus)
    ensures h.service == service
    ensures h.status == Unhealthy <==> answer != Ok(true)
    ensures h.status == Degraded <==> answer == Ok(true) && responseTimeMs > slowMs
    ensures h.errorMessage.None? <==> answer == Ok(true)
  {
    if answer.Err? then HealthStatus(service, Unhealthy, None, Some(answer.error))
    else if !answer.value then HealthStatus(service, Unhealthy, Some(responseTimeMs), Some(downMessage))
    else HealthStatus(service, if responseTimeMs > slowMs then Degraded else Healthy, Some(responseTimeMs), None)
  }

  function GoogleSpeechHealth(answer: Result<bool, string>, responseTimeMs: real): HealthStatus {
    ProviderHealth("google_speech", answer, responseTimeMs, 5000.0, "Google Speech API unavailable")
  }

  function WhisperHealth(answer: Result<bool, string>, responseTimeMs: real): HealthStatus {
    ProviderHealth("whisper", answer, responseTimeMs, 3000.0, "Whisper API key invalid or API unavailable")
  }

  /** The same healthy answer is degraded for Google only above 5 s and for Whisper already above 3 s. */
  lemma ProviderThresholds(responseTimeMs: real)
    ensures GoogleSpeechHealth(Ok(true), responseTimeMs).status == Degraded <==> responseTimeMs > 5000.0
    ensures WhisperHealth(Ok(true), responseTimeMs).status == Degraded <==> responseTimeMs > 3000.0
    ensures 3000.0 < responseTimeMs <= 5000.0 ==>
      GoogleSpeechHealth(Ok(true), responseTimeMs).status == Healthy && WhisperHealth(Ok(true), responseTimeMs).status == Degraded
  {
  }

  function AvailableProviders(providers: map<ProviderRouting.Provider, ProviderRouting.ProviderStatus>): nat {
    |set p | p in providers.Keys && providers[p] == ProviderRouting.Available|
  }

  /** `_check_transcription_health`: all providers available (or none known) healthy, some degraded, none unhealthy. */
  function TranscriptionHealth(providers: Result<map<ProviderRouting.Provider, ProviderRouting.ProviderStatus>, string>): (h: HealthStatus)
    ensures h.service == "transcription"
    ensures providers.Err? ==> h.status == Unhealthy && h.errorMessage == Some(providers.error)
    ensures providers.Ok? && providers.value == map[] ==> h.status == Healthy
    ensures providers.Ok? ==>
      (h.status == Healthy <==> AvailableProviders(providers.value) == |providers.value|)
    ensures providers.Ok? ==>
      (h.status == Unhealthy <==> 0 == AvailableProviders(providers.value) < |providers.value|)
  {
    if providers.Err? then HealthStatus("transcription", Unhealthy, None, Some(providers.error))
    else
      var available := AvailableProviders(providers.value);
      var total := |providers.value|;
      HealthStatus("transcription", if available == total then Healthy else if available > 0 then Degraded else Unhealthy, None, None)
  }

  /** When every known provider is available the transcription check is healthy. */
  lemma AllAvailableIsHealthy(providers: map<ProviderRouting.Provider, ProviderRouting.ProviderStatus>)
    requires forall p :: p in providers ==> providers[p] == ProviderRouting.Available
    ensures TranscriptionHealth(Ok(providers)).status == Healthy
  {
    assert (set p | p in providers.Keys && providers[p] == ProviderRouting.Available) == providers.Keys;
  }

  /** `_check_progress_service_health`: healthy whenever the statistics can be read. */
  function ProgressHealth(stats: Result<(), string>): (h: HealthStatus)
    ensures h.status == Healthy <==> stats.Ok?
  {
    if stats.Ok? then HealthStatus("progress", Healthy, None, None) else HealthStatus("progress", Unhealthy, None, Some(stats.error))
  }

  /** The names of the open breakers, in the registry's order. */
  function OpenCircuits(breakers: seq<(string, Retry.CircuitState)>): (names: seq<string>)
    ensures |names| <= |breakers|
    ensures forall n :: n in names <==> exists i :: 0 <= i < |breakers| && breakers[i].0 == n && breakers[i].1 == Retry.Open
  {
    if breakers == [] then []
    else
      var rest := OpenCircuits(breakers[..|breakers| - 1]);
      var last := breakers[|breakers| - 1];
      assert forall i :: 0 <= i < |breakers| - 1 ==> breakers[..|breakers| - 1][i] == breakers[i];
      if last.1 == Retry.Open then rest + [last.0] else rest
  }

  /** `_check_retry_service_health`: degraded, naming them, exactly when some breaker is open. */
  function RetryServiceHealth(breakers: seq<(string, Retry.CircuitState)>): (h: HealthStatus)
    ensures h.status != Unhealthy
    ensures h.status == Degraded <==> exists i :: 0 <= i < |breakers| && breakers[i].1 == Retry.Open
    ensures h.status == Degraded ==> h.errorMessage == Some("Circuit breakers open: " + Join(OpenCircuits(breakers), ", "))
  {
    var open := OpenCircuits(breakers);
    if open != [] then
      assert open[0] in open;
      HealthStatus("retry_service", Degraded, None, Some("Circuit breakers open: " + Join(open, ", ")))
    else
      assert forall i :: 0 <= i < |breakers| ==> breakers[i].0 !in open;
      HealthStatus("retry_service", Healthy, None, None)
  }

  // -------------------------------------------------------------- the fold

  function Severity(r: CheckResult): Health {
    if r.Raised? then Unhealthy else r.health.status
  }

  function Rank(h: Health): nat {
    match h
    case Healthy => 0
    case Degraded => 1
    case Unhealthy => 2
  }

  predicate Has(results: seq<CheckResult>, h: Health) {
    exists i :: 0 <= i < |results| && Severity(results[i]) == h
  }

  /** The overall status: unhealthy if any check is, else degraded if any check is, else healthy. */
  function Overall(results: seq<CheckResult>): Health {
    if Has(results, Unhealthy) then Unhealthy else if Has(results, Degraded) then Degraded else Healthy
  }

  /** The overall status is the worst one reported, and healthy for no checks at all. */
  lemma OverallIsWorst(results: seq<CheckResult>)
    ensures forall i :: 0 <= i < |results| ==> Rank(Severity(results[i])) <= Rank(Overall(results))
    ensures results == [] ==> Overall(results) == Healthy
    ensures results != [] ==> exists i :: 0 <= i < |results| && Severity(results[i]) == Overall(results)
  {
    if results != [] && !Has(results, Unhealthy) && !Has(results, Degraded) {
      assert Severity(results[0]) == Healthy;
    }
  }

  /** The overall status does not depend on the order of the checks. */
  lemma OverallOrderFree(a: seq<CheckResult>, b: seq<CheckResult>)
    requires multiset(a) == multiset(b)
    ensures Overall(a) == Overall(b)
  {
    forall h: Health
      ensures Has(a, h) <==> Has(b, h)
    {
      if Has(a, h) {
        var i :| 0 <= i < |a| && Severity(a[i]) == h;
        assert a[i] in multiset(b);
        var j :| 0 <= j < |b| && b[j] == a[i];
      }
      if Has(b, h) {
        var j :| 0 <= j < |b| && Severity(b[j]) == h;
        assert b[j] in multiset(a);
        var i :| 0 <= i < |a| && a[i] == b[j];
      }
    }
  }

  /** The worse of two statuses. */
  function Worse(a: Health, b: Health): (w: Health)
    ensures Rank(w) == if Rank(a) < Rank(b) then Rank(b) else Rank(a)
  {
    if Rank(a) < Rank(b) then b else a
  }

  /** Folding one more check into the overall status. */
  lemma OverallSnoc(results: seq<CheckResult>, r: CheckResult)
    ensures Overall(results + [r]) == Worse(Overall(results), Severity(r))
  {
    var all := results + [r];
    forall h: Health
      ensures Has(all, h) <==> Has(results, h) || Severity(r) == h
    {
      if Has(all, h) {
        var k :| 0 <= k < |all| && Severity(all[k]) == h;
        if k < |results| {
          assert all[k] == results[k];
        }
      }
      if Has(results, h) {
        var k :| 0 <= k < |results| && Severity(results[k]) == h;
        assert all[k] == results[k];
      }
      assert all[|results|] == r;
    }
  }

  /** What a check contributes to the `services` dictionary. */
  function ServiceEntry(name: string, r: CheckResult): HealthStatus {
    if r.Raised? then HealthStatus(name, Unhealthy, None, Some(r.message)) else r.health
  }

  /** The six service names are distinct: their first letters already differ. */
  lemma NamesDistinct()
    ensures forall j, k :: 0 <= j < k < |SERVICE_NAMES| ==> SERVICE_NAMES[j] != SERVICE_NAMES[k]
  {
    var initials := "dtgwpr";
    forall k | 0 <= k < |SERVICE_NAMES|
      ensures |SERVICE_NAMES[k]| > 0 && SERVICE_NAMES[k][0] == initials[k]
    {
    }
  }

  /** Recording the next check's entry keeps the `services` dictionary in step with the checks seen. */
  lemma ServicesStep(m: map<string, HealthStatus>, m': map<string, HealthStatus>, results: seq<CheckResult>, i: nat, seen: seq<string>)
    requires |results| == |SERVICE_NAMES| && i < |results|
    requires m.Keys == set n | n in SERVICE_NAMES[..i]
    requires forall k :: 0 <= k < i ==> m[SERVICE_NAMES[k]] == ServiceEntry(SERVICE_NAMES[k], results[k])
    requires m' == m[SERVICE_NAMES[i] := ServiceEntry(SERVICE_NAMES[i], results[i])]
    requires seen == SERVICE_NAMES[..i + 1]
    ensures m'.Keys == set n | n in seen
    ensures forall k :: 0 <= k < i + 1 ==> m'[SERVICE_NAMES[k]] == ServiceEntry(SERVICE_NAMES[k], results[k])
  {
    NamesDistinct();
    assert SERVICE_NAMES[..i + 1] == SERVICE_NAMES[..i] + [SERVICE_NAMES[i]];
  }

  /** The loop of `get_comprehensive_health` over the six gathered checks. */
  method ComprehensiveHealth(results: seq<CheckResult>) returns (services: map<string, HealthStatus>, overall: Health)
    requires |results| == |SERVICE_NAMES|
    ensures overall == Overall(results)
    ensures services.Keys == set n | n in SERVICE_NAMES
    ensures forall i :: 0 <= i < |results| ==> services[SERVICE_NAMES[i]] == ServiceEntry(SERVICE_NAMES[i], results[i])
  {
    services := map[];
    overall := Healthy;
    for i := 0 to |results|
      invariant overall == Overall(results[..i])
      invariant services.Keys == set n | n in SERVICE_NAMES[..i]
      invariant forall k :: 0 <= k < i ==> services[SERVICE_NAMES[k]] == ServiceEntry(SERVICE_NAMES[k], results[k])
    {
      var name := SERVICE_NAMES[i];
      var r := results[i];
      ghost var before, entries := overall, services;
      if r.Raised? {
        services := services[name := HealthStatus(name, Unhealthy, None, Some(r.message))];
        overall := Unhealthy;
      } else {
        services := services[name := r.health];
        if r.health.status == Unhealthy {
          overall := Unhealthy;
        } else if r.health.status == Degraded && overall == Healthy {
          overall := Degraded;
        }
      }
      assert overall == Worse(before, Severity(r));
      OverallSnoc(results[..i], r);
      assert results[..i + 1] == results[..i] + [r];
      ServicesStep(entries, services, results, i, SERVICE_NAMES[..i + 1]);
    }
    assert results[..|results|] == results;
    assert SERVICE_NAMES[..|results|] == SERVICE_NAMES;
  }

  // ------------------------------------------------------------------ costs

  /** `cost_utilization`: the day's cost over the daily cap, 0 when there is no positive cap. */
  function CostUtilization(dailyCost: real, maxDailyCost: real): (u: real)
    ensures maxDailyCost <= 0.0 ==> u == 0.0
    ensures maxDailyCost > 0.0 ==> u * maxDailyCost == dailyCost
    ensures maxDailyCost > 0.0 && 0.0 <= dailyCost <= maxDailyCost ==> 0.0 <= u <= 1.0
  {
    if maxDailyCost > 0.0 then
      var u := dailyCost / maxDailyCost;
      assert u * maxDailyCost == dailyCost;
      if 0.0 <= dailyCost <= maxDailyCost then
        QuotientBetween(dailyCost, maxDailyCost, 0.0, 1.0);
        u
      else u
    else 0.0
  }

  // ----------------------------------------------------------------- alerts

  datatype AlertLevel = Warning | Critical

  datatype SystemMetrics = SystemMetrics(cpuPercent: real, memoryPercent: real, diskPercent: real, activeConnections: nat)

  /** `_get_system_metrics`: the readings, or all zeros when reading them raises. */
  function MetricsOrZero(readings: Result<SystemMetrics, string>): SystemMetrics {
    if readings.Ok? then readings.value else SystemMetrics(0.0, 0.0, 0.0, 0)
  }

  datatype AlertKind = HighCpu | HighMemory | HighDisk | HighCost | ElevatedCost | CircuitBreakerOpen

  /** The alert's `type` field. */
  function KindName(k: AlertKind): string {
    match k
    case HighCpu => "high_cpu"
    case HighMemory => "high_memory"
    case HighDisk => "high_disk"
    case HighCost => "high_cost"
    case ElevatedCost => "elevated_cost"
    case CircuitBreakerOpen => "circuit_breaker_open"
  }

  /** The position of each alert kind in the order the checks run. */
  function KindRank(k: AlertKind): nat {
    match k
    case HighCpu => 0
    case HighMemory => 1
    case HighDisk => 2
    case HighCost => 3
    case ElevatedCost => 4
    case CircuitBreakerOpen => 5
  }

  /** An alert; its formatted message is not modelled. */
  datatype Alert = Alert(kind: AlertKind, level: AlertLevel, value: Option<real>, threshold: Option<real>, services: seq<string>)

  /** Disk and cost overruns are critical, the rest warnings. */
  function LevelOf(k: AlertKind): AlertLevel {
    if k == HighDisk || k == HighCost then Critical else Warning
  }

  /** The reading an alert of this kind reports: the metric, the cost utilisation, or none for open breakers. */
  function Reading(k: AlertKind, m: SystemMetrics, u: real): Option<real> {
    match k
    case HighCpu => Some(m.cpuPercent)
    case HighMemory => Some(m.memoryPercent)
    case HighDisk => Some(m.diskPercent)
    case HighCost => Some(u)
    case ElevatedCost => Some(u)
    case CircuitBreakerOpen => None
  }

  /** The threshold an alert of this kind reports. */
  function ThresholdOf(k: AlertKind): Option<real> {
    match k
    case HighCpu => Some(90.0)
    case HighMemory => Some(85.0)
    case HighDisk => Some(90.0)
    case HighCost => Some(0.9)
    case ElevatedCost => Some(0.7)
    case CircuitBreakerOpen => None
  }

  /** The alert of this kind as `check_alerts` writes it. */
  function AlertOf(k: AlertKind, m: SystemMetrics, u: real, open: seq<string>): Alert {
    Alert(k, LevelOf(k), Reading(k, m, u), ThresholdOf(k), if k == CircuitBreakerOpen then open else [])
  }

  /** Every alert carries its kind's reading and threshold; only the breaker alert lists services, the open ones. */
  predicate Carries(alerts: seq<Alert>, m: SystemMetrics, u: real, open: seq<string>) {
    forall i :: 0 <= i < |alerts| ==> alerts[i] == AlertOf(alerts[i].kind, m, u, open)
  }

  lemma CarriesAppend(alerts: seq<Alert>, k: AlertKind, m: SystemMetrics, u: real, open: seq<string>)
    requires Carries(alerts, m, u, open)
    ensures Carries(alerts + [AlertOf(k, m, u, open)], m, u, open)
  {
  }

  /** Alerts raised before the cost check carry the same values whatever the utilisation and the open breakers. */
  lemma CarriesBeforeCost(alerts: seq<Alert>, m: SystemMetrics, u: real, open: seq<string>)
    requires Before(alerts, 3) && Carries(alerts, m, 0.0, [])
    ensures Carries(alerts, m, u, open)
  {
    forall i | 0 <= i < |alerts|
      ensures alerts[i] == AlertOf(alerts[i].kind, m, u, open)
    {
      assert alerts[i] == AlertOf(alerts[i].kind, m, 0.0, []);
      assert KindRank(alerts[i].kind) < 3;
    }
  }

  /** Alerts raised before the breaker check carry the same values whatever the open breakers. */
  lemma CarriesBeforeBreakers(alerts: seq<Alert>, m: SystemMetrics, u: real, open: seq<string>)
    requires Before(alerts, 5) && Carries(alerts, m, u, [])
    ensures Carries(alerts, m, u, open)
  {
    forall i | 0 <= i < |alerts|
      ensures alerts[i] == AlertOf(alerts[i].kind, m, u, open)
    {
      assert alerts[i] == AlertOf(alerts[i].kind, m, u, []);
      assert KindRank(alerts[i].kind) < 5;
    }
  }

  predicate Raises(alerts: seq<Alert>, k: AlertKind) {
    exists i :: 0 <= i < |alerts| && alerts[i].kind == k
  }

  /** Alerts in check order, each kind at most once, each at its kind's level. */
  predicate InCheckOrder(alerts: seq<Alert>) {
    && (forall i, j :: 0 <= i < j < |alerts| ==> KindRank(alerts[i].kind) < KindRank(alerts[j].kind))
    && (forall i :: 0 <= i < |alerts| ==> alerts[i].level == LevelOf(alerts[i].kind))
  }

  /** Every alert so far comes before checks of rank `rank`. */
  predicate Before(alerts: seq<Alert>, rank: nat) {
    forall i :: 0 <= i < |alerts| ==> KindRank(alerts[i].kind) < rank
  }

  /** Appending an alert whose kind ranks after every alert so far. */
  method Append(alerts: seq<Alert>, kind: AlertKind, value: Option<real>, threshold: Option<real>, services: seq<string>)
    returns (r: seq<Alert>)
    requires InCheckOrder(alerts) && Before(alerts, KindRank(kind))
    ensures r == alerts + [Alert(kind, LevelOf(kind), value, threshold, services)]
    ensures InCheckOrder(r) && Before(r, KindRank(kind) + 1)
    ensures forall k :: Raises(r, k) <==> Raises(alerts, k) || k == kind
  {
    r := alerts + [Alert(kind, LevelOf(kind), value, threshold, services)];
    forall k | Raises(r, k)
      ensures Raises(alerts, k) || k == kind
    {
      var i :| 0 <= i < |r| && r[i].kind == k;
      if i < |alerts| {
        assert alerts[i] == r[i];
      }
    }
    forall k | Raises(alerts, k)
      ensures Raises(r, k)
    {
      var i :| 0 <= i < |alerts| && alerts[i].kind == k;
      assert r[i] == alerts[i];
    }
    assert r[|alerts|].kind == kind;
  }

  /** One resource check: the kind's alert, with its reading and threshold, iff the reading is over. */
  method ResourceCheck(alerts: seq<Alert>, over: bool, kind: AlertKind, m: SystemMetrics) returns (r: seq<Alert>)
    requires InCheckOrder(alerts) && Before(alerts, KindRank(kind)) && Carries(alerts, m, 0.0, [])
    ensures InCheckOrder(r) && Before(r, KindRank(kind) + 1) && Carries(r, m, 0.0, [])
    ensures forall k :: Raises(r, k) <==> Raises(alerts, k) || (k == kind && over)
  {
    r := alerts;
    if over {
      r := Append(alerts, kind, Reading(kind, m, 0.0), ThresholdOf(kind), []);
      CarriesAppend(alerts, kind, m, 0.0, []);
    }
  }

  /** The CPU, memory and disk checks of `check_alerts`. */
  method ResourceAlerts(m: SystemMetrics) returns (alerts: seq<Alert>)
    ensures InCheckOrder(alerts) && Before(alerts, 3)
    ensures forall k :: Raises(alerts, k) <==>
      || (k == HighCpu && m.cpuPercent > 90.0)
      || (k == HighMemory && m.memoryPercent > 85.0)
      || (k == HighDisk && m.diskPercent > 90.0)
    ensures Carries(alerts, m, 0.0, [])
  {
    alerts := ResourceCheck([], m.cpuPercent > 90.0, HighCpu, m);
    alerts := ResourceCheck(alerts, m.memoryPercent > 85.0, HighMemory, m);
    alerts := ResourceCheck(alerts, m.diskPercent > 90.0, HighDisk, m);
  }

  /** The cost check of `check_alerts`: at most one cost alert, a critical one taking precedence. */
  method CostAlert(alerts: seq<Alert>, u: real, ghost m: SystemMetrics) returns (r: seq<Alert>)
    requires InCheckOrder(alerts) && Before(alerts, 3)
    ensures InCheckOrder(r) && Before(r, 5)
    ensures forall k :: Raises(r, k) <==>
      || Raises(alerts, k)
      || (k == HighCost && u > 0.9)
      || (k == ElevatedCost && 0.7 < u <= 0.9)
    ensures Carries(alerts, m, u, []) ==> Carries(r, m, u, [])
  {
    r := alerts;
    if u > 0.9 {
      r := Append(r, HighCost, Some(u), Some(0.9), []);
      if Carries(alerts, m, u, []) {
        CarriesAppend(alerts, HighCost, m, u, []);
      }
    } else if u > 0.7 {
      r := Append(r, ElevatedCost, Some(u), Some(0.7), []);
      if Carries(alerts, m, u, []) {
        CarriesAppend(alerts, ElevatedCost, m, u, []);
      }
    }
  }

  /**
   * `check_alerts`: CPU above 90 and memory above 85 warn, disk above 90 is
   * critical; cost utilisation above 0.9 is critical, else above 0.7 warns;
   * open breakers warn. `cost` is the day's cost and cap, or the error that
   * made the cost figures unavailable (utilisation 0).
   */
  method CheckAlerts(readings: Result<SystemMetrics, string>, cost: Result<(real, real), string>,
                     breakers: seq<(string, Retry.CircuitState)>)
    returns (alerts: seq<Alert>)
    ensures InCheckOrder(alerts)
    ensures var m := MetricsOrZero(readings);
      && (Raises(alerts, HighCpu) <==> m.cpuPercent > 90.0)
      && (Raises(alerts, HighMemory) <==> m.memoryPercent > 85.0)
      && (Raises(alerts, HighDisk) <==> m.diskPercent > 90.0)
    ensures var u := if cost.Ok? then CostUtilization(cost.value.0, cost.value.1) else 0.0;
      && (Raises(alerts, HighCost) <==> u > 0.9)
      && (Raises(alerts, ElevatedCost) <==> 0.7 < u <= 0.9)
    ensures Raises(alerts, CircuitBreakerOpen) <==> OpenCircuits(breakers) != []
    ensures Carries(alerts, MetricsOrZero(readings), if cost.Ok? then CostUtilization(cost.value.0, cost.value.1) else 0.0,
                    OpenCircuits(breakers))
  {
    var m := MetricsOrZero(readings);
    var resources := ResourceAlerts(m);
    var u := if cost.Ok? then CostUtilization(cost.value.0, cost.value.1) else 0.0;
    CarriesBeforeCost(resources, m, u, []);
    var costs := CostAlert(resources, u, m);
    alerts := costs;
    var open := OpenCircuits(breakers);
    CarriesBeforeBreakers(costs, m, u, open);
    if open != [] {
      alerts := Append(alerts, CircuitBreakerOpen, None, None, open);
      CarriesAppend(costs, CircuitBreakerOpen, m, u, open);
    }
    AlertsRaised(resources, costs, alerts, m, u, open != []);
  }

  /** The kinds `check_alerts` raises, from what each of its three stages raises. */
  lemma AlertsRaised(resources: seq<Alert>, costs: seq<Alert>, alerts: seq<Alert>, m: SystemMetrics, u: real, anyOpen: bool)
    requires forall k :: Raises(resources, k) <==>
      || (k == HighCpu && m.cpuPercent > 90.0)
      || (k == HighMemory && m.memoryPercent > 85.0)
      || (k == HighDisk && m.diskPercent > 90.0)
    requires forall k :: Raises(costs, k) <==>
      || Raises(resources, k)
      || (k == HighCost && u > 0.9)
      || (k == ElevatedCost && 0.7 < u <= 0.9)
    requires forall k :: Raises(alerts, k) <==> Raises(costs, k) || (k == CircuitBreakerOpen && anyOpen)
    ensures (Raises(alerts, HighCpu) <==> m.cpuPercent > 90.0)
      && (Raises(alerts, HighMemory) <==> m.memoryPercent > 85.0)
      && (Raises(alerts, HighDisk) <==> m.diskPercent > 90.0)
    ensures (Raises(alerts, HighCost) <==> u > 0.9)
      && (Raises(alerts, ElevatedCost) <==> 0.7 < u <= 0.9)
    ensures Raises(alerts, CircuitBreakerOpen) <==> anyOpen
  {
  }
}

=== FILE: monthly_reset.dfy ===
/**
 * The scheduler of monthly credit resets: which accounts are due today, the
 * daily run in batches of ten with its in-progress set, the manual bulk reset,
 * the next scheduled reset date, and the relabelling of ledger rows older than
 * two years.
 */
module MonthlyReset {
  import opened Wrappers
  import opened Calendar
  import opened Tables
  import opened Billing
  import opened UsageLedger
  import opened Sorting

  // ---------------------------------------------------------------------------
  // Eligibility

  /**
   * The anniversary test as written: the creation day is today's day, or it lies
   * after the day of tomorrow while today is the month's last day. Tomorrow is then
   * the 1st, so every creation day from the 2nd on passes on a month's last day.
   */
  predicate EligibleDayAsWritten(createdDay: int, today: Day) {
    createdDay == today.day || (createdDay > NextDay(today).day && IsLastDayOfMonth(today))
  }

  /**
   * The anniversary test as intended: the creation day is today's day, or it does not
   * exist in this month and today is the month's last day.
   */
  predicate EligibleDay(createdDay: int, today: Day) {
    createdDay == today.day || (createdDay > today.day && IsLastDayOfMonth(today))
  }

  /** As written, on a month's last day every account created on the 2nd or later is due. */
  lemma AsWrittenDueOnEveryLastDay(createdDay: int, today: Day)
    requires IsLastDayOfMonth(today) && createdDay >= 2
    ensures EligibleDayAsWritten(createdDay, today)
  {
  }

  /** An account created on the 15th is due on 31 January as written, but not as intended. */
  lemma AsWrittenResetsMidMonthAccount()
    ensures EligibleDayAsWritten(15, Date(2024, 1, 31))
    ensures !EligibleDay(15, Date(2024, 1, 31))
  {
  }

  function Min(a: int, b: int): int { if a <= b then a else b }

  /**
   * The intended test picks exactly one day in every month: the creation day, or the
   * month's last day when the creation day does not exist in that month.
   */
  lemma EligibleOncePerMonth(createdDay: int, today: Day)
    requires 1 <= createdDay <= 31
    ensures EligibleDay(createdDay, today) <==> today.day == Min(createdDay, DaysInMonth(today.year, today.month))
  {
  }

  /** An account created on the 31st is due on 28 February of a common year. */
  lemma ThirtyFirstDueOnLastOfFebruary()
    ensures EligibleDay(31, Date(2023, 2, 28)) && EligibleDayAsWritten(31, Date(2023, 2, 28))
  {
  }

  /** A ledger row whose period starts today or later marks the user as already reset. */
  predicate AlreadyReset(records: seq<UsageRecord>, user: UserId, today: Day) {
    exists r :: r in records && r.userId == user && AtOrBefore(today, r.periodStart)
  }

  /**
   * The candidate query's filter: an active account that passes the anniversary test
   * as written and has no ledger row for a period starting today or later.
   */
  predicate DueForReset(a: Account, records: seq<UsageRecord>, today: Day) {
    a.isActive && EligibleDayAsWritten(a.createdOn.day, today) && !AlreadyReset(records, a.id, today)
  }

  /**
   * The already-reset guard does not stop the as-written test: an account created on
   * the 15th and reset on 15 January is due again on 31 January.
   */
  lemma MidMonthAccountDueTwice(a: Account, records: seq<UsageRecord>)
    requires a.isActive && a.createdOn.day == 15
    requires forall r :: r in records && r.userId == a.id ==> r.periodStart == Date(2024, 1, 15)
    ensures DueForReset(a, records, Date(2024, 1, 31))
  {
    AsWrittenResetsMidMonthAccount();
  }

  /** One row of the candidate query. */
  datatype Candidate = Candidate(
    userId: UserId,
    email: string,
    createdAt: int,
    timezone: string,
    planName: string,
    subscriptionStatus: string)

  predicate Joins(s: Subscription, user: UserId, now: int) {
    IsLive(s, user) && s.currentPeriodEnd.Some? && s.currentPeriodEnd.value > now
  }

  /** The left join of one account with its live, unexpired subscriptions. */
  function JoinedRows(a: Account, subs: seq<Subscription>, now: int): (rows: seq<Candidate>)
    ensures |rows| >= 1
    ensures forall c :: c in rows ==> c.userId == a.id && c.createdAt == a.createdAt
  {
    var joined := SubscriptionRows(a, subs, now);
    if joined == [] then
      [Candidate(a.id, a.email, a.createdAt, if a.timezone.Some? then a.timezone.value else "UTC", "free", "none")]
    else joined
  }

  function SubscriptionRows(a: Account, subs: seq<Subscription>, now: int): (rows: seq<Candidate>)
    ensures forall c :: c in rows ==> c.userId == a.id && c.createdAt == a.createdAt
  {
    if subs == [] then []
    else
      var rest := SubscriptionRows(a, subs[1..], now);
      if Joins(subs[0], a.id, now) then
        [Candidate(a.id, a.email, a.createdAt, if a.timezone.Some? then a.timezone.value else "UTC",
                   subs[0].planName, subs[0].status)] + rest
      else rest
  }

  /** The row belongs to an account that is due. */
  predicate RowIsDue(store: Store, today: Day, c: Candidate) {
    exists a :: a in store.accounts && a.id == c.userId && DueForReset(a, store.records, today)
  }

  predicate HasRowFor(rows: seq<Candidate>, user: UserId) {
    exists c :: c in rows && c.userId == user
  }

  function DueRows(accounts: seq<Account>, store: Store, today: Day, now: int): (rows: seq<Candidate>)
    ensures forall c :: c in rows ==> exists a :: a in accounts && a.id == c.userId && DueForReset(a, store.records, today)
    ensures forall a :: a in accounts && DueForReset(a, store.records, today) ==> HasRowFor(rows, a.id)
  {
    if accounts == [] then []
    else
      var rest := DueRows(accounts[1..], store, today, now);
      if DueForReset(accounts[0], store.records, today) then
        var mine := JoinedRows(accounts[0], store.subs, now);
        assert mine[0] in mine;
        mine + rest
      else rest
  }

  /**
   * `_find_users_requiring_reset`: one row per due account and live subscription
   * (one row with the free plan when it has none), ordered by creation time.
   */
  function FindUsersRequiringReset(store: Store, today: Day, now: int): (rows: seq<Candidate>)
    ensures SortedBy(rows, (c: Candidate) => c.createdAt)
    ensures forall c :: c in rows ==> RowIsDue(store, today, c)
    ensures forall a :: a in store.accounts && DueForReset(a, store.records, today) ==> HasRowFor(rows, a.id)
  {
    var due := DueRows(store.accounts, store, today, now);
    var rows := SortBy(due, (c: Candidate) => c.createdAt);
    SameMembers(due, rows);
    assert forall a :: HasRowFor(due, a) ==> HasRowFor(rows, a);
    rows
  }

  // ---------------------------------------------------------------------------
  // Running resets

  const AUTOMATED_REASON := "Automated monthly reset"
  const MANUAL_REASON := "Manual bulk reset"

  /**
   * The ledger's reset raises exactly when the user is unknown, the current billing
   * period's dates do not exist, or the next reset date does not exist.
   */
  predicate ResetFails(store: Store, user: UserId, today: Day) {
    UserPeriod(store.accounts, user, today).None?
    || NextResetDate(FindAccount(store.accounts, user).value.createdOn, today).None?
  }

  function UsersOf(rows: seq<Candidate>): (users: seq<UserId>)
    ensures |users| == |rows|
    ensures forall k :: 0 <= k < |rows| ==> users[k] == rows[k].userId
  {
    seq(|rows|, k requires 0 <= k < |rows| => rows[k].userId)
  }

  /**
   * Which tasks of one concurrently started batch actually reset: the first task of
   * each user not already in progress. A later task for the same user finds it in
   * progress and returns without resetting.
   */
  function Claims(users: seq<UserId>, busy: set<UserId>): (flags: seq<bool>)
    ensures |flags| == |users|
  {
    seq(|users|, k requires 0 <= k < |users| => users[k] !in busy && users[k] !in users[..k])
  }

  /** Whether the reset of each user raises. */
  function Outcomes(users: seq<UserId>, store: Store, today: Day): (fails: seq<bool>)
    ensures |fails| == |users|
  {
    seq(|users|, k requires 0 <= k < |users| => ResetFails(store, users[k], today))
  }

  /** The positions below `n` that are set in both `flags` and `fails`. */
  function CountBoth(flags: seq<bool>, fails: seq<bool>, n: nat): (f: nat)
    requires n <= |flags| == |fails|
    ensures f <= n
  {
    if n == 0 then 0
    else CountBoth(flags, fails, n - 1) + (if flags[n - 1] && fails[n - 1] then 1 else 0)
  }

  /** The positions below `n` that are set in `fails`. */
  function CountTrue(fails: seq<bool>, n: nat): (f: nat)
    requires n <= |fails|
    ensures f <= n
  {
    if n == 0 then 0 else CountTrue(fails, n - 1) + (if fails[n - 1] then 1 else 0)
  }

  /** The tasks of one batch that claimed their user and whose reset raised. */
  function BatchFailures(users: seq<UserId>, busy: set<UserId>, store: Store, today: Day): (f: nat)
    ensures f <= |users|
  {
    CountBoth(Claims(users, busy), Outcomes(users, store, today), |users|)
  }

  const BATCH_SIZE := 10

  /** The failures of the daily run: its users taken ten at a time. */
  function DailyFailures(users: seq<UserId>, busy: set<UserId>, store: Store, today: Day): (f: nat)
    ensures f <= |users|
    decreases |users|
  {
    if |users| <= BATCH_SIZE then BatchFailures(users, busy, store, today)
    else BatchFailures(users[..BATCH_SIZE], busy, store, today) + DailyFailures(users[BATCH_SIZE..], busy, store, today)
  }

  lemma {:induction false} CountBothAllClaimed(flags: seq<bool>, fails: seq<bool>, n: nat)
    requires n <= |flags| == |fails|
    requires forall k :: 0 <= k < n ==> flags[k]
    ensures CountBoth(flags, fails, n) == CountTrue(fails, n)
  {
    if n > 0 {
      CountBothAllClaimed(flags, fails, n - 1);
    }
  }

  /**
   * A batch of distinct users none of whom is in progress fails exactly as often as
   * resetting the same users one after another.
   */
  lemma DistinctBatchFailures(users: seq<UserId>, store: Store, today: Day)
    requires forall i, j :: 0 <= i < j < |users| ==> users[i] != users[j]
    ensures BatchFailures(users, {}, store, today) == CountTrue(Outcomes(users, store, today), |users|)
  {
    var flags := Claims(users, {});
    forall k | 0 <= k < |users|
      ensures flags[k]
    {
      assert users[k] !in users[..k];
    }
    CountBothAllClaimed(flags, Outcomes(users, store, today), |users|);
  }

  /** One call of the ledger's reset, its error caught by the caller. */
  method AttemptReset(store: Store, user: UserId, reason: string, today: Day) returns (r: Result<MonthlyReset, int>)
    ensures r.Err? <==> ResetFails(store, user, today)
    ensures r.Ok? ==> r.value.userId == user && r.value.periodStart == today
  {
    r := PerformMonthlyReset(store.accounts, store.subs, store.jobs, store.records, user, Some(reason), today);
  }

  datatype UserResetOutcome = Skipped | Completed(reset: MonthlyReset) | Failed(status: int)

  datatype ResetMetrics = ResetMetrics(successful: nat, failed: nat)

  datatype BulkResult =
    | NothingToReset
    | BulkCompleted(resetsPerformed: nat, failures: nat, totalEligible: nat)

  class ResetService {
    var resetInProgress: set<UserId>

    constructor ()
      ensures resetInProgress == {}
    {
      resetInProgress := {};
    }

    /** The start of `_perform_user_reset`: a user already in progress is skipped, any other is claimed. */
    method ClaimUser(user: UserId) returns (claimed: bool)
      modifies this
      ensures claimed <==> user !in old(resetInProgress)
      ensures resetInProgress == old(resetInProgress) + {user}
    {
      if user in resetInProgress {
        return false;
      }
      resetInProgress := resetInProgress + {user};
      return true;
    }

    /** The `finally` of `_perform_user_reset`. */
    method ReleaseUser(user: UserId)
      modifies this
      ensures resetInProgress == old(resetInProgress) - {user}
    {
      resetInProgress := resetInProgress - {user};
    }

    /**
     * `_perform_user_reset` on its own: skipped while the user is in progress;
     * otherwise the reset runs and the user is released whether it succeeds or fails.
     */
    method PerformUserReset(store: Store, user: UserId, today: Day) returns (r: UserResetOutcome)
      modifies this
      ensures resetInProgress == old(resetInProgress)
      ensures r.Skipped? <==> user in old(resetInProgress)
      ensures r.Failed? <==> user !in old(resetInProgress) && ResetFails(store, user, today)
      ensures r.Completed? ==> r.reset.userId == user && r.reset.periodStart == today
    {
      var claimed := ClaimUser(user);
      if !claimed {
        return Skipped;
      }
      var result := AttemptReset(store, user, AUTOMATED_REASON, today);
      ReleaseUser(user);
      if result.Err? {
        return Failed(result.error);
      }
      return Completed(result.value);
    }

    /** The first half of a batch: every task, in order, claims its user or finds it in progress. */
    method ClaimAll(users: seq<UserId>) returns (claimed: seq<bool>)
      modifies this
      ensures claimed == Claims(users, old(resetInProgress))
      ensures resetInProgress == old(resetInProgress) + set k | 0 <= k < |users| && claimed[k] :: users[k]
    {
      ghost var busy := resetInProgress;
      ghost var flags := Claims(users, busy);
      claimed := [];
      var i := 0;
      while i < |users|
        invariant 0 <= i <= |users|
        invariant claimed == flags[..i]
        invariant resetInProgress == busy + set k | 0 <= k < i && flags[k] :: users[k]
        invariant forall k :: 0 <= k < i ==> users[k] in resetInProgress
      {
        var c := ClaimUser(users[i]);
        assert c == flags[i] by {
          if users[i] in users[..i] {
            var k :| 0 <= k < i && users[..i][k] == users[i];
          }
        }
        claimed := claimed + [c];
        i := i + 1;
      }
    }

    /**
     * The second half of a batch: every task that claimed its user resets it and
     * releases it; the others return at once. A raised reset counts as failed, any
     * other outcome as successful.
     */
    method FinishClaimed(store: Store, users: seq<UserId>, claimed: seq<bool>, today: Day)
      returns (successful: nat, failed: nat)
      requires |claimed| == |users|
      modifies this
      ensures resetInProgress == old(resetInProgress) - set k | 0 <= k < |users| && claimed[k] :: users[k]
      ensures successful + failed == |users|
      ensures failed == CountBoth(claimed, Outcomes(users, store, today), |users|)
    {
      ghost var busy := resetInProgress;
      ghost var fails := Outcomes(users, store, today);
      successful, failed := 0, 0;
      var i := 0;
      while i < |users|
        invariant 0 <= i <= |users|
        invariant successful + failed == i
        invariant failed == CountBoth(claimed, fails, i)
        invariant resetInProgress == busy - set k | 0 <= k < i && claimed[k] :: users[k]
      {
        if claimed[i] {
          var result := AttemptReset(store, users[i], AUTOMATED_REASON, today);
          ReleaseUser(users[i]);
          if result.Err? {
            failed := failed + 1;
          } else {
            successful := successful + 1;
          }
        } else {
          successful := successful + 1;
        }
        i := i + 1;
      }
    }

    /**
     * One batch of the daily run, its tasks started together: all of them claim
     * before any of them resets. The in-progress set ends as it began.
     */
    method RunBatch(store: Store, users: seq<UserId>, today: Day) returns (successful: nat, failed: nat)
      modifies this
      ensures resetInProgress == old(resetInProgress)
      ensures successful + failed == |users|
      ensures failed == BatchFailures(users, old(resetInProgress), store, today)
    {
      var claimed := ClaimAll(users);
      successful, failed := FinishClaimed(store, users, claimed, today);
    }

    /**
     * `perform_daily_reset_check`: nothing (and no metrics) when no user is due;
     * otherwise the due users ten at a time, every one counted as successful or failed.
     */
    method PerformDailyResetCheck(store: Store, today: Day, now: int) returns (r: Option<ResetMetrics>)
      modifies this
      ensures resetInProgress == old(resetInProgress)
      ensures var due := FindUsersRequiringReset(store, today, now);
        && (r.None? <==> due == [])
        && (r.Some? ==> r.value.successful + r.value.failed == |due|)
        && (r.Some? ==> r.value.failed == DailyFailures(UsersOf(due), old(resetInProgress), store, today))
    {
      var users := UsersOf(FindUsersRequiringReset(store, today, now));
      if users == [] {
        return None;
      }
      ghost var busy := resetInProgress;
      var successful, failed := 0, 0;
      var i := 0;
      while i < |users|
        invariant 0 <= i <= |users|
        invariant resetInProgress == busy
        invariant successful + failed == i
        invariant failed + DailyFailures(users[i..], busy, store, today) == DailyFailures(users, busy, store, today)
        decreases |users| - i
      {
        var hi := if i + BATCH_SIZE < |users| then i + BATCH_SIZE else |users|;
        var ok, bad := RunBatch(store, users[i..hi], today);
        if hi < |users| {
          assert users[i..][..BATCH_SIZE] == users[i..hi];
          assert users[i..][BATCH_SIZE..] == users[hi..];
        } else {
          assert users[i..] == users[i..hi];
        }
        successful, failed := successful + ok, failed + bad;
        i := hi;
      }
      return Some(ResetMetrics(successful, failed));
    }
  }

  /** One step of the loop of `manual_reset_all_users`: whether resetting the `i`th user raised. */
  method AttemptResetAt(store: Store, users: seq<UserId>, i: nat, reason: string, today: Day) returns (raised: bool)
    requires i < |users|
    ensures raised == Outcomes(users, store, today)[i]
  {
    var result := AttemptReset(store, users[i], reason, today);
    raised := result.Err?;
  }

  lemma CountTrueStep(fails: seq<bool>, i: nat, b: bool)
    requires i < |fails| && fails[i] == b
    ensures CountTrue(fails, i + 1) == CountTrue(fails, i) + (if b then 1 else 0)
  {
  }

  /** The loop of `manual_reset_all_users`: each user reset in turn, a raised reset counted as a failure. */
  method ResetEach(store: Store, users: seq<UserId>, reason: string, today: Day) returns (successful: nat, failed: nat)
    ensures successful + failed == |users|
    ensures failed == CountTrue(Outcomes(users, store, today), |users|)
  {
    ghost var fails := Outcomes(users, store, today);
    successful, failed := 0, 0;
    var i := 0;
    while i < |users|
      invariant 0 <= i <= |users|
      invariant successful + failed == i
      invariant failed == CountTrue(fails, i)
    {
      var raised := AttemptResetAt(store, users, i, reason, today);
      CountTrueStep(fails, i, raised);
      if raised {
        failed := failed + 1;
      } else {
        successful := successful + 1;
      }
      i := i + 1;
    }
  }

  /**
   * `manual_reset_all_users`: every due user reset in turn (no in-progress check);
   * performed plus failed is the number of due users.
   */
  method ManualResetAllUsers(store: Store, reason: string, today: Day, now: int) returns (r: BulkResult)
    ensures var due := FindUsersRequiringReset(store, today, now);
      && (r.NothingToReset? <==> due == [])
      && (r.BulkCompleted? ==>
            r.totalEligible == |due|
            && r.resetsPerformed + r.failures == r.totalEligible
            && r.failures == CountTrue(Outcomes(UsersOf(due), store, today), |due|))
  {
    var due := FindUsersRequiringReset(store, today, now);
    var users := UsersOf(due);
    if users == [] {
      return NothingToReset;
    }
    var successful, failed := ResetEach(store, users, reason, today);
    return BulkCompleted(successful, failed, |users|);
  }

  // ---------------------------------------------------------------------------
  // The reset schedule

  /**
   * The next reset in `get_reset_schedule`: day 1 of next month plus `d - 1` days when
   * the creation day `d` is not after today's day, else day 1 of this month plus
   * `d - 1` days. The interval arithmetic rolls over into the following month when
   * day `d` does not exist.
   */
  function ScheduledReset(createdDay: int, today: Day): (r: Day)
    requires 1 <= createdDay <= 31
    ensures Before(today, r)
    ensures DaysBetween(today, r) >= 1
  {
    var first := if createdDay <= today.day then FirstOfNextMonth(today) else FirstOfMonth(today);
    var r := AddDays(first, createdDay - 1);
    AddDaysOrdinal(first, createdDay - 1);
    BeforeOrdinal(today, first);
    BeforeOrdinal(today, r);
    r
  }

  lemma {:induction false} AddDaysWithinMonth(d: Day, n: nat)
    requires d.day + n <= DaysInMonth(d.year, d.month)
    ensures AddDays(d, n) == Date(d.year, d.month, d.day + n)
    decreases n
  {
    if n > 0 {
      AddDaysWithinMonth(NextDay(d), n - 1);
    }
  }

  /** When the creation day exists in the month of the next reset, the reset falls on it. */
  lemma ScheduledResetOnCreationDay(createdDay: int, today: Day)
    requires 1 <= createdDay <= 31
    ensures var r := ScheduledReset(createdDay, today);
      var m := if createdDay <= today.day then MonthAfter(today.year, today.month) else (today.year, today.month);
      createdDay <= DaysInMonth(m.0, m.1) ==> r == Date(m.0, m.1, createdDay)
  {
    var first := if createdDay <= today.day then FirstOfNextMonth(today) else FirstOfMonth(today);
    if createdDay <= DaysInMonth(first.year, first.month) {
      AddDaysWithinMonth(first, createdDay - 1);
    }
  }

  // ---------------------------------------------------------------------------
  // Archiving old rows

  const ARCHIVE_PREFIX := "archived_"
  const RETENTION_DAYS := 730

  /**
   * `usage_month LIKE 'archived_%'`: in a LIKE pattern `_` stands for any one
   * character, so the label must start with "archived" and have a ninth character.
   */
  predicate LooksArchived(tag: string) {
    |tag| >= 9 && tag[..8] == "archived"
  }

  predicate ToArchive(r: UsageRecord, cutoff: Date) {
    Before(r.usageDate, cutoff) && !LooksArchived(r.usageMonth)
  }

  function Relabel(r: UsageRecord, cutoff: Date): UsageRecord {
    if ToArchive(r, cutoff) then r.(usageMonth := ARCHIVE_PREFIX + r.usageMonth) else r
  }

  /**
   * The relabelling of `cleanup_old_usage_data`: rows dated before today minus 730
   * days get the `archived_` prefix unless their label already looks archived.
   * Only labels change.
   */
  function ArchiveRelabel(records: seq<UsageRecord>, today: Day): (r: seq<UsageRecord>)
    ensures |r| == |records|
    ensures forall k :: 0 <= k < |r| ==> r[k] == records[k].(usageMonth := r[k].usageMonth)
    ensures forall k :: 0 <= k < |r| ==>
      (r[k].usageMonth != records[k].usageMonth <==> ToArchive(records[k], SubDays(today, RETENTION_DAYS)))
    ensures forall k :: 0 <= k < |r| && ToArchive(records[k], SubDays(today, RETENTION_DAYS)) ==>
      r[k].usageMonth == ARCHIVE_PREFIX + records[k].usageMonth
  {
    var cutoff := SubDays(today, RETENTION_DAYS);
    seq(|records|, k requires 0 <= k < |records| => Relabel(records[k], cutoff))
  }

  /** Archiving twice is archiving once. */
  lemma ArchiveIdempotent(records: seq<UsageRecord>, today: Day)
    ensures ArchiveRelabel(ArchiveRelabel(records, today), today) == ArchiveRelabel(records, today)
  {
    var once := ArchiveRelabel(records, today);
    var twice := ArchiveRelabel(once, today);
    forall k | 0 <= k < |once|
      ensures twice[k] == once[k]
    {
      if ToArchive(records[k], SubDays(today, RETENTION_DAYS)) {
        assert once[k].usageMonth[..8] == "archived";
      }
    }
  }

  /** The rows selected for archiving are exactly those more than 730 days old (and not yet archived). */
  lemma ArchivedRowsAreOld(r: UsageRecord, today: Day)
    ensures ToArchive(r, SubDays(today, RETENTION_DAYS)) <==>
      DaysBetween(r.usageDate, today) > RETENTION_DAYS && !LooksArchived(r.usageMonth)
  {
    SubDaysOrdinal(today, RETENTION_DAYS);
    BeforeOrdinal(r.usageDate, SubDays(today, RETENTION_DAYS));
  }

  function CountOlder(records: seq<UsageRecord>, cutoff: Date): (n: nat)
    ensures n == 0 ==> forall r :: r in records ==> !Before(r.usageDate, cutoff)
  {
    if records == [] then 0
    else (if Before(records[0].usageDate, cutoff) then 1 else 0) + CountOlder(records[1..], cutoff)
  }

  /** `cleanup_old_usage_data`: count the old rows and, if there are any, relabel them in the ledger. */
  method CleanupOldUsageData(ledger: Ledger, today: Day)
    requires ledger.Valid()
    modifies ledger
    ensures ledger.Valid()
    ensures ledger.records == ArchiveRelabel(old(ledger.records), today)
    ensures ledger.nextId == old(ledger.nextId)
  {
    var cutoff := SubDays(today, RETENTION_DAYS);
    var count := CountOlder(ledger.records, cutoff);
    if count == 0 {
      assert ledger.records == ArchiveRelabel(ledger.records, today);
      return;
    }
    var relabelled := ArchiveRelabel(ledger.records, today);
    assert forall k :: 0 <= k < |relabelled| ==>
      relabelled[k].transcriptionId == ledger.records[k].transcriptionId && relabelled[k].id == ledger.records[k].id;
    ledger.records := relabelled;
  }
}

=== FILE: plans.dfy ===
/**
 * The static plan table of the usage engine, the fallback to the free plan for
 * unknown names, the upgrade ladder free < starter < pro < enterprise, and the
 * plan summary returned to a user.
 */
module Plans {
  import opened Wrappers
  import opened UsageSchemas
  import opened Tables

  const FREE_PLAN := PlanLimits("free", 30, 25, 1,
    ["Basic transcription", "Cantonese support", "SRT/VTT export"], 0.0, false)
  const STARTER_PLAN := PlanLimits("starter", 150, 100, 2,
    ["Everything in Free", "Higher accuracy", "Bulk processing", "CSV export"], 0.10, true)
  const PRO_PLAN := PlanLimits("pro", 500, 500, 5,
    ["Everything in Starter", "Priority processing", "Custom vocabulary", "API access"], 0.08, true)
  const ENTERPRISE_PLAN := PlanLimits("enterprise", 2000, 1000, 10,
    ["Everything in Pro", "Dedicated support", "Custom integrations", "SLA guarantee"], 0.05, true)

  const PLAN_ORDER: seq<string> := ["free", "starter", "pro", "enterprise"]

  const PLAN_CONFIGS: map<string, PlanLimits> := map[
    "free" := FREE_PLAN, "starter" := STARTER_PLAN, "pro" := PRO_PLAN, "enterprise" := ENTERPRISE_PLAN]

  /** `PLAN_CONFIGS.get(name, PLAN_CONFIGS["free"])`. */
  function PlanConfig(name: string): (p: PlanLimits)
    ensures name in PLAN_ORDER ==> p.planName == name
    ensures name !in PLAN_ORDER ==> p == FREE_PLAN
    ensures p.creditsPerMonth >= 30 && p.maxFileSizeMb >= 25 && p.maxConcurrentJobs >= 1
    ensures p.allowsOverage <==> p.costPerCredit > 0.0
  {
    if name in PLAN_CONFIGS then PLAN_CONFIGS[name] else FREE_PLAN
  }

  /** `plan_order.index(name)` for a listed plan, 0 for any other name. */
  function PlanIndex(name: string): (i: nat)
    ensures i < |PLAN_ORDER|
    ensures name in PLAN_ORDER ==> PLAN_ORDER[i] == name
    ensures name !in PLAN_ORDER ==> i == 0
  {
    if name == "starter" then 1 else if name == "pro" then 2 else if name == "enterprise" then 3 else 0
  }

  function ConfigsOf(names: seq<string>): (r: seq<PlanLimits>)
    ensures |r| == |names|
    ensures forall k :: 0 <= k < |names| ==> r[k] == PlanConfig(names[k])
  {
    if names == [] then [] else [PlanConfig(names[0])] + ConfigsOf(names[1..])
  }

  /** The plans listed after the current one (an unknown name ranks as free). */
  function UpgradeOptions(name: string): (opts: seq<PlanLimits>)
    ensures |opts| == |PLAN_ORDER| - 1 - PlanIndex(name)
    ensures forall k :: 0 <= k < |opts| ==> opts[k] == PlanConfig(PLAN_ORDER[PlanIndex(name) + 1 + k])
  {
    ConfigsOf(PLAN_ORDER[PlanIndex(name) + 1..])
  }

  /** A plan is offered as an upgrade exactly when it is ranked strictly above the current one. */
  lemma UpgradeOptionsExact(name: string, j: nat)
    requires j < |PLAN_ORDER|
    ensures PlanConfig(PLAN_ORDER[j]) in UpgradeOptions(name) <==> j > PlanIndex(name)
  {
    var opts := UpgradeOptions(name);
    if j > PlanIndex(name) {
      assert opts[j - PlanIndex(name) - 1] == PlanConfig(PLAN_ORDER[j]);
    }
  }

  /** Every offered upgrade has more credits, larger files and more parallel jobs. */
  lemma UpgradesAreLarger(name: string, p: PlanLimits)
    requires p in UpgradeOptions(name)
    ensures p.creditsPerMonth > PlanConfig(name).creditsPerMonth
    ensures p.maxFileSizeMb > PlanConfig(name).maxFileSizeMb
    ensures p.maxConcurrentJobs > PlanConfig(name).maxConcurrentJobs
  {
    var opts := UpgradeOptions(name);
    var k :| 0 <= k < |opts| && opts[k] == p;
    ConfigAtIndex(name);
    LadderIncreases(PlanIndex(name), PlanIndex(name) + 1 + k);
  }

  /** An unknown name has the free plan's limits, which is where it ranks. */
  lemma ConfigAtIndex(name: string)
    ensures PlanConfig(name) == PlanConfig(PLAN_ORDER[PlanIndex(name)])
  {
  }

  /** Each rung of the ladder has more credits, larger files and more parallel jobs than every rung below. */
  lemma LadderIncreases(a: nat, b: nat)
    requires a < b < |PLAN_ORDER|
    ensures PlanConfig(PLAN_ORDER[b]).creditsPerMonth > PlanConfig(PLAN_ORDER[a]).creditsPerMonth
    ensures PlanConfig(PLAN_ORDER[b]).maxFileSizeMb > PlanConfig(PLAN_ORDER[a]).maxFileSizeMb
    ensures PlanConfig(PLAN_ORDER[b]).maxConcurrentJobs > PlanConfig(PLAN_ORDER[a]).maxConcurrentJobs
  {
    var ladder := [FREE_PLAN, STARTER_PLAN, PRO_PLAN, ENTERPRISE_PLAN];
    forall i | 0 <= i < |PLAN_ORDER|
      ensures PlanConfig(PLAN_ORDER[i]) == ladder[i]
    {
    }
  }

  datatype UserLimits = UserLimits(
    currentPlan: PlanLimits,
    subscriptionStatus: string,
    billingCycle: string,
    nextBillingDate: Option<int>,
    canUpgrade: bool,
    upgradeOptions: seq<PlanLimits>)

  /** `get_user_limits`: without a live subscription the user is on an active monthly free plan. */
  function GetUserLimits(subs: seq<Subscription>, user: UserId): (r: UserLimits)
    ensures r.canUpgrade <==> |r.upgradeOptions| > 0
    ensures r.canUpgrade <==> r.currentPlan.planName != "enterprise"
    ensures (forall s :: s in subs ==> !IsLive(s, user)) ==>
      r.currentPlan == FREE_PLAN && r.subscriptionStatus == "active"
      && r.billingCycle == "monthly" && r.nextBillingDate.None? && |r.upgradeOptions| == 3
    ensures r.currentPlan == PlanConfig(UserPlanName(subs, user))
    ensures r.upgradeOptions == UpgradeOptions(UserPlanName(subs, user))
    ensures CurrentSubscription(subs, user).Some? ==> var s := CurrentSubscription(subs, user).value;
      r.subscriptionStatus == s.status && r.billingCycle == s.billingCycle && r.nextBillingDate == s.currentPeriodEnd
  {
    var (name, status, cycle, next) :=
      match CurrentSubscription(subs, user)
      case Some(s) => (s.planName, s.status, s.billingCycle, s.currentPeriodEnd)
      case None => ("free", "active", "monthly", None);
    var options := UpgradeOptions(name);
    UserLimits(PlanConfig(name), status, cycle, next, |options| > 0, options)
  }
}

=== FILE: progress.dfy ===
/**
 * The real-time progress service: a registry of each user's WebSocket and
 * SSE connections and of each job's subscribers, and the per-job progress
 * and status tables whose updates are broadcast to the subscribers.
 * Connections are opaque identities; whether a send on a connection fails
 * arrives as a parameter (the set of connections whose send raises).
 */
module Progress {
  import opened Wrappers
  import opened SetMaps

  /** A WebSocket or an SSE queue. */
  type ConnId = nat

  datatype EventType = JobCreated | JobStarted | ProgressUpdate | JobCompleted | JobFailed | JobCancelled | StatusUpdate | Error

  /** A progress event as it is sent; its timestamp and extra data are not modelled. */
  datatype ProgressEvent = ProgressEvent(eventType: EventType, jobId: string, userId: string, progress: real, status: string, message: string)

  datatype ConnectionStats = ConnectionStats(
    websocketConnections: nat, sseConnections: nat, jobSubscriptions: nat, totalWebsockets: nat, totalSse: nat)

  /** The connections of every user in `users` lose the ones in `dead`; other users keep theirs. */
  function Prune(m: map<string, set<ConnId>>, users: set<string>, dead: set<ConnId>): (r: map<string, set<ConnId>>)
    ensures r.Keys == m.Keys
    ensures forall u :: u in m ==> r[u] == if u in users then m[u] - dead else m[u]
  {
    map u | u in m :: if u in users then m[u] - dead else m[u]
  }

  /** Pruning one user is replacing that user's set, if the user is there. */
  lemma PruneOne(m: map<string, set<ConnId>>, user: string, dead: set<ConnId>)
    ensures user in m ==> Prune(m, {user}, dead) == m[user := m[user] - m[user] * dead]
    ensures user !in m ==> Prune(m, {user}, dead) == m
  {
    if user in m {
      assert m[user] - m[user] * dead == m[user] - dead;
    }
  }

  /** Pruning the users one after another is pruning them all at once. */
  lemma PruneStep(m: map<string, set<ConnId>>, done: set<string>, user: string, dead: set<ConnId>)
    ensures Prune(Prune(m, done, dead), {user}, dead) == Prune(m, done + {user}, dead)
  {
    var once := Prune(m, done, dead);
    forall u | u in m
      ensures Prune(once, {user}, dead)[u] == Prune(m, done + {user}, dead)[u]
    {
      if u in done && u == user {
        assert m[u] - dead - dead == m[u] - dead;
      }
    }
  }

  /** Pruning never deletes a user, so a user whose sends all failed stays with an empty set. */
  lemma PruneMayLeaveEmptySet()
    ensures var r := Prune(map["u" := {7}], {"u"}, {7});
      "u" in r && r["u"] == {} && !NoEmptySets(r)
  {
  }

  /** Pruning a second time with the same dead connections changes nothing. */
  lemma PruneIdempotent(m: map<string, set<ConnId>>, users: set<string>, dead: set<ConnId>)
    ensures Prune(Prune(m, users, dead), users, dead) == Prune(m, users, dead)
  {
    var once := Prune(m, users, dead);
    var twice := Prune(once, users, dead);
    forall u | u in m
      ensures twice[u] == once[u]
    {
      if u in users {
        assert m[u] - dead - dead == m[u] - dead;
      }
    }
  }

  /** The connections whose send raised, found by trying each one. */
  method DeadConnections(conns: set<ConnId>, failing: set<ConnId>) returns (dead: set<ConnId>)
    ensures dead == conns * failing
  {
    dead := {};
    var rest := conns;
    while rest != {}
      invariant rest <= conns
      invariant dead == (conns - rest) * failing
      decreases |rest|
    {
      var c :| c in rest;
      if c in failing {
        dead := dead + {c};
      }
      rest := rest - {c};
    }
  }

  /** Discards the dead connections of `user` one at a time. */
  method DiscardEach(m: map<string, set<ConnId>>, user: string, dead: set<ConnId>) returns (r: map<string, set<ConnId>>)
    requires user in m
    ensures r == m[user := m[user] - dead]
  {
    r := m;
    var rest := dead;
    assert m[user] - (dead - rest) == m[user];
    while rest != {}
      invariant rest <= dead
      invariant r == m[user := m[user] - (dead - rest)]
      decreases |rest|
    {
      var c :| c in rest;
      assert m[user] - (dead - rest) - {c} == m[user] - (dead - (rest - {c}));
      r := r[user := r[user] - {c}];
      rest := rest - {c};
    }
    assert dead - rest == dead;
  }

  class ConnectionManager {
    var activeConnections: map<string, set<ConnId>>
    var sseConnections: map<string, set<ConnId>>
    var jobSubscribers: map<string, set<string>>

    /** Job subscriptions never keep an empty set; connection sets may, after a failed send. */
    ghost predicate Valid()
      reads this
    {
      NoEmptySets(jobSubscribers)
    }

    constructor ()
      ensures Valid()
      ensures activeConnections == map[] && sseConnections == map[] && jobSubscribers == map[]
    {
      activeConnections := map[];
      sseConnections := map[];
      jobSubscribers := map[];
    }

    /** `connect_websocket`: a refused handshake raises and registers nothing. */
    method ConnectWebsocket(websocket: ConnId, userId: string, accepted: bool) returns (r: Result<(), string>)
      requires Valid()
      modifies this
      ensures Valid()
      ensures r.Ok? <==> accepted
      ensures activeConnections == if accepted then Add(old(activeConnections), userId, websocket) else old(activeConnections)
      ensures sseConnections == old(sseConnections) && jobSubscribers == old(jobSubscribers)
    {
      if !accepted {
        return Err("WebSocket handshake failed");
      }
      activeConnections := Add(activeConnections, userId, websocket);
      r := Ok(());
    }

    /** `disconnect_websocket`. */
    method DisconnectWebsocket(websocket: ConnId, userId: string)
      requires Valid()
      modifies this
      ensures Valid()
      ensures activeConnections == Discard(old(activeConnections), userId, websocket)
      ensures sseConnections == old(sseConnections) && jobSubscribers == old(jobSubscribers)
    {
      activeConnections := Discard(activeConnections, userId, websocket);
    }

    /** `connect_sse`, given the new queue. */
    method ConnectSse(queue: ConnId, userId: string)
      requires Valid()
      modifies this
      ensures Valid()
      ensures sseConnections == Add(old(sseConnections), userId, queue)
      ensures activeConnections == old(activeConnections) && jobSubscribers == old(jobSubscribers)
    {
      sseConnections := Add(sseConnections, userId, queue);
    }

    /** `disconnect_sse`. */
    method DisconnectSse(queue: ConnId, userId: string)
      requires Valid()
      modifies this
      ensures Valid()
      ensures sseConnections == Discard(old(sseConnections), userId, queue)
      ensures activeConnections == old(activeConnections) && jobSubscribers == old(jobSubscribers)
    {
      sseConnections := Discard(sseConnections, userId, queue);
    }

    /** `subscribe_to_job`. */
    method SubscribeToJob(userId: string, jobId: string)
      requires Valid()
      modifies this
      ensures Valid()
      ensures jobSubscribers == Add(old(jobSubscribers), jobId, userId)
      ensures activeConnections == old(activeConnections) && sseConnections == old(sseConnections)
    {
      jobSubscribers := Add(jobSubscribers, jobId, userId);
    }

    /** `unsubscribe_from_job`. */
    method UnsubscribeFromJob(userId: string, jobId: string)
      requires Valid()
      modifies this
      ensures Valid()
      ensures jobSubscribers == Discard(old(jobSubscribers), jobId, userId)
      ensures activeConnections == old(activeConnections) && sseConnections == old(sseConnections)
    {
      jobSubscribers := Discard(jobSubscribers, jobId, userId);
    }

    /**
     * `send_to_user`: tries every connection of the user, then discards exactly
     * those whose send raised; answers the connections that got the event.
     */
    method SendToUser(userId: string, failing: set<ConnId>, fullQueues: set<ConnId>)
      returns (delivered: set<ConnId>, queued: set<ConnId>)
      requires Valid()
      modifies this
      ensures Valid()
      ensures activeConnections == Prune(old(activeConnections), {userId}, failing)
      ensures sseConnections == Prune(old(sseConnections), {userId}, fullQueues)
      ensures jobSubscribers == old(jobSubscribers)
      ensures delivered == Members(old(activeConnections), userId) - failing
      ensures queued == Members(old(sseConnections), userId) - fullQueues
    {
      delivered, queued := {}, {};
      PruneOne(activeConnections, userId, failing);
      PruneOne(sseConnections, userId, fullQueues);
      if userId in activeConnections {
        var dead := DeadConnections(activeConnections[userId], failing);
        delivered := activeConnections[userId] - dead;
        activeConnections := DiscardEach(activeConnections, userId, dead);
      }
      if userId in sseConnections {
        var deadQueues := DeadConnections(sseConnections[userId], fullQueues);
        queued := sseConnections[userId] - deadQueues;
        sseConnections := DiscardEach(sseConnections, userId, deadQueues);
      }
    }

    /** `broadcast_job_update`: sends to every subscriber of the job. */
    method BroadcastJobUpdate(jobId: string, failing: set<ConnId>, fullQueues: set<ConnId>)
      requires Valid()
      modifies this
      ensures Valid()
      ensures activeConnections == Prune(old(activeConnections), Members(old(jobSubscribers), jobId), failing)
      ensures sseConnections == Prune(old(sseConnections), Members(old(jobSubscribers), jobId), fullQueues)
      ensures jobSubscribers == old(jobSubscribers)
    {
      var subscribers := Members(jobSubscribers, jobId);
      var rest := subscribers;
      while rest != {}
        invariant Valid()
        invariant rest <= subscribers
        invariant activeConnections == Prune(old(activeConnections), subscribers - rest, failing)
        invariant sseConnections == Prune(old(sseConnections), subscribers - rest, fullQueues)
        invariant jobSubscribers == old(jobSubscribers)
        decreases |rest|
      {
        var userId :| userId in rest;
        ghost var before := subscribers - rest;
        PruneStep(old(activeConnections), before, userId, failing);
        PruneStep(old(sseConnections), before, userId, fullQueues);
        var _, _ := SendToUser(userId, failing, fullQueues);
        rest := rest - {userId};
        assert subscribers - rest == before + {userId};
      }
    }

    /** `get_connection_stats`: keys per registry and connections in total. */
    method GetConnectionStats() returns (s: ConnectionStats)
      ensures s.websocketConnections == |activeConnections| && s.sseConnections == |sseConnections|
      ensures s.jobSubscriptions == |jobSubscribers|
      ensures s.totalWebsockets == TotalMembers(activeConnections)
      ensures s.totalSse == TotalMembers(sseConnections)
    {
      var websockets := SumSizes(activeConnections);
      var queues := SumSizes(sseConnections);
      s := ConnectionStats(|activeConnections|, |sseConnections|, |jobSubscribers|, websockets, queues);
    }
  }

  /** `sum(len(conns) for conns in m.values())`. */
  method SumSizes(m: map<string, set<ConnId>>) returns (total: nat)
    ensures total == TotalMembers(m)
  {
    total := 0;
    var rest := m;
    while rest.Keys != {}
      invariant total + TotalMembers(rest) == TotalMembers(m)
      decreases |rest.Keys|
    {
      var k :| k in rest.Keys;
      TotalMembersRemove(rest, k);
      total := total + |rest[k]|;
      assert rest.Keys == (rest - {k}).Keys + {k};
      rest := rest - {k};
    }
  }

  /** Adding a connection makes the total grow by one exactly when it was not yet registered. */
  lemma ConnectCounts(m: map<string, set<ConnId>>, userId: string, c: ConnId)
    ensures TotalMembers(Add(m, userId, c)) == TotalMembers(m) + (if c in Members(m, userId) then 0 else 1)
    ensures |Add(m, userId, c)| == |m| + (if userId in m then 0 else 1)
  {
    AddTotal(m, userId, c);
    if userId !in m {
      assert Add(m, userId, c).Keys == m.Keys + {userId};
    } else {
      assert Add(m, userId, c).Keys == m.Keys;
    }
  }

  /** Removing a connection makes the total shrink by one exactly when it was registered. */
  lemma DisconnectCounts(m: map<string, set<ConnId>>, userId: string, c: ConnId)
    ensures TotalMembers(Discard(m, userId, c)) == TotalMembers(m) - (if c in Members(m, userId) then 1 else 0)
  {
    DiscardTotal(m, userId, c);
  }

  // ----------------------------------------------------------------- progress

  /** `max(0.0, min(1.0, progress))`. */
  function Clamp(progress: real): (r: real)
    ensures 0.0 <= r <= 1.0
    ensures 0.0 <= progress <= 1.0 ==> r == progress
    ensures progress < 0.0 ==> r == 0.0
    ensures progress > 1.0 ==> r == 1.0
  {
    if 1.0 < progress then 1.0 else if progress < 0.0 then 0.0 else progress
  }

  /** Clamping twice is clamping once. */
  lemma ClampIdempotent(progress: real)
    ensures Clamp(Clamp(progress)) == Clamp(progress)
  {
  }

  /** `d.get(k, default)`. */
  function GetOr<V>(m: map<string, V>, k: string, default: V): V {
    if k in m then m[k] else default
  }

  /** How many jobs have status `s`. */
  function CountStatus(statuses: map<string, string>, s: string): nat {
    |set j | j in statuses.Keys && statuses[j] == s|
  }

  /** The `job_statuses` histogram: every status present, with its number of jobs. */
  function Histogram(statuses: map<string, string>): (h: map<string, nat>)
    ensures h.Keys == statuses.Values
    ensures forall s :: s in h ==> h[s] == CountStatus(statuses, s) && h[s] >= 1
  {
    forall s | s in statuses.Values
      ensures CountStatus(statuses, s) >= 1
    {
      var j :| j in statuses.Keys && statuses[j] == s;
      var these := set i | i in statuses.Keys && statuses[i] == s;
      assert j in these;
      assert these != {};
    }
    map s | s in statuses.Values :: CountStatus(statuses, s)
  }

  /** The histogram's counts added up over a set of statuses. */
  ghost function SumCounts(statuses: map<string, string>, among: set<string>): nat
    decreases among
  {
    if among == {} then 0
    else
      var s :| s in among;
      CountStatus(statuses, s) + SumCounts(statuses, among - {s})
  }

  /** The jobs whose status is one of `among`. */
  function JobsAmong(statuses: map<string, string>, among: set<string>): set<string> {
    set j | j in statuses.Keys && statuses[j] in among
  }

  /** Summing the counts over some statuses counts the jobs having one of them. */
  lemma {:induction false} SumCountsIsJobs(statuses: map<string, string>, among: set<string>)
    ensures SumCounts(statuses, among) == |JobsAmong(statuses, among)|
    decreases among
  {
    if among != {} {
      var s :| s in among && SumCounts(statuses, among) == CountStatus(statuses, s) + SumCounts(statuses, among - {s});
      SumCountsIsJobs(statuses, among - {s});
      JobsAmongSplit(statuses, among, s);
    }
  }

  /** The jobs with a status in `among` are those with status `s` and those with one of the others. */
  lemma JobsAmongSplit(statuses: map<string, string>, among: set<string>, s: string)
    requires s in among
    ensures |JobsAmong(statuses, among)| == CountStatus(statuses, s) + |JobsAmong(statuses, among - {s})|
  {
    var these := set j | j in statuses.Keys && statuses[j] == s;
    var others := JobsAmong(statuses, among - {s});
    assert JobsAmong(statuses, among) == these + others;
    assert these * others == {};
  }

  /** The histogram of `get_stats` accounts for every job exactly once. */
  lemma HistogramTotal(statuses: map<string, string>)
    ensures var h := Histogram(statuses);
      SumCounts(statuses, h.Keys) == |statuses|
  {
    SumCountsIsJobs(statuses, statuses.Values);
    EveryJobHasItsStatus(statuses);
  }

  /** Every job's status is among the statuses present, so selecting by them keeps every job. */
  lemma EveryJobHasItsStatus(statuses: map<string, string>)
    ensures JobsAmong(statuses, statuses.Values) == statuses.Keys
  {
    var among := JobsAmong(statuses, statuses.Values);
    forall j | j in statuses.Keys
      ensures j in among
    {
      assert statuses[j] in statuses.Values;
    }
    forall j | j in among
      ensures j in statuses.Keys
    {
    }
  }

  /** What a job's database row reports, each column possibly missing. */
  datatype StoredJob = StoredJob(progress: Option<real>, status: Option<string>)

  /** The answer of `get_job_progress`. */
  datatype JobProgress = JobProgress(jobId: string, progress: real, status: string, inMemory: bool, error: Option<string>)

  datatype Stats = Stats(connections: ConnectionStats, activeJobs: nat, jobStatuses: map<string, nat>)

  class ProgressService {
    const manager: ConnectionManager
    var jobProgress: map<string, real>
    var jobStatus: map<string, string>

    ghost predicate Valid()
      reads this, manager
    {
      manager.Valid()
    }

    constructor ()
      ensures Valid() && fresh(manager)
      ensures jobProgress == map[] && jobStatus == map[]
      ensures manager.activeConnections == map[] && manager.sseConnections == map[] && manager.jobSubscribers == map[]
    {
      manager := new ConnectionManager();
      jobProgress := map[];
      jobStatus := map[];
    }

    /** `create_job_progress`: progress 0 and status `created`, announced to the user. */
    method CreateJobProgress(jobId: string, userId: string, failing: set<ConnId>, fullQueues: set<ConnId>)
      returns (event: ProgressEvent)
      requires Valid()
      modifies this, manager
      ensures Valid()
      ensures jobProgress == old(jobProgress)[jobId := 0.0] && jobStatus == old(jobStatus)[jobId := "created"]
      ensures event == ProgressEvent(JobCreated, jobId, userId, 0.0, "created", "Job created successfully")
      ensures manager.activeConnections == Prune(old(manager.activeConnections), {userId}, failing)
      ensures manager.sseConnections == Prune(old(manager.sseConnections), {userId}, fullQueues)
      ensures manager.jobSubscribers == old(manager.jobSubscribers)
    {
      jobProgress := jobProgress[jobId := 0.0];
      jobStatus := jobStatus[jobId := "created"];
      event := ProgressEvent(JobCreated, jobId, userId, 0.0, "created", "Job created successfully");
      var _, _ := manager.SendToUser(userId, failing, fullQueues);
    }

    /**
     * `update_job_progress`: stores the clamped progress, replaces the status
     * only by a non-empty one, and broadcasts to the job's subscribers.
     */
    method UpdateJobProgress(jobId: string, userId: string, progress: real, status: string, message: string,
                             failing: set<ConnId>, fullQueues: set<ConnId>)
      returns (event: ProgressEvent)
      requires Valid()
      modifies this, manager
      ensures Valid()
      ensures jobProgress == old(jobProgress)[jobId := Clamp(progress)]
      ensures jobStatus == if status != "" then old(jobStatus)[jobId := status] else old(jobStatus)
      ensures event.eventType == ProgressUpdate && event.progress == Clamp(progress) && event.message == message
      ensures event.status == if status != "" then status else GetOr(old(jobStatus), jobId, "")
      ensures manager.activeConnections == Prune(old(manager.activeConnections), Members(old(manager.jobSubscribers), jobId), failing)
      ensures manager.sseConnections == Prune(old(manager.sseConnections), Members(old(manager.jobSubscribers), jobId), fullQueues)
      ensures manager.jobSubscribers == old(manager.jobSubscribers)
    {
      var clamped := Clamp(progress);
      jobProgress := jobProgress[jobId := clamped];
      if status != "" {
        jobStatus := jobStatus[jobId := status];
      }
      event := ProgressEvent(ProgressUpdate, jobId, userId, clamped, if status != "" then status else GetOr(jobStatus, jobId, ""), message);
      manager.BroadcastJobUpdate(jobId, failing, fullQueues);
    }

    /**
     * `complete_job`: success sets progress 1.0 and `completed`; failure sets
     * `failed` and keeps the progress. For a failure of a job with no progress
     * entry, reading the progress raises after the status is written, so
     * nothing is broadcast and no event results.
     */
    method CompleteJob(jobId: string, userId: string, success: bool, message: string,
                       failing: set<ConnId>, fullQueues: set<ConnId>)
      returns (event: Option<ProgressEvent>)
      requires Valid()
      modifies this, manager
      ensures Valid()
      ensures jobStatus == old(jobStatus)[jobId := if success then "completed" else "failed"]
      ensures jobProgress == if success then old(jobProgress)[jobId := 1.0] else old(jobProgress)
      ensures event.None? <==> !success && jobId !in old(jobProgress)
      ensures event.Some? ==> event.value.progress == jobProgress[jobId] && event.value.status == jobStatus[jobId]
      ensures event.Some? ==> event.value.eventType == (if success then JobCompleted else JobFailed)
      ensures event.Some? ==>
        event.value.message == if message != "" then message else if success then "Job completed successfully" else "Job failed"
      ensures event.Some? ==> manager.activeConnections == Prune(old(manager.activeConnections), Members(old(manager.jobSubscribers), jobId), failing)
      ensures event.Some? ==> manager.sseConnections == Prune(old(manager.sseConnections), Members(old(manager.jobSubscribers), jobId), fullQueues)
      ensures event.None? ==> manager.activeConnections == old(manager.activeConnections) && manager.sseConnections == old(manager.sseConnections)
      ensures manager.jobSubscribers == old(manager.jobSubscribers)
    {
      var eventType, text;
      if success {
        jobProgress := jobProgress[jobId := 1.0];
        jobStatus := jobStatus[jobId := "completed"];
        eventType, text := JobCompleted, if message != "" then message else "Job completed successfully";
      } else {
        jobStatus := jobStatus[jobId := "failed"];
        eventType, text := JobFailed, if message != "" then message else "Job failed";
      }
      if jobId !in jobProgress {
        return None;
      }
      event := Some(ProgressEvent(eventType, jobId, userId, jobProgress[jobId], jobStatus[jobId], text));
      manager.BroadcastJobUpdate(jobId, failing, fullQueues);
    }

    /** `cancel_job`: status `cancelled`, progress untouched. */
    method CancelJob(jobId: string, userId: string, message: string, failing: set<ConnId>, fullQueues: set<ConnId>)
      returns (event: ProgressEvent)
      requires Valid()
      modifies this, manager
      ensures Valid()
      ensures jobStatus == old(jobStatus)[jobId := "cancelled"] && jobProgress == old(jobProgress)
      ensures event == ProgressEvent(JobCancelled, jobId, userId, GetOr(old(jobProgress), jobId, 0.0), "cancelled",
        if message != "" then message else "Job cancelled by user")
      ensures manager.activeConnections == Prune(old(manager.activeConnections), Members(old(manager.jobSubscribers), jobId), failing)
      ensures manager.sseConnections == Prune(old(manager.sseConnections), Members(old(manager.jobSubscribers), jobId), fullQueues)
      ensures manager.jobSubscribers == old(manager.jobSubscribers)
    {
      jobStatus := jobStatus[jobId := "cancelled"];
      event := ProgressEvent(JobCancelled, jobId, userId, GetOr(jobProgress, jobId, 0.0), "cancelled",
        if message != "" then message else "Job cancelled by user");
      manager.BroadcastJobUpdate(jobId, failing, fullQueues);
    }

    /** `_cleanup_job_data` once its delay has passed: forgets the job and its subscribers. */
    method CleanupJobData(jobId: string)
      requires Valid()
      modifies this, manager
      ensures Valid()
      ensures jobProgress == old(jobProgress) - {jobId} && jobStatus == old(jobStatus) - {jobId}
      ensures manager.jobSubscribers == old(manager.jobSubscribers) - {jobId}
      ensures manager.activeConnections == old(manager.activeConnections)
      ensures manager.sseConnections == old(manager.sseConnections)
    {
      jobProgress := jobProgress - {jobId};
      jobStatus := jobStatus - {jobId};
      manager.jobSubscribers := manager.jobSubscribers - {jobId};
    }

    /** `send_error`: an `error` event carrying the job's progress, sent to the user. */
    method SendError(userId: string, jobId: string, errorMessage: string, failing: set<ConnId>, fullQueues: set<ConnId>)
      returns (event: ProgressEvent)
      requires Valid()
      modifies manager
      ensures Valid()
      ensures event == ProgressEvent(Error, jobId, userId, GetOr(jobProgress, jobId, 0.0), "error", errorMessage)
      ensures manager.activeConnections == Prune(old(manager.activeConnections), {userId}, failing)
      ensures manager.sseConnections == Prune(old(manager.sseConnections), {userId}, fullQueues)
      ensures manager.jobSubscribers == old(manager.jobSubscribers)
    {
      event := ProgressEvent(Error, jobId, userId, GetOr(jobProgress, jobId, 0.0), "error", errorMessage);
      var _, _ := manager.SendToUser(userId, failing, fullQueues);
    }

    /**
     * `get_job_progress`: the stored row when there is one, else the in-memory
     * tables (defaults 0.0 and `unknown`); a failed lookup reports `error`.
     */
    function GetJobProgress(jobId: string, stored: Result<Option<StoredJob>, string>): (r: JobProgress)
      reads this
      ensures r.jobId == jobId
      ensures stored.Err? ==> r == JobProgress(jobId, 0.0, "error", false, Some(stored.error))
      ensures stored.Ok? && stored.value.None? ==>
        r == JobProgress(jobId, GetOr(jobProgress, jobId, 0.0), GetOr(jobStatus, jobId, "unknown"), true, None)
      ensures stored.Ok? && stored.value.Some? ==>
        var row := stored.value.value;
        && !r.inMemory && r.error.None?
        && (row.progress.Some? ==> r.progress == row.progress.value)
        && (row.progress.None? ==> r.progress == 0.0)
        && (row.status.Some? ==> r.status == row.status.value)
        && (row.status.None? ==> r.status == "unknown")
      ensures r.inMemory ==> stored == Ok(None)
    {
      if stored.Err? then JobProgress(jobId, 0.0, "error", false, Some(stored.error))
      else if stored.value.Some? then
        var row := stored.value.value;
        JobProgress(jobId, if row.progress.Some? then row.progress.value else 0.0,
          if row.status.Some? then row.status.value else "unknown", false, None)
      else JobProgress(jobId, GetOr(jobProgress, jobId, 0.0), GetOr(jobStatus, jobId, "unknown"), true, None)
    }

    /** `get_stats`. */
    method GetStats() returns (s: Stats)
      requires Valid()
      ensures s.activeJobs == |jobProgress|
      ensures s.jobStatuses == Histogram(jobStatus)
      ensures s.connections == ConnectionStats(
        |manager.activeConnections|, |manager.sseConnections|, |manager.jobSubscribers|,
        TotalMembers(manager.activeConnections), TotalMembers(manager.sseConnections))
    {
      var connections := manager.GetConnectionStats();
      s := Stats(connections, |jobProgress|, Histogram(jobStatus));
    }
  }
}

=== FILE: provider_routing.dfy ===
/**
 * The unified transcription front end: the ladder that picks Google Speech
 * or Whisper for a file, the language codes Whisper is given, the fallback
 * to Whisper when the chosen provider fails, when usage is logged, the
 * five-minute cache of provider health checks, and the normalisation of
 * either provider's segments into one shape. The providers, their cost
 * estimators, the audio metadata reader and the clock answer as parameters.
 */
module ProviderRouting {
  import opened Wrappers
  import opened Ratios
  import opened Text
  import opened TranscriptSchema

  datatype Provider = GoogleSpeech | Whisper | Auto

  datatype ProviderStatus = Available | Unavailable | StatusError

  const MiB: nat := 1024 * 1024

  /** Seconds between two health checks of the same provider. */
  const HEALTH_CHECK_INTERVAL: int := 300

  // ------------------------------------------------------------------ ladder

  /** What the ladder looks at, once every input it reads has been obtained. */
  datatype Facts = Facts(googleStatus: Option<ProviderStatus>, languageCode: string, fileSize: nat,
                         duration: real, googleCost: real, whisperCost: real)

  predicate ChineseLanguage(code: string) {
    StartsWith(code, "yue") || StartsWith(code, "zh")
  }

  /** The decision steps of `_choose_best_provider`, in their order. */
  function Ladder(f: Facts): Provider {
    if f.googleStatus != Some(Available) then Whisper
    else if ChineseLanguage(f.languageCode) then GoogleSpeech
    else if f.fileSize > 25 * MiB then GoogleSpeech
    else if f.duration < 30.0 then Whisper
    else if f.duration > 300.0 && f.whisperCost < f.googleCost * 0.8 then Whisper
    else GoogleSpeech
  }

  /**
   * The ladder never answers AUTO, and it answers Whisper exactly when Google
   * is not available, or for a non-Chinese file of at most 25 MiB that is
   * either shorter than 30 seconds or longer than five minutes and more than
   * 20% cheaper on Whisper.
   */
  lemma LadderChoice(f: Facts)
    ensures Ladder(f) != Auto
    ensures Ladder(f) == Whisper <==>
      f.googleStatus != Some(Available)
      || (!ChineseLanguage(f.languageCode) && f.fileSize <= 25 * MiB
          && (f.duration < 30.0 || (f.duration > 300.0 && f.whisperCost < f.googleCost * 0.8)))
  {
  }

  /** With Google available, Chinese audio always goes to Google whatever its size, length or cost. */
  lemma ChineseGoesToGoogle(f: Facts)
    requires f.googleStatus == Some(Available) && ChineseLanguage(f.languageCode)
    ensures Ladder(f) == GoogleSpeech
  {
  }

  /**
   * `_choose_best_provider` once the health check has run: the file size, the
   * duration (metadata, else 0 when it has none, else the size over 32000 when
   * reading it fails) and both cost estimates; any error in reading the size or
   * estimating a cost falls back to Whisper.
   */
  function ChooseBestProvider(googleStatus: Option<ProviderStatus>, languageCode: string,
                              fileSize: Result<nat, string>, metadataDuration: Result<Option<real>, string>,
                              googleCost: real -> Result<real, string>, whisperCost: real -> Result<real, string>): (p: Provider)
    ensures p != Auto
    ensures fileSize.Err? ==> p == Whisper
    ensures fileSize.Ok? ==>
      var d := EstimatedDuration(fileSize.value, metadataDuration);
      (googleCost(d).Err? || whisperCost(d).Err? ==> p == Whisper)
      && (googleCost(d).Ok? && whisperCost(d).Ok? ==>
            p == Ladder(Facts(googleStatus, languageCode, fileSize.value, d, googleCost(d).value, whisperCost(d).value)))
  {
    if fileSize.Err? then Whisper
    else
      var duration := EstimatedDuration(fileSize.value, metadataDuration);
      var g := googleCost(duration);
      var w := whisperCost(duration);
      if g.Err? || w.Err? then Whisper
      else
        var f := Facts(googleStatus, languageCode, fileSize.value, duration, g.value, w.value);
        LadderChoice(f);
        Ladder(f)
  }

  /** The duration the ladder uses: the metadata's, 0 when it has none, else 16 kHz 16-bit audio's length. */
  function EstimatedDuration(fileSize: nat, metadataDuration: Result<Option<real>, string>): (d: real)
    ensures d >= 0.0 || (metadataDuration.Ok? && metadataDuration.value.Some?)
    ensures metadataDuration.Err? ==> d * 32000.0 == fileSize as real
  {
    if metadataDuration.Err? then fileSize as real / 32000.0
    else if metadataDuration.value.Some? then metadataDuration.value.value
    else 0.0
  }

  // ---------------------------------------------------------------- language

  /** `_map_language_for_whisper`: the six known codes, anything else Chinese. */
  function MapLanguageForWhisper(code: string): (r: string)
    ensures r == "en" <==> code == "en-US" || code == "en-GB"
    ensures r == "zh" <==> !(code == "en-US" || code == "en-GB")
  {
    var mapping := map["yue-Hant-HK" := "zh", "zh-HK" := "zh", "zh-TW" := "zh", "zh-CN" := "zh", "en-US" := "en", "en-GB" := "en"];
    if code in mapping then mapping[code] else "zh"
  }

  // ---------------------------------------------------------------- segments

  /** One segment as a provider reports it; every key may be missing. */
  datatype RawSegment = RawSegment(
    id: Option<int>, start: Option<real>, startTime: Option<real>, end: Option<real>, endTime: Option<real>,
    text: Option<string>, confidence: Option<real>, avgLogprob: Option<real>,
    words: Option<seq<string>>, speaker: Option<string>)

  datatype UnifiedSegment = UnifiedSegment(
    id: int, startTime: real, endTime: real, text: string, confidence: real,
    words: Option<seq<string>>, speaker: Option<string>)

  function OrElse<T>(first: Option<T>, second: Option<T>, default: T): T {
    if first.Some? then first.value else if second.Some? then second.value else default
  }

  /** The segment at position `i` in the unified shape. */
  function UnifySegment(i: nat, s: RawSegment): (u: UnifiedSegment)
    ensures u.id == if s.id.Some? then s.id.value else i
    ensures s.start.Some? ==> u.startTime == s.start.value
    ensures s.start.None? && s.startTime.Some? ==> u.startTime == s.startTime.value
    ensures s.start.None? && s.startTime.None? ==> u.startTime == 0.0
    ensures s.end.Some? ==> u.endTime == s.end.value
    ensures s.end.None? && s.endTime.Some? ==> u.endTime == s.endTime.value
    ensures s.end.None? && s.endTime.None? ==> u.endTime == 0.0
    ensures u.text == if s.text.Some? then s.text.value else ""
    ensures s.confidence.Some? ==> u.confidence == s.confidence.value
    ensures s.confidence.None? && s.avgLogprob.Some? ==> u.confidence == s.avgLogprob.value
    ensures s.confidence.None? && s.avgLogprob.None? ==> u.confidence == 0.0
    ensures u.words == s.words && u.speaker == s.speaker
  {
    UnifiedSegment(
      if s.id.Some? then s.id.value else i,
      OrElse(s.start, s.startTime, 0.0),
      OrElse(s.end, s.endTime, 0.0),
      OrElse(s.text, None, ""),
      OrElse(s.confidence, s.avgLogprob, 0.0),
      s.words, s.speaker)
  }

  function UnifySegments(raw: seq<RawSegment>): (r: seq<UnifiedSegment>)
    ensures |r| == |raw|
    ensures forall i :: 0 <= i < |raw| ==> r[i] == UnifySegment(i, raw[i])
  {
    seq(|raw|, i requires 0 <= i < |raw| => UnifySegment(i, raw[i]))
  }

  /** The loop of `_unify_transcription_result`. */
  method UnifySegmentsLoop(raw: seq<RawSegment>) returns (unified: seq<UnifiedSegment>)
    ensures unified == UnifySegments(raw)
  {
    unified := [];
    for i := 0 to |raw|
      invariant unified == UnifySegments(raw[..i])
    {
      unified := unified + [UnifySegment(i, raw[i])];
    }
    assert raw[..|raw|] == raw;
  }

  function SumConfidence(segments: seq<UnifiedSegment>): real {
    if segments == [] then 0.0 else SumConfidence(segments[..|segments| - 1]) + segments[|segments| - 1].confidence
  }

  function TotalCharacters(segments: seq<UnifiedSegment>): nat {
    if segments == [] then 0 else TotalCharacters(segments[..|segments| - 1]) + |segments[|segments| - 1].text|
  }

  function TotalWords(segments: seq<UnifiedSegment>): nat {
    if segments == [] then 0
    else
      var last := segments[|segments| - 1];
      TotalWords(segments[..|segments| - 1]) + (if last.words.Some? then |last.words.value| else 0)
  }

  function AverageConfidence(segments: seq<UnifiedSegment>): real {
    if segments == [] then 0.0 else SumConfidence(segments) / (|segments| as real)
  }

  /** A provider's answer: its segments and the language its metadata reports, if any. */
  datatype RawResult = RawResult(segments: seq<RawSegment>, language: Option<string>)

  datatype Unified = Unified(
    segments: seq<UnifiedSegment>, provider: Provider, language: string, processingTime: real,
    totalSegments: nat, averageConfidence: real, totalCharacters: nat, totalWords: nat)

  /** `_unify_transcription_result` without its cost estimate. */
  function Unify(raw: RawResult, provider: Provider, processingTime: real): (u: Unified)
    ensures |u.segments| == |raw.segments| == u.totalSegments
    ensures u.segments == UnifySegments(raw.segments)
    ensures u.averageConfidence == AverageConfidence(u.segments)
    ensures u.totalCharacters == TotalCharacters(u.segments) && u.totalWords == TotalWords(u.segments)
    ensures u.processingTime == processingTime
    ensures raw.segments == [] ==> u.averageConfidence == 0.0 && u.totalCharacters == 0 && u.totalWords == 0
    ensures u.language == if raw.language.Some? then raw.language.value else "yue-Hant-HK"
    ensures u.provider == provider
  {
    var segments := UnifySegments(raw.segments);
    Unified(segments, provider, OrElse(raw.language, None, "yue-Hant-HK"), processingTime,
      |segments|, AverageConfidence(segments), TotalCharacters(segments), TotalWords(segments))
  }

  /** When every confidence lies in `[lo, hi]`, so does the average. */
  lemma {:induction false} AverageConfidenceBounds(segments: seq<UnifiedSegment>, lo: real, hi: real)
    requires segments != []
    requires forall k :: 0 <= k < |segments| ==> lo <= segments[k].confidence <= hi
    ensures lo <= AverageConfidence(segments) <= hi
  {
    SumConfidenceBounds(segments, lo, hi);
    QuotientBetween(SumConfidence(segments), |segments| as real, lo, hi);
  }

  lemma {:induction false} SumConfidenceBounds(segments: seq<UnifiedSegment>, lo: real, hi: real)
    requires forall k :: 0 <= k < |segments| ==> lo <= segments[k].confidence <= hi
    ensures lo * (|segments| as real) <= SumConfidence(segments) <= hi * (|segments| as real)
  {
    if segments != [] {
      SumConfidenceBounds(segments[..|segments| - 1], lo, hi);
    }
  }

  // ------------------------------------------------------------- transcribe

  /** The outcome of `transcribe`: the unified result or the raised message, and whether usage was logged. */
  datatype Outcome = Outcome(result: Result<Unified, string>, logged: bool)

  /**
   * The provider a call runs on first: the ladder's choice for AUTO, the
   * requested one otherwise.
   */
  function FirstProvider(requested: Provider, chosen: Provider): Provider {
    if requested == Auto then chosen else requested
  }

  /** Whisper's answer, wrapped the way `_transcribe_with_whisper` does: the metadata carries the caller's code. */
  function WhisperResult(languageCode: string, whisper: string -> Result<seq<RawSegment>, string>): Result<RawResult, string> {
    var answer := whisper(MapLanguageForWhisper(languageCode));
    if answer.Err? then Err(answer.error) else Ok(RawResult(answer.value, Some(languageCode)))
  }

  function RunProvider(p: Provider, languageCode: string, google: Result<RawResult, string>,
                       whisper: string -> Result<seq<RawSegment>, string>): Result<RawResult, string> {
    if p == GoogleSpeech then google
    else if p == Whisper then WhisperResult(languageCode, whisper)
    else Err("Unknown provider: auto")
  }

  /**
   * `transcribe`: runs the first provider; when it fails, an AUTO request
   * whose first provider was not Whisper retries once on Whisper; usage is
   * logged only after the first provider succeeds, and only with both a user
   * and a job id. `elapsed` is the clock's answer for the processing time.
   */
  function Transcribe(requested: Provider, chosen: Provider, languageCode: string,
                      google: Result<RawResult, string>, whisper: string -> Result<seq<RawSegment>, string>,
                      userId: Option<string>, jobId: Option<string>, elapsed: real): (o: Outcome)
    ensures o.logged ==> Truthy(userId) && Truthy(jobId) && o.result.Ok?
  {
    var first := FirstProvider(requested, chosen);
    var primary := RunProvider(first, languageCode, google, whisper);
    if primary.Ok? then
      Outcome(Ok(Unify(primary.value, first, elapsed)), Truthy(userId) && Truthy(jobId))
    else if requested == Auto && first != Whisper then
      var fallback := WhisperResult(languageCode, whisper);
      if fallback.Ok? then Outcome(Ok(Unify(fallback.value, Whisper, elapsed)), false)
      else Outcome(Err("Transcription failed: All transcription providers failed. Primary: " + primary.error
                       + ", Fallback: " + fallback.error), false)
    else Outcome(Err("Transcription failed: " + primary.error), false)
  }

  /**
   * Whisper is tried a second time only for an AUTO request whose first
   * provider was not Whisper; an explicit provider's error is reported as is.
   */
  lemma FallbackOnlyForAuto(requested: Provider, chosen: Provider, languageCode: string,
                            google: Result<RawResult, string>, whisper: string -> Result<seq<RawSegment>, string>,
                            userId: Option<string>, jobId: Option<string>, elapsed: real)
    requires RunProvider(FirstProvider(requested, chosen), languageCode, google, whisper).Err?
    ensures var o := Transcribe(requested, chosen, languageCode, google, whisper, userId, jobId, elapsed);
      && !o.logged
      && (o.result.Ok? <==> requested == Auto && chosen != Whisper && WhisperResult(languageCode, whisper).Ok?)
      && (o.result.Ok? ==> o.result.value.provider == Whisper)
      && (requested != Auto ==>
           o.result == Err("Transcription failed: " + RunProvider(requested, languageCode, google, whisper).error))
  {
  }

  /** A first provider that succeeds gives its own result, logged exactly when both ids are given. */
  lemma PrimarySuccess(requested: Provider, chosen: Provider, languageCode: string,
                       google: Result<RawResult, string>, whisper: string -> Result<seq<RawSegment>, string>,
                       userId: Option<string>, jobId: Option<string>, elapsed: real)
    requires RunProvider(FirstProvider(requested, chosen), languageCode, google, whisper).Ok?
    ensures var o := Transcribe(requested, chosen, languageCode, google, whisper, userId, jobId, elapsed);
      && o.result.Ok? && o.result.value.provider == FirstProvider(requested, chosen)
      && (o.logged <==> Truthy(userId) && Truthy(jobId))
  {
  }

  // ------------------------------------------------------------------ health

  /** The status and check time of one provider after a health pass at `now`. */
  function HealthAfter(status: map<Provider, ProviderStatus>, lastCheck: map<Provider, int>,
                       p: Provider, now: int, answer: Result<bool, string>): (r: (map<Provider, ProviderStatus>, map<Provider, int>))
    ensures Recent(lastCheck, p, now) ==> r == (status, lastCheck)
    ensures !Recent(lastCheck, p, now) ==> r.1 == lastCheck[p := now]
    ensures !Recent(lastCheck, p, now) ==> r.0 == status[p := if answer == Ok(true) then Available else StatusError]
  {
    if Recent(lastCheck, p, now) then (status, lastCheck)
    else (status[p := if answer == Ok(true) then Available else StatusError], lastCheck[p := now])
  }

  /** Checked less than the interval ago. */
  predicate Recent(lastCheck: map<Provider, int>, p: Provider, now: int) {
    p in lastCheck && now - lastCheck[p] < HEALTH_CHECK_INTERVAL
  }

  class UnifiedTranscriptionService {
    var providerStatus: map<Provider, ProviderStatus>
    var lastHealthCheck: map<Provider, int>

    constructor ()
      ensures providerStatus == map[] && lastHealthCheck == map[]
    {
      providerStatus := map[];
      lastHealthCheck := map[];
    }

    /**
     * `_check_provider_health`: Google then Whisper; a provider checked less
     * than five minutes ago is skipped, any other gets AVAILABLE for a healthy
     * answer and ERROR for an unhealthy one or a raised check, and `now` as its
     * check time.
     */
    method CheckProviderHealth(now: int, googleHealth: Result<bool, string>, whisperHealth: Result<bool, string>)
      modifies this
      ensures var afterGoogle := HealthAfter(old(providerStatus), old(lastHealthCheck), GoogleSpeech, now, googleHealth);
        (providerStatus, lastHealthCheck) == HealthAfter(afterGoogle.0, afterGoogle.1, Whisper, now, whisperHealth)
    {
      var providers := [GoogleSpeech, Whisper];
      ghost var afterGoogle := HealthAfter(old(providerStatus), old(lastHealthCheck), GoogleSpeech, now, googleHealth);
      for i := 0 to 2
        invariant i == 0 ==> (providerStatus, lastHealthCheck) == (old(providerStatus), old(lastHealthCheck))
        invariant i == 1 ==> (providerStatus, lastHealthCheck) == afterGoogle
        invariant i == 2 ==> (providerStatus, lastHealthCheck) == HealthAfter(afterGoogle.0, afterGoogle.1, Whisper, now, whisperHealth)
      {
        var p := providers[i];
        if Recent(lastHealthCheck, p, now) {
          continue;
        }
        var answer := if p == GoogleSpeech then googleHealth else whisperHealth;
        var isHealthy := answer.Ok? && answer.value;
        providerStatus := providerStatus[p := if isHealthy then Available else StatusError];
        lastHealthCheck := lastHealthCheck[p := now];
      }
    }

    /**
     * `_choose_best_provider`: a health pass, then the ladder on Google's
     * status after it.
     */
    method ChooseProvider(now: int, googleHealth: Result<bool, string>, whisperHealth: Result<bool, string>,
                          languageCode: string, fileSize: Result<nat, string>, metadataDuration: Result<Option<real>, string>,
                          googleCost: real -> Result<real, string>, whisperCost: real -> Result<real, string>)
      returns (p: Provider)
      modifies this
      ensures var afterGoogle := HealthAfter(old(providerStatus), old(lastHealthCheck), GoogleSpeech, now, googleHealth);
        (providerStatus, lastHealthCheck) == HealthAfter(afterGoogle.0, afterGoogle.1, Whisper, now, whisperHealth)
      ensures p == ChooseBestProvider(if GoogleSpeech in providerStatus then Some(providerStatus[GoogleSpeech]) else None,
                                      languageCode, fileSize, metadataDuration, googleCost, whisperCost)
      ensures p != Auto
    {
      CheckProviderHealth(now, googleHealth, whisperHealth);
      var googleStatus := if GoogleSpeech in providerStatus then Some(providerStatus[GoogleSpeech]) else None;
      p := ChooseBestProvider(googleStatus, languageCode, fileSize, metadataDuration, googleCost, whisperCost);
    }

    /** `initialize`: Google by its start-up answer, Whisper AVAILABLE, then a health pass. */
    method Initialize(now: int, googleStart: Result<(), string>, googleHealth: Result<bool, string>, whisperHealth: Result<bool, string>)
      modifies this
      ensures var before := old(providerStatus)[GoogleSpeech := if googleStart.Ok? then Available else StatusError][Whisper := Available];
        var afterGoogle := HealthAfter(before, old(lastHealthCheck), GoogleSpeech, now, googleHealth);
        (providerStatus, lastHealthCheck) == HealthAfter(afterGoogle.0, afterGoogle.1, Whisper, now, whisperHealth)
    {
      providerStatus := providerStatus[GoogleSpeech := if googleStart.Ok? then Available else StatusError];
      providerStatus := providerStatus[Whisper := Available];
      CheckProviderHealth(now, googleHealth, whisperHealth);
    }
  }

  /** A health pass right after another one at the same time changes nothing. */
  lemma HealthCached(status: map<Provider, ProviderStatus>, lastCheck: map<Provider, int>, p: Provider, now: int,
                     first: Result<bool, string>, second: Result<bool, string>)
    ensures var once := HealthAfter(status, lastCheck, p, now, first);
      HealthAfter(once.0, once.1, p, now, second) == once
  {
  }

  /** After a health pass every provider it looked at has a status and a check time no older than the interval. */
  lemma HealthPassRecords(status: map<Provider, ProviderStatus>, lastCheck: map<Provider, int>, p: Provider, now: int,
                          answer: Result<bool, string>)
    requires forall q :: q in lastCheck ==> q in status
    ensures var r := HealthAfter(status, lastCheck, p, now, answer);
      p in r.0 && p in r.1 && now - r.1[p] < HEALTH_CHECK_INTERVAL
      && (r.0[p] == Available ==> Recent(lastCheck, p, now) || answer == Ok(true))
  {
  }
}

=== FILE: rate_limit.dfy ===
/**
 * The request guards of the API layer: a sliding-window rate limiter keyed by
 * user and endpoint, the daily cost cap, and the admin test.
 */
module RateLimit {
  import opened Wrappers

  /** The limiter's defaults: 100 requests per hour. */
  const DEFAULT_MAX_REQUESTS := 100
  const DEFAULT_WINDOW_SECONDS := 3600

  const RATE_LIMITED := 429
  const FORBIDDEN := 403

  /** The timestamps still inside the window ending at `now`, in their order. */
  function Recent(ts: seq<int>, now: int, window: int): (r: seq<int>)
    ensures |r| <= |ts|
    ensures forall t :: t in r ==> t in ts && now - t < window
    ensures forall t :: t in ts && now - t < window ==> t in r
  {
    if ts == [] then []
    else (if now - ts[0] < window then [ts[0]] else []) + Recent(ts[1..], now, window)
  }

  /** Pruning at a later time after pruning at an earlier one is pruning at the later time. */
  lemma {:induction false} RecentLater(ts: seq<int>, now1: int, now2: int, window: int)
    requires now1 <= now2
    ensures Recent(Recent(ts, now1, window), now2, window) == Recent(ts, now2, window)
  {
    if ts != [] {
      RecentLater(ts[1..], now1, now2, window);
      var head := if now1 - ts[0] < window then [ts[0]] else [];
      var rest := Recent(ts[1..], now1, window);
      assert Recent(ts, now1, window) == head + rest;
      if head == [] {
        assert head + rest == rest;
      } else {
        assert (head + rest)[1..] == rest;
      }
    }
  }

  /** The key of one user's window on one endpoint. */
  function WindowKey(user: string, endpoint: string): string {
    user + ":" + endpoint
  }

  /** Different users never share a window on the same endpoint when user ids contain no colon. */
  lemma WindowKeysDistinct(u1: string, u2: string, endpoint: string)
    requires ':' !in u1 && ':' !in u2 && u1 != u2
    ensures WindowKey(u1, endpoint) != WindowKey(u2, endpoint)
  {
    var k1, k2 := WindowKey(u1, endpoint), WindowKey(u2, endpoint);
    if |u1| == |u2| {
      var i :| 0 <= i < |u1| && u1[i] != u2[i];
      assert k1[i] != k2[i];
    } else if |u1| < |u2| {
      assert k1[|u1|] == ':' && k2[|u1|] == u2[|u1|];
    } else {
      assert k2[|u2|] == ':' && k1[|u2|] == u1[|u2|];
    }
  }

  class RateLimiter {
    /** The module-level storage: a list of request times per key, empty when absent. */
    var storage: map<string, seq<int>>

    constructor ()
      ensures storage == map[]
    {
      storage := map[];
    }

    function Entries(key: string): seq<int>
      reads this
    {
      if key in storage then storage[key] else []
    }

    /**
     * `check_rate_limit`: drop the key's times that left the window, refuse when
     * the rest already reach the limit, otherwise record `now`. Absent limits fall
     * back to the defaults. A refusal keeps the pruned list.
     */
    method CheckRateLimit(user: string, endpoint: string, maxRequests: Option<int>, windowSeconds: Option<int>, now: int)
      returns (allowed: bool)
      modifies this
      ensures var max := if maxRequests.Some? then maxRequests.value else DEFAULT_MAX_REQUESTS;
        var window := if windowSeconds.Some? then windowSeconds.value else DEFAULT_WINDOW_SECONDS;
        var key := WindowKey(user, endpoint);
        var kept := Recent(old(Entries(key)), now, window);
        && (allowed <==> |kept| < max)
        && storage == old(storage)[key := if allowed then kept + [now] else kept]
        && (allowed ==> |storage[key]| <= max)
        && (allowed && window > 0 ==> forall t :: t in storage[key] ==> now - t < window)
    {
      var max := if maxRequests.Some? then maxRequests.value else DEFAULT_MAX_REQUESTS;
      var window := if windowSeconds.Some? then windowSeconds.value else DEFAULT_WINDOW_SECONDS;
      var key := WindowKey(user, endpoint);
      storage := storage[key := Recent(Entries(key), now, window)];
      if |storage[key]| >= max {
        return false;
      }
      storage := storage[key := storage[key] + [now]];
      return true;
    }
  }

  /** `check_daily_cost_limit`: 429 once the day's cost exceeds the cap. */
  function CheckDailyCostLimit(dailyCost: real, maxDailyCost: real): (r: Option<int>)
    ensures r.Some? <==> dailyCost > maxDailyCost
    ensures r.Some? ==> r.value == RATE_LIMITED
  {
    if dailyCost > maxDailyCost then Some(RATE_LIMITED) else None
  }

  /** The fields of a user record that the admin test reads; `None` when absent. */
  datatype UserInfo = UserInfo(id: string, isAdmin: Option<bool>, role: Option<string>)

  /** `get_current_admin_user`: the user when `is_admin` is set or the role is `admin`, else 403. */
  function AdminUser(user: UserInfo): (r: Result<UserInfo, int>)
    ensures r.Ok? <==> user.isAdmin == Some(true) || user.role == Some("admin")
    ensures r.Ok? ==> r.value == user
    ensures r.Err? ==> r.error == FORBIDDEN
  {
    var isAdmin := (user.isAdmin.Some? && user.isAdmin.value) || (user.role.Some? && user.role.value == "admin");
    if isAdmin then Ok(user) else Err(FORBIDDEN)
  }
}

=== FILE: ratios.dfy ===
/**
 * Facts about quotients of reals shared by the averages and utilisation
 * figures: a quotient by a positive number keeps the bounds of its numerator.
 */
module Ratios {
  /** Multiplying by a positive number preserves the order, so it can be cancelled. */
  lemma MulLeCancel(a: real, b: real, n: real)
    requires n > 0.0 && a * n <= b * n
    ensures a <= b
  {
  }

  /** A sum between `lo·n` and `hi·n`, divided by a positive `n`, lies between `lo` and `hi`. */
  lemma QuotientBetween(sum: real, n: real, lo: real, hi: real)
    requires n > 0.0 && lo * n <= sum <= hi * n
    ensures lo <= sum / n <= hi
  {
    var q := sum / n;
    assert q * n == sum;
    MulLeCancel(lo, q, n);
    MulLeCancel(q, hi, n);
  }
}

=== FILE: retry.dfy ===
/**
 * The retry service: a per-name circuit breaker (closed, open, half open) and the
 * bounded retry loop that consults and feeds it.
 */
module Retry {
  import opened Wrappers

  datatype CircuitState = Closed | Open | HalfOpen

  /** One breaker's record; times are whole seconds of the clock. */
  datatype Breaker = Breaker(
    state: CircuitState,
    failureCount: nat,
    successCount: nat,
    lastFailureTime: Option<int>,
    lastSuccessTime: Option<int>,
    totalRequests: nat,
    totalFailures: nat)

  const NEW_BREAKER := Breaker(Closed, 0, 0, None, None, 0, 0)

  datatype BreakerConfig = BreakerConfig(failureThreshold: int, recoveryTimeout: int, successThreshold: int, timeout: real)

  /** The default breaker configuration; its thresholds govern every transition. */
  const FAILURE_THRESHOLD := 5
  const SUCCESS_THRESHOLD := 3
  const DEFAULT_BREAKER_CONFIG := BreakerConfig(FAILURE_THRESHOLD, 60, SUCCESS_THRESHOLD, 30.0)

  /**
   * What every breaker reachable from a new one satisfies: closed exactly while
   * fewer than five failures are counted, successes counted only half open and
   * always below three, and an open breaker has a failure time.
   */
  predicate Consistent(b: Breaker) {
    && (b.state == Closed <==> b.failureCount < FAILURE_THRESHOLD)
    && b.successCount < SUCCESS_THRESHOLD
    && (b.state != HalfOpen ==> b.successCount == 0)
    && b.failureCount <= b.totalFailures
    && (b.state == Open ==> b.lastFailureTime.Some?)
  }

  /**
   * `_check_circuit_breaker`: counts the request; an open breaker whose last failure
   * is more than the recovery timeout ago turns half open, any other open breaker
   * refuses. The boolean says whether the call may go ahead.
   */
  function AfterCheck(b: Breaker, recoveryTimeout: int, now: int): (r: (Breaker, bool))
    ensures r.0.totalRequests == b.totalRequests + 1
    ensures !r.1 <==> b.state == Open && (b.lastFailureTime.None? || now - b.lastFailureTime.value <= recoveryTimeout)
    ensures b.state != Open ==> r.0 == b.(totalRequests := b.totalRequests + 1)
    ensures r.1 && b.state == Open ==> r.0.state == HalfOpen && r.0.successCount == 0
    ensures Consistent(b) ==> Consistent(r.0)
  {
    var counted := b.(totalRequests := b.totalRequests + 1);
    if b.state == Open then
      if b.lastFailureTime.Some? && now - b.lastFailureTime.value > recoveryTimeout then
        (counted.(state := HalfOpen, successCount := 0), true)
      else (counted, false)
    else (counted, true)
  }

  /** `_record_success`: half open, the third success closes and clears both counts. */
  function AfterSuccess(b: Breaker, now: int): (r: Breaker)
    ensures r.lastSuccessTime == Some(now)
    ensures b.state != HalfOpen ==> r == b.(lastSuccessTime := Some(now))
    ensures b.state == HalfOpen && b.successCount + 1 >= SUCCESS_THRESHOLD ==>
      r.state == Closed && r.failureCount == 0 && r.successCount == 0
    ensures b.state == HalfOpen && b.successCount + 1 < SUCCESS_THRESHOLD ==>
      r == b.(successCount := b.successCount + 1, lastSuccessTime := Some(now))
    ensures Consistent(b) ==> Consistent(r)
  {
    var stamped := b.(lastSuccessTime := Some(now));
    if b.state == HalfOpen then
      if b.successCount + 1 >= SUCCESS_THRESHOLD then
        stamped.(state := Closed, failureCount := 0, successCount := 0)
      else stamped.(successCount := b.successCount + 1)
    else stamped
  }

  /** `_record_failure`: counts the failure; closed or half open, the fifth counted failure opens. */
  function AfterFailure(b: Breaker, now: int): (r: Breaker)
    ensures r.failureCount == b.failureCount + 1 && r.totalFailures == b.totalFailures + 1
    ensures r.lastFailureTime == Some(now)
    ensures (b.state == Closed || b.state == HalfOpen) && b.failureCount + 1 >= FAILURE_THRESHOLD ==> r.state == Open && r.successCount == 0
    ensures b.state == Open || b.failureCount + 1 < FAILURE_THRESHOLD ==>
      r.state == b.state && r.successCount == b.successCount
    ensures Consistent(b) ==> Consistent(r)
  {
    var counted := b.(failureCount := b.failureCount + 1, totalFailures := b.totalFailures + 1,
                      lastFailureTime := Some(now));
    if (b.state == Closed || b.state == HalfOpen) && counted.failureCount >= FAILURE_THRESHOLD then
      counted.(state := Open, successCount := 0)
    else counted
  }

  /** `reset_circuit_breaker` on an existing breaker: closed with both counts cleared. */
  function AfterReset(b: Breaker): (r: Breaker)
    ensures r.state == Closed && r.failureCount == 0 && r.successCount == 0
    ensures r.totalRequests == b.totalRequests && r.totalFailures == b.totalFailures
    ensures Consistent(b) ==> Consistent(r)
  {
    b.(state := Closed, failureCount := 0, successCount := 0)
  }

  /** The breaker after a run of call outcomes, `true` for a success. */
  function Replay(b: Breaker, results: seq<bool>, now: int): (r: Breaker)
    ensures Consistent(b) ==> Consistent(r)
  {
    if results == [] then b
    else
      var before := Replay(b, results[..|results| - 1], now);
      if results[|results| - 1] then AfterSuccess(before, now) else AfterFailure(before, now)
  }

  /** From a closed breaker with `c` failures counted, `5 - c` failures in a row open it. */
  lemma {:induction false} FailuresOpen(b: Breaker, n: nat, now: int)
    requires Consistent(b) && b.state == Closed && b.failureCount + n >= FAILURE_THRESHOLD
    ensures Replay(b, seq(n, _ => false), now).state == Open
  {
    var fs := seq(n, _ => false);
    if n > 0 {
      assert fs[..n - 1] == seq(n - 1, _ => false);
      var before := Replay(b, fs[..n - 1], now);
      if b.failureCount + n - 1 >= FAILURE_THRESHOLD {
        FailuresOpen(b, n - 1, now);
      } else {
        FailuresStayClosed(b, n - 1, now);
      }
    }
  }

  /** Fewer failures than that leave it closed, each one counted. */
  lemma {:induction false} FailuresStayClosed(b: Breaker, n: nat, now: int)
    requires Consistent(b) && b.state == Closed && b.failureCount + n < FAILURE_THRESHOLD
    ensures var r := Replay(b, seq(n, _ => false), now);
      r.state == Closed && r.failureCount == b.failureCount + n
  {
    if n > 0 {
      assert seq(n, _ => false)[..n - 1] == seq(n - 1, _ => false);
      FailuresStayClosed(b, n - 1, now);
    }
  }

  /** A half-open breaker closes after three successes in a row, its counts cleared. */
  lemma ThreeSuccessesClose(b: Breaker, now: int)
    requires Consistent(b) && b.state == HalfOpen && b.successCount == 0
    ensures var r := Replay(b, [true, true, true], now);
      r.state == Closed && r.failureCount == 0 && r.successCount == 0
  {
    assert [true, true, true][..2] == [true, true];
    assert [true, true][..1] == [true];
    assert [true][..0] == [];
    assert Replay(b, [], now) == b;
    var one := Replay(b, [true], now);
    assert one == AfterSuccess(Replay(b, [], now), now);
    var two := Replay(b, [true, true], now);
    assert two == AfterSuccess(one, now);
    assert two.state == HalfOpen && two.successCount == 2;
  }

  /** Successes never clear the failures counted while closed. */
  lemma SuccessKeepsClosedFailures(b: Breaker, now: int)
    requires b.state == Closed
    ensures AfterSuccess(b, now).failureCount == b.failureCount
  {
  }

  // ---------------------------------------------------------------------------
  // Retryability

  /** An exception, as the set of class names it is an instance of. */
  type Exception = set<string>

  datatype RetryConfig = RetryConfig(maxAttempts: int, retryable: set<string>, nonRetryable: set<string>)

  const DEFAULT_RETRY_CONFIG := RetryConfig(
    3,
    {"ExternalAPIError", "ProcessingError", "TimeoutError", "ConnectionError"},
    {"ValueError", "TypeError", "KeyError", "AttributeError"})

  /** `_is_retryable_exception`: no non-retryable class, and some retryable one. */
  predicate IsRetryable(e: Exception, config: RetryConfig) {
    e * config.nonRetryable == {} && e * config.retryable != {}
  }

  lemma NonRetryableWins(e: Exception, config: RetryConfig, c: string)
    requires c in e && c in config.nonRetryable
    ensures !IsRetryable(e, config)
  {
    assert c in e * config.nonRetryable;
  }

  lemma UnlistedNotRetried(e: Exception, config: RetryConfig)
    requires e * config.retryable == {}
    ensures !IsRetryable(e, config)
  {
  }

  const PROCESSING_ERROR: Exception := {"ProcessingError", "AppException", "Exception"}
  /** What `raise None` raises when no attempt was made. */
  const TYPE_ERROR: Exception := {"TypeError", "Exception"}

  /** One call of the operation: how long it runs and what it returns or raises. */
  datatype Call = Call(duration: real, result: Result<int, Exception>)

  /**
   * What a call amounts to: under a timeout, a call that overruns it, or that raises
   * a timeout itself, becomes a processing error.
   */
  function Effective(c: Call, timeout: Option<real>): (r: Result<int, Exception>)
    ensures timeout.None? ==> r == c.result
    ensures timeout.Some? && c.duration > timeout.value ==> r == Err(PROCESSING_ERROR)
  {
    if timeout.Some? && (c.duration > timeout.value || (c.result.Err? && "TimeoutError" in c.result.error)) then
      Err(PROCESSING_ERROR)
    else c.result
  }

  datatype RetryOutcome =
    | Returned(value: int, calls: nat)
    | Raised(error: Exception, calls: nat)
    | CircuitOpenError

  function Lookup(m: map<string, Breaker>, name: string): Breaker {
    if name in m then m[name] else NEW_BREAKER
  }

  /** What `get_circuit_breaker_status` reports. */
  datatype BreakerStatus = BreakerStatus(name: string, state: CircuitState, exists_: bool, details: Option<Breaker>)

  /**
   * What a run of attempts may answer: at most `maxAttempts` calls, every call
   * before the last one failed with a retryable error, a return is the last
   * call's value, and a raise is the last call's error, raised because the
   * attempts ran out or the error is not retryable (a `TypeError` when no call
   * was made at all).
   */
  predicate RetriedPerPolicy(call: nat -> Call, timeout: Option<real>, config: RetryConfig, r: RetryOutcome) {
    && !r.CircuitOpenError?
    && (r.calls <= config.maxAttempts || r.calls == 0)
    && (forall k :: 0 <= k < r.calls - 1 ==>
          Effective(call(k), timeout).Err? && IsRetryable(Effective(call(k), timeout).error, config))
    && (r.Returned? ==> r.calls >= 1 && Effective(call(r.calls - 1), timeout) == Ok(r.value))
    && (r.Raised? && r.calls == 0 ==> r.error == TYPE_ERROR && config.maxAttempts <= 0)
    && (r.Raised? && r.calls >= 1 ==>
          Effective(call(r.calls - 1), timeout) == Err(r.error)
          && (r.calls == config.maxAttempts || !IsRetryable(r.error, config)))
  }

  class RetryService {
    var breakers: map<string, Breaker>

    ghost predicate Valid()
      reads this
    {
      forall name :: name in breakers ==> Consistent(breakers[name])
    }

    constructor ()
      ensures Valid() && breakers == map[]
    {
      breakers := map[];
    }

    /** `_get_circuit_state`: the only place a breaker is created, closed with every count 0. */
    method GetCircuitState(name: string) returns (b: Breaker)
      requires Valid()
      modifies this
      ensures Valid()
      ensures breakers == if name in old(breakers) then old(breakers) else old(breakers)[name := NEW_BREAKER]
      ensures b == breakers[name]
    {
      if name !in breakers {
        breakers := breakers[name := NEW_BREAKER];
      }
      b := breakers[name];
    }

    method CheckCircuitBreaker(name: string, config: Option<BreakerConfig>, now: int) returns (allowed: bool)
      requires Valid()
      modifies this
      ensures Valid()
      ensures var timeout := (if config.Some? then config.value else DEFAULT_BREAKER_CONFIG).recoveryTimeout;
        var r := AfterCheck(Lookup(old(breakers), name), timeout, now);
        breakers == old(breakers)[name := r.0] && allowed == r.1
    {
      var timeout := (if config.Some? then config.value else DEFAULT_BREAKER_CONFIG).recoveryTimeout;
      var b := GetCircuitState(name);
      var r := AfterCheck(b, timeout, now);
      breakers := breakers[name := r.0];
      allowed := r.1;
    }

    method RecordSuccess(name: string, now: int)
      requires Valid()
      modifies this
      ensures Valid()
      ensures breakers == old(breakers)[name := AfterSuccess(Lookup(old(breakers), name), now)]
    {
      var b := GetCircuitState(name);
      breakers := breakers[name := AfterSuccess(b, now)];
    }

    method RecordFailure(name: string, now: int)
      requires Valid()
      modifies this
      ensures Valid()
      ensures breakers == old(breakers)[name := AfterFailure(Lookup(old(breakers), name), now)]
    {
      var b := GetCircuitState(name);
      breakers := breakers[name := AfterFailure(b, now)];
    }

    /** `get_circuit_breaker_status`: an unknown name reads as closed and absent, and nothing is created. */
    method GetCircuitBreakerStatus(name: string) returns (s: BreakerStatus)
      ensures s.name == name
      ensures s.exists_ <==> name in breakers
      ensures !s.exists_ ==> s.state == Closed && s.details.None?
      ensures s.exists_ ==> s.state == breakers[name].state && s.details == Some(breakers[name])
    {
      if name !in breakers {
        return BreakerStatus(name, Closed, false, None);
      }
      var b := breakers[name];
      return BreakerStatus(name, b.state, true, Some(b));
    }

    /** `get_all_circuit_breaker_status`: one existing entry per breaker. */
    function AllStatus(): (r: map<string, BreakerStatus>)
      reads this
      ensures r.Keys == breakers.Keys
      ensures forall name :: name in r ==> r[name].exists_ && r[name].state == breakers[name].state
    {
      map name | name in breakers :: BreakerStatus(name, breakers[name].state, true, Some(breakers[name]))
    }

    /** `reset_circuit_breaker`: true and reset for an existing name, false and nothing changed otherwise. */
    method ResetCircuitBreaker(name: string) returns (found: bool)
      requires Valid()
      modifies this
      ensures Valid()
      ensures found <==> name in old(breakers)
      ensures found ==> breakers == old(breakers)[name := AfterReset(old(breakers)[name])]
      ensures !found ==> breakers == old(breakers)
    {
      if name in breakers {
        breakers := breakers[name := AfterReset(breakers[name])];
        return true;
      }
      return false;
    }

    /** `remove_circuit_breaker`. */
    method RemoveCircuitBreaker(name: string) returns (found: bool)
      requires Valid()
      modifies this
      ensures Valid()
      ensures found <==> name in old(breakers)
      ensures breakers == old(breakers) - {name}
    {
      found := name in breakers;
      breakers := breakers - {name};
    }

    /**
     * `with_retry`: with a named breaker, check it once and refuse when open; then
     * call the operation at most `maxAttempts` times, stopping at the first success
     * or the first error that is not retryable, and feeding every outcome to the
     * breaker. `call(k)` is what the k-th call does. After the last attempt the last
     * error is raised (a `TypeError` when there was no attempt).
     */
    method WithRetry(call: nat -> Call, retryConfig: Option<RetryConfig>, breakerName: Option<string>,
                     breakerConfig: Option<BreakerConfig>, now: int) returns (r: RetryOutcome)
      requires Valid()
      modifies this
      ensures Valid()
      ensures var config := if retryConfig.Some? then retryConfig.value else DEFAULT_RETRY_CONFIG;
        var named := breakerName.Some? && breakerName.value != "";
        var timeout := if named && breakerConfig.Some? then Some(breakerConfig.value.timeout) else None;
        && (r.CircuitOpenError? <==>
              named && !AfterCheck(Lookup(old(breakers), breakerName.value),
                                   (if breakerConfig.Some? then breakerConfig.value else DEFAULT_BREAKER_CONFIG).recoveryTimeout,
                                   now).1)
        && (!named ==> breakers == old(breakers))
        && (!r.CircuitOpenError? ==> RetriedPerPolicy(call, timeout, config, r))
    {
      var config := if retryConfig.Some? then retryConfig.value else DEFAULT_RETRY_CONFIG;
      var named := breakerName.Some? && breakerName.value != "";
      var timeout := if named && breakerConfig.Some? then Some(breakerConfig.value.timeout) else None;
      if named {
        var allowed := CheckCircuitBreaker(breakerName.value, breakerConfig, now);
        if !allowed {
          return CircuitOpenError;
        }
      }
      r := Attempts(call, config, if named then Some(breakerName.value) else None, timeout, now);
    }

    /** The attempt loop of `with_retry`, feeding each outcome to the breaker `name` when there is one. */
    method Attempts(call: nat -> Call, config: RetryConfig, name: Option<string>, timeout: Option<real>, now: int)
      returns (r: RetryOutcome)
      requires Valid()
      modifies this
      ensures Valid()
      ensures name.None? ==> breakers == old(breakers)
      ensures RetriedPerPolicy(call, timeout, config, r)
    {
      var lastError: Option<Exception> := None;
      var attempt := 0;
      while attempt < config.maxAttempts
        invariant Valid()
        invariant 0 <= attempt && (attempt <= config.maxAttempts || attempt == 0)
        invariant name.None? ==> breakers == old(breakers)
        invariant forall k :: 0 <= k < attempt ==>
          Effective(call(k), timeout).Err? && IsRetryable(Effective(call(k), timeout).error, config)
        invariant attempt == 0 <==> lastError.None?
        invariant attempt > 0 ==> Effective(call(attempt - 1), timeout) == Err(lastError.value)
      {
        var outcome := Effective(call(attempt), timeout);
        if outcome.Ok? {
          if name.Some? {
            RecordSuccess(name.value, now);
          }
          return Returned(outcome.value, attempt + 1);
        }
        lastError := Some(outcome.error);
        if name.Some? {
          RecordFailure(name.value, now);
        }
        if !IsRetryable(outcome.error, config) {
          return Raised(outcome.error, attempt + 1);
        }
        attempt := attempt + 1;
      }
      if lastError.None? {
        return Raised(TYPE_ERROR, 0);
      }
      return Raised(lastError.value, attempt);
    }
  }
}

=== FILE: romanization.dfy ===
/**
 * Text helpers of the Cantonese romanization service: cleaning the Chinese
 * text before lookup, joining the per-word romanizations into one line, and
 * shaping the `{"yale", "jyutping"}` answer. The dictionary lookups
 * themselves belong to the PyCantonese library and arrive as parameters.
 */
module Romanization {
  import opened Wrappers
  import opened Text

  /** One word of a lookup and its romanization, which the library may leave out. */
  datatype Pair = Pair(word: string, roman: Option<string>)

  /** The answer of `romanize`. */
  datatype Romanized = Romanized(yale: Option<string>, jyutping: Option<string>)

  const NOTHING := Romanized(None, None)

  // ---------------------------------------------------------------- cleaning

  /** Skips the whitespace run at the front of `s`. */
  function SkipSpaces(s: string): (r: string)
    ensures |r| <= |s| && r == s[|s| - |r|..]
    ensures forall i :: 0 <= i < |s| - |r| ==> IsSpace(s[i])
    ensures r == [] || !IsSpace(r[0])
  {
    if s != [] && IsSpace(s[0]) then SkipSpaces(s[1..]) else s
  }

  /** `re.sub(r'\s+', ' ', s)`: every maximal whitespace run becomes one space. */
  function CollapseSpaces(s: string): (r: string)
    ensures |r| <= |s|
    ensures forall i :: 0 <= i < |r| && IsSpace(r[i]) ==> r[i] == ' '
    ensures forall i :: 0 <= i < |r| - 1 ==> !(IsSpace(r[i]) && IsSpace(r[i + 1]))
    ensures s != [] ==> r != [] && (IsSpace(r[0]) <==> IsSpace(s[0]))
    ensures s != [] ==> (IsSpace(r[|r| - 1]) <==> IsSpace(s[|s| - 1]))
    decreases |s|
  {
    if s == [] then []
    else if IsSpace(s[0]) then
      var rest := SkipSpaces(s);
      assert rest == [] || s[|s| - 1] == rest[|rest| - 1];
      [' '] + CollapseSpaces(rest)
    else
      [s[0]] + CollapseSpaces(s[1..])
  }

  /** The characters the cleaner keeps: the three CJK ranges, whitespace, and the listed punctuation. */
  predicate Allowed(c: char) {
    ('\U{4e00}' <= c <= '\U{9fff}') || ('\U{3400}' <= c <= '\U{4dbf}') || ('\U{f900}' <= c <= '\U{faff}')
    || IsSpace(c) || c in "，。！？；：\"（）【】"
  }

  function KeepAllowed(s: string): (r: string)
    ensures forall i :: 0 <= i < |r| ==> Allowed(r[i])
    ensures |r| <= |s|
    ensures (forall i :: 0 <= i < |s| ==> Allowed(s[i])) ==> r == s
  {
    if s == [] then []
    else if Allowed(s[0]) then [s[0]] + KeepAllowed(s[1..])
    else KeepAllowed(s[1..])
  }

  /** `_clean_text`: empty input stays empty; otherwise strip, collapse whitespace, drop foreign characters. */
  function CleanText(text: string): (r: string)
    ensures forall i :: 0 <= i < |r| ==> Allowed(r[i])
    ensures |r| <= |text|
  {
    if text == [] then "" else KeepAllowed(CollapseSpaces(Strip(text)))
  }

  /**
   * Before the filter runs, the stripped and collapsed text has no whitespace at
   * either end, no whitespace other than a single space, and never two spaces in a row.
   */
  lemma NormalisedWhitespace(text: string)
    ensures var n := CollapseSpaces(Strip(text));
      && (n == [] || (!IsSpace(n[0]) && !IsSpace(n[|n| - 1])))
      && (forall i :: 0 <= i < |n| && IsSpace(n[i]) ==> n[i] == ' ')
      && (forall i :: 0 <= i < |n| - 1 ==> !(IsSpace(n[i]) && IsSpace(n[i + 1])))
  {
    StripShape(text);
  }

  /** A text of CJK characters and single inner spaces passes the cleaner unchanged. */
  lemma {:induction false} CleanKeepsCleanText(text: string)
    requires text != []
    requires forall i :: 0 <= i < |text| ==> Allowed(text[i]) && (IsSpace(text[i]) ==> text[i] == ' ')
    requires !IsSpace(text[0]) && !IsSpace(text[|text| - 1])
    requires forall i :: 0 <= i < |text| - 1 ==> !(IsSpace(text[i]) && IsSpace(text[i + 1]))
    ensures CleanText(text) == text
  {
    StripClean(text);
    CollapseClean(text);
  }

  lemma StripClean(s: string)
    requires s != [] && !IsSpace(s[0]) && !IsSpace(s[|s| - 1])
    ensures Strip(s) == s
  {
    assert StripLeft(s) == s;
    assert StripRight(s) == s;
  }

  /** Whitespace only as single spaces, never two in a row. */
  predicate SingleSpaced(s: string) {
    && (forall i :: 0 <= i < |s| ==> IsSpace(s[i]) ==> s[i] == ' ')
    && (forall i :: 0 <= i < |s| - 1 ==> !(IsSpace(s[i]) && IsSpace(s[i + 1])))
  }

  lemma SingleSpacedTail(s: string)
    requires s != [] && SingleSpaced(s)
    ensures SingleSpaced(s[1..])
  {
    var t := s[1..];
    forall i | 0 <= i < |t|
      ensures IsSpace(t[i]) ==> t[i] == ' '
    {
      assert t[i] == s[i + 1];
    }
    forall i | 0 <= i < |t| - 1
      ensures !(IsSpace(t[i]) && IsSpace(t[i + 1]))
    {
      assert t[i] == s[i + 1] && t[i + 1] == s[i + 2];
    }
  }

  lemma CollapseStep(s: string)
    requires s != [] && (IsSpace(s[0]) ==> s[0] == ' ' && (|s| == 1 || !IsSpace(s[1])))
    requires CollapseSpaces(s[1..]) == s[1..]
    ensures CollapseSpaces(s) == s
  {
    if IsSpace(s[0]) {
      CollapseLoneSpace(s);
    } else {
      CollapseWord(s);
    }
    assert s == [s[0]] + s[1..];
  }

  /** A space not followed by another collapses to itself. */
  lemma CollapseLoneSpace(s: string)
    requires s != [] && s[0] == ' ' && (|s| == 1 || !IsSpace(s[1]))
    ensures CollapseSpaces(s) == [' '] + CollapseSpaces(s[1..])
  {
    var t := s[1..];
    assert t == [] || !IsSpace(t[0]);
    assert SkipSpaces(s) == SkipSpaces(t) == t;
  }

  lemma CollapseWord(s: string)
    requires s != [] && !IsSpace(s[0])
    ensures CollapseSpaces(s) == [s[0]] + CollapseSpaces(s[1..])
  {
  }

  lemma {:induction false} CollapseClean(s: string)
    requires SingleSpaced(s)
    ensures CollapseSpaces(s) == s
    decreases |s|
  {
    if s != [] {
      SingleSpacedTail(s);
      CollapseClean(s[1..]);
      assert IsSpace(s[0]) ==> s[0] == ' ' && (|s| == 1 || !IsSpace(s[1]));
      CollapseStep(s);
    }
  }

  // -------------------------------------------------------------- formatting

  /** The word's romanization when it has a non-empty one, otherwise the word itself. */
  function PartOf(p: Pair): string {
    if p.roman.Some? && p.roman.value != "" then p.roman.value else p.word
  }

  function Parts(pairs: seq<Pair>): (parts: seq<string>)
    ensures |parts| == |pairs|
    ensures forall k :: 0 <= k < |pairs| ==> parts[k] == PartOf(pairs[k])
  {
    if pairs == [] then [] else Parts(pairs[..|pairs| - 1]) + [PartOf(pairs[|pairs| - 1])]
  }

  /** `_format_jyutping` and `_format_yale`: nothing for an empty lookup, else the parts joined by spaces. */
  method FormatRomanization(pairs: seq<Pair>) returns (r: Option<string>)
    ensures r.None? <==> pairs == []
    ensures r.Some? && (forall k :: 0 <= k < |pairs| ==> ' ' !in PartOf(pairs[k])) ==> Split(r.value, ' ') == Parts(pairs)
    ensures r.Some? ==> r.value == Join(Parts(pairs), " ")
    ensures r == FormatOrNothing(Ok(pairs))
  {
    if pairs == [] {
      return None;
    }
    var formatted: seq<string> := [];
    for i := 0 to |pairs|
      invariant formatted == Parts(pairs[..i])
    {
      assert pairs[..i + 1][..i] == pairs[..i];
      formatted := formatted + [PartOf(pairs[i])];
    }
    assert pairs[..|pairs|] == pairs;
    r := Some(Join(formatted, " "));
    if forall k :: 0 <= k < |pairs| ==> ' ' !in PartOf(pairs[k]) {
      SplitJoin(formatted, ' ');
    }
  }

  /** The romanization of a non-empty cleaned text by the two library lookups; an error is a raised exception. */
  datatype Lookups = Lookups(
    toJyutping: string -> Result<seq<Pair>, string>,
    toYale: string -> Result<seq<Pair>, string>)

  /** What `FormatRomanization` returns for a successful lookup, and nothing for a failed one. */
  function FormatOrNothing(lookup: Result<seq<Pair>, string>): Option<string> {
    if lookup.Err? || lookup.value == [] then None else Some(Join(Parts(lookup.value), " "))
  }

  /**
   * `romanize`: `libraryLoaded` is whether PyCantonese could be imported; an import
   * failure, an empty cleaned text, a disabled flag and a failed lookup all give `None`.
   */
  function Romanize(chineseText: string, includeYale: bool, includeJyutping: bool, libraryLoaded: bool, lookups: Lookups): (r: Romanized)
    ensures !libraryLoaded || CleanText(chineseText) == "" ==> r == NOTHING
    ensures !includeYale ==> r.yale.None?
    ensures !includeJyutping ==> r.jyutping.None?
    ensures r.jyutping.Some? <==>
      libraryLoaded && includeJyutping && CleanText(chineseText) != ""
      && lookups.toJyutping(CleanText(chineseText)).Ok? && lookups.toJyutping(CleanText(chineseText)).value != []
    ensures r.yale.Some? <==>
      libraryLoaded && includeYale && CleanText(chineseText) != ""
      && lookups.toYale(CleanText(chineseText)).Ok? && lookups.toYale(CleanText(chineseText)).value != []
    ensures r.jyutping.Some? ==> r.jyutping.value == Join(Parts(lookups.toJyutping(CleanText(chineseText)).value), " ")
    ensures r.yale.Some? ==> r.yale.value == Join(Parts(lookups.toYale(CleanText(chineseText)).value), " ")
  {
    var cleaned := CleanText(chineseText);
    if !libraryLoaded || cleaned == "" then NOTHING
    else
      Romanized(
        if includeYale then FormatOrNothing(lookups.toYale(cleaned)) else None,
        if includeJyutping then FormatOrNothing(lookups.toJyutping(cleaned)) else None)
  }
}

=== FILE: set_maps.dfy ===
/**
 * Dictionaries from a key to a set, as the middleware's slot tracker and the
 * progress service's connection registry keep them: adding creates the set on
 * first use, discarding deletes the key once its set is empty, so no key ever
 * maps to an empty set.
 */
module SetMaps {
  predicate NoEmptySets<K(!new), V>(m: map<K, set<V>>) {
    forall k :: k in m ==> m[k] != {}
  }

  /** `m.get(k, set())`. */
  function Members<K(!new), V>(m: map<K, set<V>>, k: K): set<V> {
    if k in m then m[k] else {}
  }

  /** `m.setdefault(k, set()).add(v)`. */
  function Add<K(!new), V>(m: map<K, set<V>>, k: K, v: V): (r: map<K, set<V>>)
    ensures Members(r, k) == Members(m, k) + {v}
    ensures forall j :: j != k ==> Members(r, j) == Members(m, j)
    ensures r.Keys == m.Keys + {k}
    ensures NoEmptySets(m) ==> NoEmptySets(r)
  {
    m[k := Members(m, k) + {v}]
  }

  /** `if k in m: m[k].discard(v); if not m[k]: del m[k]`. */
  function Discard<K(!new), V>(m: map<K, set<V>>, k: K, v: V): (r: map<K, set<V>>)
    ensures Members(r, k) == Members(m, k) - {v}
    ensures forall j :: j != k ==> Members(r, j) == Members(m, j)
    ensures k in r <==> k in m && m[k] - {v} != {}
    ensures r.Keys <= m.Keys
    ensures NoEmptySets(m) ==> NoEmptySets(r)
  {
    if k !in m then m
    else if m[k] - {v} == {} then m - {k}
    else m[k := m[k] - {v}]
  }

  /** Adding a new member and discarding it again leaves the dictionary as it was. */
  lemma AddThenDiscard<K(!new), V>(m: map<K, set<V>>, k: K, v: V)
    requires NoEmptySets(m) && v !in Members(m, k)
    ensures Discard(Add(m, k, v), k, v) == m
  {
    var r := Discard(Add(m, k, v), k, v);
    assert r.Keys == m.Keys;
    forall j | j in m
      ensures r[j] == m[j]
    {
      assert Members(r, j) == Members(m, j);
    }
  }

  /** Discarding a member that is not there changes nothing. */
  lemma DiscardAbsent<K(!new), V>(m: map<K, set<V>>, k: K, v: V)
    requires NoEmptySets(m) && v !in Members(m, k)
    ensures Discard(m, k, v) == m
  {
    if k in m {
      assert m[k] - {v} == m[k];
    }
  }

  /** Adding a member twice is adding it once. */
  lemma AddIdempotent<K(!new), V>(m: map<K, set<V>>, k: K, v: V)
    ensures Add(Add(m, k, v), k, v) == Add(m, k, v)
  {
  }

  /** The number of members of `k` grows by one exactly when `v` was new. */
  lemma AddCount<K(!new), V>(m: map<K, set<V>>, k: K, v: V)
    ensures |Members(Add(m, k, v), k)| == |Members(m, k)| + (if v in Members(m, k) then 0 else 1)
  {
    if v in Members(m, k) {
      assert Members(m, k) + {v} == Members(m, k);
    }
  }

  /** The number of members of `k` shrinks by one exactly when `v` was there. */
  lemma DiscardCount<K(!new), V>(m: map<K, set<V>>, k: K, v: V)
    ensures |Members(Discard(m, k, v), k)| == |Members(m, k)| - (if v in Members(m, k) then 1 else 0)
  {
    if v in Members(m, k) {
      assert Members(m, k) == (Members(m, k) - {v}) + {v};
    } else {
      assert Members(m, k) - {v} == Members(m, k);
    }
  }

  // ------------------------------------------------------------------ totals

  /** `sum(len(v) for v in m.values())`. */
  ghost function TotalMembers<K(!new), V>(m: map<K, set<V>>): nat
    decreases |m.Keys|
  {
    if m.Keys == {} then 0
    else
      var k :| k in m.Keys;
      assert m.Keys == (m - {k}).Keys + {k};
      |m[k]| + TotalMembers(m - {k})
  }

  /** The total does not depend on which key is counted first. */
  lemma {:induction false} TotalMembersRemove<K(!new), V>(m: map<K, set<V>>, k: K)
    requires k in m
    ensures TotalMembers(m) == |m[k]| + TotalMembers(m - {k})
    decreases |m.Keys|
  {
    var j :| j in m.Keys && TotalMembers(m) == |m[j]| + TotalMembers(m - {j});
    if j != k {
      var withoutJ, withoutK := m - {j}, m - {k};
      assert m.Keys == withoutJ.Keys + {j} && j !in withoutJ.Keys;
      assert m.Keys == withoutK.Keys + {k} && k !in withoutK.Keys;
      assert k in withoutJ && withoutJ[k] == m[k];
      assert j in withoutK && withoutK[j] == m[j];
      TotalMembersRemove(withoutJ, k);
      TotalMembersRemove(withoutK, j);
      RemoveBoth(m, j, k);
    }
  }

  lemma RemoveBoth<K(!new), V>(m: map<K, set<V>>, j: K, k: K)
    ensures (m - {j}) - {k} == (m - {k}) - {j}
  {
    assert ((m - {j}) - {k}).Keys == ((m - {k}) - {j}).Keys;
  }

  /** Replacing the set of one key changes the total by the change in that set's size. */
  lemma ReplaceTotal<K(!new), V>(m: map<K, set<V>>, r: map<K, set<V>>, k: K)
    requires k in r && r - {k} == m - {k}
    ensures TotalMembers(r) + |Members(m, k)| == TotalMembers(m) + |r[k]|
  {
    TotalMembersRemove(r, k);
    if k in m {
      TotalMembersRemove(m, k);
    } else {
      assert m - {k} == m;
    }
  }

  /** Adding a member raises the total by one exactly when the member was new. */
  lemma AddTotal<K(!new), V>(m: map<K, set<V>>, k: K, v: V)
    ensures TotalMembers(Add(m, k, v)) == TotalMembers(m) + (if v in Members(m, k) then 0 else 1)
  {
    var r := Add(m, k, v);
    assert r - {k} == m - {k};
    ReplaceTotal(m, r, k);
    AddCount(m, k, v);
  }

  /** Discarding a member lowers the total by one exactly when the member was there. */
  lemma DiscardTotal<K(!new), V>(m: map<K, set<V>>, k: K, v: V)
    ensures TotalMembers(Discard(m, k, v)) == TotalMembers(m) - (if v in Members(m, k) then 1 else 0)
  {
    if k in m {
      var r := Discard(m, k, v);
      DiscardCount(m, k, v);
      if k in r {
        assert r - {k} == m - {k};
        ReplaceTotal(m, r, k);
      } else {
        assert r == m - {k};
        TotalMembersRemove(m, k);
      }
    }
  }
}

=== FILE: sorting.dfy ===
/**
 * A stable insertion sort by an integer key, for the two places that order rows:
 * the reset candidates (`ORDER BY created_at`) and a user's job list (newest first).
 */
module Sorting {
  predicate SortedBy<T>(s: seq<T>, key: T -> int) {
    forall i, j :: 0 <= i < j < |s| ==> key(s[i]) <= key(s[j])
  }

  /** Places `x` after every element whose key is not larger, keeping the order of equal keys. */
  function Insert<T>(x: T, s: seq<T>, key: T -> int): (r: seq<T>)
    requires SortedBy(s, key)
    ensures SortedBy(r, key)
    ensures multiset(r) == multiset(s) + multiset{x}
    ensures |r| == |s| + 1
  {
    if s == [] then [x]
    else if key(x) < key(s[0]) then [x] + s
    else
      var rest := Insert(x, s[1..], key);
      assert s == [s[0]] + s[1..];
      assert forall k :: 0 <= k < |rest| ==> key(s[0]) <= key(rest[k]) by {
        forall k | 0 <= k < |rest| ensures key(s[0]) <= key(rest[k]) {
          assert rest[k] in multiset(rest);
          assert rest[k] == x || rest[k] in multiset(s[1..]);
        }
      }
      [s[0]] + rest
  }

  /** Sorts `s` by `key`, ascending. */
  function SortBy<T>(s: seq<T>, key: T -> int): (r: seq<T>)
    ensures SortedBy(r, key)
    ensures multiset(r) == multiset(s)
    ensures |r| == |s|
  {
    if s == [] then []
    else
      assert s == s[..|s| - 1] + [s[|s| - 1]];
      Insert(s[|s| - 1], SortBy(s[..|s| - 1], key), key)
  }

  /** Two sequences with the same multiset have the same members. */
  lemma SameMembers<T>(a: seq<T>, b: seq<T>)
    requires multiset(a) == multiset(b)
    ensures forall x :: x in a <==> x in b
  {
    forall x
      ensures x in a <==> x in b
    {
      assert x in a <==> x in multiset(a);
      assert x in b <==> x in multiset(b);
    }
  }
}

=== FILE: tables.dfy ===
/**
 * The rows of the users, subscriptions and transcriptions tables that the
 * usage engine reads, held in memory, with the lookups the engine performs on
 * them.
 */
module Tables {
  import opened Wrappers
  import opened Calendar

  type UserId = string

  /** A user row: creation day (its anniversary drives billing) and activity flag. */
  datatype Account = Account(
    id: UserId,
    createdOn: Day,
    createdAt: int,
    isActive: bool,
    email: string,
    timezone: Option<string>)

  datatype Subscription = Subscription(
    userId: UserId,
    planName: string,
    status: string,
    billingCycle: string,
    currentPeriodEnd: Option<int>,
    createdAt: int)

  /** A transcription row as far as concurrency is concerned. */
  datatype JobRow = JobRow(id: string, userId: UserId, status: string)

  /** The first account row with this id. */
  function FindAccount(accounts: seq<Account>, id: UserId): (r: Option<Account>)
    ensures r.Some? ==> r.value in accounts && r.value.id == id
    ensures r.None? ==> forall a :: a in accounts ==> a.id != id
  {
    if accounts == [] then None
    else if accounts[0].id == id then Some(accounts[0])
    else FindAccount(accounts[1..], id)
  }

  predicate IsLive(s: Subscription, user: UserId) {
    s.userId == user && (s.status == "active" || s.status == "trialing")
  }

  /**
   * The user's newest active or trialing subscription
   * (`ORDER BY created_at DESC LIMIT 1`); among equally new rows the earliest
   * one in table order is taken.
   */
  function CurrentSubscription(subs: seq<Subscription>, user: UserId): (r: Option<Subscription>)
    ensures r.Some? ==> r.value in subs && IsLive(r.value, user)
    ensures r.Some? ==> forall s :: s in subs && IsLive(s, user) ==> s.createdAt <= r.value.createdAt
    ensures r.None? ==> forall s :: s in subs ==> !IsLive(s, user)
  {
    if subs == [] then None
    else
      var rest := CurrentSubscription(subs[1..], user);
      if IsLive(subs[0], user) && (rest.None? || rest.value.createdAt <= subs[0].createdAt) then Some(subs[0])
      else rest
  }

  /** `_get_user_plan`: the current subscription's plan name, or "free" without one. */
  function UserPlanName(subs: seq<Subscription>, user: UserId): (name: string)
    ensures (forall s :: s in subs ==> !IsLive(s, user)) ==> name == "free"
    ensures (exists s :: s in subs && IsLive(s, user)) ==>
      exists s :: s in subs && IsLive(s, user) && name == s.planName
  {
    match CurrentSubscription(subs, user)
    case Some(s) => s.planName
    case None => "free"
  }
}

=== FILE: text.dfy ===
/**
 * String helpers shared by the formatters: decimal rendering with Python's
 * zero-padded `%0Nd` semantics, prefix tests, `str.join`, and ASCII upper-casing.
 */
module Text {
  function DigitChar(d: int): (c: char)
    requires 0 <= d < 10
    ensures '0' <= c <= '9'
  {
    ['0', '1', '2', '3', '4', '5', '6', '7', '8', '9'][d]
  }

  predicate IsDigit(c: char) {
    '0' <= c <= '9'
  }

  predicate AllDigits(s: string) {
    forall i :: 0 <= i < |s| ==> IsDigit(s[i])
  }

  /** `str(n)` for a natural number: no sign and no leading zeros. */
  function NatToString(n: nat): (s: string)
    ensures |s| >= 1
    ensures forall i :: 0 <= i < |s| ==> IsDigit(s[i])
    ensures |s| > 1 ==> s[0] != '0'
    decreases n
  {
    if n < 10 then [DigitChar(n)] else NatToString(n / 10) + [DigitChar(n % 10)]
  }

  /** The value of a string of decimal digits. */
  function DigitsValue(s: string): nat
    requires forall i :: 0 <= i < |s| ==> IsDigit(s[i])
  {
    if s == [] then 0
    else
      assert IsDigit(s[|s| - 1]);
      DigitsValue(s[..|s| - 1]) * 10 + (s[|s| - 1] as int - '0' as int)
  }

  /** Rendering a number and reading it back gives the number. */
  lemma {:induction false} NatToStringValue(n: nat)
    ensures DigitsValue(NatToString(n)) == n
    decreases n
  {
    var s := NatToString(n);
    if n >= 10 {
      NatToStringValue(n / 10);
      assert s[..|s| - 1] == NatToString(n / 10);
    }
  }

  function Zeros(k: nat): (s: string)
    ensures |s| == k && forall i :: 0 <= i < k ==> s[i] == '0'
  {
    if k == 0 then "" else "0" + Zeros(k - 1)
  }

  /** Python's `f"{n:0{w}d}"` for `n >= 0`: pads with zeros to `w`, never truncates. */
  function PadNat(n: nat, w: nat): (s: string)
    ensures |s| == if |NatToString(n)| < w then w else |NatToString(n)|
    ensures forall i :: 0 <= i < |s| ==> IsDigit(s[i])
  {
    var digits := NatToString(n);
    if |digits| < w then Zeros(w - |digits|) + digits else digits
  }

  lemma {:induction false} ZerosValue(k: nat, s: string)
    requires forall i :: 0 <= i < |s| ==> IsDigit(s[i])
    ensures DigitsValue(Zeros(k) + s) == DigitsValue(s)
    decreases |s|
  {
    if s == [] {
      ZerosAreZero(k);
      assert Zeros(k) + s == Zeros(k);
    } else {
      var z := Zeros(k) + s;
      assert z[..|z| - 1] == Zeros(k) + s[..|s| - 1];
      ZerosValue(k, s[..|s| - 1]);
    }
  }

  lemma {:induction false} ZerosAreZero(k: nat)
    ensures DigitsValue(Zeros(k)) == 0
    decreases k
  {
    if k > 0 {
      ZerosAreZero(k - 1);
      assert Zeros(k)[..k - 1] == Zeros(k - 1);
    }
  }

  /** Zero padding does not change the value that is written. */
  lemma PadNatValue(n: nat, w: nat)
    ensures DigitsValue(PadNat(n, w)) == n
  {
    NatToStringValue(n);
    var digits := NatToString(n);
    if |digits| < w {
      ZerosValue(w - |digits|, digits);
    }
  }

  predicate StartsWith(s: string, prefix: string) {
    |prefix| <= |s| && s[..|prefix|] == prefix
  }

  /** `sep.join(parts)`. */
  function Join(parts: seq<string>, sep: string): string {
    if parts == [] then ""
    else if |parts| == 1 then parts[0]
    else parts[0] + sep + Join(parts[1..], sep)
  }

  function UpperChar(c: char): (u: char) {
    if 'a' <= c <= 'z' then (c as int - 'a' as int + 'A' as int) as char else c
  }

  /** `str.upper()` restricted to ASCII letters. */
  function UpperAscii(s: string): (u: string)
    ensures |u| == |s|
    ensures forall i :: 0 <= i < |s| ==> u[i] == UpperChar(s[i])
  {
    if s == [] then "" else [UpperChar(s[0])] + UpperAscii(s[1..])
  }

  /** `str.isspace()` for one character (the whitespace `str.strip()` and `\s` use). */
  predicate IsSpace(c: char) {
    c == ' ' || ('\t' <= c <= '\r') || ('\U{1c}' <= c <= '\U{1f}') || c == '\U{85}' || c == '\U{a0}'
    || c == '\U{1680}' || ('\U{2000}' <= c <= '\U{200a}') || c == '\U{2028}' || c == '\U{2029}'
    || c == '\U{202f}' || c == '\U{205f}' || c == '\U{3000}'
  }

  function StripLeft(s: string): (r: string)
    ensures |r| <= |s|
  {
    if s != [] && IsSpace(s[0]) then StripLeft(s[1..]) else s
  }

  /** `StripLeft` drops a run of whitespace from the front and stops at the first other character. */
  lemma {:induction false} StripLeftShape(s: string)
    ensures var r := StripLeft(s);
      && r == s[|s| - |r|..]
      && (forall i :: 0 <= i < |s| - |r| ==> IsSpace(s[i]))
      && (r == [] || !IsSpace(r[0]))
  {
    if s != [] && IsSpace(s[0]) {
      StripLeftShape(s[1..]);
    }
  }

  function StripRight(s: string): (r: string)
    ensures |r| <= |s|
  {
    if s != [] && IsSpace(s[|s| - 1]) then StripRight(s[..|s| - 1]) else s
  }

  /** `StripRight` drops a run of whitespace from the back and stops at the last other character. */
  lemma {:induction false} StripRightShape(s: string)
    ensures var r := StripRight(s);
      && r == s[..|r|]
      && (forall i :: |r| <= i < |s| ==> IsSpace(s[i]))
      && (r == [] || !IsSpace(r[|r| - 1]))
  {
    if s != [] && IsSpace(s[|s| - 1]) {
      StripRightShape(s[..|s| - 1]);
    }
  }

  /** `str.strip()`: drops the whitespace at both ends and nothing else. */
  function Strip(s: string): (r: string)
    ensures |r| <= |s|
  {
    StripRight(StripLeft(s))
  }

  /**
   * The stripped text is a slice of the input that neither starts nor ends
   * with whitespace, and it is empty exactly when every character is whitespace.
   */
  lemma StripShape(s: string)
    ensures var r := Strip(s);
      && (r == [] || (!IsSpace(r[0]) && !IsSpace(r[|r| - 1])))
      && (r == [] <==> forall i :: 0 <= i < |s| ==> IsSpace(s[i]))
  {
    var l := StripLeft(s);
    StripLeftShape(s);
    StripRightShape(l);
    var i := |s| - |l|;
    assert StripRight(l) == s[i..i + |StripRight(l)|];
  }

  /** `s.split(c)` for a one-character separator. */
  function Split(s: string, c: char): (parts: seq<string>)
    ensures |parts| >= 1
    ensures forall k :: 0 <= k < |parts| ==> c !in parts[k]
  {
    if s == [] then [""]
    else
      var rest := Split(s[1..], c);
      if s[0] == c then [""] + rest else [[s[0]] + rest[0]] + rest[1..]
  }

  lemma {:induction false} SplitPiece(p: string, c: char, t: string)
    requires c !in p
    ensures Split(p + [c] + t, c) == [p] + Split(t, c)
    decreases |p|
  {
    if p != [] {
      SplitPiece(p[1..], c, t);
      assert (p + [c] + t)[1..] == p[1..] + [c] + t;
      assert (p + [c] + t)[0] == p[0] != c;
      assert [p[0]] + p[1..] == p;
    } else {
      assert (p + [c] + t)[1..] == t;
    }
  }

  lemma {:induction false} SplitWhole(p: string, c: char)
    requires c !in p
    ensures Split(p, c) == [p]
    decreases |p|
  {
    if p != [] {
      SplitWhole(p[1..], c);
      assert [p[0]] + p[1..] == p;
    }
  }

  /** Splitting a `sep.join` on its one-character separator gives the parts back. */
  lemma {:induction false} SplitJoin(parts: seq<string>, c: char)
    requires |parts| >= 1
    requires forall k :: 0 <= k < |parts| ==> c !in parts[k]
    ensures Split(Join(parts, [c]), c) == parts
    decreases |parts|
  {
    if |parts| == 1 {
      SplitWhole(parts[0], c);
    } else {
      SplitJoin(parts[1..], c);
      SplitPiece(parts[0], c, Join(parts[1..], [c]));
    }
  }

  /** The pieces one after another. */
  function Concat<T>(pieces: seq<seq<T>>): seq<T> {
    if pieces == [] then [] else Concat(pieces[..|pieces| - 1]) + pieces[|pieces| - 1]
  }

  /** Piece `k` of a concatenation starts where the pieces before it end. */
  lemma {:induction false} ConcatAt<T>(pieces: seq<seq<T>>, k: nat)
    requires k < |pieces|
    ensures var before := |Concat(pieces[..k])|;
      before + |pieces[k]| <= |Concat(pieces)|
      && Concat(pieces)[before..before + |pieces[k]|] == pieces[k]
    decreases |pieces|
  {
    var n := |pieces|;
    var front := Concat(pieces[..n - 1]);
    assert Concat(pieces) == front + pieces[n - 1];
    if k == n - 1 {
      assert pieces[..k] == pieces[..n - 1];
    } else {
      ConcatAt(pieces[..n - 1], k);
      assert pieces[..n - 1][..k] == pieces[..k];
      var before := |Concat(pieces[..k])|;
      assert (front + pieces[n - 1])[before..before + |pieces[k]|] == front[before..before + |pieces[k]|];
    }
  }
}

=== FILE: transcript_schema.dfy ===
/**
 * The transcription records shared by the job table and the exporters:
 * job status, processing options, one transcript segment and a job.
 * Times are whole milliseconds (start and end of a segment) or clock
 * ticks (job timestamps); amounts that the service keeps as floats are
 * `real`.
 */
module TranscriptSchema {
  import opened Wrappers
  import opened Text

  datatype JobStatus = Pending | Processing | Completed | Failed | Cancelled

  /** The processing options a job is created with. */
  datatype TranscriptionOptions = TranscriptionOptions(
    language: string,
    includeYale: bool,
    includeJyutping: bool,
    includeEnglish: bool,
    confidenceThreshold: real,
    speakerDiarization: bool)

  /** `TranscriptionOptions()`: Cantonese, every annotation on, threshold 0.7, no diarization. */
  const DEFAULT_OPTIONS := TranscriptionOptions("yue", true, true, true, 0.7, false)

  /** One transcript segment; `id` is the position of the segment in the recogniser's output. */
  datatype TranscriptionItem = TranscriptionItem(
    id: int,
    startMs: nat,
    endMs: nat,
    chinese: string,
    yale: Option<string>,
    jyutping: Option<string>,
    english: Option<string>,
    confidence: real,
    speaker: Option<string>)

  /** Python truthiness of an optional string: present and non-empty. */
  predicate Truthy(s: Option<string>) {
    s.Some? && s.value != ""
  }

  /** The `metadata` dictionary of a result. */
  datatype ResultMetadata = ResultMetadata(duration: real, language: string, segmentsCount: nat, processingTime: real)

  /** The `statistics` dictionary of a result. */
  datatype Statistics = Statistics(averageConfidence: real, lowConfidenceSegments: nat, totalCharacters: nat)

  datatype TranscriptionResult = TranscriptionResult(items: seq<TranscriptionItem>, metadata: ResultMetadata, statistics: Statistics)

  /** A transcription job; timestamps are clock ticks in place of ISO strings. */
  datatype TranscriptionJob = TranscriptionJob(
    jobId: string,
    userId: string,
    status: JobStatus,
    fileId: Option<string>,
    youtubeUrl: Option<string>,
    options: TranscriptionOptions,
    createdAt: int,
    startedAt: Option<int>,
    completedAt: Option<int>,
    errorMessage: Option<string>,
    progress: real,
    result: Option<TranscriptionResult>,
    cost: Option<real>,
    duration: Option<real>)

  predicate Terminal(s: JobStatus) {
    s == Completed || s == Failed || s == Cancelled
  }
}

=== FILE: transcription_jobs.dfy ===
/**
 * The in-memory transcription job table: job creation, the processing
 * pipeline's state transitions, the segment filter, lookup, listing with
 * paging, cancellation and the export guard. The audio store, the
 * recogniser, the romanizer, the translator and the result store are
 * external services whose answers arrive as parameters; job ids (random
 * UUIDs) and clock readings are parameters too.
 */
module TranscriptionJobs {
  import opened Wrappers
  import opened Ratios
  import opened Text
  import opened Sorting
  import opened TranscriptSchema
  import Romanization
  import Export

  // --------------------------------------------------------------- segments

  /** One segment as the recogniser reports it. */
  datatype WhisperSegment = WhisperSegment(text: string, startMs: nat, endMs: nat, avgLogprob: Option<real>)

  /** The romanizer and the translator; both answer for every text and never raise. */
  datatype Annotators = Annotators(
    romanize: (string, bool, bool) -> Romanization.Romanized,
    translate: string -> Option<string>)

  predicate Kept(segment: WhisperSegment) {
    Strip(segment.text) != ""
  }

  /** The item built for the kept segment at position `i`. */
  function SegmentItem(i: nat, segment: WhisperSegment, options: TranscriptionOptions, annotators: Annotators): TranscriptionItem {
    var chinese := Strip(segment.text);
    var annotate := options.includeYale || options.includeJyutping;
    var romanized := annotators.romanize(chinese, options.includeYale, options.includeJyutping);
    TranscriptionItem(
      i, segment.startMs, segment.endMs, chinese,
      if annotate && options.includeYale then romanized.yale else None,
      if annotate && options.includeJyutping then romanized.jyutping else None,
      if options.includeEnglish then annotators.translate(chinese) else None,
      if segment.avgLogprob.Some? then segment.avgLogprob.value else 0.0,
      None)
  }

  /**
   * The items of `_process_segments`: one per segment whose stripped text is
   * non-empty, in order, each keeping the segment's position as its id.
   */
  function Segments(segments: seq<WhisperSegment>, options: TranscriptionOptions, annotators: Annotators): (items: seq<TranscriptionItem>)
    ensures |items| <= |segments|
  {
    if segments == [] then []
    else
      var n := |segments| - 1;
      var front := Segments(segments[..n], options, annotators);
      if Kept(segments[n]) then front + [SegmentItem(n, segments[n], options, annotators)] else front
  }

  /**
   * Every item comes from a kept segment whose position is its id and is the
   * item built from that segment; ids strictly increase.
   */
  lemma {:induction false} SegmentsShape(segments: seq<WhisperSegment>, options: TranscriptionOptions, annotators: Annotators)
    ensures BuiltFrom(Segments(segments, options, annotators), segments, options, annotators)
    ensures IncreasingIds(Segments(segments, options, annotators))
    decreases |segments|
  {
    if segments != [] {
      var n := |segments| - 1;
      var prefix := segments[..n];
      SegmentsShape(prefix, options, annotators);
      var front := Segments(prefix, options, annotators);
      var items := Segments(segments, options, annotators);
      forall k | 0 <= k < |front|
        ensures front[k].id < n && segments[front[k].id] == prefix[front[k].id]
      {
        assert 0 <= front[k].id < |prefix|;
      }
      if Kept(segments[n]) {
        var last := SegmentItem(n, segments[n], options, annotators);
        assert items == front + [last];
        forall k | 0 <= k < |items|
          ensures 0 <= items[k].id < |segments| && Kept(segments[items[k].id])
          ensures items[k] == SegmentItem(items[k].id, segments[items[k].id], options, annotators)
        {
          if k < |front| {
            assert items[k] == front[k];
          } else {
            assert items[k] == last;
          }
        }
        forall j, k | 0 <= j < k < |items|
          ensures items[j].id < items[k].id
        {
          if k < |front| {
            assert items[j] == front[j] && items[k] == front[k];
          } else {
            assert items[j] == front[j];
          }
        }
      } else {
        assert items == front;
      }
    }
  }

  /** Every item is the one built from the kept segment at the position given by its id. */
  predicate BuiltFrom(items: seq<TranscriptionItem>, segments: seq<WhisperSegment>, options: TranscriptionOptions, annotators: Annotators) {
    forall k :: 0 <= k < |items| ==>
      0 <= items[k].id < |segments| && Kept(segments[items[k].id])
      && items[k] == SegmentItem(items[k].id, segments[items[k].id], options, annotators)
  }

  predicate IncreasingIds(items: seq<TranscriptionItem>) {
    forall j, k :: 0 <= j < k < |items| ==> items[j].id < items[k].id
  }

  /** No segment with text is lost. */
  lemma {:induction false} EveryKeptSegmentListed(segments: seq<WhisperSegment>, options: TranscriptionOptions, annotators: Annotators)
    ensures Lists(Segments(segments, options, annotators), segments)
    decreases |segments|
  {
    if segments != [] {
      var n := |segments| - 1;
      var prefix := segments[..n];
      EveryKeptSegmentListed(prefix, options, annotators);
      var front := Segments(prefix, options, annotators);
      var items := Segments(segments, options, annotators);
      assert items[..|front|] == front;
      forall i | 0 <= i < |segments| && Kept(segments[i])
        ensures exists k :: 0 <= k < |items| && items[k].id == i
      {
        if i < n {
          assert prefix[i] == segments[i];
          var k :| 0 <= k < |front| && front[k].id == i;
          assert items[k] == front[k];
        } else {
          assert items[|items| - 1].id == i;
        }
      }
    }
  }

  /** Every segment with text has an item carrying its position. */
  predicate Lists(items: seq<TranscriptionItem>, segments: seq<WhisperSegment>) {
    forall i :: 0 <= i < |segments| && Kept(segments[i]) ==> exists k :: 0 <= k < |items| && items[k].id == i
  }

  function CountKept(segments: seq<WhisperSegment>): nat {
    if segments == [] then 0 else CountKept(segments[..|segments| - 1]) + (if Kept(segments[|segments| - 1]) then 1 else 0)
  }

  /** There is one item per segment with text, and every item has text. */
  lemma {:induction false} ItemsOfKeptSegments(segments: seq<WhisperSegment>, options: TranscriptionOptions, annotators: Annotators)
    ensures var items := Segments(segments, options, annotators);
      && |items| == CountKept(segments)
      && (forall k :: 0 <= k < |items| ==> items[k].chinese != "")
    decreases |segments|
  {
    if segments != [] {
      ItemsOfKeptSegments(segments[..|segments| - 1], options, annotators);
    }
  }

  /** Annotations that were not asked for stay empty. */
  lemma UnrequestedAnnotationsEmpty(segments: seq<WhisperSegment>, options: TranscriptionOptions, annotators: Annotators)
    ensures var items := Segments(segments, options, annotators);
      && (!options.includeYale ==> forall k :: 0 <= k < |items| ==> items[k].yale.None?)
      && (!options.includeJyutping ==> forall k :: 0 <= k < |items| ==> items[k].jyutping.None?)
      && (!options.includeEnglish ==> forall k :: 0 <= k < |items| ==> items[k].english.None?)
  {
    SegmentsShape(segments, options, annotators);
  }

  /** `_process_segments`. */
  method ProcessSegments(segments: seq<WhisperSegment>, options: TranscriptionOptions, annotators: Annotators)
    returns (items: seq<TranscriptionItem>)
    ensures items == Segments(segments, options, annotators)
  {
    items := [];
    for i := 0 to |segments|
      invariant items == Segments(segments[..i], options, annotators)
    {
      assert segments[..i + 1][..i] == segments[..i];
      var chinese := Strip(segments[i].text);
      if chinese == "" {
        continue;
      }
      items := items + [SegmentItem(i, segments[i], options, annotators)];
    }
    assert segments[..|segments|] == segments;
  }

  // ---------------------------------------------------------------- results

  function SumConfidence(items: seq<TranscriptionItem>): real {
    if items == [] then 0.0 else SumConfidence(items[..|items| - 1]) + items[|items| - 1].confidence
  }

  function CountBelow(items: seq<TranscriptionItem>, threshold: real): (n: nat)
    ensures n <= |items|
  {
    if items == [] then 0
    else CountBelow(items[..|items| - 1], threshold) + (if items[|items| - 1].confidence < threshold then 1 else 0)
  }

  function TotalCharacters(items: seq<TranscriptionItem>): nat {
    if items == [] then 0 else TotalCharacters(items[..|items| - 1]) + |items[|items| - 1].chinese|
  }

  /** The `statistics` of a result; the average is 0 when there are no segments. */
  function StatisticsOf(items: seq<TranscriptionItem>, threshold: real): (s: Statistics)
    ensures s.lowConfidenceSegments <= |items|
    ensures items == [] ==> s == Statistics(0.0, 0, 0)
    ensures (forall k :: 0 <= k < |items| ==> items[k].chinese != "") ==> s.totalCharacters >= |items|
  {
    NonEmptyTexts(items);
    Statistics(
      if items == [] then 0.0 else SumConfidence(items) / (|items| as real),
      CountBelow(items, threshold),
      TotalCharacters(items))
  }

  lemma {:induction false} NonEmptyTexts(items: seq<TranscriptionItem>)
    ensures (forall k :: 0 <= k < |items| ==> items[k].chinese != "") ==> TotalCharacters(items) >= |items|
  {
    if items != [] {
      NonEmptyTexts(items[..|items| - 1]);
    }
  }

  /** The average confidence of segments whose confidences all lie in `[lo, hi]` lies there too. */
  lemma {:induction false} AverageWithinBounds(items: seq<TranscriptionItem>, lo: real, hi: real)
    requires items != []
    requires forall k :: 0 <= k < |items| ==> lo <= items[k].confidence <= hi
    ensures lo <= StatisticsOf(items, 0.0).averageConfidence <= hi
  {
    SumBounds(items, lo, hi);
    QuotientBetween(SumConfidence(items), |items| as real, lo, hi);
  }

  lemma {:induction false} SumBounds(items: seq<TranscriptionItem>, lo: real, hi: real)
    requires forall k :: 0 <= k < |items| ==> lo <= items[k].confidence <= hi
    ensures lo * (|items| as real) <= SumConfidence(items) <= hi * (|items| as real)
  {
    if items != [] {
      SumBounds(items[..|items| - 1], lo, hi);
    }
  }

  /** Cost of a job: its duration in minutes times the per-minute price of the recogniser. */
  function CostOf(durationSeconds: real, costPerMinute: real): real {
    durationSeconds / 60.0 * costPerMinute
  }

  // --------------------------------------------------------------- pipeline

  /** What the external services answer while one job is processed; an `Err` is a raised exception's message. */
  datatype Services = Services(
    filePath: Option<string>,
    download: Result<string, string>,
    metadata: Result<Option<real>, string>,
    whisper: Result<seq<WhisperSegment>, string>,
    annotators: Annotators,
    costPerMinute: real,
    save: Option<string>)

  /** `_get_audio_file`: the uploaded file, else the YouTube download, else an error. */
  function AudioSource(job: TranscriptionJob, services: Services): (r: Result<string, string>)
    ensures !Truthy(job.fileId) && !Truthy(job.youtubeUrl) ==> r == Err("No input source specified")
    ensures Truthy(job.fileId) && services.filePath.None? ==> r == Err("File not found: " + job.fileId.value)
    ensures Truthy(job.fileId) && services.filePath.Some? ==> r == Ok(services.filePath.value)
    ensures !Truthy(job.fileId) && Truthy(job.youtubeUrl) ==> r == services.download
  {
    if Truthy(job.fileId) then
      if services.filePath.Some? then Ok(services.filePath.value) else Err("File not found: " + job.fileId.value)
    else if Truthy(job.youtubeUrl) then services.download
    else Err("No input source specified")
  }

  /** The processing time the result reports: seconds from start to completion. */
  function ElapsedSeconds(startedAt: int, completedAt: int): real {
    (completedAt - startedAt) as real
  }

  /**
   * `_calculate_processing_time` as `process_job` calls it: on the job before
   * its completion time is written, so it reads whatever completion time the
   * job carried from an earlier run.
   */
  function ProcessingTimeAsWritten(job: TranscriptionJob, startedAt: int): real {
    if job.completedAt.Some? then (job.completedAt.value - startedAt) as real else 0.0
  }

  /** A first run of a fresh job reports zero seconds however long it took. */
  lemma FreshJobReportsZeroProcessingTime(job: TranscriptionJob, startedAt: int, completedAt: int)
    requires job.completedAt.None? && startedAt < completedAt
    ensures ProcessingTimeAsWritten(job, startedAt) == 0.0
    ensures ElapsedSeconds(startedAt, completedAt) > 0.0
  {
  }

  /** A rerun of a job that failed earlier reports a negative time. */
  lemma RerunReportsNegativeTime()
    ensures var job := TranscriptionJob("j", "u", Failed, Some("f"), None, DEFAULT_OPTIONS, 0, Some(10), Some(20), Some("e"), 0.1, None, None, None);
      ProcessingTimeAsWritten(job, 100) == -80.0
  {
  }

  /** The result `process_job` builds after recognition, reporting `processingTime`. */
  function ResultOf(job: TranscriptionJob, duration: real, items: seq<TranscriptionItem>, processingTime: real): TranscriptionResult {
    TranscriptionResult(
      items,
      ResultMetadata(duration, job.options.language, |items|, processingTime),
      StatisticsOf(items, job.options.confidenceThreshold))
  }

  function FailedWith(job: TranscriptionJob, message: string, at: int): TranscriptionJob {
    job.(status := Failed, errorMessage := Some(message), completedAt := Some(at))
  }

  /** The job after `process_job` ran with these service answers, the time read before completion. */
  function Processed(job: TranscriptionJob, services: Services, startedAt: int, completedAt: int): TranscriptionJob {
    ProcessedWith(job, services, startedAt, completedAt, ProcessingTimeAsWritten(job, startedAt))
  }

  /** The same run with the processing time measured after completion, as intended. */
  function ProcessedAsIntended(job: TranscriptionJob, services: Services, startedAt: int, completedAt: int): TranscriptionJob {
    ProcessedWith(job, services, startedAt, completedAt, ElapsedSeconds(startedAt, completedAt))
  }

  /** The steps of `process_job`, its result reporting `processingTime`. */
  function ProcessedWith(job: TranscriptionJob, services: Services, startedAt: int, completedAt: int,
                         processingTime: real): TranscriptionJob {
    var running := job.(status := Processing, startedAt := Some(startedAt), progress := 0.1);
    var audio := AudioSource(job, services);
    if audio.Err? then FailedWith(running, audio.error, completedAt)
    else if services.metadata.Err? then FailedWith(running.(progress := 0.2), services.metadata.error, completedAt)
    else
      var duration := if services.metadata.value.Some? then services.metadata.value.value else 0.0;
      var measured := running.(duration := Some(duration), progress := 0.3);
      if services.whisper.Err? then FailedWith(measured, services.whisper.error, completedAt)
      else
        var items := Segments(services.whisper.value, job.options, services.annotators);
        var done := measured.(
          result := Some(ResultOf(job, duration, items, processingTime)),
          status := Completed, completedAt := Some(completedAt), progress := 1.0,
          cost := Some(CostOf(duration, services.costPerMinute)));
        if services.save.Some? then FailedWith(done, services.save.value, completedAt) else done
  }

  /** The first error the pipeline meets, if any. */
  function PipelineError(job: TranscriptionJob, services: Services): Option<string> {
    var audio := AudioSource(job, services);
    if audio.Err? then Some(audio.error)
    else if services.metadata.Err? then Some(services.metadata.error)
    else if services.whisper.Err? then Some(services.whisper.error)
    else services.save
  }

  /** The progress values the pipeline writes, in order. */
  function ProgressTrail(job: TranscriptionJob, services: Services): seq<real> {
    if AudioSource(job, services).Err? then [0.1]
    else if services.metadata.Err? then [0.1, 0.2]
    else if services.whisper.Err? then [0.1, 0.2, 0.3]
    else [0.1, 0.2, 0.3, 0.6, 0.9, 1.0]
  }

  predicate NonDecreasing(trail: seq<real>) {
    forall i, j :: 0 <= i < j < |trail| ==> trail[i] <= trail[j]
  }

  /**
   * A processed job ends COMPLETED exactly when no step fails, and then with
   * progress 1.0, a result and a cost; otherwise it ends FAILED with the first
   * error as its message.
   */
  lemma ProcessedOutcome(job: TranscriptionJob, services: Services, startedAt: int, completedAt: int)
    ensures var after := Processed(job, services, startedAt, completedAt);
      && (after.status == Completed <==> PipelineError(job, services).None?)
      && (after.status == Completed ==> after.progress == 1.0 && after.result.Some? && after.cost.Some? && after.errorMessage == job.errorMessage)
      && (after.status != Completed ==> after.status == Failed && after.errorMessage == PipelineError(job, services))
  {
  }

  /** Processing keeps the job's identity and always records a start and a completion time. */
  lemma ProcessedKeepsIdentity(job: TranscriptionJob, services: Services, startedAt: int, completedAt: int)
    ensures var after := Processed(job, services, startedAt, completedAt);
      && after.startedAt == Some(startedAt) && after.completedAt == Some(completedAt)
      && after.jobId == job.jobId && after.userId == job.userId && after.options == job.options && after.createdAt == job.createdAt
  {
  }

  /**
   * The job's final progress is the last value written, the written values
   * never decrease, and a run without errors writes 0.1, 0.2, 0.3, 0.6, 0.9, 1.0.
   */
  lemma ProgressOrdered(job: TranscriptionJob, services: Services, startedAt: int, completedAt: int)
    ensures var trail := ProgressTrail(job, services);
      && |trail| >= 1 && Processed(job, services, startedAt, completedAt).progress == trail[|trail| - 1]
      && NonDecreasing(trail)
      && (PipelineError(job, services).None? ==> trail == [0.1, 0.2, 0.3, 0.6, 0.9, 1.0])
  {
  }

  /**
   * As written, a completed job's result holds the kept segments and reports the time
   * read before completion: zero for a job that never completed before.
   */
  lemma CompletedReportsStaleTime(job: TranscriptionJob, services: Services, startedAt: int, completedAt: int)
    requires PipelineError(job, services).None?
    ensures var after := Processed(job, services, startedAt, completedAt);
      && after.result.Some?
      && after.result.value.metadata.processingTime == ProcessingTimeAsWritten(job, startedAt)
      && (job.completedAt.None? ==> after.result.value.metadata.processingTime == 0.0)
      && after.result.value.items == Segments(services.whisper.value, job.options, services.annotators)
      && after.result.value.metadata.segmentsCount == |after.result.value.items|
  {
  }

  /** Corrected, a completed job's result holds the kept segments and reports the elapsed time. */
  lemma CompletedReportsElapsedTime(job: TranscriptionJob, services: Services, startedAt: int, completedAt: int)
    requires startedAt <= completedAt
    requires PipelineError(job, services).None?
    ensures var after := ProcessedAsIntended(job, services, startedAt, completedAt);
      && after.result.Some?
      && after.result.value.metadata.processingTime == ElapsedSeconds(startedAt, completedAt) >= 0.0
      && after.result.value.items == Segments(services.whisper.value, job.options, services.annotators)
      && after.result.value.metadata.segmentsCount == |after.result.value.items|
  {
  }

  /**
   * The steps of `process_job` on one job: the job is marked PROCESSING, then
   * each step either fails the job or advances its progress.
   */
  method RunPipeline(original: TranscriptionJob, services: Services, startedAt: int, completedAt: int)
    returns (job: TranscriptionJob, trail: seq<real>)
    ensures job == Processed(original, services, startedAt, completedAt)
    ensures trail == ProgressTrail(original, services)
  {
    job := original.(status := Processing, startedAt := Some(startedAt), progress := 0.1);
    trail := [0.1];
    var audio := AudioSource(job, services);
    if audio.Err? {
      job := FailedWith(job, audio.error, completedAt);
    } else {
      job := job.(progress := 0.2);
      trail := trail + [0.2];
      if services.metadata.Err? {
        job := FailedWith(job, services.metadata.error, completedAt);
      } else {
        var duration := if services.metadata.value.Some? then services.metadata.value.value else 0.0;
        job := job.(duration := Some(duration), progress := 0.3);
        trail := trail + [0.3];
        if services.whisper.Err? {
          job := FailedWith(job, services.whisper.error, completedAt);
        } else {
          job := job.(progress := 0.6);
          trail := trail + [0.6];
          var items := ProcessSegments(services.whisper.value, job.options, services.annotators);
          job := job.(progress := 0.9);
          trail := trail + [0.9];
          var result := ResultOf(original, duration, items, ProcessingTimeAsWritten(job, startedAt));
          job := job.(result := Some(result), status := Completed, completedAt := Some(completedAt), progress := 1.0);
          trail := trail + [1.0];
          job := job.(cost := Some(CostOf(duration, services.costPerMinute)));
          if services.save.Some? {
            job := FailedWith(job, services.save.value, completedAt);
          }
        }
      }
    }
  }

  // ------------------------------------------------------------------ table

  class TranscriptionService {
    /** `jobs`, with `order` its insertion order. */
    var jobs: map<string, TranscriptionJob>
    var order: seq<string>
    /** The ids of `active_jobs` (the task handles themselves are not modelled). */
    var activeJobs: set<string>

    ghost predicate Valid()
      reads this
    {
      && (forall i :: 0 <= i < |order| ==> order[i] in jobs)
      && (forall id :: id in jobs ==> id in order)
      && (forall i, j :: 0 <= i < j < |order| ==> order[i] != order[j])
      && (forall id :: id in jobs ==> jobs[id].jobId == id)
    }

    constructor()
      ensures Valid() && jobs == map[] && order == [] && activeJobs == {}
    {
      jobs := map[];
      order := [];
      activeJobs := {};
    }

    /** `create_job`: a PENDING job with progress 0 under the given id; no options means the defaults. */
    method CreateJob(userId: string, fileId: Option<string>, youtubeUrl: Option<string>,
                     options: Option<TranscriptionOptions>, jobId: string, now: int)
      returns (job: TranscriptionJob)
      requires Valid()
      modifies this
      ensures Valid()
      ensures job.status == Pending && job.progress == 0.0 && job.jobId == jobId && job.userId == userId
      ensures job.options == (if options.None? then DEFAULT_OPTIONS else options.value)
      ensures job.fileId == fileId && job.youtubeUrl == youtubeUrl && job.createdAt == now
      ensures job.startedAt.None? && job.completedAt.None? && job.errorMessage.None? && job.result.None?
      ensures job.cost.None? && job.duration.None?
      ensures jobs == old(jobs)[jobId := job]
      ensures order == if jobId in old(jobs) then old(order) else old(order) + [jobId]
      ensures activeJobs == old(activeJobs)
    {
      var chosen := if options.None? then DEFAULT_OPTIONS else options.value;
      job := TranscriptionJob(jobId, userId, Pending, fileId, youtubeUrl, chosen, now, None, None, None, 0.0, None, None, None);
      if jobId !in jobs {
        order := order + [jobId];
      }
      jobs := jobs[jobId := job];
    }

    /**
     * `process_job`: runs the pipeline on a known job and answers the progress
     * values it wrote; an unknown id changes nothing. The job leaves
     * `active_jobs` however the run ends.
     */
    method ProcessJob(jobId: string, services: Services, startedAt: int, completedAt: int)
      returns (trail: seq<real>)
      requires Valid()
      modifies this
      ensures Valid()
      ensures order == old(order)
      ensures jobId !in old(jobs) ==> jobs == old(jobs) && activeJobs == old(activeJobs) && trail == []
      ensures jobId in old(jobs) ==>
        && jobs == old(jobs)[jobId := Processed(old(jobs)[jobId], services, startedAt, completedAt)]
        && activeJobs == old(activeJobs) - {jobId}
        && trail == ProgressTrail(old(jobs)[jobId], services)
    {
      if jobId !in jobs {
        return [];
      }
      var original := jobs[jobId];
      var job;
      job, trail := RunPipeline(original, services, startedAt, completedAt);
      ProcessedKeepsIdentity(original, services, startedAt, completedAt);
      jobs := jobs[jobId := job];
      activeJobs := activeJobs - {jobId};
    }

    /** `get_job_status`: the job only for its owner. */
    function GetJobStatus(jobId: string, userId: string): (r: Option<TranscriptionJob>)
      reads this
      ensures r.Some? <==> jobId in jobs && jobs[jobId].userId == userId
      ensures r.Some? ==> r.value == jobs[jobId]
    {
      if jobId in jobs && jobs[jobId].userId == userId then Some(jobs[jobId]) else None
    }

    /** The jobs in insertion order. */
    function InOrder(): (r: seq<TranscriptionJob>)
      reads this
      requires Valid()
      ensures |r| == |order| && forall i :: 0 <= i < |order| ==> r[i] == jobs[order[i]]
    {
      seq(|order|, i requires 0 <= i < |order| reads this requires Valid() => jobs[order[i]])
    }

    /** `list_user_jobs`: the user's jobs, newest first (ties keep insertion order), then `[offset:offset + limit]`. */
    function ListUserJobs(userId: string, limit: int, offset: int): (r: seq<TranscriptionJob>)
      reads this
      requires Valid()
      ensures forall k :: 0 <= k < |r| ==> r[k].userId == userId && r[k] in jobs.Values
      ensures forall i, j :: 0 <= i < j < |r| ==> r[i].createdAt >= r[j].createdAt
      ensures 0 <= offset && 0 <= limit ==> |r| <= limit
      ensures offset == 0 && limit >= |order| ==>
        forall id :: id in jobs && jobs[id].userId == userId ==> jobs[id] in r
      ensures r == PySlice(SortBy(OwnedBy(InOrder(), userId), NewestFirst), offset, offset + limit)
    {
      var all := InOrder();
      ListingOfTable(jobs, order, all, userId, limit, offset);
      UserPage(all, userId, limit, offset)
    }

    /** `cancel_job`: refused for an unknown job, another user's job or a finished one. */
    method CancelJob(jobId: string, userId: string, now: int) returns (cancelled: bool)
      requires Valid()
      modifies this
      ensures Valid()
      ensures cancelled <==> Cancellable(old(jobs), jobId, userId)
      ensures cancelled ==> jobs == old(jobs)[jobId := old(jobs)[jobId].(status := Cancelled, completedAt := Some(now))]
      ensures cancelled ==> activeJobs == old(activeJobs) - {jobId}
      ensures !cancelled ==> jobs == old(jobs) && activeJobs == old(activeJobs)
      ensures order == old(order)
    {
      if jobId !in jobs || jobs[jobId].userId != userId {
        return false;
      }
      if jobs[jobId].status in {Completed, Failed, Cancelled} {
        return false;
      }
      if jobId in activeJobs {
        activeJobs := activeJobs - {jobId};
      }
      jobs := jobs[jobId := jobs[jobId].(status := Cancelled, completedAt := Some(now))];
      cancelled := true;
    }

    /**
     * `export_transcription`: only the owner's COMPLETED job with a result can
     * be exported; the export itself is the exporter's.
     */
    method ExportTranscription(jobId: string, userId: string, format: string, options: Option<Export.ExportOptions>,
                               serialised: Export.Serialised, saved: Result<string, string>)
      returns (r: Result<Export.ExportInfo, string>)
      ensures !Exportable(jobs, jobId, userId) ==> r == Err("Job not found or not completed")
      ensures r.Ok? <==> Exportable(jobs, jobId, userId) && format in {"srt", "vtt", "txt", "csv", "json"} && saved.Ok?
      ensures r.Ok? ==>
        && r.value.filename == saved.value
        && r.value.downloadUrl == "/api/v1/transcription/download/" + jobId + "/" + format
        && r.value.fileSize == Export.Utf8Length(Export.ExportContent(jobs[jobId].result.value.items, format,
             if options.Some? then options.value else Export.NO_OPTIONS, serialised))
      ensures Exportable(jobs, jobId, userId) && saved.Ok? && r.Err? ==>
        r.error == "Failed to export as " + format + ": Unsupported export format: " + format
      ensures Exportable(jobs, jobId, userId) && format in Export.FORMATS && saved.Err? ==>
        r.error == "Failed to export as " + format + ": " + saved.error
    {
      var job := GetJobStatus(jobId, userId);
      if job.None? || job.value.status != Completed || job.value.result.None? {
        return Err("Job not found or not completed");
      }
      var chosen := if options.Some? then options.value else Export.NO_OPTIONS;
      r := Export.ExportTranscription(job.value.result.value.items, format, jobId, chosen, serialised, saved);
    }
  }

  /** A page of the table's jobs in insertion order holds the user's jobs of the table, newest first. */
  lemma ListingOfTable(jobs: map<string, TranscriptionJob>, order: seq<string>, all: seq<TranscriptionJob>,
                       userId: string, limit: int, offset: int)
    requires forall id :: id in jobs ==> id in order
    requires forall i :: 0 <= i < |order| ==> order[i] in jobs
    requires |all| == |order| && forall i :: 0 <= i < |order| ==> all[i] == jobs[order[i]]
    ensures var r := UserPage(all, userId, limit, offset);
      && (forall k :: 0 <= k < |r| ==> r[k].userId == userId && r[k] in jobs.Values)
      && (forall i, j :: 0 <= i < j < |r| ==> r[i].createdAt >= r[j].createdAt)
      && (0 <= offset && 0 <= limit ==> |r| <= limit)
      && (offset == 0 && limit >= |order| ==> forall id :: id in jobs && jobs[id].userId == userId ==> jobs[id] in r)
  {
    var r := UserPage(all, userId, limit, offset);
    PageOfUser(all, userId, limit, offset);
    PageBounds(all, userId, limit, offset);
    InOrderIsTable(jobs, order, all);
    forall k | 0 <= k < |r|
      ensures r[k] in jobs.Values
    {
      assert r[k] in all;
    }
  }

  /** The jobs listed in insertion order are exactly the table's jobs. */
  lemma InOrderIsTable(jobs: map<string, TranscriptionJob>, order: seq<string>, all: seq<TranscriptionJob>)
    requires forall id :: id in jobs ==> id in order
    requires forall i :: 0 <= i < |order| ==> order[i] in jobs
    requires |all| == |order| && forall i :: 0 <= i < |order| ==> all[i] == jobs[order[i]]
    ensures forall k :: 0 <= k < |all| ==> all[k] in jobs.Values
    ensures forall id :: id in jobs ==> jobs[id] in all
  {
    forall k | 0 <= k < |all|
      ensures all[k] in jobs.Values
    {
      assert all[k] == jobs[order[k]];
    }
    forall id | id in jobs
      ensures jobs[id] in all
    {
      var i :| 0 <= i < |order| && order[i] == id;
      assert all[i] == jobs[id];
    }
  }

  predicate Cancellable(jobs: map<string, TranscriptionJob>, jobId: string, userId: string) {
    jobId in jobs && jobs[jobId].userId == userId && !Terminal(jobs[jobId].status)
  }

  /** A job that was cancelled cannot be cancelled again. */
  lemma CancelOnce(jobs: map<string, TranscriptionJob>, jobId: string, userId: string, now: int)
    requires Cancellable(jobs, jobId, userId)
    ensures !Cancellable(jobs[jobId := jobs[jobId].(status := Cancelled, completedAt := Some(now))], jobId, userId)
  {
  }

  predicate Exportable(jobs: map<string, TranscriptionJob>, jobId: string, userId: string) {
    jobId in jobs && jobs[jobId].userId == userId && jobs[jobId].status == Completed && jobs[jobId].result.Some?
  }

  // ---------------------------------------------------------------- listing

  /** A user's jobs of `all`, newest first, sliced `[offset:offset + limit]`. */
  function UserPage(all: seq<TranscriptionJob>, userId: string, limit: int, offset: int): seq<TranscriptionJob> {
    PySlice(SortBy(OwnedBy(all, userId), NewestFirst), offset, offset + limit)
  }

  /** A page holds only the user's jobs, newest first. */
  lemma PageOfUser(all: seq<TranscriptionJob>, userId: string, limit: int, offset: int)
    ensures var r := UserPage(all, userId, limit, offset);
      && (forall k :: 0 <= k < |r| ==> r[k].userId == userId && r[k] in all)
      && (forall i, j :: 0 <= i < j < |r| ==> r[i].createdAt >= r[j].createdAt)
  {
    var r := UserPage(all, userId, limit, offset);
    PageOwned(all, userId, limit, offset, r);
    PageNewestFirst(all, userId, limit, offset, r);
  }

  lemma PageOwned(all: seq<TranscriptionJob>, userId: string, limit: int, offset: int, r: seq<TranscriptionJob>)
    requires r == UserPage(all, userId, limit, offset)
    ensures forall k :: 0 <= k < |r| ==> r[k].userId == userId && r[k] in all
  {
    var mine := OwnedBy(all, userId);
    var sorted := SortBy(mine, NewestFirst);
    SameMembers(mine, sorted);
    SliceMembers(sorted, offset, offset + limit);
    forall k | 0 <= k < |r|
      ensures r[k].userId == userId && r[k] in all
    {
      assert r[k] in r;
      assert r[k] in sorted;
    }
  }

  lemma PageNewestFirst(all: seq<TranscriptionJob>, userId: string, limit: int, offset: int, r: seq<TranscriptionJob>)
    requires r == UserPage(all, userId, limit, offset)
    ensures forall i, j :: 0 <= i < j < |r| ==> r[i].createdAt >= r[j].createdAt
  {
    var sorted := SortBy(OwnedBy(all, userId), NewestFirst);
    SliceSorted(sorted, NewestFirst, offset, offset + limit);
    assert SortedBy(r, NewestFirst);
    forall i, j | 0 <= i < j < |r|
      ensures r[i].createdAt >= r[j].createdAt
    {
      assert NewestFirst(r[i]) <= NewestFirst(r[j]);
    }
  }

  /** A page holds at most `limit` jobs; the first page of a large enough limit holds all of the user's jobs. */
  lemma PageBounds(all: seq<TranscriptionJob>, userId: string, limit: int, offset: int)
    ensures var r := UserPage(all, userId, limit, offset);
      && (0 <= offset && 0 <= limit ==> |r| <= limit)
      && (offset == 0 && limit >= |all| ==> forall j :: j in all && j.userId == userId ==> j in r)
  {
    var mine := OwnedBy(all, userId);
    var sorted := SortBy(mine, NewestFirst);
    SameMembers(mine, sorted);
    PySliceShape(sorted, offset, offset + limit);
  }

  /** A slice holds only elements of the sliced sequence. */
  lemma SliceMembers<T>(s: seq<T>, start: int, stop: int)
    ensures forall x :: x in PySlice(s, start, stop) ==> x in s
  {
    PySliceShape(s, start, stop);
    var r := PySlice(s, start, stop);
    forall x | x in r
      ensures x in s
    {
      var k :| 0 <= k < |r| && r[k] == x;
      assert s[SliceBound(start, |s|) + k] == x;
    }
  }

  /** A slice of a sorted sequence is sorted. */
  lemma SliceSorted<T>(s: seq<T>, key: T -> int, start: int, stop: int)
    requires SortedBy(s, key)
    ensures SortedBy(PySlice(s, start, stop), key)
  {
    PySliceShape(s, start, stop);
    var r := PySlice(s, start, stop);
    var a := SliceBound(start, |s|);
    forall i, j | 0 <= i < j < |r|
      ensures key(r[i]) <= key(r[j])
    {
      assert r[i] == s[a + i] && r[j] == s[a + j];
    }
  }

  function OwnedBy(all: seq<TranscriptionJob>, userId: string): (r: seq<TranscriptionJob>)
    ensures forall k :: 0 <= k < |r| ==> r[k].userId == userId && r[k] in all
    ensures forall j :: j in all && j.userId == userId ==> j in r
    ensures |r| <= |all|
  {
    if all == [] then []
    else
      var rest := OwnedBy(all[1..], userId);
      assert forall j :: j in all ==> j == all[0] || j in all[1..];
      if all[0].userId == userId then [all[0]] + rest else rest
  }

  function NewestFirst(job: TranscriptionJob): int {
    -job.createdAt
  }

  /** Python's reading of a slice bound against a length `n`. */
  function SliceBound(i: int, n: nat): (r: nat)
    ensures r <= n
    ensures 0 <= i ==> r == if i <= n then i else n
  {
    if i < 0 then (if i + n < 0 then 0 else i + n) else if i > n then n else i
  }

  /** `s[start:stop]` with Python's handling of negative and out-of-range bounds. */
  function PySlice<T>(s: seq<T>, start: int, stop: int): seq<T> {
    var a := SliceBound(start, |s|);
    var b := SliceBound(stop, |s|);
    if a < b then s[a..b] else []
  }

  /** A slice is a run of consecutive elements, no longer than `stop - start` for non-negative bounds. */
  lemma PySliceShape<T>(s: seq<T>, start: int, stop: int)
    ensures var r := PySlice(s, start, stop);
      && |r| <= |s|
      && (forall k :: 0 <= k < |r| ==> r[k] == s[SliceBound(start, |s|) + k])
      && (0 <= start <= stop ==> |r| <= stop - start)
      && (0 <= stop <= start ==> r == [])
      && (start == 0 && stop >= |s| ==> r == s)
  {
  }
}

=== FILE: usage_history.dfy ===
/**
 * The monthly usage history of one user: one aggregate per reported month and
 * the lifetime totals accumulated over them.
 */
module UsageHistory {
  import opened Wrappers
  import opened Tables
  import opened Billing
  import opened Plans
  import opened UsageLedger

  /** One group of the history query: a user's rows that carry one month label. */
  datatype MonthRow = MonthRow(
    month: string,
    transcriptionCount: nat,
    creditsUsed: int,
    totalDuration: int,
    totalCost: real)

  function MonthRecords(records: seq<UsageRecord>, user: UserId, month: string): (rs: seq<UsageRecord>)
    ensures forall r :: r in rs <==> r in records && r.userId == user && r.usageMonth == month
  {
    if records == [] then []
    else
      var rest := MonthRecords(records[1..], user, month);
      assert forall r :: r in records <==> r == records[0] || r in records[1..];
      if records[0].userId == user && records[0].usageMonth == month then [records[0]] + rest else rest
  }

  /** The aggregate row of `month`: the same per-row charge as the current-usage query. */
  function MonthRowOf(records: seq<UsageRecord>, user: UserId, month: string): (row: MonthRow)
    ensures row.creditsUsed >= row.transcriptionCount
  {
    var rs := MonthRecords(records, user, month);
    CreditsAtLeastCount(rs);
    MonthRow(month, |rs|, SumCredits(rs), SumDuration(rs), SumCost(rs))
  }

  datatype HistoryItem = HistoryItem(
    month: string,
    creditsUsed: int,
    creditsTotal: int,
    utilizationRate: real,
    transcriptionCount: nat,
    totalDurationMinutes: int,
    totalCost: real)

  function MinReal(a: real, b: real): real { if a <= b then a else b }

  /** A month's entry: its usage against the plan allowance, utilisation capped at 100%. */
  function ItemOf(row: MonthRow, allowance: int): (item: HistoryItem)
    requires allowance > 0
    ensures item.utilizationRate <= 100.0
    ensures row.creditsUsed >= 0 ==> item.utilizationRate >= 0.0
    ensures row.creditsUsed >= allowance ==> item.utilizationRate == 100.0
  {
    HistoryItem(row.month, row.creditsUsed, allowance,
                MinReal(100.0, row.creditsUsed as real / allowance as real * 100.0),
                row.transcriptionCount, row.totalDuration / 60, row.totalCost)
  }

  function TotalCredits(rows: seq<MonthRow>): int {
    if rows == [] then 0 else TotalCredits(rows[..|rows| - 1]) + rows[|rows| - 1].creditsUsed
  }

  function TotalTranscriptions(rows: seq<MonthRow>): nat {
    if rows == [] then 0 else TotalTranscriptions(rows[..|rows| - 1]) + rows[|rows| - 1].transcriptionCount
  }

  function TotalMinutes(rows: seq<MonthRow>): int {
    if rows == [] then 0 else TotalMinutes(rows[..|rows| - 1]) + rows[|rows| - 1].totalDuration / 60
  }

  /** Code-point lexicographic order on month labels, as the query compares `usage_month`. */
  predicate LabelBefore(a: string, b: string)
    decreases |a|
  {
    if a == [] then b != []
    else if b == [] then false
    else if a[0] != b[0] then a[0] < b[0]
    else LabelBefore(a[1..], b[1..])
  }

  lemma {:induction false} LabelBeforeIrreflexive(a: string)
    ensures !LabelBefore(a, a)
    decreases |a|
  {
    if a != [] {
      LabelBeforeIrreflexive(a[1..]);
    }
  }

  /** The user has a ledger row labelled `month`, and `month` is not before the window's first label. */
  ghost predicate ActiveMonth(records: seq<UsageRecord>, user: UserId, windowStart: string, month: string) {
    !LabelBefore(month, windowStart) && exists r :: r in records && r.userId == user && r.usageMonth == month
  }

  /**
   * The groups of the history query: every month in the window in which the user has
   * rows, each once, newest first.
   */
  ghost predicate HistoryMonths(months: seq<string>, records: seq<UsageRecord>, user: UserId, windowStart: string) {
    && (forall i, j :: 0 <= i < j < |months| ==> LabelBefore(months[j], months[i]))
    && (forall m :: m in months <==> ActiveMonth(records, user, windowStart, m))
  }

  /** The months of a history are distinct. */
  lemma HistoryMonthsDistinct(months: seq<string>, records: seq<UsageRecord>, user: UserId, windowStart: string)
    requires HistoryMonths(months, records, user, windowStart)
    ensures forall i, j :: 0 <= i < j < |months| ==> months[i] != months[j]
  {
    forall i, j | 0 <= i < j < |months|
      ensures months[i] != months[j]
    {
      LabelBeforeIrreflexive(months[i]);
    }
  }

  /** A reported month has at least one row, so its entry counts a transcription. */
  lemma ReportedMonthNotEmpty(records: seq<UsageRecord>, user: UserId, windowStart: string, month: string)
    requires ActiveMonth(records, user, windowStart, month)
    ensures MonthRowOf(records, user, month).transcriptionCount >= 1
  {
    var r :| r in records && r.userId == user && r.usageMonth == month;
    assert r in MonthRecords(records, user, month);
  }

  datatype History = History(
    items: seq<HistoryItem>,
    lifetimeCredits: int,
    lifetimeTranscriptions: nat,
    lifetimeMinutes: int,
    accountAgeDays: int)

  /** The loop of `get_usage_history`: one entry per month row and the running lifetime totals. */
  method Accumulate(rows: seq<MonthRow>, allowance: int)
    returns (items: seq<HistoryItem>, credits: int, transcriptions: nat, minutes: int)
    requires allowance > 0
    ensures |items| == |rows|
    ensures forall k :: 0 <= k < |rows| ==> items[k] == ItemOf(rows[k], allowance)
    ensures credits == TotalCredits(rows)
    ensures transcriptions == TotalTranscriptions(rows)
    ensures minutes == TotalMinutes(rows)
    ensures (forall k :: 0 <= k < |rows| ==> rows[k].creditsUsed >= rows[k].transcriptionCount) ==> credits >= transcriptions
  {
    items := [];
    credits, transcriptions, minutes := 0, 0, 0;
    var i := 0;
    while i < |rows|
      invariant 0 <= i <= |rows|
      invariant |items| == i
      invariant forall k :: 0 <= k < i ==> items[k] == ItemOf(rows[k], allowance)
      invariant credits == TotalCredits(rows[..i])
      invariant transcriptions == TotalTranscriptions(rows[..i])
      invariant minutes == TotalMinutes(rows[..i])
      invariant (forall k :: 0 <= k < |rows| ==> rows[k].creditsUsed >= rows[k].transcriptionCount) ==> credits >= transcriptions
    {
      var row := rows[i];
      items := items + [ItemOf(row, allowance)];
      assert rows[..i + 1][..i] == rows[..i];
      credits := credits + row.creditsUsed;
      transcriptions := transcriptions + row.transcriptionCount;
      minutes := minutes + row.totalDuration / 60;
      i := i + 1;
    }
    assert rows[..|rows|] == rows;
  }

  /** The month rows of the query's months, in the query's order. */
  function MonthRows(records: seq<UsageRecord>, user: UserId, months: seq<string>): (rows: seq<MonthRow>)
    ensures |rows| == |months|
    ensures forall k :: 0 <= k < |months| ==> rows[k] == MonthRowOf(records, user, months[k])
  {
    seq(|months|, k requires 0 <= k < |months| => MonthRowOf(records, user, months[k]))
  }

  /**
   * The history entries are exactly the window's active months, newest first,
   * each with at least one transcription.
   */
  ghost predicate ListsActiveMonths(items: seq<HistoryItem>, records: seq<UsageRecord>, user: UserId, windowStart: string) {
    && (forall k :: 0 <= k < |items| ==> ActiveMonth(records, user, windowStart, items[k].month))
    && (forall m :: ActiveMonth(records, user, windowStart, m) ==> exists k :: 0 <= k < |items| && items[k].month == m)
    && (forall i, j :: 0 <= i < j < |items| ==> LabelBefore(items[j].month, items[i].month))
    && (forall k :: 0 <= k < |items| ==> items[k].transcriptionCount >= 1)
  }

  /** The entries built from the query's months are the window's active months, newest first, none empty. */
  lemma ItemsFollowMonths(records: seq<UsageRecord>, user: UserId, windowStart: string, months: seq<string>,
                          items: seq<HistoryItem>, allowance: int)
    requires HistoryMonths(months, records, user, windowStart)
    requires allowance > 0
    requires |items| == |months|
    requires forall k :: 0 <= k < |months| ==> items[k] == ItemOf(MonthRowOf(records, user, months[k]), allowance)
    ensures ListsActiveMonths(items, records, user, windowStart)
  {
    forall k | 0 <= k < |items|
      ensures ActiveMonth(records, user, windowStart, items[k].month) && items[k].transcriptionCount >= 1
    {
      assert months[k] in months;
      ReportedMonthNotEmpty(records, user, windowStart, months[k]);
    }
    forall m | ActiveMonth(records, user, windowStart, m)
      ensures exists k :: 0 <= k < |items| && items[k].month == m
    {
      var k :| 0 <= k < |months| && months[k] == m;
      assert items[k].month == m;
    }
  }

  /**
   * `get_usage_history`: the entries of the reported months (newest first, as the
   * grouped query orders them) and the lifetime totals summed over those months.
   * A missing user gives 500.
   */
  method GetUsageHistory(accounts: seq<Account>, subs: seq<Subscription>, records: seq<UsageRecord>,
                         user: UserId, windowStart: string, months: seq<string>, now: int)
    returns (r: Result<History, int>)
    requires HistoryMonths(months, records, user, windowStart)
    ensures r.Ok? <==> FindAccount(accounts, user).Some?
    ensures r.Ok? ==> ListsActiveMonths(r.value.items, records, user, windowStart)
    ensures r.Err? ==> r.error == INTERNAL_ERROR
    ensures r.Ok? ==>
      var rows := MonthRows(records, user, months);
      var allowance := PlanConfig(UserPlanName(subs, user)).creditsPerMonth;
      && |r.value.items| == |months|
      && (forall k :: 0 <= k < |months| ==> r.value.items[k] == ItemOf(rows[k], allowance))
      && r.value.lifetimeCredits == TotalCredits(rows)
      && r.value.lifetimeTranscriptions == TotalTranscriptions(rows)
      && r.value.lifetimeMinutes == TotalMinutes(rows)
      && r.value.lifetimeCredits >= r.value.lifetimeTranscriptions
      && r.value.accountAgeDays == (now - FindAccount(accounts, user).value.createdAt) / 86400
  {
    var account := FindAccount(accounts, user);
    if account.None? {
      return Err(INTERNAL_ERROR);
    }
    var rows := MonthRows(records, user, months);
    var allowance := PlanConfig(UserPlanName(subs, user)).creditsPerMonth;
    var items, credits, transcriptions, minutes := Accumulate(rows, allowance);
    ItemsFollowMonths(records, user, windowStart, months, items, allowance);
    return Ok(History(items, credits, transcriptions, minutes, (now - account.value.createdAt) / 86400));
  }
}

=== FILE: usage_ledger.dfy ===
/**
 * The usage ledger (the `usage_tracking` table) and the engine's reads of it: the
 * per-period aggregates, the current-usage summary, recording a usage row (with
 * the duplicate-transcription guard) and the manual monthly reset.
 */
module UsageLedger {
  import opened Wrappers
  import opened Calendar
  import opened Text
  import opened Tables
  import opened Billing
  import opened Plans

  /** One ledger row. Every row written here carries its billing period. */
  datatype UsageRecord = UsageRecord(
    id: nat,
    userId: UserId,
    transcriptionId: Option<string>,
    usageType: string,
    usageDate: Day,
    usageMonth: string,
    durationSeconds: int,
    fileSizeBytes: int,
    cost: real,
    tokensUsed: int,
    periodStart: Day,
    periodEnd: Day)

  function YearText(y: int): string {
    if y >= 0 then PadNat(y, 4) else "-" + PadNat(-y, 4)
  }

  /** `d.strftime("%Y-%m")`. */
  function MonthLabel(d: Date): string
    requires Valid(d)
  {
    YearText(d.year) + "-" + PadNat(d.month, 2)
  }

  // ---------------------------------------------------------------------------
  // Aggregates over one user's billing period

  predicate InPeriod(r: UsageRecord, user: UserId, p: Period) {
    r.userId == user && r.periodStart == p.start && r.periodEnd == p.end
  }

  /** The rows the period query selects, in ledger order. */
  function PeriodRecords(records: seq<UsageRecord>, user: UserId, p: Period): (rs: seq<UsageRecord>)
    ensures forall r :: r in rs <==> r in records && InPeriod(r, user, p)
    ensures |rs| <= |records|
  {
    if records == [] then []
    else
      var init := PeriodRecords(records[..|records| - 1], user, p);
      var last := records[|records| - 1];
      assert forall r :: r in records <==> r in records[..|records| - 1] || r == last;
      if InPeriod(last, user, p) then init + [last] else init
  }

  /** The `credits_used` aggregate. */
  function SumCredits(rs: seq<UsageRecord>): int {
    if rs == [] then 0 else SumCredits(rs[..|rs| - 1]) + RowCredits(rs[|rs| - 1].usageType, rs[|rs| - 1].durationSeconds)
  }

  function SumDuration(rs: seq<UsageRecord>): int {
    if rs == [] then 0 else SumDuration(rs[..|rs| - 1]) + rs[|rs| - 1].durationSeconds
  }

  function SumCost(rs: seq<UsageRecord>): real {
    if rs == [] then 0.0 else SumCost(rs[..|rs| - 1]) + rs[|rs| - 1].cost
  }

  function SumFileSize(rs: seq<UsageRecord>): int {
    if rs == [] then 0 else SumFileSize(rs[..|rs| - 1]) + rs[|rs| - 1].fileSizeBytes
  }

  const BYTES_PER_MB: real := 1048576.0

  /** The `avg_file_size_mb` aggregate: the mean size in MiB, 0 without rows. */
  function AverageFileSizeMb(rs: seq<UsageRecord>): (avg: real)
    ensures rs == [] ==> avg == 0.0
    ensures rs != [] ==> avg * (|rs| as real) * BYTES_PER_MB == SumFileSize(rs) as real
  {
    if rs == [] then 0.0 else SumFileSize(rs) as real / BYTES_PER_MB / |rs| as real
  }

  /** Every row costs at least one credit, so the credits used are at least the row count. */
  lemma {:induction false} CreditsAtLeastCount(rs: seq<UsageRecord>)
    ensures SumCredits(rs) >= |rs|
  {
    if rs != [] {
      CreditsAtLeastCount(rs[..|rs| - 1]);
    }
  }

  /** Appending a row adds its charge to its own period and nothing to any other. */
  lemma AppendCharges(records: seq<UsageRecord>, r: UsageRecord, user: UserId, p: Period)
    ensures SumCredits(PeriodRecords(records + [r], user, p)) ==
      SumCredits(PeriodRecords(records, user, p)) + (if InPeriod(r, user, p) then RowCredits(r.usageType, r.durationSeconds) else 0)
  {
    assert (records + [r])[..|records|] == records;
  }

  /** `_get_concurrent_processing_count`: the user's transcriptions in `processing`. */
  function ProcessingCount(jobs: seq<JobRow>, user: UserId): (n: nat)
    ensures n <= |jobs|
    ensures n == 0 <==> forall j :: j in jobs ==> !(j.userId == user && j.status == "processing")
  {
    if jobs == [] then 0
    else (if jobs[0].userId == user && jobs[0].status == "processing" then 1 else 0) + ProcessingCount(jobs[1..], user)
  }

  // ---------------------------------------------------------------------------
  // Current usage

  /** The tables the usage services read. */
  datatype Store = Store(
    accounts: seq<Account>,
    subs: seq<Subscription>,
    jobs: seq<JobRow>,
    records: seq<UsageRecord>)

  datatype CurrentUsage = CurrentUsage(
    creditsUsed: int,
    creditsTotal: int,
    currentMonth: string,
    resetDate: Day,
    daysUntilReset: int,
    isNearLimit: bool,
    isAtLimit: bool,
    concurrentProcessing: nat,
    maxConcurrent: int,
    transcriptionCount: nat,
    totalDurationMinutes: int,
    totalCost: real,
    averageFileSizeMb: real)

  /** Every failure of the usage engine reaches the caller as HTTP 500. */
  const INTERNAL_ERROR := 500

  /** The user's billing period, when the user exists and the period's dates exist. */
  function UserPeriod(accounts: seq<Account>, user: UserId, today: Day): Option<Period> {
    match FindAccount(accounts, user)
    case None => None
    case Some(a) => BillingPeriod(a.createdOn, today)
  }

  /**
   * `get_current_usage`: the period's aggregates against the plan allowance, the
   * reset date (the day after the period), and the near-limit (80%) and at-limit
   * flags. A missing user or a period whose dates do not exist gives 500.
   */
  function GetCurrentUsage(accounts: seq<Account>, subs: seq<Subscription>, jobs: seq<JobRow>,
                           records: seq<UsageRecord>, user: UserId, today: Day): (r: Result<CurrentUsage, int>)
    ensures r.Ok? <==> UserPeriod(accounts, user, today).Some?
    ensures r.Err? ==> r.error == INTERNAL_ERROR
    ensures r.Ok? ==> var u := r.value; var plan := PlanConfig(UserPlanName(subs, user));
      && u.creditsTotal == plan.creditsPerMonth
      && u.maxConcurrent == plan.maxConcurrentJobs
      && (u.isAtLimit <==> u.creditsUsed >= u.creditsTotal)
      && (u.isNearLimit <==> u.creditsUsed as real >= 0.8 * u.creditsTotal as real)
      && u.creditsUsed >= u.transcriptionCount
      && Before(today, u.resetDate) && u.daysUntilReset >= 1
      && u.resetDate.day == FindAccount(accounts, user).value.createdOn.day
    ensures r.Ok? ==> var u := r.value; var p := UserPeriod(accounts, user, today).value;
      var rows := PeriodRecords(records, user, p);
      && u.creditsUsed == SumCredits(rows)
      && u.transcriptionCount == |rows|
      && u.totalDurationMinutes == SumDuration(rows) / 60
      && u.totalCost == SumCost(rows)
      && u.averageFileSizeMb == AverageFileSizeMb(rows)
      && u.concurrentProcessing == ProcessingCount(jobs, user)
      && u.currentMonth == MonthLabel(p.start)
      && u.resetDate == NextDay(p.end)
      && u.daysUntilReset == DaysBetween(today, u.resetDate)
  {
    match UserPeriod(accounts, user, today)
    case None => Err(INTERNAL_ERROR)
    case Some(p) =>
      var rows := PeriodRecords(records, user, p);
      var plan := PlanConfig(UserPlanName(subs, user));
      var used := SumCredits(rows);
      var total := plan.creditsPerMonth;
      var reset := NextDay(p.end);
      CreditsAtLeastCount(rows);
      BeforeOrdinal(today, reset);
      Ok(CurrentUsage(
        used, total, MonthLabel(p.start), reset, Max(0, DaysBetween(today, reset)),
        used as real >= total as real * 0.8, used >= total,
        ProcessingCount(jobs, user), plan.maxConcurrentJobs,
        |rows|, SumDuration(rows) / 60, SumCost(rows), AverageFileSizeMb(rows)))
  }

  /**
   * Aggregate consistency: a row recorded in the user's current period adds exactly
   * its charge to the credits used and one to the count; the other aggregates of the
   * same user are those of the longer ledger.
   */
  lemma RecordingChargesCurrentUsage(accounts: seq<Account>, subs: seq<Subscription>, jobs: seq<JobRow>,
                                     records: seq<UsageRecord>, row: UsageRecord, user: UserId, today: Day)
    requires UserPeriod(accounts, user, today).Some?
    requires var p := UserPeriod(accounts, user, today).value;
      row.userId == user && row.periodStart == p.start && row.periodEnd == p.end
    ensures var before := GetCurrentUsage(accounts, subs, jobs, records, user, today);
      var after := GetCurrentUsage(accounts, subs, jobs, records + [row], user, today);
      && before.Ok? && after.Ok?
      && after.value.creditsUsed == before.value.creditsUsed + RowCredits(row.usageType, row.durationSeconds)
      && after.value.transcriptionCount == before.value.transcriptionCount + 1
      && after.value.creditsTotal == before.value.creditsTotal
  {
    var p := UserPeriod(accounts, user, today).value;
    AppendCharges(records, row, user, p);
    assert (records + [row])[..|records|] == records;
  }

  /** A row recorded for another user or period leaves the user's current usage as it was. */
  lemma RecordingElsewhereKeepsUsage(accounts: seq<Account>, subs: seq<Subscription>, jobs: seq<JobRow>,
                                     records: seq<UsageRecord>, row: UsageRecord, user: UserId, today: Day)
    requires UserPeriod(accounts, user, today).Some?
    requires !InPeriod(row, user, UserPeriod(accounts, user, today).value)
    ensures GetCurrentUsage(accounts, subs, jobs, records + [row], user, today) ==
      GetCurrentUsage(accounts, subs, jobs, records, user, today)
  {
    assert (records + [row])[..|records|] == records;
  }

  /** At the limit implies near it: the alerts never report the one without the other. */
  lemma AtLimitIsNearLimit(accounts: seq<Account>, subs: seq<Subscription>, jobs: seq<JobRow>,
                           records: seq<UsageRecord>, user: UserId, today: Day)
    requires GetCurrentUsage(accounts, subs, jobs, records, user, today).Ok?
    ensures var u := GetCurrentUsage(accounts, subs, jobs, records, user, today).value;
      u.isAtLimit ==> u.isNearLimit
  {
  }

  // ---------------------------------------------------------------------------
  // Recording usage

  /** What went wrong inside the recording transaction. */
  datatype RecordFailure = UserNotFound | PeriodUndefined | DuplicateTranscription

  /** What the transaction raises: an HTTP error, a store uniqueness violation, or any other error. */
  datatype Raised = HttpRaised(code: int) | UniqueViolation | OtherError

  function Raise(f: RecordFailure): Raised {
    match f
    case UserNotFound => HttpRaised(404)
    case PeriodUndefined => OtherError
    case DuplicateTranscription => HttpRaised(409)
  }

  /**
   * The handlers of `record_usage` as written: a uniqueness violation becomes 409
   * and every other exception, an HTTP error raised inside the transaction
   * included, becomes 500.
   */
  function HandlerAsWritten(e: Raised): (code: int)
    ensures code == 409 <==> e.UniqueViolation?
    ensures !e.UniqueViolation? ==> code == 500
  {
    match e
    case UniqueViolation => 409
    case _ => 500
  }

  /** The handlers as evidently intended: an HTTP error raised inside keeps its status. */
  function Handler(e: Raised): (code: int)
    ensures e.HttpRaised? ==> code == e.code
    ensures !e.HttpRaised? ==> (code == 409 <==> e.UniqueViolation?)
  {
    match e
    case HttpRaised(c) => c
    case UniqueViolation => 409
    case OtherError => 500
  }

  /** As written, every failed recording is answered with 500: each is raised inside the transaction. */
  function RecordStatusAsWritten(f: RecordFailure): (code: int)
    ensures code == 500
  {
    HandlerAsWritten(Raise(f))
  }

  /**
   * The status a failed recording is evidently meant to answer with: 409 exactly
   * for a duplicate, 404 for a missing user, 500 otherwise.
   */
  function RecordStatus(f: RecordFailure): (code: int)
    ensures code == 409 <==> f == DuplicateTranscription
    ensures code == 404 <==> f == UserNotFound
    ensures code == 500 <==> f == PeriodUndefined
  {
    Handler(Raise(f))
  }

  /** As written, a duplicate transcription is answered with 500, not 409. */
  lemma DuplicateAnsweredWith500()
    ensures RecordStatusAsWritten(DuplicateTranscription) == 500
    ensures RecordStatus(DuplicateTranscription) == 409
  {
  }

  predicate TranscriptionRecorded(records: seq<UsageRecord>, tid: string) {
    exists i :: 0 <= i < |records| && records[i].transcriptionId == Some(tid)
  }

  /** No transcription is charged twice. */
  predicate UniqueTranscriptions(records: seq<UsageRecord>) {
    forall i, j :: 0 <= i < j < |records| && records[i].transcriptionId.Some? ==>
      records[i].transcriptionId != records[j].transcriptionId
  }

  class Ledger {
    var records: seq<UsageRecord>
    var nextId: nat

    ghost predicate Valid()
      reads this
    {
      (forall i :: 0 <= i < |records| ==> records[i].id < nextId)
      && UniqueTranscriptions(records)
    }

    constructor ()
      ensures Valid() && records == []
    {
      records := [];
      nextId := 0;
    }

    /**
     * `record_usage`: find the user's period, refuse a transcription that is already
     * in the ledger, then append one row dated today. The ledger never holds two
     * rows for one transcription.
     */
    method RecordUsage(accounts: seq<Account>, user: UserId, usageType: string, durationSeconds: int,
                       fileSizeBytes: int, cost: real, tokensUsed: int, transcriptionId: Option<string>,
                       today: Day)
      returns (r: Result<UsageRecord, RecordFailure>)
      requires Valid()
      modifies this
      ensures Valid()
      ensures r.Err? ==> records == old(records)
      ensures r == Err(UserNotFound) <==> FindAccount(accounts, user).None?
      ensures r == Err(PeriodUndefined) <==>
        FindAccount(accounts, user).Some? && UserPeriod(accounts, user, today).None?
      ensures r == Err(DuplicateTranscription) <==>
        UserPeriod(accounts, user, today).Some?
        && transcriptionId.Some? && TranscriptionRecorded(old(records), transcriptionId.value)
      ensures r.Ok? ==> records == old(records) + [r.value]
      ensures r.Ok? ==> var p := UserPeriod(accounts, user, today).value;
        r.value.userId == user && r.value.usageType == usageType
        && r.value.durationSeconds == durationSeconds && r.value.fileSizeBytes == fileSizeBytes
        && r.value.cost == cost && r.value.tokensUsed == tokensUsed
        && r.value.transcriptionId == transcriptionId
        && r.value.usageDate == today && r.value.usageMonth == MonthLabel(today)
        && r.value.periodStart == p.start && r.value.periodEnd == p.end
    {
      var period := UserPeriod(accounts, user, today);
      if period.None? {
        if FindAccount(accounts, user).None? {
          return Err(UserNotFound);
        }
        return Err(PeriodUndefined);
      }
      if transcriptionId.Some? {
        var i := 0;
        while i < |records|
          invariant 0 <= i <= |records|
          invariant forall k :: 0 <= k < i ==> records[k].transcriptionId != transcriptionId
        {
          if records[i].transcriptionId == transcriptionId {
            return Err(DuplicateTranscription);
          }
          i := i + 1;
        }
      }
      var p := period.value;
      var row := UsageRecord(nextId, user, transcriptionId, usageType, today, MonthLabel(today),
                             durationSeconds, fileSizeBytes, cost, tokensUsed, p.start, p.end);
      records := records + [row];
      nextId := nextId + 1;
      return Ok(row);
    }
  }

  // ---------------------------------------------------------------------------
  // Manual monthly reset

  datatype MonthlyReset = MonthlyReset(
    userId: UserId,
    previousCreditsUsed: int,
    newCreditsAvailable: int,
    resetDate: Day,
    nextResetDate: Day,
    periodStart: Day,
    periodEnd: Day,
    resetSuccessful: bool,
    resetReason: string)

  const DEFAULT_RESET_REASON := "Automated monthly reset"

  /**
   * `perform_monthly_reset`: a new period from today to the day before the next
   * anniversary, with the plan's full allowance. It reads the ledger and leaves it
   * as it is: the archive update only touches rows without a period end, and every
   * row recorded above has one. A missing user, a current period or a next reset
   * date that does not exist gives 500.
   */
  function PerformMonthlyReset(accounts: seq<Account>, subs: seq<Subscription>, jobs: seq<JobRow>,
                               records: seq<UsageRecord>, user: UserId, reason: Option<string>,
                               today: Day): (r: Result<MonthlyReset, int>)
    ensures r.Ok? <==>
      (UserPeriod(accounts, user, today).Some?
       && NextResetDate(FindAccount(accounts, user).value.createdOn, today).Some?)
    ensures r.Err? ==> r.error == INTERNAL_ERROR
    ensures r.Ok? ==> var m := r.value;
      && m.resetSuccessful && m.resetDate == today && m.periodStart == today
      && Before(today, m.nextResetDate)
      && m.nextResetDate.day == FindAccount(accounts, user).value.createdOn.day
      && m.periodEnd == PrevDay(m.nextResetDate) && AtOrBefore(today, m.periodEnd)
      && m.newCreditsAvailable == PlanConfig(UserPlanName(subs, user)).creditsPerMonth
      && m.previousCreditsUsed == GetCurrentUsage(accounts, subs, jobs, records, user, today).value.creditsUsed
      && m.resetReason == (if reason.None? || reason.value == "" then DEFAULT_RESET_REASON else reason.value)
  {
    match GetCurrentUsage(accounts, subs, jobs, records, user, today)
    case Err(e) => Err(e)
    case Ok(usage) =>
      var account := FindAccount(accounts, user).value;
      match NextResetDate(account.createdOn, today)
      case None => Err(INTERNAL_ERROR)
      case Some(next) =>
        BeforeThenAtOrBeforePrev(today, next);
        Ok(MonthlyReset(
          user, usage.creditsUsed, PlanConfig(UserPlanName(subs, user)).creditsPerMonth,
          today, next, today, PrevDay(next), true,
          if reason.None? || reason.value == "" then DEFAULT_RESET_REASON else reason.value))
  }
}

=== FILE: usage_schemas.dfy ===
/**
 * Request and plan schemas of the usage API: the three usage types, the plan
 * record with its defaults, and the field validators of the record, check and
 * analytics requests. A rejected request yields the names of the offending
 * fields, in declaration order, as the validation error lists them.
 */
module UsageSchemas {
  import opened Wrappers
  import opened Calendar

  const TRANSCRIPTION := "transcription"
  const EXPORT := "export"
  const API_CALL := "api_call"

  const MiB := 1024 * 1024
  /** Largest file the check request accepts (the free tier's 25 MB). */
  const MAX_CHECK_FILE_SIZE := 25 * MiB

  predicate IsUsageType(t: string) {
    t == TRANSCRIPTION || t == EXPORT || t == API_CALL
  }

  /** A plan's limits; the overage price and flag default to 0 and false. */
  datatype PlanLimits = PlanLimits(
    planName: string,
    creditsPerMonth: int,
    maxFileSizeMb: int,
    maxConcurrentJobs: int,
    features: seq<string>,
    costPerCredit: real := 0.0,
    allowsOverage: bool := false)

  /** A plan built without the two optional fields sells no overage. */
  lemma PlanLimitsDefaults(name: string, credits: int, mb: int, jobs: int, features: seq<string>)
    ensures PlanLimits(name, credits, mb, jobs, features).costPerCredit == 0.0
    ensures !PlanLimits(name, credits, mb, jobs, features).allowsOverage
  {
  }

  datatype UsageRecordRequest = UsageRecordRequest(
    usageType: string,
    durationSeconds: int,
    fileSizeBytes: int,
    cost: real,
    tokensUsed: int,
    transcriptionId: Option<string>)

  /** The record request's field checks: four lower bounds and the usage-type whitelist. */
  function ValidateUsageRecord(req: UsageRecordRequest): (r: Result<UsageRecordRequest, seq<string>>)
    ensures r.Ok? <==>
      IsUsageType(req.usageType) && req.durationSeconds >= 0 && req.fileSizeBytes >= 0
      && req.cost >= 0.0 && req.tokensUsed >= 0
    ensures r.Ok? ==> r.value == req
    ensures r.Err? ==> |r.error| >= 1
    ensures r.Err? ==> ("usage_type" in r.error <==> !IsUsageType(req.usageType))
    ensures r.Err? ==> ("duration_seconds" in r.error <==> req.durationSeconds < 0)
    ensures r.Err? ==> ("file_size_bytes" in r.error <==> req.fileSizeBytes < 0)
    ensures r.Err? ==> ("cost" in r.error <==> req.cost < 0.0)
    ensures r.Err? ==> ("tokens_used" in r.error <==> req.tokensUsed < 0)
  {
    var errors := (if IsUsageType(req.usageType) then [] else ["usage_type"]) + AmountErrors(req);
    if errors == [] then Ok(req) else Err(errors)
  }

  /** The four lower-bound checks of a record request, in field order. */
  function AmountErrors(req: UsageRecordRequest): (errors: seq<string>)
    ensures errors == [] <==>
      req.durationSeconds >= 0 && req.fileSizeBytes >= 0 && req.cost >= 0.0 && req.tokensUsed >= 0
    ensures "usage_type" !in errors
    ensures "duration_seconds" in errors <==> req.durationSeconds < 0
    ensures "file_size_bytes" in errors <==> req.fileSizeBytes < 0
    ensures "cost" in errors <==> req.cost < 0.0
    ensures "tokens_used" in errors <==> req.tokensUsed < 0
  {
    (if req.durationSeconds >= 0 then [] else ["duration_seconds"])
    + (if req.fileSizeBytes >= 0 then [] else ["file_size_bytes"])
    + (if req.cost >= 0.0 then [] else ["cost"])
    + (if req.tokensUsed >= 0 then [] else ["tokens_used"])
  }

  datatype UsageCheckRequest = UsageCheckRequest(estimatedDurationSeconds: int, fileSizeBytes: int)

  /** Duration at least 1 second; size at least 1 byte and at most 25 MiB. */
  function ValidateUsageCheck(req: UsageCheckRequest): (r: Result<UsageCheckRequest, seq<string>>)
    ensures r.Ok? <==>
      req.estimatedDurationSeconds >= 1 && 1 <= req.fileSizeBytes <= MAX_CHECK_FILE_SIZE
    ensures r.Ok? ==> r.value == req
    ensures r.Err? ==> ("estimated_duration_seconds" in r.error <==> req.estimatedDurationSeconds < 1)
    ensures r.Err? ==> ("file_size_bytes" in r.error <==> !(1 <= req.fileSizeBytes <= MAX_CHECK_FILE_SIZE))
  {
    var errors :=
      (if req.estimatedDurationSeconds >= 1 then [] else ["estimated_duration_seconds"])
      + (if 1 <= req.fileSizeBytes <= MAX_CHECK_FILE_SIZE then [] else ["file_size_bytes"]);
    if errors == [] then Ok(req) else Err(errors)
  }

  datatype UsageAnalyticsRequest = UsageAnalyticsRequest(
    startDate: Date,
    endDate: Date,
    userId: Option<string>,
    planType: Option<string>,
    usageType: Option<string>)

  /** Only an end date strictly before the start date is refused; a one-day range is fine. */
  function ValidateAnalyticsRange(req: UsageAnalyticsRequest): (r: Result<UsageAnalyticsRequest, seq<string>>)
    ensures r.Ok? <==> AtOrBefore(req.startDate, req.endDate)
    ensures r.Ok? ==> r.value == req
    ensures r.Err? ==> r.error == ["end_date"]
  {
    if Before(req.endDate, req.startDate) then Err(["end_date"]) else Ok(req)
  }
}

=== FILE: usage_tracking.dfy ===
/**
 * The usage-tracking middleware: which paths it tracks and under which usage
 * type, the estimates it feeds the admission check, its per-user slot tracker,
 * the decisions of one request, and the stand-alone concurrency limiter.
 */
module UsageTracking {
  import opened Wrappers
  import opened Calendar
  import opened Text
  import opened Tables
  import opened UsageLedger
  import opened Admission
  import opened SetMaps
  import opened Billing
  import UsageSchemas
  import Plans

  datatype TrackedEndpoint = TrackedEndpoint(prefix: string, usageType: string)

  /** The tracked path prefixes in declaration order, with their usage types. */
  const TRACKED_ENDPOINTS: seq<TrackedEndpoint> := [
    TrackedEndpoint("/api/v1/transcription/process", UsageSchemas.TRANSCRIPTION),
    TrackedEndpoint("/api/v1/transcription/upload", UsageSchemas.TRANSCRIPTION),
    TrackedEndpoint("/api/v1/transcription/youtube", UsageSchemas.TRANSCRIPTION),
    TrackedEndpoint("/api/v1/files/export", UsageSchemas.EXPORT)
  ]

  /** The paths whose POST requests are checked against the user's limits first. */
  const USAGE_CHECK_ENDPOINTS: set<string> := {
    "/api/v1/transcription/process",
    "/api/v1/transcription/upload",
    "/api/v1/transcription/youtube"
  }

  /** `_should_track_endpoint`: the path starts with some tracked prefix. */
  predicate ShouldTrackEndpoint(path: string) {
    exists k :: 0 <= k < |TRACKED_ENDPOINTS| && StartsWith(path, TRACKED_ENDPOINTS[k].prefix)
  }

  /** No path starts with two different tracked prefixes, so the first match is the only one. */
  lemma TrackedPrefixesExclusive(path: string, i: int, j: int)
    requires 0 <= i < j < |TRACKED_ENDPOINTS|
    ensures !(StartsWith(path, TRACKED_ENDPOINTS[i].prefix) && StartsWith(path, TRACKED_ENDPOINTS[j].prefix))
  {
    var p, q := TRACKED_ENDPOINTS[i].prefix, TRACKED_ENDPOINTS[j].prefix;
    var n := if i == 3 || j == 3 then 10 else 22;
    assert p[n] != q[n];
  }

  /** `_get_usage_type`: the type of the first tracked prefix the path starts with. */
  method GetUsageType(path: string) returns (r: Option<string>)
    ensures r.None? <==> !ShouldTrackEndpoint(path)
    ensures r.Some? ==>
      exists k :: 0 <= k < |TRACKED_ENDPOINTS| && StartsWith(path, TRACKED_ENDPOINTS[k].prefix)
                  && r.value == TRACKED_ENDPOINTS[k].usageType
    ensures r.Some? ==> UsageSchemas.IsUsageType(r.value)
  {
    var k := 0;
    while k < |TRACKED_ENDPOINTS|
      invariant 0 <= k <= |TRACKED_ENDPOINTS|
      invariant forall j :: 0 <= j < k ==> !StartsWith(path, TRACKED_ENDPOINTS[j].prefix)
    {
      if StartsWith(path, TRACKED_ENDPOINTS[k].prefix) {
        return Some(TRACKED_ENDPOINTS[k].usageType);
      }
      k := k + 1;
    }
    return None;
  }

  // ---------------------------------------------------------------------------
  // Estimates

  /** A parsed JSON request body, reduced to its numeric fields. */
  type Body = map<string, real>

  /** Python's `int()` on a float: truncation toward zero. */
  function Trunc(x: real): (r: int)
    ensures x >= 0.0 ==> r as real <= x < r as real + 1.0
    ensures x < 0.0 ==> r as real - 1.0 < x <= r as real
  {
    if x >= 0.0 then x.Floor else -((-x).Floor)
  }

  const DEFAULT_DURATION_SECONDS := 300
  const DEFAULT_FILE_SIZE := 10 * UsageSchemas.MiB

  /**
   * `_estimate_processing_duration`: the `duration` field, else one minute per MiB
   * of `file_size`, else five minutes.
   */
  function EstimateDuration(body: Body): (r: int)
    ensures "duration" in body ==> r == Trunc(body["duration"])
    ensures "duration" !in body && "file_size" !in body ==> r == DEFAULT_DURATION_SECONDS
  {
    if "duration" in body then Trunc(body["duration"])
    else if "file_size" in body then Trunc(body["file_size"] / 1024.0 / 1024.0 * 60.0)
    else DEFAULT_DURATION_SECONDS
  }

  /** A whole, non-negative file size gives sixty seconds per MiB, rounded down. */
  lemma EstimateFromFileSize(body: Body, n: nat)
    requires "duration" !in body && "file_size" in body && body["file_size"] == n as real
    ensures EstimateDuration(body) == (60 * n) / UsageSchemas.MiB
  {
    var x := n as real / 1024.0 / 1024.0 * 60.0;
    var q := (60 * n) / UsageSchemas.MiB;
    var rem := (60 * n) % UsageSchemas.MiB;
    assert 60 * n == q * 1048576 + rem;
    assert x * 1048576.0 == (60 * n) as real;
    assert q as real <= x < q as real + 1.0;
  }

  /** `_estimate_file_size`: the `file_size` field, else `content_length`, else 10 MiB. */
  function EstimateFileSize(body: Body): (r: int)
    ensures "file_size" in body ==> r == Trunc(body["file_size"])
    ensures "file_size" !in body && "content_length" in body ==> r == Trunc(body["content_length"])
    ensures "file_size" !in body && "content_length" !in body ==> r == DEFAULT_FILE_SIZE
  {
    if "file_size" in body then Trunc(body["file_size"])
    else if "content_length" in body then Trunc(body["content_length"])
    else DEFAULT_FILE_SIZE
  }

  // ---------------------------------------------------------------------------
  // One request

  /** The admission check refuses the request: the file is too large, no slot is free, or credits run short without overage. */
  predicate AdmissionRefuses(u: CurrentUsage, plan: UsageSchemas.PlanLimits, estimatedSeconds: int, fileSizeBytes: int) {
    FileTooBig(fileSizeBytes, plan)
    || u.concurrentProcessing >= u.maxConcurrent
    || (RequiredCredits(estimatedSeconds) > u.creditsTotal - u.creditsUsed && !plan.allowsOverage)
  }

  lemma DecidesRefusal(c: UsageCheck, u: CurrentUsage, plan: UsageSchemas.PlanLimits, est: int, size: int)
    requires Decides(c, u, plan, est, size)
    ensures c.canProcess <==> !AdmissionRefuses(u, plan, est, size)
  {
  }

  /** The pre-check refuses: the check ran and said no. A check that raised lets the request through. */
  predicate PreCheckRefuses(store: Store, user: UserId, body: Body, today: Day) {
    var current := GetCurrentUsage(store.accounts, store.subs, store.jobs, store.records, user, today);
    current.Ok?
    && AdmissionRefuses(current.value, Plans.PlanConfig(UserPlanName(store.subs, user)),
                        EstimateDuration(body), EstimateFileSize(body))
  }

  datatype Reply =
    | PassedThrough                        // not tracked, or no user: forwarded untouched
    | LimitExceeded                        // 429 with the check's details
    | Forwarded(status: int, recorded: bool)

  /** The slot id of `_start_processing_tracking`: the user id, `_`, and the whole seconds of the clock. */
  function SlotId(user: UserId, now: nat): string {
    user + "_" + NatToString(now)
  }

  class UsageTrackingMiddleware {
    var processingJobs: map<UserId, set<string>>

    ghost predicate Valid()
      reads this
    {
      NoEmptySets(processingJobs)
    }

    constructor ()
      ensures Valid() && processingJobs == map[]
    {
      processingJobs := map[];
    }

    /** `_start_processing_tracking`. */
    method StartProcessingTracking(user: UserId, now: nat) returns (id: string)
      requires Valid()
      modifies this
      ensures Valid()
      ensures id == SlotId(user, now)
      ensures processingJobs == Add(old(processingJobs), user, id)
    {
      id := SlotId(user, now);
      processingJobs := Add(processingJobs, user, id);
    }

    /** `_stop_processing_tracking`. */
    method StopProcessingTracking(user: UserId, id: string)
      requires Valid()
      modifies this
      ensures Valid()
      ensures processingJobs == Discard(old(processingJobs), user, id)
    {
      processingJobs := Discard(processingJobs, user, id);
    }

    /**
     * `dispatch` for one request, given the user found in the request (if any), its
     * body, the tables the check reads, the usage ledger and the status the endpoint
     * answers with. Untracked paths and anonymous requests pass through. A POST to a
     * checked path that the check refuses gets 429; a check that fails lets it through.
     * Checked paths hold a slot while the endpoint runs. Below 400 the request's usage
     * type is recorded with the zero figures `_extract_usage_from_response` gives; a
     * recording that fails is swallowed.
     */
    method Dispatch(path: string, httpMethod: string, user: Option<UserId>, body: Body,
                    store: Store, ledger: Ledger, today: Day, now: nat, status: int) returns (r: Reply)
      requires Valid() && ledger.Valid()
      modifies this, ledger
      ensures Valid() && ledger.Valid()
      ensures !ShouldTrackEndpoint(path) || user.None? ==> r == PassedThrough
      ensures r == LimitExceeded <==>
        (ShouldTrackEndpoint(path) && user.Some? && path in USAGE_CHECK_ENDPOINTS && httpMethod == "POST"
         && PreCheckRefuses(store, user.value, body, today))
      ensures r.Forwarded? ==> r.status == status
      ensures r.Forwarded? && path in USAGE_CHECK_ENDPOINTS ==>
        processingJobs == Discard(Add(old(processingJobs), user.value, SlotId(user.value, now)),
                                  user.value, SlotId(user.value, now))
      ensures !(r.Forwarded? && path in USAGE_CHECK_ENDPOINTS) ==> processingJobs == old(processingJobs)
      ensures r.Forwarded? ==>
        (r.recorded <==> status < 400 && UserPeriod(store.accounts, user.value, today).Some?)
      ensures !(r.Forwarded? && r.recorded) ==> ledger.records == old(ledger.records)
      ensures r.Forwarded? && r.recorded ==>
        var p := UserPeriod(store.accounts, user.value, today).value;
        exists id: nat, k :: 0 <= k < |TRACKED_ENDPOINTS| && StartsWith(path, TRACKED_ENDPOINTS[k].prefix)
          && ledger.records == old(ledger.records) + [UsageRecord(
            id, user.value, None, TRACKED_ENDPOINTS[k].usageType, today, MonthLabel(today), 0, 0, 0.0, 0, p.start, p.end)]
    {
      var tracked := GetUsageType(path);
      if tracked.None? || user.None? {
        return PassedThrough;
      }
      var u := user.value;
      if path in USAGE_CHECK_ENDPOINTS && httpMethod == "POST" {
        var refused := PerformUsageCheck(store, u, body, today);
        if refused {
          return LimitExceeded;
        }
      }
      var slot: Option<string> := None;
      if path in USAGE_CHECK_ENDPOINTS {
        var id := StartProcessingTracking(u, now);
        slot := Some(id);
      }
      var recorded := false;
      if status < 400 {
        recorded := RecordUsageFromResponse(ledger, store.accounts, u, tracked.value, today);
      }
      r := Forwarded(status, recorded);
      if slot.Some? {
        StopProcessingTracking(u, slot.value);
      }
    }
  }

  /** `_perform_usage_check` as the dispatcher reads it: refused iff the check ran and said no. */
  method PerformUsageCheck(store: Store, user: UserId, body: Body, today: Day) returns (refused: bool)
    ensures refused <==> PreCheckRefuses(store, user, body, today)
  {
    var check := CheckUsageLimits(store.accounts, store.subs, store.jobs, store.records, user,
                                  EstimateDuration(body), EstimateFileSize(body), today);
    refused := false;
    if check.Ok? {
      DecidesRefusal(check.value, GetCurrentUsage(store.accounts, store.subs, store.jobs, store.records, user, today).value,
                     Plans.PlanConfig(UserPlanName(store.subs, user)), EstimateDuration(body), EstimateFileSize(body));
      refused := !check.value.canProcess;
    }
  }

  /**
   * `_record_usage_from_response`: one row of the request's usage type with the zero
   * figures the response gives; a failure to record leaves the ledger as it was.
   */
  method RecordUsageFromResponse(ledger: Ledger, accounts: seq<Account>, user: UserId, usageType: string, today: Day)
    returns (recorded: bool)
    requires ledger.Valid()
    modifies ledger
    ensures ledger.Valid()
    ensures recorded <==> UserPeriod(accounts, user, today).Some?
    ensures !recorded ==> ledger.records == old(ledger.records)
    ensures recorded ==> var p := UserPeriod(accounts, user, today).value;
      exists id: nat :: ledger.records == old(ledger.records) + [UsageRecord(
        id, user, None, usageType, today, MonthLabel(today), 0, 0, 0.0, 0, p.start, p.end)]
  {
    var row := ledger.RecordUsage(accounts, user, usageType, 0, 0, 0.0, 0, None, today);
    recorded := row.Ok?;
    match row {
      case Ok(_) =>
      case Err(e) => assert e == UserNotFound || e == PeriodUndefined || e == DuplicateTranscription;
    }
  }

  /**
   * A request the middleware records charges the user exactly one credit and one
   * transcription in the current usage: its row has zero duration.
   */
  lemma RecordedRequestChargesOneCredit(accounts: seq<Account>, subs: seq<Subscription>, jobs: seq<JobRow>,
                                        records: seq<UsageRecord>, id: nat, user: UserId, usageType: string, today: Day)
    requires UserPeriod(accounts, user, today).Some?
    ensures var p := UserPeriod(accounts, user, today).value;
      var row := UsageRecord(id, user, None, usageType, today, MonthLabel(today), 0, 0, 0.0, 0, p.start, p.end);
      var before := GetCurrentUsage(accounts, subs, jobs, records, user, today);
      var after := GetCurrentUsage(accounts, subs, jobs, records + [row], user, today);
      && before.Ok? && after.Ok?
      && after.value.creditsUsed == before.value.creditsUsed + 1
      && after.value.transcriptionCount == before.value.transcriptionCount + 1
  {
    var p := UserPeriod(accounts, user, today).value;
    var row := UsageRecord(id, user, None, usageType, today, MonthLabel(today), 0, 0, 0.0, 0, p.start, p.end);
    RecordingChargesCurrentUsage(accounts, subs, jobs, records, row, user, today);
    assert RowCredits(usageType, 0) == 1;
  }

  /** A request holds its slot only while the endpoint runs: a new slot id leaves the tracker as it was. */
  lemma SlotReleased(jobs: map<UserId, set<string>>, user: UserId, now: nat)
    requires NoEmptySets(jobs) && SlotId(user, now) !in Members(jobs, user)
    ensures Discard(Add(jobs, user, SlotId(user, now)), user, SlotId(user, now)) == jobs
  {
    AddThenDiscard(jobs, user, SlotId(user, now));
  }

  // ---------------------------------------------------------------------------
  // The stand-alone limiter

  class ConcurrentProcessingLimiter {
    var activeJobs: map<UserId, set<string>>

    ghost predicate Valid()
      reads this
    {
      NoEmptySets(activeJobs)
    }

    constructor ()
      ensures Valid() && activeJobs == map[]
    {
      activeJobs := map[];
    }

    /** `get_active_job_count`: the size of the user's set, 0 for an unknown user. */
    method GetActiveJobCount(user: UserId) returns (n: nat)
      ensures n == |Members(activeJobs, user)|
      ensures user !in activeJobs ==> n == 0
    {
      n := if user in activeJobs then |activeJobs[user]| else 0;
    }

    /** `can_start_processing`: fewer active jobs than the limit. */
    method CanStartProcessing(user: UserId, maxConcurrent: int) returns (ok: bool)
      ensures ok <==> |Members(activeJobs, user)| < maxConcurrent
    {
      var n := GetActiveJobCount(user);
      ok := n < maxConcurrent;
    }

    /** `start_job`: always succeeds; a repeated id does not raise the count. */
    method StartJob(user: UserId, job: string) returns (ok: bool)
      requires Valid()
      modifies this
      ensures Valid() && ok
      ensures activeJobs == Add(old(activeJobs), user, job)
      ensures |Members(activeJobs, user)| == |Members(old(activeJobs), user)| + (if job in Members(old(activeJobs), user) then 0 else 1)
    {
      AddCount(activeJobs, user, job);
      activeJobs := Add(activeJobs, user, job);
      ok := true;
    }

    /** `finish_job`: drops the id; nothing happens for an unknown user or id. */
    method FinishJob(user: UserId, job: string)
      requires Valid()
      modifies this
      ensures Valid()
      ensures activeJobs == Discard(old(activeJobs), user, job)
      ensures |Members(activeJobs, user)| == |Members(old(activeJobs), user)| - (if job in Members(old(activeJobs), user) then 1 else 0)
      ensures job !in Members(old(activeJobs), user) ==> activeJobs == old(activeJobs)
    {
      DiscardCount(activeJobs, user, job);
      if job !in Members(activeJobs, user) {
        DiscardAbsent(activeJobs, user, job);
      }
      activeJobs := Discard(activeJobs, user, job);
    }
  }
}

=== FILE: wrappers.dfy ===
/** Optional values and results shared by every module of the model. */
module Wrappers {
  datatype Option<T> = None | Some(value: T)

  datatype Result<T, E> = Ok(value: T) | Err(error: E)
}
